=== FILE: README.md ===
# CVRP tabu search: route-edit engine, neighbourhood scans and drivers

This project is a Dafny model of the core of a local-search solver for the
capacitated vehicle routing problem (CVRP). A solution is a list of routes.
Each route is a sequence of customer numbers that starts and ends at the
depot 0 and carries a cached demand. The route list caches its total length.

The search moves customers between routes through *interchanges*:
- a relocation (1,0) moves one customer;
- a swap (1,1) exchanges one customer of each route;
- a double swap (2,2) exchanges two customers of each route.

The cost of a move is computed in constant time from the few edges it
changes, and the demand and length caches are updated rather than recomputed.

The repository holds three code generations, and the model covers all of them
with one representation:
- a route is a `seq<int>`;
- distances are a function `Dist = (int, int) -> real`;
- symmetry of the distances is assumed only where an identity needs it.

The modules:

- `Routes`, `RouteModel`, `Interchanges`: list edits (`List.remove`, `List.add`),
  route length and demand, `Route.clone`, `calculateRouteLength`, the
  acceptance tail of `Route.optimize`, `Interchange.clone` and `invert`.
- `RawInterchange`, `RawInterchangeArrays`: `performRawInterchange`.
  - The list version is one function, `ApplyRaw`.
  - The array version is an imperative method with shifting loops, proved
    equal to it.
- `EdgeDeltas`: `naiveDelta` and the closed-form deltas `delta0I`, `delta1I`,
  `extractionCost2I`, `insertionCost2I`, `delta2I`, and the dispatcher
  `edgeDelta`. Each is proved equal to the recomputed length difference.
- `RouteLists`: the list-based `RouteList`, with `clone`,
  `calculateEdgeDelta`, `calculateInsertionDelta`, `calculateSwapDelta`,
  `calculateExcessCapacity` and `perform`.
- `Candidates`, `Scans`, `Calculators`: every neighbourhood calculator.
  - The candidates are enumerated in loop order.
  - A generic argmin loop applies the tabu or aspiration filter and the
    first-best-first exit.
  - One spec lemma per calculator gives the result.
- `Controls`: the pieces the drivers share, namely:
  - the fan-in reduction of the per-route results;
  - tabu purge and tenure;
  - the feasibility streak;
  - the excess capacity of a route list;
  - route optimisation with its gain.
- `IncompleteDriver`, `SlsDriver`: one iteration of each driver's `search`,
  with invariants kept across iterations.
- `Serialization`: `serializeRoutes`, with a parse-back round trip.
- `OldRouteLists`, `OldIncomplete`: the oldest generation, namely:
  - its `RouteList` with in-place swap and insertion;
  - the helpers of `VRPInstanceIncomplete`: `swap`, `getAllPairs`,
    `checkInsertions`, `calculateInsertions`, `checkSwap`,
    `calculateSwaps`, and the loop of `optimizeCustomerInterchange`.
- `Subsets`, `Walks`: `getSubsets` (k-subset enumeration), the rounded
  capacity bound, and `getWalks`/`dfs` (circuits of an edge matrix) of
  `VRPInstance` and `VRPInstanceComplete`.

Parts the model turns into parameters:
- Random draws become function parameters or sequences of inputs, restricted
  to the ranges `Random.nextInt` can return.
- Solver results become inputs: the CPLEX tour of `optimize`, the initial
  solution of the bin-packing model, and the optimised routes.
- Methods that are called but whose code is not shown stay abstract
  parameters:
  - `routeList.objective`;
  - `routeList.excessCapacity`;
  - `RouteList.calculateObjective`;
  - the two-argument `calculateEdgeDelta`;
  - the objective of the oldest driver.
- The time budget of `search` becomes the number of iterations supplied.

Facts about the code that shape the model:
- **Tabu tenure.** `VRPInstanceIncomplete` draws the tenure uniformly from its
  constants `minimumTabuTenure = 5` to `maximumTabuTenure = 10`. `VRPInstanceSLS` draws from `minimumTabuTenure` to
  `maximumTabuTenure`, fields the shown `SLSParams` does not declare (it holds
  only the 0.8 and 1.2 multipliers), so the model takes the two bounds as inputs.
- **How long an item stays tabu.** The purge keeps an item while
  `expiration >= iteration`, so an item added at iteration `t` with tenure `T`
  stays tabu through iteration `t + T`.
- **Aspiration.** Several calculators have none: both `BestSwapCalculator`s
  and `threads.BestInsertionCalculator` skip tabu customers outright.
- **The random move.** `VRPInstanceSLS` has no random relocation move. It
  optimises one random route with probability `randomOptimizationChance`.
- **Known defects.** The code carries the ones listed under Findings.
- **Copies.** `Route.clone`, `RouteList.clone` and `Interchange.clone` make
  deep copies. In the model every value is immutable, so a copy sharing no
  later edit with its original follows from value semantics and is not a
  proved property; the clone members state only that the copy is equal.

## Model

| member | source | states |
|---|---|---|
| Routes.MultisetRemove | src/solver/ls/data/RouteList.java:191-193 | `List.remove(i)` takes exactly the customer at `i` out of the route's multiset |
| Routes.MultisetInsert | src/solver/ls/data/RouteList.java:205-207 | `List.add(j, c)` adds exactly `c` to the route's multiset |
| Routes.RemoveInsertInverse | src/solver/ls/data/RouteList.java:191-207 | adding a customer at `j` and then removing position `j` gives the route back |
| Routes.InsertRemoveInverse | src/solver/ls/data/RouteList.java:191-207 | removing position `i` and adding the same customer back at `i` gives the route back |
| Routes.LenRemove | src/solver/ls/data/Route.java:37-43 | removing an interior customer replaces its two edges by the edge between its neighbours |
| Routes.LenInsert | src/solver/ls/data/Route.java:37-43 | inserting between two customers replaces their edge by the two edges through the new customer |
| Routes.DemandRemove | src/solver/ls/data/RouteList.java:170-173 | removing a customer lowers the route's demand by that customer's demand |
| Routes.DemandInsert | src/solver/ls/data/RouteList.java:170-173 | inserting a customer raises the route's demand by that customer's demand |
| Routes.DemandOfPerm | src/solver/ls/instances/VRPInstanceSLS.java:211-214 | two routes with the same customers in any order have the same summed demand, which is why a reordered route keeps its cached demand |
| RouteModel.CloneRoute | src/solver/ls/data/Route.java:26-35 | a clone has the original's customers and demand, and so the same length; with values, no later edit is shared |
| RouteModel.CalculateRouteLength | src/solver/ls/data/Route.java:37-43 | the loop's sum is the sum of the distances of consecutive customers; a route of fewer than two entries has length 0 |
| RouteModel.Successor | src/solver/ls/data/Route.java:117-131 | the successor found is the first index other than the current one whose connection rounds to 1, and no earlier index qualifies |
| RouteModel.WalkLength | src/solver/ls/data/Route.java:53-134 | the length accumulated by the `do … while` loop is the length of the walk closed at index 0, and the walk visits only the `customers.size() - 1` entries the connection matrix has rows for, never the trailing depot |
| RouteModel.RebuildTourIsClosed | src/solver/ls/data/Route.java:53-136 | the tour rebuilt from the `numCustomers × numCustomers` matrix starts with the depot at index 0, ends with the appended depot, and its computed length is its true length |
| RouteModel.AcceptTour | src/solver/ls/data/Route.java:138-144 | the customers are replaced and a negative gain returned exactly when the tour is strictly shorter; otherwise the route is unchanged and 0 returned |
| RouteModel.AcceptTourLength | src/solver/ls/data/Route.java:138-144 | with a correctly measured tour the returned gain is the change of the route's length and never positive |
| RouteModel.RebuildTourIgnoresTrailingDepot | src/solver/ls/data/Route.java:53-136 | on `[0, 5, 0]` with only the trailing depot connected to index 0, the rebuilt tour is the depot alone, because the trailing depot has no row in the matrix |
| RouteModel.OptimizeTailShortens | src/solver/ls/data/Route.java:53-144 | for a route starting at the depot, the optimised route is never longer and the gain is its length change |
| Interchanges.Invert | src/solver/ls/data/Interchange.java:45-57 | the route indices trade places, every insertion of the first list has `from` and `to` exchanged, the second list is untouched |
| Interchanges.InvertInvolution | src/solver/ls/data/Interchange.java:45-57 | inverting twice restores the interchange |
| Interchanges.Clone | src/solver/ls/data/Interchange.java:27-43 | the clone has equal indices and element-wise equal insertion lists |
| RawInterchange.ApplyRawPreservesCustomers | src/solver/ls/data/RouteList.java:183-215 | whenever the raw interchange completes, the two routes hold the same multiset of customers as before |
| RawInterchange.ApplyRawDemands | src/solver/ls/data/RouteList.java:169-178 | with distinct positions per list, each route's summed demand loses what it sends and gains what it receives |
| RawInterchange.ApplyRawSortsLists | src/solver/ls/data/RouteList.java:190-197 | both insertion lists are left sorted by decreasing `from`, as permutations of the lists given |
| RawInterchange.RemoveAllDistinct | src/solver/ls/incremental/EdgeDeltaCalculators.java:279-300 | removing distinct positions from the highest down takes out exactly the customers originally at those positions |
| RawInterchange.InsertAllPositions | src/solver/ls/incremental/EdgeDeltaCalculators.java:302-321 | inserting at strictly increasing positions succeeds and leaves every customer at its target position |
| RawInterchange.ApplyRawPlacesCustomers | src/solver/ls/incremental/EdgeDeltaCalculators.java:271-322 | with distinct positions in each list, the interchange completes and each moved customer ends at its `to` position in the other route |
| RawInterchangeArrays.PerformRawInterchangeArrays | src/solver/ls/incremental/EdgeDeltaCalculators.java:271-322 | the array algorithm leaves exactly the routes and sorted lists of the list version |
| Common.SortByMultiset | src/solver/ls/data/RouteList.java:190 | the stable sort is a permutation |
| Common.SortBySorted | src/solver/ls/data/RouteList.java:204 | the stable sort leaves the sequence ordered by its key |
| EdgeDeltas.Delta0IMatchesNaive | src/solver/ls/incremental/EdgeDeltaCalculators.java:32-59 | for a relocation between two routes, `delta0I` equals the recomputed length difference of `naiveDelta` |
| EdgeDeltas.Delta1IMatchesNaive | src/solver/ls/incremental/EdgeDeltaCalculators.java:61-114 | for a swap, `delta1I` equals the recomputed length difference, including targets next to the vacated position |
| EdgeDeltas.ExtractionCost2IMatches | src/solver/ls/incremental/EdgeDeltaCalculators.java:116-150 | removing two distinct interior positions changes the length by exactly `extractionCost2I`, adjacent or not |
| EdgeDeltas.FutureNeighboursRead | src/solver/ls/incremental/EdgeDeltaCalculators.java:152-237 | after the ±1 shifts, each neighbour index reads the customer next to the insertion point in the shortened route |
| EdgeDeltas.InsertionCost2IMatches | src/solver/ls/incremental/EdgeDeltaCalculators.java:152-237 | inserting the two customers changes the shortened route's length by exactly `insertionCost2I` |
| EdgeDeltas.Delta2IMatchesNaive | src/solver/ls/incremental/EdgeDeltaCalculators.java:239-269 | with distinct sources and distinct targets in each list, `delta2I` equals the recomputed length difference |
| EdgeDeltas.EdgeDelta | src/solver/ls/incremental/EdgeDeltaCalculators.java:324-338 | `edgeDelta` throws `IllegalArgumentException` exactly for shapes other than (1,0), (1,1) and (2,2) |
| EdgeDeltas.EdgeDeltaMatchesNaive | src/solver/ls/incremental/EdgeDeltaCalculators.java:324-338 | every value `edgeDelta` returns is the exact change of the two routes' total length |
| EdgeDeltas.EdgeDeltaReadsTwoRoutes | src/solver/ls/incremental/EdgeDeltaCalculators.java:324-338 | `edgeDelta` depends only on the two routes the interchange names |
| RouteLists.CloneList | src/solver/ls/data/RouteList.java:29-43 | the clone has the same routes, each cloned, and the same length |
| RouteLists.InsertionDeltaIsDelta0I | src/solver/ls/data/RouteList.java:107-124 | `calculateInsertionDelta` is the array `delta0I`, hence the exact length change |
| RouteLists.SwapDeltaIsDelta1I | src/solver/ls/data/RouteList.java:60-105 | the `to <= from` test picks the same neighbour as `to - 1 < from`, so `calculateSwapDelta` is `delta1I` |
| RouteLists.CalculateEdgeDelta | src/solver/ls/data/RouteList.java:45-58 | only (1,0) and (1,1) are accepted; any other shape, (2,2) included, throws `IllegalArgumentException` |
| RouteLists.CalculateEdgeDeltaMatchesNaive | src/solver/ls/data/RouteList.java:45-124 | every delta returned is the exact change of the two routes' total length |
| RouteLists.TotalExcessZero | src/solver/ls/data/RouteList.java:143-160 | the summed excess is never negative, and zero exactly when every demand is within capacity |
| RouteLists.CalculateExcessCapacity | src/solver/ls/data/RouteList.java:126-161 | the loop's value is the summed excess of the demands after the move: new demands for the two routes, cached ones elsewhere |
| RouteLists.ExcessMatchesPerform | src/solver/ls/data/RouteList.java:126-161 | the predicted excess is the excess of the route list `perform` produces |
| RouteLists.Perform | src/solver/ls/data/RouteList.java:163-181 | `perform` fails exactly on shapes `calculateEdgeDelta` rejects and changes no route other than the two named |
| RouteLists.PerformKeepsLength | src/solver/ls/data/RouteList.java:163-164 | the cached length stays the sum of the route lengths, because the delta added is the exact change |
| RouteLists.PerformKeepsTotalDemand | src/solver/ls/data/RouteList.java:169-178 | the total demand over all routes is unchanged |
| RouteLists.PerformKeepsDemandsConsistent | src/solver/ls/data/RouteList.java:163-181 | cached demands that equal their customers' demand sums still do after `perform` |
| RouteLists.PerformKeepsCustomers | src/solver/ls/data/RouteList.java:163-181 | `perform` keeps the multiset of customer visits over all routes |
| RouteLists.PerformWithKeepsContents | src/solver/ls/data/RouteList.java:163-215 | for every shape, the interchange keeps the multiset of visits over all routes, and with distinct positions per list keeps the demand caches consistent |
| RouteLists.AllCustomersUpdate | src/solver/ls/data/RouteList.java:169-178 | replacing one route changes the visits over all routes by exactly the difference between the old and new route |
| RouteLists.InsertionDeltaCancels | src/solver/ls/data/RouteList.java:107-124 | under symmetric distances, moving a customer back cancels the delta of moving it |
| RouteLists.PerformThenInvert | src/solver/ls/data/Interchange.java:45-57 | a relocation followed by its inverse restores the routes, the demand caches and the cached length |
| Candidates.InTuples | src/solver/ls/interchanges/Best2ICalculator.java:42-57 | the nested loops visit exactly the index vectors of their box |
| Candidates.InRelocations | src/solver/ls/interchanges/BestInsertionCalculator.java:52-65 | the relocation loops visit exactly the moves of an interior customer of route `i1` to a position after the depot of another route |
| Candidates.InSwaps | src/solver/ls/interchanges/BestSwapCalculator.java:47-65 | the swap loops visit exactly the exchanges of interior customers of `i1` with a later route, into interior positions |
| Candidates.InDoubleSwaps | src/solver/ls/interchanges/Best2ICalculator.java:33-84 | the eight loops visit exactly the double swaps of `i1` with a later route of at least four entries, with distinct sources and targets |
| Candidates.DrawBoxInRange | src/solver/ls/interchanges/BestRandom2ICalculator.java:70-88 | every draw lies in `[1, size - 1)` of its route |
| Candidates.RandomDoubleSwapsSound | src/solver/ls/interchanges/BestRandom2ICalculator.java:57-99 | every sampled candidate is a double swap the exhaustive calculator also tries |
| Candidates.RandomDoubleSwapsCount | src/solver/ls/interchanges/BestRandom2ICalculator.java:68-99 | at most `numAttempts` candidates are evaluated per partner route |
| Scans.ScanLoop | src/solver/ls/interchanges/BestInsertionCalculator.java:73-89 | the loop with its early return computes the calculator's result |
| Scans.ScanUpToSpec | src/solver/ls/interchanges/BestInsertionCalculator.java:73-81 | after `n` candidates the best is empty exactly when none was admitted, and otherwise is the first minimum among the admitted ones |
| Scans.ScanSpec | src/solver/ls/interchanges/BestInsertionCalculator.java:73-89 | the result is empty exactly when no visited candidate is admitted, otherwise the first minimum; without first-best-first every candidate is visited |
| Scans.ScanStopsBelowIncumbent | src/solver/ls/interchanges/BestInsertionCalculator.java:83-85 | with first-best-first, once a candidate meets the stop test the returned objective is below the incumbent |
| Scans.ScanFound | src/solver/ls/interchanges/BestInsertionCalculator.java:73-89 | a found candidate is in the list, admitted, and returned with its own objective |
| Scans.ScanBestOf | src/solver/ls/interchanges/BestInsertionCalculator.java:73-89 | without first-best-first the result is the best admitted member of the candidate set |
| Scans.ScanCheckedAgrees | src/solver/ls/interchanges/BestRandom2ICalculator.java:101-109 | when no evaluation throws, the loop with exceptions returns the plain loop's result |
| Scans.ScanCheckedFirstThrows | src/solver/ls/interchanges/BestRandom2ICalculator.java:101-109 | a call whose first evaluation throws ends with that exception |
| Calculators.IsCustomerTabu | src/solver/ls/interchanges/InterchangeCalculator.java:30-38 | true exactly when some memory item names the customer at that position |
| Calculators.MovesTabuIgnoresExpiration | src/solver/ls/interchanges/InterchangeCalculator.java:33-36 | the tabu test ignores expirations: memories naming the same customers make the same moves tabu |
| Calculators.ListEvalIsTrueObjective | src/solver/ls/interchanges/BestInsertionCalculator.java:67-72 | the evaluated objective is the total length plus the penalised excess of the list `perform` produces |
| Calculators.BestInsertionSpec | src/solver/ls/interchanges/BestInsertionCalculator.java:45-90 | a found interchange is an admitted relocation out of `i1`; without first-best-first it is the best, and none is found exactly when none is admitted |
| Calculators.BestSwapSpec | src/solver/ls/interchanges/BestSwapCalculator.java:45-95 | a found interchange is a swap moving no tabu customer; without first-best-first it is the best such swap |
| Calculators.BestRandom2IAsWrittenThrows | src/solver/ls/interchanges/BestRandom2ICalculator.java:101-102 | as written the calculator throws as soon as one sample passes the distinctness test |
| Calculators.BestRandom2IAsWrittenCounterexample | src/solver/ls/interchanges/BestRandom2ICalculator.java:101-102 | on two four-entry routes with one attempt, the calculator as written throws |
| Calculators.DoubleSwapThrows | src/solver/ls/data/RouteList.java:45-58 | every double swap makes `calculateEdgeDelta` throw |
| Calculators.BestRandom2ISpec | src/solver/ls/interchanges/BestRandom2ICalculator.java:48-128 | the corrected calculator returns an admitted double swap whose objective is the length, plus the true length change, plus the penalised excess; when it does not stop at the first improving sample, none is returned exactly when no sample is admitted, and the one returned has the least objective among admitted samples |
| Calculators.Best0ISpec | src/solver/ls/interchanges/Best0ICalculator.java:24-67 | a found relocation moves no tabu customer or meets aspiration; without first-best-first it has the least objective among those |
| Calculators.Best1ISpec | src/solver/ls/interchanges/Best1ICalculator.java:23-77 | a found swap has no tabu customer or meets aspiration; without first-best-first it has the least objective among those |
| Calculators.Best2ISpec | src/solver/ls/interchanges/Best2ICalculator.java:24-124 | a found double swap is admitted by the tabu or aspiration test; without first-best-first it has the least objective |
| Calculators.ThreadBestInsertionSpec | src/solver/ls/threads/BestInsertionCalculator.java:52-92 | a found relocation moves no tabu customer; without first-best-first its objective is the least over those |
| Calculators.ThreadBestSwapSpec | src/solver/ls/threads/BestSwapCalculator.java:56-105 | the fields after `run` hold a swap of non-tabu customers; without first-best-first it has the least objective |
| Controls.FanInSpec | src/solver/ls/instances/VRPInstanceSLS.java:351-379 | the reduction keeps the first result with the strictly smallest objective, and is (null, +∞) when every result is +∞ |
| Controls.FanInFound | src/solver/ls/instances/VRPInstanceIncomplete.java:253-262 | over consistent results the reduction is null exactly when no calculator found a move, and otherwise is one they found |
| Controls.FanInBestOf | src/solver/ls/instances/VRPInstanceIncomplete.java:239-268 | when each per-route result is the best over its route, the fan-in is the best over all routes |
| Controls.Purge | src/solver/ls/instances/VRPInstanceSLS.java:205-206 | the purge keeps exactly the items with `expiration >= iteration` |
| Controls.PurgeConcat | src/solver/ls/instances/VRPInstanceSLS.java:205-206 | the purge keeps the memory's order |
| Controls.PurgeIdempotent | src/solver/ls/instances/VRPInstanceSLS.java:205-206 | a memory with nothing expired is kept as is, so a second purge changes nothing |
| Controls.TabuTenure | src/solver/ls/instances/VRPInstanceSLS.java:386-389 | the tenure lies in `[min, max]`, and an empty range throws |
| Controls.NextStreak | src/solver/ls/instances/VRPInstanceSLS.java:248-260 | the streak is never 0, and is positive exactly after a feasible iteration |
| Controls.StreakCountsRun | src/solver/ls/instances/VRPInstanceSLS.java:248-260 | the streak's magnitude counts the current run of equal feasibility outcomes, and its sign says which |
| Controls.RouteListExcess | src/solver/ls/instances/VRPInstanceSLS.java:397-407 | the excess is the summed excess of the cached demands, never negative, and 0 exactly when every route is within capacity |
| Controls.Polish | src/solver/ls/instances/VRPInstanceSLS.java:211-214 | only the optimised route changes, and a missing route throws |
| Controls.PolishKeepsDemands | src/solver/ls/instances/VRPInstanceSLS.java:211-214 | optimising a route keeps every demand and never lengthens the list |
| Controls.PolishKeepsIntact | src/solver/ls/instances/VRPInstanceSLS.java:211-214 | an optimiser that keeps a route's customers keeps the list's visits and consistent demand caches |
| Controls.PolishKeepsLength | src/solver/ls/instances/VRPInstanceSLS.java:211-214 | the cached length stays the sum of the route lengths |
| IncompleteDriver.FindBestInsertionSpec | src/solver/ls/instances/VRPInstanceIncomplete.java:239-268 | `findBestInsertion` returns the best admitted relocation over all routes, and none exactly when none is admitted |
| IncompleteDriver.FindBestSwapSpec | src/solver/ls/instances/VRPInstanceIncomplete.java:284-313 | `findBestSwap` returns the best admitted swap over all routes, and none exactly when none is admitted |
| IncompleteDriver.DriverObjectiveAgrees | src/solver/ls/instances/VRPInstanceIncomplete.java:143-149 | the objective the driver recomputes is the one the calculator returned |
| IncompleteDriver.Choose | src/solver/ls/instances/VRPInstanceIncomplete.java:156-186 | the insertion is chosen when its objective is not worse than the swap's; nothing is chosen when both are null |
| IncompleteDriver.MoveStep | src/solver/ls/instances/VRPInstanceIncomplete.java:158-185 | the chosen move is performed and its objective recorded; the memory keeps its old items and gains one (relocation) or two (swap) items naming the customers at the moved positions, each expiring 5 to 10 iterations ahead when the draws are in range; nothing else changes |
| IncompleteDriver.NextPenalty | src/solver/ls/instances/VRPInstanceIncomplete.java:219-223 | the penalty stays positive; it is divided after more than 10 feasible iterations, multiplied after more than 10 infeasible ones, else kept |
| IncompleteDriver.UpdateIncumbentSpec | src/solver/ls/instances/VRPInstanceIncomplete.java:193-201 | the incumbent is replaced exactly by a shorter list without excess; the lengths stay exact |
| IncompleteDriver.IterateKeepsInv | src/solver/ls/instances/VRPInstanceIncomplete.java:136-231 | every iteration keeps the invariant (the list and the incumbent visit the same customers as before with consistent demand caches, the incumbent is feasible, lengths are exact, nothing expired is kept), advances the counter by one and never lengthens the incumbent |
| IncompleteDriver.AdvanceKeepsIntact | src/solver/ls/instances/VRPInstanceIncomplete.java:156-186 | performing the chosen move keeps the list's customers and consistent demand caches |
| IncompleteDriver.UpdateIncumbentKeepsIntact | src/solver/ls/instances/VRPInstanceIncomplete.java:193-201 | the incumbent update keeps the customers and consistent demand caches of the list and of the incumbent |
| IncompleteDriver.IteratePenaltyDirection | src/solver/ls/instances/VRPInstanceIncomplete.java:203-223 | the penalty goes down only after a long feasible run and up only after a long infeasible one |
| IncompleteDriver.PolishFromSpec | src/solver/ls/instances/VRPInstanceIncomplete.java:109-111 | optimising every route keeps the demands and the exact cached length |
| IncompleteDriver.PolishFromKeepsIntact | src/solver/ls/instances/VRPInstanceIncomplete.java:109-111 | optimising every route keeps the customers and consistent demand caches |
| IncompleteDriver.ConstructInv | src/solver/ls/instances/VRPInstanceIncomplete.java:102-123 | the constructor's state satisfies the invariant for the customers of the generated solution |
| IncompleteDriver.Search | src/solver/ls/instances/VRPInstanceIncomplete.java:129-232 | the search keeps the invariant, so every customer visit survives it with consistent demand caches; it stops after at most 10000 iterations and never lengthens the incumbent |
| SlsDriver.PerformAnyAgrees | src/solver/ls/data/RouteList.java:163-181 | on 1-interchanges the corrected `perform` is the original one |
| SlsDriver.PerformAnyKeepsLength | src/solver/ls/data/RouteList.java:163-181 | the corrected `perform` keeps the cached length exact for every shape it accepts |
| SlsDriver.PerformDoubleSwapThrows | src/solver/ls/data/RouteList.java:163-164 | as written, `perform` of a (2,2) interchange throws |
| SlsDriver.Select | src/solver/ls/instances/VRPInstanceSLS.java:183-201 | the least of the three objectives is chosen, null counting as +∞, ties going to insertion then swap; nothing when all are null |
| SlsDriver.RecordedObjectiveAsWrittenCounterexample | src/solver/ls/instances/VRPInstanceSLS.java:193 | as written, a swap chosen with no insertion records +∞ as the objective |
| SlsDriver.RecordedObjectiveIsLeast | src/solver/ls/instances/VRPInstanceSLS.java:183-201 | the corrected record is the least of the three objectives |
| SlsDriver.TabuItems | src/solver/ls/instances/VRPInstanceSLS.java:328-345 | one item per moved customer, expiring between `iteration + min` and `iteration + max`; an empty range throws |
| SlsDriver.AddUsesCounts | src/solver/ls/instances/VRPInstanceSLS.java:333-344 | each customer's long-term count grows by how often it was moved |
| SlsDriver.AddUsesKeys | src/solver/ls/instances/VRPInstanceSLS.java:333-344 | a customer has an entry exactly when it had one or was moved |
| SlsDriver.UpdateInterchangeSpec | src/solver/ls/instances/VRPInstanceSLS.java:322-349 | the corrected update records the least objective, appends one item per moved customer, and changes only the list and the memories |
| SlsDriver.UpdateInterchangeAsWrittenThrows | src/solver/ls/instances/VRPInstanceSLS.java:348 | as written, choosing a (2,2) interchange makes the update throw |
| SlsDriver.UpdateIncumbentSpec | src/solver/ls/instances/VRPInstanceSLS.java:209-223 | a new incumbent is exactly a shorter list without excess; the best incumbent only gets shorter; otherwise only the counter grows |
| SlsDriver.NextLnsSize | src/solver/ls/instances/VRPInstanceSLS.java:226-234 | the sample size grows after a stall and shrinks otherwise, and stays in `[1000, 10000]` once inside |
| SlsDriver.NextCu | src/solver/ls/instances/VRPInstanceSLS.java:237-245 | the customer-use penalty grows after a stall and shrinks otherwise, and stays in its range once inside |
| SlsDriver.NextEc | src/solver/ls/instances/VRPInstanceSLS.java:263-271 | the excess penalty falls after a long feasible run, rises after a long infeasible run, is kept otherwise, and stays in its range |
| SlsDriver.DoubleThreshold | src/solver/ls/instances/VRPInstanceSLS.java:288 | the doubled threshold never falls and saturates at `Integer.MAX_VALUE` |
| SlsDriver.RandomOptimize | src/solver/ls/instances/VRPInstanceSLS.java:274-278 | the random optimisation throws exactly when it fires on an empty route list |
| SlsDriver.Restart | src/solver/ls/instances/VRPInstanceSLS.java:281-299 | a restart clears the short-term memory only, resets the coefficients and counters and doubles the threshold; the best incumbent is kept |
| SlsDriver.Schedules | src/solver/ls/instances/VRPInstanceSLS.java:225-271 | the schedules change only the coefficients and the streak, which is positive exactly when the list is feasible |
| SlsDriver.InitialInv | src/solver/ls/instances/VRPInstanceSLS.java:101-126 | the constructor's state satisfies the invariant for the customers of the initial solution |
| SlsDriver.TailKeepsInv | src/solver/ls/instances/VRPInstanceSLS.java:209-299 | the steps after the purge keep the invariant and never lengthen the best incumbent |
| SlsDriver.AdvanceKeepsInv | src/solver/ls/instances/VRPInstanceSLS.java:148-206 | the move and the purge keep the invariant |
| SlsDriver.IterateKeepsInv | src/solver/ls/instances/VRPInstanceSLS.java:139-320 | every iteration keeps the invariant (the list and both incumbents visit the same customers as before with consistent demand caches, both incumbents are feasible, the coefficients stay in range, nothing expired is kept), advances the counter by one and never lengthens the best incumbent |
| SlsDriver.MovableInjective | src/solver/ls/incremental/EdgeDeltaCalculators.java:271-322 | an interchange the searches return never moves the same position of a route twice |
| SlsDriver.PerformVariantKeepsIntact | src/solver/ls/instances/VRPInstanceSLS.java:348 | whichever `perform` runs, a performed interchange keeps the list's customers and consistent demand caches |
| SlsDriver.IterateAsWrittenThrows | src/solver/ls/instances/VRPInstanceSLS.java:185-201 | as written, an iteration whose least objective is the 2-interchange's throws; the corrected one carries on |
| Serialization.Padded | src/solver/ls/instances/VRPInstanceIncomplete.java:416-422 | the list is padded with depot-to-depot routes up to the fleet size, keeping its routes and length |
| Serialization.ParseIntString | src/solver/ls/instances/VRPInstanceIncomplete.java:441-443 | every number written reads back as itself |
| Serialization.TrimSpaced | src/solver/ls/instances/VRPInstanceIncomplete.java:441-445 | trimming the builder's text removes only the final space |
| Serialization.SerializeIsJoin | src/solver/ls/instances/VRPInstanceIncomplete.java:414-446 | the text is the numbers joined by single spaces, with no space at either end |
| Serialization.SerializeRoundTrip | src/solver/ls/instances/VRPInstanceIncomplete.java:414-446 | the text reads back as 0 followed by every customer of every padded route, in order |
| OldRouteLists.Clone | src/solver/ls/RouteList.java:21-35 | the clone has copied routes and the same total length |
| OldRouteLists.EdgeDelta | src/solver/ls/RouteList.java:37-87 | any other move type throws `IllegalStateException` |
| OldRouteLists.SwapDeltaMatches | src/solver/ls/RouteList.java:38-62 | the swap delta is the length change of the two routes |
| OldRouteLists.InsertionDeltaMatches | src/solver/ls/RouteList.java:63-85 | the insertion delta is the length change of the two routes |
| OldRouteLists.ExcessCapacity | src/solver/ls/RouteList.java:89-135 | any other move type throws `IllegalStateException`; the excess is never negative |
| OldRouteLists.ExcessMatchesPerform | src/solver/ls/RouteList.java:89-135 | the excess computed is the excess of the route list the move produces |
| OldRouteLists.PerformSwap | src/solver/ls/RouteList.java:143-155 | a swap trades the two customers in place, keeps both sizes, and trades their demands |
| OldRouteLists.PerformInsertion | src/solver/ls/RouteList.java:156-167 | an insertion adds the customer at `toCustomer`, removes it from `fromCustomer`, and moves its demand |
| OldRouteLists.PerformKeepsLength | src/solver/ls/RouteList.java:138 | the total length stays the sum of the route lengths under every move between two routes |
| OldRouteLists.PerformKeepsDemands | src/solver/ls/RouteList.java:137-168 | consistent demand caches stay consistent and the total demand is unchanged |
| OldRouteLists.SwapTwiceRestores | src/solver/ls/RouteList.java:143-155 | performing the same swap twice restores both routes |
| OldIncomplete.Swap | src/solver/ls/VRPInstanceIncomplete.java:232-245 | only the two positions change; between routes the customers trade places and sizes are kept |
| OldIncomplete.SwapExchanges | src/solver/ls/VRPInstanceIncomplete.java:232-245 | the two customers trade places, also within one route |
| OldIncomplete.SwapSelfInverse | src/solver/ls/VRPInstanceIncomplete.java:232-245 | swapping twice restores the solution |
| OldIncomplete.GetAllPairsSpec | src/solver/ls/VRPInstanceIncomplete.java:191-209 | the list holds exactly the pairs of interior customers of two routes, first route lower, each once, in strictly increasing loop order |
| OldIncomplete.FirstMinSpec | src/solver/ls/VRPInstanceIncomplete.java:120-141 | a strict-improvement scan finds nothing exactly when no value beats the bound, else the first least value |
| OldIncomplete.CheckInsertions | src/solver/ls/VRPInstanceIncomplete.java:117-157 | every route is as on entry, and the reported objective never exceeds the bound |
| OldIncomplete.CheckInsertionsSpec | src/solver/ls/VRPInstanceIncomplete.java:120-141 | the start and bound are reported exactly when no trial is strictly below the bound; otherwise a trial of least objective |
| OldIncomplete.CalculateInsertions | src/solver/ls/VRPInstanceIncomplete.java:76-114 | a returned move is valid and beats `currentBest` |
| OldIncomplete.CalculateInsertionsSpec | src/solver/ls/VRPInstanceIncomplete.java:85-104 | null exactly when no single move beats `currentBest`; otherwise a move of least objective, whose trial has the returned objective |
| OldIncomplete.PerformInsertion | src/solver/ls/VRPInstanceIncomplete.java:43-46 | the move applied is the one `checkInsertions` evaluated |
| OldIncomplete.PerformInsertionOrdersAgree | src/solver/ls/VRPInstanceIncomplete.java:43-46 | between different routes adding first and removing first give the same solution |
| OldIncomplete.PerformInsertionAsWrittenCounterexample | src/solver/ls/VRPInstanceIncomplete.java:43-46 | within one route the code's order gives back the old route when moving a customer one place forward, and loses one customer and visits another twice when moving backward |
| OldIncomplete.CheckSwap | src/solver/ls/VRPInstanceIncomplete.java:211-231 | the pair is left swapped with its objective returned exactly when that beats `bestObj`; otherwise unchanged and -1 |
| OldIncomplete.SwapLoopSpec | src/solver/ls/VRPInstanceIncomplete.java:170-186 | with a positive objective the loop leaves the routes untouched exactly when no pair beats the bound; otherwise the routes have the recorded objective |
| OldIncomplete.CalculateSwapsSpec | src/solver/ls/VRPInstanceIncomplete.java:160-187 | null exactly when no single swap beats `currentBest`, then with routes unchanged; otherwise the routes left have the returned objective |
| OldIncomplete.RoundKeepsObjective | src/solver/ls/VRPInstanceIncomplete.java:36-63 | each round keeps the recorded objective equal to the routes' objective, and a round that is not the last strictly lowers it |
| OldIncomplete.SwapStepAsWrittenCounterexample | src/solver/ls/VRPInstanceIncomplete.java:62 | the re-swap at line 62 records the improved objective but keeps the old routes |
| Subsets.CombosMembers | src/solver/ls/VRPInstance.java:70-95 | the reference lists exactly the subsequences of length `k` |
| Subsets.CombosCount | src/solver/ls/VRPInstance.java:70-95 | the reference lists n-choose-k subsets |
| Subsets.HelperLoopIsCombos | src/solver/ls/VRPInstance.java:80-95 | the pruned loop lists the reference subsets of the remaining customers, each behind the prefix |
| Subsets.GetSubsetsIsCombos | src/solver/ls/VRPInstanceComplete.java:20-46 | `getSubsets` lists the reference subsets in the reference order |
| Subsets.GetSubsetsSpec | src/solver/ls/VRPInstance.java:70-95 | every `size`-element subsequence, n-choose-size of them, none twice over distinct customers; a negative size throws |
| Subsets.GetSubsetsEdges | src/solver/ls/VRPInstance.java:82-91 | size 0 gives the one empty subset, and a size above the count gives none |
| Subsets.CutSubsetsSpec | src/solver/ls/VRPInstanceComplete.java:117-119 | the subsets visited are exactly the subsequences with a size from `minK` to `maxK` |
| Subsets.CeilDiv | src/solver/ls/VRPInstance.java:183 | for a positive capacity the result `r` has `(r - 1) * cap < q <= r * cap` |
| Subsets.MinVehiclesApprox | src/solver/ls/VRPInstance.java:176-183 | with a positive capacity, the bound is the least number of vehicles whose total capacity covers the subset's summed demand |
| Walks.Dfs | src/solver/ls/VRPInstance.java:382-401 | `dfs` restores `visited` and the circuit, only grows `seen`, records only circuits, and enters no node twice |
| Walks.Search | src/solver/ls/VRPInstance.java:368-379 | an empty matrix throws; the search records only circuits from node 0 and enters each node at most once |
| Walks.GetWalksSpec | src/solver/ls/VRPInstanceComplete.java:248-281 | every walk starts and ends at 0, has at least three nodes before the closing 0, and follows only entries equal to 1 |

## Left out

- The CPLEX models are a foreign solver and are not modelled: the bin-packing initial solution, the TSP body of `Route.optimize`, and `solve`/`minVehicles`. Their results are inputs.
- File parsing, the Euclidean distance computation and `bestTenureFromExperimentation` are I/O, floating point and a table of file names.
- Threads and thread pools are left out. The calculators are modelled as sequential bodies, and the fan-in is modelled as a reduction.
- `java.util.Random` is not modelled. Its draws are inputs in the ranges `nextInt` and `nextDouble` return.
- The wall clock (`Timer`) is left out. The time budget becomes the number of iterations supplied.
- Console logging, `Main` and solution-file output are left out.
- Floating-point rounding is not modelled: lengths and objectives are `real`. `int` overflow of lengths and demand sums is not modelled either; the one cast that matters, `(int)(threshold * 2.0)`, saturates explicitly.
- Methods whose code is not shown stay abstract parameters, as listed above. So do the constructors whose signatures do not match the shown classes.
- The `Insertion`, `TabuItem`, `RemovedCustomer`, `InterchangeResult`, `OneInterchange`, `SLSParams` and old `Route` classes are data only and became datatypes and constants.
- Walks.Dfs, Walks.Search, Walks.GetWalks: a square matrix is required. A ragged matrix can index out of bounds in Java, and the model does not give that path. The only caller, `VRPInstanceComplete`, builds an `int[numCustomers][numCustomers]` matrix.
- Walks.Dfs: the `entered` trace field is a proof device with no counterpart in the code.
- Subsets.CeilDiv: the cast of a sum too large for `int` is not modelled; sums are whole numbers and exact.
- Subsets.MinVehiclesApprox: the bounds of the demand array are not checked. The demand is a total function, indexed `customer - 1` in one file and `customer` in the other.
- OldIncomplete.SwapLoopSpec: assumes a positive objective. The code's `bestObj > 0` test then only excludes its -1 marker.
- OldIncomplete.RoundKeepsObjective: assumes a positive objective, for the same reason.
- The oldest driver's objective `calculateObjFunction` is an abstract parameter, because `getTourLength` and `getAmtOverCapacity` are not shown.
- RouteModel.RebuildTour, RouteModel.OptimizeTail: require at least two entries in the route. Below that, Java's `new IloNumVar[numCustomers - 1]` throws `NegativeArraySizeException` while the solver model is built. That part is not modelled.
- RouteModel.OptimizeTailShortens: the do-while loop of `optimize` takes a fuel bound. A connection matrix whose walk never returns to index 0 (the Java loop would not end) gives no result.
- OldIncomplete.CalculateSwapsSpec: assumes a positive objective, like SwapLoopSpec, because `checkSwap` returns -1 as its "no improvement" marker and the code's `bestObj > 0` test then only excludes that marker.
- RawInterchangeArrays.PerformRawInterchangeArrays: requires that the list version succeeds and that each array has exactly the capacity the moves need. The Java method checks neither the logical length nor the capacity: an index past `length` but within the array corrupts the route silently, and a too-small array throws. Its only caller, `naiveDelta`, passes arrays sized this way.
- RouteLists.Perform: requires two different route indices. In Java the same index makes `route1` and `route2` alias one route; no calculator produces such a move.
- EdgeDeltas.EdgeDelta: requires `DeltaDomain`. This excludes positions outside their routes, where Java throws `ArrayIndexOutOfBoundsException`. It also excludes (2,2) moves whose two sources, or two targets, in one list are equal, which Java's `edgeDelta`/`delta2I` evaluate to some number. Every calculator stays inside it: `Best2ICalculator` skips equal indices, and the random sampler's moves are readable (`Calculators.DoubleSwapReadable`).
- RouteLists.CalculateEdgeDelta: requires the indices of the interchange to be readable in its routes (`DeltaReadable`), so the `IndexOutOfBoundsException` paths of the Java code are not modelled. Every calculator produces readable moves.
- Serialization.Padded: Java's `serializeRoutes` appends the padding routes to the caller's list in place; the model is pure and returns the padded list, so that side effect on the caller is not modelled.
- IncompleteDriver.IterateKeepsInv, IncompleteDriver.Search, IncompleteDriver.ConstructInv, SlsDriver.IterateKeepsInv, SlsDriver.TailKeepsInv: assume the route optimiser returns a reordering of the route's customers (`KeepsCustomers`). Its CPLEX body is not modelled, so that property is an input rather than proved.
- IncompleteDriver.ConstructInv, SlsDriver.InitialInv: assume the initial solution's cached demands equal its customers' demand sums. It comes from the bin-packing model, which is not modelled.
- SlsDriver.IterateKeepsInv, SlsDriver.TailKeepsInv: assume the restart solution visits the same customers as the running search, with consistent demand caches. It comes from the same unmodelled initial-solution code.
- SlsDriver.IterateAsWrittenThrows, SlsDriver.UpdateInterchangeAsWrittenThrows, SlsDriver.PerformDoubleSwapThrows: these take `VRPInstanceSLS`'s `routeList.perform` to be the one in `data/RouteList.java`. `VRPInstanceSLS` is written against a `RouteList` whose code is not shown (an 8-argument constructor and `calculateObjective`), so which `perform` runs is not visible.

## Findings

| source | as written | input that shows it | evidently intended | confidence | as-written member | corrected member |
|---|---|---|---|---|---|---|
| src/solver/ls/interchanges/BestRandom2ICalculator.java:101-102 | evaluates (2,2) candidates with `RouteList.calculateEdgeDelta`, which accepts only 1-interchanges | routes `[0,1,2,0]` and `[0,3,4,0]`, one attempt, draws 1,1,2,2,1,1,2,2: the sample passes the distinctness test and the call throws `IllegalArgumentException` | evaluate with `edgeDelta`/`delta2I` | not executed | Calculators.BestRandom2IAsWrittenCounterexample | Calculators.BestRandom2ISpec |
| src/solver/ls/instances/VRPInstanceSLS.java:193 | `updateInterchange(bestSwap, insertionObjective)` records the insertion objective for a chosen swap (also line 198 for the 2-interchange) | no insertion found and a swap found: the recorded objective is +∞ although a move was made | record the chosen move's objective | not executed | SlsDriver.RecordedObjectiveAsWrittenCounterexample | SlsDriver.RecordedObjectiveIsLeast |
| src/solver/ls/instances/VRPInstanceSLS.java:348 | `routeList.perform` computes the delta with `calculateEdgeDelta`, so a chosen 2-interchange throws; this holds if the `perform` that runs is the one in `data/RouteList.java`, but `VRPInstanceSLS` calls an 8-argument `RouteList` constructor (line 477) and `calculateObjective` (lines 168-176), neither of which the shown `RouteList` declares, so the `RouteList` it compiles against is not shown | an iteration whose 2-interchange objective is strictly the least of the three | perform (2,2) with the delta of `edgeDelta` | not executed; low, since the `perform` actually called is not shown | SlsDriver.IterateAsWrittenThrows | SlsDriver.UpdateInterchangeSpec |
| src/solver/ls/VRPInstanceIncomplete.java:43-46 | adds the customer at the target, then removes by the old index | `[[0,1,2,0]]`, moving position 1 to position 2: the result is `[0,1,2,0]` instead of the evaluated `[0,2,1,0]`; moving position 2 to position 1: the result is `[0,2,2,0]`, losing customer 1 | remove first, then add, as `checkInsertions` evaluated | not executed | OldIncomplete.PerformInsertionAsWrittenCounterexample | OldIncomplete.CalculateInsertionsSpec |
| src/solver/ls/VRPInstanceIncomplete.java:62 | swaps the best pair again after `calculateSwaps` already left it swapped | `[[0,1,0],[0,2,0]]` with objective 1 only for `[[0,2,0],[0,1,0]]`: the round records 1 and keeps routes of objective 2 | keep the routes `calculateSwaps` left | not executed | OldIncomplete.SwapStepAsWrittenCounterexample | OldIncomplete.RoundKeepsObjective |

=== FILE: calculators.dfy ===
/** The best-interchange calculators: each one scans its candidate
    enumeration with the shared loop of `Scans`, evaluating a candidate
    either from the route list's own delta and excess computations or from
    objective functions that are parameters of the model. */
module Calculators {
  import opened Common
  import opened Routes
  import opened Interchanges
  import opened EdgeDeltas
  import opened RouteModel
  import opened RouteLists
  import opened Scans
  import opened Candidates

  /** `data.TabuItem`: a customer that may not be moved until the
      expiration iteration. */
  datatype TabuItem = TabuItem(customer: int, expiration: int)

  /** Some item of the short-term memory names the customer. */
  predicate OnMemory(memory: seq<TabuItem>, customer: int) {
    exists k :: 0 <= k < |memory| && memory[k].customer == customer
  }

  /** `isCustomerTabu`: the customer at the position is on the short-term
      memory; the expiration of the items is not looked at. */
  method IsCustomerTabu(memory: seq<TabuItem>, routes: seq<seq<int>>, routeIdx: int, customerIdx: int)
    returns (t: bool)
    requires 0 <= routeIdx < |routes| && 0 <= customerIdx < |routes[routeIdx]|
    ensures t <==> exists k :: 0 <= k < |memory| && memory[k].customer == routes[routeIdx][customerIdx]
  {
    var customer := routes[routeIdx][customerIdx];
    for k := 0 to |memory|
      invariant forall j :: 0 <= j < k ==> memory[j].customer != customer
    {
      if memory[k].customer == customer {
        return true;
      }
    }
    return false;
  }

  /** The customer at position `i` of route `r` is on the memory. */
  predicate TabuAt(memory: seq<TabuItem>, routes: seq<seq<int>>, r: int, i: int) {
    0 <= r < |routes| && 0 <= i < |routes[r]| && OnMemory(memory, routes[r][i])
  }

  /** Some customer the interchange moves, from either route, is tabu. */
  predicate MovesTabu(memory: seq<TabuItem>, routes: seq<seq<int>>, c: Interchange) {
    || (exists k :: 0 <= k < |c.list1| && TabuAt(memory, routes, c.routeIdx1, c.list1[k].from))
    || (exists k :: 0 <= k < |c.list2| && TabuAt(memory, routes, c.routeIdx2, c.list2[k].from))
  }

  /** Two memories naming the same customers in the same order make the
      same interchanges tabu, whatever their expirations. */
  lemma MovesTabuIgnoresExpiration(m1: seq<TabuItem>, m2: seq<TabuItem>, routes: seq<seq<int>>, c: Interchange)
    requires |m1| == |m2| && forall k :: 0 <= k < |m1| ==> m1[k].customer == m2[k].customer
    ensures MovesTabu(m1, routes, c) == MovesTabu(m2, routes, c)
  {
    forall x ensures OnMemory(m1, x) == OnMemory(m2, x) {
      if OnMemory(m1, x) {
        var k :| 0 <= k < |m1| && m1[k].customer == x;
        assert m2[k].customer == x;
      }
      if OnMemory(m2, x) {
        var k :| 0 <= k < |m2| && m2[k].customer == x;
        assert m1[k].customer == x;
      }
    }
  }

  /** The customer lists of all routes. */
  function Customers(rl: RouteList): (rs: seq<seq<int>>)
    ensures |rs| == |rl.routes|
    ensures forall k :: 0 <= k < |rl.routes| ==> rs[k] == rl.routes[k].customers
  {
    seq(|rl.routes|, k requires 0 <= k < |rl.routes| => rl.routes[k].customers)
  }

  /** The objective of a move: current length plus its delta plus its
      excess weighted by the penalty coefficient. */
  function Objective(length: real, delta: real, excess: real, coef: real): real {
    length + delta + excess * coef
  }

  /** The policy of the calculators with aspiration. */
  function AspirationPolicy(incumbent: RouteList, firstBestFirst: bool): Policy {
    Policy(Aspiration, firstBestFirst, incumbent.length)
  }

  /** The policy of the calculators that skip tabu customers. */
  function SkipPolicy(incumbent: RouteList, firstBestFirst: bool): Policy {
    Policy(SkipTabu, firstBestFirst, incumbent.length)
  }

  // ---------------------------------------------------------------------
  // Calculators on `data.RouteList`
  // ---------------------------------------------------------------------

  /** The objective `length + calculateEdgeDelta + excess * coefficient` of
      a 1-interchange whose indices lie in the route list (the only
      candidates these calculators produce; anything else evaluates to a
      tabu placeholder that is never consulted). */
  function ListEval(inst: Instance, rl: RouteList, coef: real, memory: seq<TabuItem>, c: Interchange): Eval {
    if DeltaReadable(rl, c) && DemandReadable(rl, c) && OneInterchange(c) then
      var excess := TotalExcess(inst.capacity, DemandsAfter(inst, rl, c)) as real;
      Eval(Objective(rl.length, CalculateEdgeDelta(inst, rl, c).value, excess, coef), excess,
           MovesTabu(memory, Customers(rl), c))
    else Eval(0.0, 0.0, true)
  }

  function ListEvals(inst: Instance, rl: RouteList, coef: real, memory: seq<TabuItem>): Interchange -> Eval {
    c => ListEval(inst, rl, coef, memory, c)
  }

  /** Relocations and swaps of the route list can be evaluated and
      performed. */
  lemma CandidateReadable(rl: RouteList, i1: int, c: Interchange)
    requires 0 <= i1 < |rl.routes|
    requires IsRelocation(Customers(rl), i1, c) || IsSwap(Customers(rl), i1, c)
    ensures DeltaReadable(rl, c) && DemandReadable(rl, c) && OneInterchange(c)
    ensures c.routeIdx1 != c.routeIdx2
  {
  }

  /** On a candidate, the evaluated objective is the true objective of the
      route list `perform` produces: its total length plus the penalised
      total excess, provided the cached length is the true total length. */
  lemma ListEvalIsTrueObjective(inst: Instance, rl: RouteList, coef: real, memory: seq<TabuItem>, c: Interchange)
    requires Symmetric(inst.d) && rl.length == TotalLength(inst.d, rl.routes)
    requires DeltaReadable(rl, c) && OneInterchange(c) && c.routeIdx1 != c.routeIdx2
    ensures var after := Perform(inst, rl, c).value;
      var excess := TotalExcess(inst.capacity, Demands(after.routes)) as real;
      && ListEval(inst, rl, coef, memory, c).objective == Objective(TotalLength(inst.d, after.routes), 0.0, excess, coef)
      && ListEval(inst, rl, coef, memory, c).excess == excess
  {
    ExcessMatchesPerform(inst, rl, c);
    PerformRoutes(inst, rl, c);
    PerformKeepsLength(inst, rl, c);
  }

  /** `interchanges.BestInsertionCalculator.call`: relocations out of route
      `i1`, tabu customers admitted by aspiration. */
  function BestInsertion(inst: Instance, rl: RouteList, incumbent: RouteList, coef: real,
                         memory: seq<TabuItem>, firstBestFirst: bool, i1: int): Best<Interchange>
    requires 0 <= i1 < |rl.routes|
  {
    Scan(AspirationPolicy(incumbent, firstBestFirst), Relocations(Customers(rl), i1), ListEvals(inst, rl, coef, memory))
  }

  /** The relocation set of route `i1`. */
  function RelocationSet(routes: seq<seq<int>>, i1: int): Interchange -> bool {
    c => 0 <= i1 < |routes| && IsRelocation(routes, i1, c)
  }

  /** The swap set of route `i1`. */
  function SwapSet(routes: seq<seq<int>>, i1: int): Interchange -> bool {
    c => 0 <= i1 < |routes| && IsSwap(routes, i1, c)
  }

  /** The double-swap set of route `i1`. */
  function DoubleSwapSet(routes: seq<seq<int>>, i1: int): Interchange -> bool {
    c => 0 <= i1 < |routes| && IsDoubleSwap(routes, i1, c)
  }

  /** A found interchange is an admitted relocation out of `i1`; without
      first-best-first it is the best admitted relocation, and the result is
      empty exactly when no relocation is admitted. */
  lemma BestInsertionSpec(inst: Instance, rl: RouteList, incumbent: RouteList, coef: real,
                          memory: seq<TabuItem>, firstBestFirst: bool, i1: int)
    requires 0 <= i1 < |rl.routes|
    ensures var b := BestInsertion(inst, rl, incumbent, coef, memory, firstBestFirst, i1);
      var p, ev := AspirationPolicy(incumbent, firstBestFirst), ListEvals(inst, rl, coef, memory);
      && (b.found.Some? ==> IsRelocation(Customers(rl), i1, b.found.value) && Admits(p, ev(b.found.value)))
      && (!firstBestFirst ==> BestOf(p, ev, RelocationSet(Customers(rl), i1), b))
  {
    var p, ev := AspirationPolicy(incumbent, firstBestFirst), ListEvals(inst, rl, coef, memory);
    var cs := Relocations(Customers(rl), i1);
    ScanFound(p, cs, ev);
    forall c ensures c in cs <==> RelocationSet(Customers(rl), i1)(c) {
      InRelocations(Customers(rl), i1, c);
    }
    if !firstBestFirst {
      ScanBestOf(p, cs, ev, RelocationSet(Customers(rl), i1));
    }
  }

  /** `interchanges.BestSwapCalculator.call`: swaps of route `i1` with a
      later route, tabu customers skipped. */
  function BestSwap(inst: Instance, rl: RouteList, incumbent: RouteList, coef: real,
                    memory: seq<TabuItem>, firstBestFirst: bool, i1: int): Best<Interchange>
    requires 0 <= i1 < |rl.routes|
  {
    Scan(SkipPolicy(incumbent, firstBestFirst), Swaps(Customers(rl), i1), ListEvals(inst, rl, coef, memory))
  }

  /** A found interchange is a swap moving no tabu customer; without
      first-best-first it is the best such swap. */
  lemma BestSwapSpec(inst: Instance, rl: RouteList, incumbent: RouteList, coef: real,
                     memory: seq<TabuItem>, firstBestFirst: bool, i1: int)
    requires 0 <= i1 < |rl.routes|
    ensures var b := BestSwap(inst, rl, incumbent, coef, memory, firstBestFirst, i1);
      var p, ev := SkipPolicy(incumbent, firstBestFirst), ListEvals(inst, rl, coef, memory);
      && (b.found.Some? ==> IsSwap(Customers(rl), i1, b.found.value)
                            && !MovesTabu(memory, Customers(rl), b.found.value))
      && (!firstBestFirst ==> BestOf(p, ev, SwapSet(Customers(rl), i1), b))
  {
    var p, ev := SkipPolicy(incumbent, firstBestFirst), ListEvals(inst, rl, coef, memory);
    var cs := Swaps(Customers(rl), i1);
    ScanFound(p, cs, ev);
    forall c ensures c in cs <==> SwapSet(Customers(rl), i1)(c) {
      InSwaps(Customers(rl), i1, c);
    }
    var b := Scan(p, cs, ev);
    if b.found.Some? {
      CandidateReadable(rl, i1, b.found.value);
    }
    if !firstBestFirst {
      ScanBestOf(p, cs, ev, SwapSet(Customers(rl), i1));
    }
  }

  // ---------------------------------------------------------------------
  // BestRandom2ICalculator
  // ---------------------------------------------------------------------

  /** The evaluation `BestRandom2ICalculator` performs, as written: the
      delta comes from `calculateEdgeDelta`, which throws on the (2,2)
      interchanges it is given. */
  function RandomEvalAsWritten(inst: Instance, rl: RouteList, coef: real, memory: seq<TabuItem>, c: Interchange)
    : Result<Eval>
  {
    if !(DeltaReadable(rl, c) && DemandReadable(rl, c)) then Err(IndexOutOfBounds)
    else match CalculateEdgeDelta(inst, rl, c)
      case Err(e) => Err(e)
      case Ok(delta) =>
        var excess := TotalExcess(inst.capacity, DemandsAfter(inst, rl, c)) as real;
        Ok(Eval(Objective(rl.length, delta, excess, coef), excess, MovesTabu(memory, Customers(rl), c)))
  }

  /** `BestRandom2ICalculator.call` as written, the random generator
      replaced by `draws`. */
  function BestRandom2IAsWritten(inst: Instance, rl: RouteList, incumbent: RouteList, coef: real,
                                 memory: seq<TabuItem>, firstBestFirst: bool, i1: int,
                                 numAttempts: int, draws: (int, int) -> seq<int>): Result<Best<Interchange>>
    requires 0 <= i1 < |rl.routes|
  {
    ScanChecked(AspirationPolicy(incumbent, firstBestFirst), RandomDoubleSwaps(Customers(rl), i1, numAttempts, draws),
                c => RandomEvalAsWritten(inst, rl, coef, memory, c), 0, Best(None, PosInf))
  }

  /** As written, the calculator throws `IllegalArgumentException` as soon
      as one sample survives the distinctness test. */
  lemma BestRandom2IAsWrittenThrows(inst: Instance, rl: RouteList, incumbent: RouteList, coef: real,
                                    memory: seq<TabuItem>, firstBestFirst: bool, i1: int,
                                    numAttempts: int, draws: (int, int) -> seq<int>)
    requires 0 <= i1 < |rl.routes|
    requires DrawsInRange(Customers(rl), i1, numAttempts, draws)
    requires RandomDoubleSwaps(Customers(rl), i1, numAttempts, draws) != []
    ensures BestRandom2IAsWritten(inst, rl, incumbent, coef, memory, firstBestFirst, i1, numAttempts, draws)
         == Err(IllegalArgument)
  {
    var cs := RandomDoubleSwaps(Customers(rl), i1, numAttempts, draws);
    var evr := c => RandomEvalAsWritten(inst, rl, coef, memory, c);
    RandomDoubleSwapsSound(Customers(rl), i1, numAttempts, draws, cs[0]);
    DoubleSwapThrows(inst, rl, coef, memory, i1, cs[0]);
    ScanCheckedFirstThrows(AspirationPolicy(incumbent, firstBestFirst), cs, evr);
  }

  /** Evaluating any double swap as written throws. */
  lemma DoubleSwapThrows(inst: Instance, rl: RouteList, coef: real, memory: seq<TabuItem>, i1: int, c: Interchange)
    requires 0 <= i1 < |rl.routes| && IsDoubleSwap(Customers(rl), i1, c)
    ensures RandomEvalAsWritten(inst, rl, coef, memory, c) == Err(IllegalArgument)
  {
    assert Names(rl, c) && DemandReadable(rl, c);
  }

  /** Two routes of four entries, the draws all equal to
      11: 1 → 1, 12: 2 → 2, 21: 1 → 1, 22: 2 → 2. */
  function SmallRoutes(): RouteList {
    RouteList([Route([0, 1, 2, 0], 2), Route([0, 3, 4, 0], 2)], 0.0)
  }

  function FixedDraws(): (int, int) -> seq<int> {
    (i2: int, a: int) => [1, 1, 2, 2, 1, 1, 2, 2]
  }

  /** With one attempt on these routes the calculator as written throws
      instead of returning the double swap. */
  lemma BestRandom2IAsWrittenCounterexample(inst: Instance, memory: seq<TabuItem>, firstBestFirst: bool)
    ensures BestRandom2IAsWritten(inst, SmallRoutes(), SmallRoutes(), 1.0, memory, firstBestFirst, 0, 1, FixedDraws())
         == Err(IllegalArgument)
  {
    var rl := SmallRoutes();
    var routes := Customers(rl);
    var v := [1, 1, 2, 2, 1, 1, 2, 2];
    var c := DrawnSwap(0, 1, v);
    assert Distinct2I(c);
    assert BigEnough(routes, 0, 1);
    assert FixedDraws()(1, 0) == v;
    var s := seq(1, a => DrawnSwap(0, 1, FixedDraws()(1, a)));
    assert s[0] == c;
    assert c in DrawnWith(routes, 0, 1, FixedDraws(), 1);
    var f := i2 => DrawnWith(routes, 0, 1, FixedDraws(), i2);
    InPerRoute(1, |routes|, f, c);
    assert c in RandomDoubleSwaps(routes, 0, 1, FixedDraws());
    assert DrawsInRange(routes, 0, 1, FixedDraws()) by {
      forall i2, a | 0 < i2 < |routes| && 0 <= a < 1 && BigEnough(routes, 0, i2)
        ensures InBox(DrawBox(|routes[0]|, |routes[i2]|), FixedDraws()(i2, a))
      {
        assert i2 == 1;
      }
    }
    BestRandom2IAsWrittenThrows(inst, rl, rl, 1.0, memory, firstBestFirst, 0, 1, FixedDraws());
  }

  /** The corrected evaluation: the delta of a double swap comes from
      `edgeDelta`, which handles (2,2). */
  function RandomEval(inst: Instance, rl: RouteList, coef: real, memory: seq<TabuItem>, c: Interchange): Eval {
    var routes := Customers(rl);
    if Names(rl, c) && DeltaDomain(routes[c.routeIdx1], routes[c.routeIdx2], c)
       && DemandReadable(rl, c) && Supported(c) then
      var excess := TotalExcess(inst.capacity, DemandsAfter(inst, rl, c)) as real;
      Eval(Objective(rl.length, EdgeDelta(inst.d, routes, c).value, excess, coef), excess, MovesTabu(memory, routes, c))
    else Eval(0.0, 0.0, true)
  }

  function RandomEvals(inst: Instance, rl: RouteList, coef: real, memory: seq<TabuItem>): Interchange -> Eval {
    c => RandomEval(inst, rl, coef, memory, c)
  }

  /** `BestRandom2ICalculator.call` with the delta of `edgeDelta`. */
  function BestRandom2I(inst: Instance, rl: RouteList, incumbent: RouteList, coef: real,
                        memory: seq<TabuItem>, firstBestFirst: bool, i1: int,
                        numAttempts: int, draws: (int, int) -> seq<int>): Best<Interchange>
    requires 0 <= i1 < |rl.routes|
  {
    Scan(AspirationPolicy(incumbent, firstBestFirst), RandomDoubleSwaps(Customers(rl), i1, numAttempts, draws),
         RandomEvals(inst, rl, coef, memory))
  }

  /** A double swap of the enumeration lies in the domain of `delta2I`. */
  lemma DoubleSwapReadable(rl: RouteList, i1: int, c: Interchange)
    requires 0 <= i1 < |rl.routes| && IsDoubleSwap(Customers(rl), i1, c)
    ensures Names(rl, c) && DemandReadable(rl, c) && Supported(c)
    ensures DeltaDomain(Customers(rl)[c.routeIdx1], Customers(rl)[c.routeIdx2], c)
  {
  }

  /** The corrected calculator returns an admitted double swap of `i1`
      whose objective is the cached length plus the true length change of
      the two routes plus the penalised excess; without first-best-first it
      is the least admitted sample, and nothing is found exactly when no
      sample is admitted. */
  lemma BestRandom2ISpec(inst: Instance, rl: RouteList, incumbent: RouteList, coef: real,
                         memory: seq<TabuItem>, firstBestFirst: bool, i1: int,
                         numAttempts: int, draws: (int, int) -> seq<int>)
    requires 0 <= i1 < |rl.routes|
    requires Symmetric(inst.d)
    requires DrawsInRange(Customers(rl), i1, numAttempts, draws)
    ensures var b := BestRandom2I(inst, rl, incumbent, coef, memory, firstBestFirst, i1, numAttempts, draws);
      var p := AspirationPolicy(incumbent, firstBestFirst);
      b.found.Some? ==>
        var c := b.found.value;
        var e := RandomEval(inst, rl, coef, memory, c);
        && IsDoubleSwap(Customers(rl), i1, c) && Admits(p, e)
        && DemandReadable(rl, c)
        && NaiveDelta(inst.d, Route1(rl, c), Route2(rl, c), c).Some?
        && e.objective == Objective(rl.length, NaiveDelta(inst.d, Route1(rl, c), Route2(rl, c), c).value,
                                    TotalExcess(inst.capacity, DemandsAfter(inst, rl, c)) as real, coef)
    ensures var cs := RandomDoubleSwaps(Customers(rl), i1, numAttempts, draws);
      !firstBestFirst ==>
        BestOf(AspirationPolicy(incumbent, false), RandomEvals(inst, rl, coef, memory), c => c in cs,
               BestRandom2I(inst, rl, incumbent, coef, memory, firstBestFirst, i1, numAttempts, draws))
  {
    var p, ev := AspirationPolicy(incumbent, firstBestFirst), RandomEvals(inst, rl, coef, memory);
    var cs := RandomDoubleSwaps(Customers(rl), i1, numAttempts, draws);
    ScanFound(p, cs, ev);
    if !firstBestFirst {
      ScanBestOf(p, cs, ev, c => c in cs);
    }
    var b := Scan(p, cs, ev);
    if b.found.Some? {
      var c := b.found.value;
      RandomDoubleSwapsSound(Customers(rl), i1, numAttempts, draws, c);
      DoubleSwapReadable(rl, i1, c);
      EdgeDeltaMatchesNaive(inst.d, Customers(rl), c);
    }
  }

  // ---------------------------------------------------------------------
  // Best0I, Best1I, Best2I: objective and excess are parameters
  // ---------------------------------------------------------------------

  /** The evaluation through `routeList.objective` and
      `routeList.excessCapacity`, which are parameters here. */
  function ParamEvals(objective: Interchange -> real, excess: Interchange -> real,
                      memory: seq<TabuItem>, routes: seq<seq<int>>): Interchange -> Eval {
    c => Eval(objective(c), excess(c), MovesTabu(memory, routes, c))
  }

  /** `Best0ICalculator.call`. */
  function Best0I(objective: Interchange -> real, excess: Interchange -> real, routes: seq<seq<int>>,
                  incumbent: RouteList, memory: seq<TabuItem>, firstBestFirst: bool, i1: int): Best<Interchange>
    requires 0 <= i1 < |routes|
  {
    Scan(AspirationPolicy(incumbent, firstBestFirst), Relocations(routes, i1), ParamEvals(objective, excess, memory, routes))
  }

  /** A found interchange is a relocation out of `i1` that moves no tabu
      customer or beats the incumbent with no excess; without
      first-best-first it has the least objective among those. */
  lemma Best0ISpec(objective: Interchange -> real, excess: Interchange -> real, routes: seq<seq<int>>,
                   incumbent: RouteList, memory: seq<TabuItem>, firstBestFirst: bool, i1: int)
    requires 0 <= i1 < |routes|
    ensures var b := Best0I(objective, excess, routes, incumbent, memory, firstBestFirst, i1);
      var p, ev := AspirationPolicy(incumbent, firstBestFirst), ParamEvals(objective, excess, memory, routes);
      && (b.found.Some? ==>
            var c := b.found.value;
            && IsRelocation(routes, i1, c) && b.objective == Finite(objective(c))
            && (!MovesTabu(memory, routes, c) || (objective(c) < incumbent.length && excess(c) == 0.0)))
      && (!firstBestFirst ==> BestOf(p, ev, RelocationSet(routes, i1), b))
  {
    var p, ev := AspirationPolicy(incumbent, firstBestFirst), ParamEvals(objective, excess, memory, routes);
    var cs := Relocations(routes, i1);
    ScanFound(p, cs, ev);
    forall c ensures c in cs <==> RelocationSet(routes, i1)(c) {
      InRelocations(routes, i1, c);
    }
    if !firstBestFirst {
      ScanBestOf(p, cs, ev, RelocationSet(routes, i1));
    }
  }

  /** `Best1ICalculator.call`. */
  function Best1I(objective: Interchange -> real, excess: Interchange -> real, routes: seq<seq<int>>,
                  incumbent: RouteList, memory: seq<TabuItem>, firstBestFirst: bool, i1: int): Best<Interchange>
    requires 0 <= i1 < |routes|
  {
    Scan(AspirationPolicy(incumbent, firstBestFirst), Swaps(routes, i1), ParamEvals(objective, excess, memory, routes))
  }

  /** A found interchange is a swap whose two customers are not tabu, or
      that beats the incumbent with no excess; without first-best-first it
      has the least objective among those. */
  lemma Best1ISpec(objective: Interchange -> real, excess: Interchange -> real, routes: seq<seq<int>>,
                   incumbent: RouteList, memory: seq<TabuItem>, firstBestFirst: bool, i1: int)
    requires 0 <= i1 < |routes|
    ensures var b := Best1I(objective, excess, routes, incumbent, memory, firstBestFirst, i1);
      var p, ev := AspirationPolicy(incumbent, firstBestFirst), ParamEvals(objective, excess, memory, routes);
      && (b.found.Some? ==>
            var c := b.found.value;
            && IsSwap(routes, i1, c) && b.objective == Finite(objective(c))
            && ((!TabuAt(memory, routes, i1, c.list1[0].from) && !TabuAt(memory, routes, c.routeIdx2, c.list2[0].from))
                || (objective(c) < incumbent.length && excess(c) == 0.0)))
      && (!firstBestFirst ==> BestOf(p, ev, SwapSet(routes, i1), b))
  {
    var p, ev := AspirationPolicy(incumbent, firstBestFirst), ParamEvals(objective, excess, memory, routes);
    var cs := Swaps(routes, i1);
    ScanFound(p, cs, ev);
    forall c ensures c in cs <==> SwapSet(routes, i1)(c) {
      InSwaps(routes, i1, c);
    }
    if !firstBestFirst {
      ScanBestOf(p, cs, ev, SwapSet(routes, i1));
    }
  }

  /** `Best2ICalculator.call`. */
  function Best2I(objective: Interchange -> real, excess: Interchange -> real, routes: seq<seq<int>>,
                  incumbent: RouteList, memory: seq<TabuItem>, firstBestFirst: bool, i1: int): Best<Interchange>
    requires 0 <= i1 < |routes|
  {
    Scan(AspirationPolicy(incumbent, firstBestFirst), DoubleSwaps(routes, i1), ParamEvals(objective, excess, memory, routes))
  }

  /** A found interchange is a double swap of `i1` admitted by the tabu or
      aspiration test; without first-best-first it has the least objective
      among the admitted double swaps. */
  lemma Best2ISpec(objective: Interchange -> real, excess: Interchange -> real, routes: seq<seq<int>>,
                   incumbent: RouteList, memory: seq<TabuItem>, firstBestFirst: bool, i1: int)
    requires 0 <= i1 < |routes|
    ensures var b := Best2I(objective, excess, routes, incumbent, memory, firstBestFirst, i1);
      var p, ev := AspirationPolicy(incumbent, firstBestFirst), ParamEvals(objective, excess, memory, routes);
      && (b.found.Some? ==>
            var c := b.found.value;
            && IsDoubleSwap(routes, i1, c) && b.objective == Finite(objective(c))
            && (!MovesTabu(memory, routes, c) || (objective(c) < incumbent.length && excess(c) == 0.0)))
      && (!firstBestFirst ==> BestOf(p, ev, DoubleSwapSet(routes, i1), b))
  {
    var p, ev := AspirationPolicy(incumbent, firstBestFirst), ParamEvals(objective, excess, memory, routes);
    var cs := DoubleSwaps(routes, i1);
    ScanFound(p, cs, ev);
    forall c ensures c in cs <==> DoubleSwapSet(routes, i1)(c) {
      InDoubleSwaps(routes, i1, c);
    }
    if !firstBestFirst {
      ScanBestOf(p, cs, ev, DoubleSwapSet(routes, i1));
    }
  }

  // ---------------------------------------------------------------------
  // threads: the delta and excess of a move are parameters
  // ---------------------------------------------------------------------

  /** `length + calculateEdgeDelta(interchange, distances) + excess *
      coefficient`, the two route-list methods being parameters. */
  function ThreadEvals(length: real, delta: Interchange -> real, excess: Interchange -> real, coef: real,
                       memory: seq<TabuItem>, routes: seq<seq<int>>): Interchange -> Eval {
    c => Eval(Objective(length, delta(c), excess(c), coef), excess(c), MovesTabu(memory, routes, c))
  }

  /** `threads.BestInsertionCalculator.call`. */
  function ThreadBestInsertion(length: real, delta: Interchange -> real, excess: Interchange -> real, coef: real,
                               routes: seq<seq<int>>, incumbent: RouteList, memory: seq<TabuItem>,
                               firstBestFirst: bool, i1: int): Best<Interchange>
    requires 0 <= i1 < |routes|
  {
    Scan(SkipPolicy(incumbent, firstBestFirst), Relocations(routes, i1),
         ThreadEvals(length, delta, excess, coef, memory, routes))
  }

  /** A found relocation moves no tabu customer; without first-best-first
      its objective is the least over the relocations of non-tabu
      customers. */
  lemma ThreadBestInsertionSpec(length: real, delta: Interchange -> real, excess: Interchange -> real, coef: real,
                                routes: seq<seq<int>>, incumbent: RouteList, memory: seq<TabuItem>,
                                firstBestFirst: bool, i1: int)
    requires 0 <= i1 < |routes|
    ensures var b := ThreadBestInsertion(length, delta, excess, coef, routes, incumbent, memory, firstBestFirst, i1);
      var p, ev := SkipPolicy(incumbent, firstBestFirst), ThreadEvals(length, delta, excess, coef, memory, routes);
      && (b.found.Some? ==>
            var c := b.found.value;
            && IsRelocation(routes, i1, c) && !TabuAt(memory, routes, i1, c.list1[0].from)
            && b.objective == Finite(Objective(length, delta(c), excess(c), coef)))
      && (!firstBestFirst ==> BestOf(p, ev, RelocationSet(routes, i1), b))
  {
    var p, ev := SkipPolicy(incumbent, firstBestFirst), ThreadEvals(length, delta, excess, coef, memory, routes);
    var cs := Relocations(routes, i1);
    ScanFound(p, cs, ev);
    forall c ensures c in cs <==> RelocationSet(routes, i1)(c) {
      InRelocations(routes, i1, c);
    }
    if !firstBestFirst {
      ScanBestOf(p, cs, ev, RelocationSet(routes, i1));
    }
  }

  /** `threads.BestSwapCalculator.run`: the fields `bestInterchange` and
      `bestObjective` after the run. */
  function ThreadBestSwap(length: real, delta: Interchange -> real, excess: Interchange -> real, coef: real,
                          routes: seq<seq<int>>, incumbent: RouteList, memory: seq<TabuItem>,
                          firstBestFirst: bool, i1: int): Best<Interchange>
    requires 0 <= i1 < |routes|
  {
    Scan(SkipPolicy(incumbent, firstBestFirst), Swaps(routes, i1),
         ThreadEvals(length, delta, excess, coef, memory, routes))
  }

  /** A found swap moves neither customer if tabu; without first-best-first
      its objective is the least over the swaps of non-tabu customers. */
  lemma ThreadBestSwapSpec(length: real, delta: Interchange -> real, excess: Interchange -> real, coef: real,
                           routes: seq<seq<int>>, incumbent: RouteList, memory: seq<TabuItem>,
                           firstBestFirst: bool, i1: int)
    requires 0 <= i1 < |routes|
    ensures var b := ThreadBestSwap(length, delta, excess, coef, routes, incumbent, memory, firstBestFirst, i1);
      var p, ev := SkipPolicy(incumbent, firstBestFirst), ThreadEvals(length, delta, excess, coef, memory, routes);
      && (b.found.Some? ==>
            var c := b.found.value;
            && IsSwap(routes, i1, c)
            && !TabuAt(memory, routes, i1, c.list1[0].from) && !TabuAt(memory, routes, c.routeIdx2, c.list2[0].from)
            && b.objective == Finite(Objective(length, delta(c), excess(c), coef)))
      && (!firstBestFirst ==> BestOf(p, ev, SwapSet(routes, i1), b))
  {
    var p, ev := SkipPolicy(incumbent, firstBestFirst), ThreadEvals(length, delta, excess, coef, memory, routes);
    var cs := Swaps(routes, i1);
    ScanFound(p, cs, ev);
    forall c ensures c in cs <==> SwapSet(routes, i1)(c) {
      InSwaps(routes, i1, c);
    }
    if !firstBestFirst {
      ScanBestOf(p, cs, ev, SwapSet(routes, i1));
    }
  }
}

=== FILE: candidates.dfy ===
/** The interchanges each calculator tries, in the order of its nested
    loops: relocations (1,0), swaps (1,1), double swaps (2,2), and the
    randomly drawn double swaps. */
module Candidates {
  import opened Common
  import opened Interchanges

  /** The integers `lo, lo + 1, …, hi - 1`. */
  function Range(lo: int, hi: int): (r: seq<int>)
    ensures |r| == if hi <= lo then 0 else hi - lo
    ensures forall k :: 0 <= k < |r| ==> r[k] == lo + k
    decreases hi - lo
  {
    if hi <= lo then [] else [lo] + Range(lo + 1, hi)
  }

  lemma InRange(lo: int, hi: int, x: int)
    ensures x in Range(lo, hi) <==> lo <= x < hi
  {
    if lo <= x < hi {
      assert Range(lo, hi)[x - lo] == x;
    }
  }

  /** `y` is an image of some element of `s`. */
  lemma InMapSeq<T, U>(s: seq<T>, f: T -> U, y: U)
    ensures y in MapSeq(s, f) <==> exists k :: 0 <= k < |s| && y == f(s[k])
  {
    if y in MapSeq(s, f) {
      var k :| 0 <= k < |s| && MapSeq(s, f)[k] == y;
    }
  }

  /** Entry `k` of an index vector (0 past its end, which the vectors of
      `Tuples` never reach). */
  function At(v: seq<int>, k: nat): int {
    if k < |v| then v[k] else 0
  }

  /** `x` put in front of every vector of `rest`. */
  function Prepend(x: int, rest: seq<seq<int>>): (r: seq<seq<int>>)
    ensures |r| == |rest|
    ensures forall j :: 0 <= j < |rest| ==> r[j] == [x] + rest[j]
  {
    seq(|rest|, j requires 0 <= j < |rest| => [x] + rest[j])
  }

  /** All index vectors whose coordinate `k` ranges over
      `[b[k].0, b[k].1)`, the first coordinate varying slowest: the order of
      nested `for` loops. */
  function Tuples(b: seq<(int, int)>): seq<seq<int>>
    decreases |b|
  {
    if b == [] then [[]]
    else
      var rest := Tuples(b[1..]);
      var xs := Range(b[0].0, b[0].1);
      Flatten(seq(|xs|, i requires 0 <= i < |xs| => Prepend(xs[i], rest)))
  }

  /** The vector lies inside the box. */
  predicate InBox(b: seq<(int, int)>, v: seq<int>) {
    |v| == |b| && forall k :: 0 <= k < |b| ==> b[k].0 <= v[k] < b[k].1
  }

  /** A box with at least one coordinate, split into its first coordinate
      and the rest. */
  lemma InBoxCons(b: seq<(int, int)>, v: seq<int>)
    requires b != []
    ensures InBox(b, v) <==> |v| > 0 && b[0].0 <= v[0] < b[0].1 && InBox(b[1..], v[1..])
  {
    if |v| == |b| && InBox(b[1..], v[1..]) {
      forall k | 1 <= k < |b| ensures b[k].0 <= v[k] < b[k].1 {
        assert v[k] == v[1..][k - 1];
      }
    }
  }

  /** Every vector the loops visit lies in the box. */
  lemma {:induction false} InTuplesSound(b: seq<(int, int)>, v: seq<int>)
    requires v in Tuples(b)
    ensures InBox(b, v)
    decreases |b|
  {
    if b != [] {
      var rest := Tuples(b[1..]);
      var xs := Range(b[0].0, b[0].1);
      var ls := seq(|xs|, i requires 0 <= i < |xs| => Prepend(xs[i], rest));
      InFlatten(ls, v);
      var i :| 0 <= i < |ls| && v in ls[i];
      var j :| 0 <= j < |rest| && ls[i][j] == v;
      assert v[1..] == rest[j];
      InTuplesSound(b[1..], rest[j]);
      InBoxCons(b, v);
    }
  }

  /** Every vector of the box is visited. */
  lemma {:induction false} InTuplesComplete(b: seq<(int, int)>, v: seq<int>)
    requires InBox(b, v)
    ensures v in Tuples(b)
    decreases |b|
  {
    if b == [] {
      assert v == [];
    } else {
      var rest := Tuples(b[1..]);
      var xs := Range(b[0].0, b[0].1);
      var ls := seq(|xs|, i requires 0 <= i < |xs| => Prepend(xs[i], rest));
      InBoxCons(b, v);
      InTuplesComplete(b[1..], v[1..]);
      var i := v[0] - b[0].0;
      var j :| 0 <= j < |rest| && rest[j] == v[1..];
      assert ls[i][j] == v;
      InFlatten(ls, v);
    }
  }

  /** The nested loops visit exactly the vectors of the box. */
  lemma InTuples(b: seq<(int, int)>, v: seq<int>)
    ensures v in Tuples(b) <==> InBox(b, v)
  {
    if v in Tuples(b) {
      InTuplesSound(b, v);
    }
    if InBox(b, v) {
      InTuplesComplete(b, v);
    }
  }

  /** The candidates of the route loop `for (i2 = lo; i2 < hi; i2++)`,
      the inner loops for route `i2` giving `f(i2)`. */
  function PerRoute<T>(lo: int, hi: int, f: int -> seq<T>): seq<T> {
    Flatten(MapSeq(Range(lo, hi), f))
  }

  lemma InPerRoute<T>(lo: int, hi: int, f: int -> seq<T>, c: T)
    ensures c in PerRoute(lo, hi, f) <==> exists i :: lo <= i < hi && c in f(i)
  {
    var xs := Range(lo, hi);
    var ls := MapSeq(xs, f);
    InFlatten(ls, c);
    if exists i :: lo <= i < hi && c in f(i) {
      var i :| lo <= i < hi && c in f(i);
      assert ls[i - lo] == f(i);
    }
  }

  /** The vector the inner loops produce for `c`, when `c` comes from
      `make`, lies in the box: the two directions of membership in
      `MapSeq(Tuples(b), make)`. */
  lemma InEncoded<T>(b: seq<(int, int)>, make: seq<int> -> T, c: T)
    ensures c in MapSeq(Tuples(b), make) <==> exists v :: InBox(b, v) && c == make(v)
  {
    var ts := Tuples(b);
    InMapSeq(ts, make, c);
    if c in MapSeq(ts, make) {
      var k :| 0 <= k < |ts| && c == make(ts[k]);
      InTuples(b, ts[k]);
    }
    if exists v :: InBox(b, v) && c == make(v) {
      var v :| InBox(b, v) && c == make(v);
      InTuples(b, v);
      var k :| 0 <= k < |ts| && ts[k] == v;
    }
  }

  // ---------------------------------------------------------------------
  // Relocations: BestInsertionCalculator and Best0ICalculator
  // ---------------------------------------------------------------------

  /** The relocation of the customer at `v[0]` of route `i1` to position
      `v[1]` of route `i2`. */
  function Relocation(i1: int, i2: int, v: seq<int>): Interchange {
    Interchange(i1, [Insertion(At(v, 0), At(v, 1))], i2, [])
  }

  /** Loop bounds: every interior customer of route 1, every position of
      route 2 after its first depot. */
  function RelocationBox(n1: int, n2: int): seq<(int, int)> {
    [(1, n1 - 1), (1, n2)]
  }

  /** The relocations into route `i2`. */
  function RelocationsInto(routes: seq<seq<int>>, i1: int, i2: int): seq<Interchange>
    requires 0 <= i1 < |routes|
  {
    if i2 == i1 || !(0 <= i2 < |routes|) then []
    else MapSeq(Tuples(RelocationBox(|routes[i1]|, |routes[i2]|)), v => Relocation(i1, i2, v))
  }

  /** Every relocation out of route `i1`, in loop order: target route,
      customer, position; the route itself is skipped. */
  function Relocations(routes: seq<seq<int>>, i1: int): seq<Interchange>
    requires 0 <= i1 < |routes|
  {
    PerRoute(0, |routes|, i2 => RelocationsInto(routes, i1, i2))
  }

  /** `c` is a relocation of an interior customer of route `i1` to a
      position after the depot of another route. */
  predicate IsRelocation(routes: seq<seq<int>>, i1: int, c: Interchange)
    requires 0 <= i1 < |routes|
  {
    && c.routeIdx1 == i1 && 0 <= c.routeIdx2 < |routes| && c.routeIdx2 != i1
    && c.Shape(1, 0)
    && 1 <= c.list1[0].from < |routes[i1]| - 1
    && 1 <= c.list1[0].to < |routes[c.routeIdx2]|
  }

  lemma InRelocationsInto(routes: seq<seq<int>>, i1: int, i2: int, c: Interchange)
    requires 0 <= i1 < |routes|
    ensures c in RelocationsInto(routes, i1, i2) <==> IsRelocation(routes, i1, c) && c.routeIdx2 == i2
  {
    if i2 != i1 && 0 <= i2 < |routes| {
      var b := RelocationBox(|routes[i1]|, |routes[i2]|);
      InEncoded(b, v => Relocation(i1, i2, v), c);
      if c in RelocationsInto(routes, i1, i2) {
        var v :| InBox(b, v) && c == Relocation(i1, i2, v);
        assert b[0].0 <= v[0] < b[0].1 && b[1].0 <= v[1] < b[1].1;
      }
      if IsRelocation(routes, i1, c) && c.routeIdx2 == i2 {
        var v := [c.list1[0].from, c.list1[0].to];
        assert InBox(b, v) && c == Relocation(i1, i2, v);
      }
    }
  }

  /** The relocation loops visit exactly the relocations out of `i1`. */
  lemma InRelocations(routes: seq<seq<int>>, i1: int, c: Interchange)
    requires 0 <= i1 < |routes|
    ensures c in Relocations(routes, i1) <==> IsRelocation(routes, i1, c)
  {
    var f := i2 => RelocationsInto(routes, i1, i2);
    InPerRoute(0, |routes|, f, c);
    if c in Relocations(routes, i1) {
      var i :| 0 <= i < |routes| && c in f(i);
      InRelocationsInto(routes, i1, i, c);
    }
    if IsRelocation(routes, i1, c) {
      InRelocationsInto(routes, i1, c.routeIdx2, c);
      assert c in f(c.routeIdx2);
    }
  }

  // ---------------------------------------------------------------------
  // Swaps: BestSwapCalculator and Best1ICalculator
  // ---------------------------------------------------------------------

  /** The swap exchanging the customer at `v[0]` of route `i1` with the one
      at `v[1]` of route `i2`, inserted at `v[2]` and `v[3]`. */
  function Swap(i1: int, i2: int, v: seq<int>): Interchange {
    Interchange(i1, [Insertion(At(v, 0), At(v, 2))], i2, [Insertion(At(v, 1), At(v, 3))])
  }

  /** Loop bounds, nested as customer 1, customer 2, target of 1, target
      of 2; depots are never moved or displaced. */
  function SwapBox(n1: int, n2: int): seq<(int, int)> {
    [(1, n1 - 1), (1, n2 - 1), (1, n2 - 1), (1, n1 - 1)]
  }

  function SwapsWith(routes: seq<seq<int>>, i1: int, i2: int): seq<Interchange>
    requires 0 <= i1 < |routes|
  {
    if !(i1 < i2 < |routes|) then []
    else MapSeq(Tuples(SwapBox(|routes[i1]|, |routes[i2]|)), v => Swap(i1, i2, v))
  }

  /** Every swap of route `i1` with a later route, in loop order. */
  function Swaps(routes: seq<seq<int>>, i1: int): seq<Interchange>
    requires 0 <= i1 < |routes|
  {
    PerRoute(i1 + 1, |routes|, i2 => SwapsWith(routes, i1, i2))
  }

  /** `c` exchanges an interior customer of route `i1` with one of a later
      route, each going to an interior position of the other route. */
  predicate IsSwap(routes: seq<seq<int>>, i1: int, c: Interchange)
    requires 0 <= i1 < |routes|
  {
    && c.routeIdx1 == i1 && i1 < c.routeIdx2 < |routes|
    && c.Shape(1, 1)
    && 1 <= c.list1[0].from < |routes[i1]| - 1 && 1 <= c.list2[0].from < |routes[c.routeIdx2]| - 1
    && 1 <= c.list1[0].to < |routes[c.routeIdx2]| - 1 && 1 <= c.list2[0].to < |routes[i1]| - 1
  }

  lemma InSwapsWith(routes: seq<seq<int>>, i1: int, i2: int, c: Interchange)
    requires 0 <= i1 < |routes|
    ensures c in SwapsWith(routes, i1, i2) <==> IsSwap(routes, i1, c) && c.routeIdx2 == i2
  {
    if i1 < i2 < |routes| {
      var b := SwapBox(|routes[i1]|, |routes[i2]|);
      InEncoded(b, v => Swap(i1, i2, v), c);
      if c in SwapsWith(routes, i1, i2) {
        var v :| InBox(b, v) && c == Swap(i1, i2, v);
        assert b[0].0 <= v[0] < b[0].1 && b[1].0 <= v[1] < b[1].1;
        assert b[2].0 <= v[2] < b[2].1 && b[3].0 <= v[3] < b[3].1;
      }
      if IsSwap(routes, i1, c) && c.routeIdx2 == i2 {
        var v := [c.list1[0].from, c.list2[0].from, c.list1[0].to, c.list2[0].to];
        assert InBox(b, v) && c == Swap(i1, i2, v);
      }
    }
  }

  /** The swap loops visit exactly the swaps of `i1` with a later route. */
  lemma InSwaps(routes: seq<seq<int>>, i1: int, c: Interchange)
    requires 0 <= i1 < |routes|
    ensures c in Swaps(routes, i1) <==> IsSwap(routes, i1, c)
  {
    var f := i2 => SwapsWith(routes, i1, i2);
    InPerRoute(i1 + 1, |routes|, f, c);
    if c in Swaps(routes, i1) {
      var i :| i1 + 1 <= i < |routes| && c in f(i);
      InSwapsWith(routes, i1, i, c);
    }
    if IsSwap(routes, i1, c) {
      InSwapsWith(routes, i1, c.routeIdx2, c);
      assert c in f(c.routeIdx2);
    }
  }

  // ---------------------------------------------------------------------
  // Double swaps: Best2ICalculator
  // ---------------------------------------------------------------------

  /** The double swap of the loop vector: froms 11, 12, 21, 22, then
      targets 11, 12, 21, 22. */
  function DoubleSwap(i1: int, i2: int, v: seq<int>): Interchange {
    Interchange(i1, [Insertion(At(v, 0), At(v, 4)), Insertion(At(v, 1), At(v, 5))],
                i2, [Insertion(At(v, 2), At(v, 6)), Insertion(At(v, 3), At(v, 7))])
  }

  /** The two insertions of each list differ in both source and target:
      the loops skip every other combination. */
  predicate Distinct2I(c: Interchange) {
    && c.Shape(2, 2)
    && c.list1[0].from != c.list1[1].from && c.list1[0].to != c.list1[1].to
    && c.list2[0].from != c.list2[1].from && c.list2[0].to != c.list2[1].to
  }

  /** Both routes hold at least two customers besides the depots. */
  predicate BigEnough(routes: seq<seq<int>>, i1: int, i2: int)
    requires 0 <= i1 < |routes| && 0 <= i2 < |routes|
  {
    |routes[i1]| >= 4 && |routes[i2]| >= 4
  }

  /** The bounds of the eight nested loops. */
  function DoubleBox(n1: int, n2: int): seq<(int, int)> {
    [(1, n1 - 1), (1, n1 - 1), (1, n2 - 1), (1, n2 - 1),
     (1, n2 - 1), (1, n2 - 1), (1, n1 - 1), (1, n1 - 1)]
  }

  function DoubleSwapsWith(routes: seq<seq<int>>, i1: int, i2: int): seq<Interchange>
    requires 0 <= i1 < |routes|
  {
    if !(i1 < i2 < |routes|) || !BigEnough(routes, i1, i2) then []
    else Filter(MapSeq(Tuples(DoubleBox(|routes[i1]|, |routes[i2]|)), v => DoubleSwap(i1, i2, v)), Distinct2I)
  }

  /** Every double swap of route `i1` with a later route, in loop order. */
  function DoubleSwaps(routes: seq<seq<int>>, i1: int): seq<Interchange>
    requires 0 <= i1 < |routes|
  {
    PerRoute(i1 + 1, |routes|, i2 => DoubleSwapsWith(routes, i1, i2))
  }

  /** All eight indices of a double swap are interior positions of the
      routes they refer to. */
  predicate DoubleInRange(n1: int, n2: int, c: Interchange)
    requires c.Shape(2, 2)
  {
    && 1 <= c.list1[0].from < n1 - 1 && 1 <= c.list1[1].from < n1 - 1
    && 1 <= c.list2[0].from < n2 - 1 && 1 <= c.list2[1].from < n2 - 1
    && 1 <= c.list1[0].to < n2 - 1 && 1 <= c.list1[1].to < n2 - 1
    && 1 <= c.list2[0].to < n1 - 1 && 1 <= c.list2[1].to < n1 - 1
  }

  /** `c` exchanges two distinct interior customers of route `i1` with two
      of a later route, inserted at distinct interior positions. */
  predicate IsDoubleSwap(routes: seq<seq<int>>, i1: int, c: Interchange)
    requires 0 <= i1 < |routes|
  {
    && c.routeIdx1 == i1 && i1 < c.routeIdx2 < |routes|
    && Distinct2I(c)
    && BigEnough(routes, i1, c.routeIdx2)
    && DoubleInRange(|routes[i1]|, |routes[c.routeIdx2]|, c)
  }

  /** The loop vectors of the box are exactly the double swaps in range. */
  lemma DoubleBoxVectors(i1: int, i2: int, n1: int, n2: int, c: Interchange)
    ensures (exists v :: InBox(DoubleBox(n1, n2), v) && c == DoubleSwap(i1, i2, v))
        <==> c.routeIdx1 == i1 && c.routeIdx2 == i2 && c.Shape(2, 2) && DoubleInRange(n1, n2, c)
  {
    var b := DoubleBox(n1, n2);
    if exists v :: InBox(b, v) && c == DoubleSwap(i1, i2, v) {
      var v :| InBox(b, v) && c == DoubleSwap(i1, i2, v);
      assert b[0].0 <= v[0] < b[0].1 && b[1].0 <= v[1] < b[1].1;
      assert b[2].0 <= v[2] < b[2].1 && b[3].0 <= v[3] < b[3].1;
      assert b[4].0 <= v[4] < b[4].1 && b[5].0 <= v[5] < b[5].1;
      assert b[6].0 <= v[6] < b[6].1 && b[7].0 <= v[7] < b[7].1;
    }
    if c.routeIdx1 == i1 && c.routeIdx2 == i2 && c.Shape(2, 2) && DoubleInRange(n1, n2, c) {
      var v := [c.list1[0].from, c.list1[1].from, c.list2[0].from, c.list2[1].from,
                c.list1[0].to, c.list1[1].to, c.list2[0].to, c.list2[1].to];
      assert InBox(b, v);
      assert c == DoubleSwap(i1, i2, v);
    }
  }

  lemma InDoubleSwapsWith(routes: seq<seq<int>>, i1: int, i2: int, c: Interchange)
    requires 0 <= i1 < |routes|
    ensures c in DoubleSwapsWith(routes, i1, i2) <==> IsDoubleSwap(routes, i1, c) && c.routeIdx2 == i2
  {
    if i1 < i2 < |routes| && BigEnough(routes, i1, i2) {
      var n1, n2 := |routes[i1]|, |routes[i2]|;
      var make := v => DoubleSwap(i1, i2, v);
      var ms := MapSeq(Tuples(DoubleBox(n1, n2)), make);
      InEncoded(DoubleBox(n1, n2), make, c);
      DoubleBoxVectors(i1, i2, n1, n2, c);
      if c in ms && Distinct2I(c) {
        var k :| 0 <= k < |ms| && ms[k] == c;
      }
    }
  }

  /** The double-swap loops visit exactly the double swaps of `i1` with a
      later route. */
  lemma InDoubleSwaps(routes: seq<seq<int>>, i1: int, c: Interchange)
    requires 0 <= i1 < |routes|
    ensures c in DoubleSwaps(routes, i1) <==> IsDoubleSwap(routes, i1, c)
  {
    var f := i2 => DoubleSwapsWith(routes, i1, i2);
    InPerRoute(i1 + 1, |routes|, f, c);
    if c in DoubleSwaps(routes, i1) {
      var i :| i1 + 1 <= i < |routes| && c in f(i);
      InDoubleSwapsWith(routes, i1, i, c);
    }
    if IsDoubleSwap(routes, i1, c) {
      InDoubleSwapsWith(routes, i1, c.routeIdx2, c);
      assert c in f(c.routeIdx2);
    }
  }

  // ---------------------------------------------------------------------
  // Random double swaps: BestRandom2ICalculator
  // ---------------------------------------------------------------------

  /** The double swap of eight random draws, in the order they are drawn:
      from and target of 11, of 12, of 21, of 22. */
  function DrawnSwap(i1: int, i2: int, v: seq<int>): Interchange {
    Interchange(i1, [Insertion(At(v, 0), At(v, 1)), Insertion(At(v, 2), At(v, 3))],
                i2, [Insertion(At(v, 4), At(v, 5)), Insertion(At(v, 6), At(v, 7))])
  }

  /** The ranges `nextInt(1, size - 1)` draws from, in draw order. */
  function DrawBox(n1: int, n2: int): seq<(int, int)> {
    [(1, n1 - 1), (1, n2 - 1), (1, n1 - 1), (1, n2 - 1),
     (1, n2 - 1), (1, n1 - 1), (1, n2 - 1), (1, n1 - 1)]
  }

  /** Every draw for a pair of big enough routes lies in its ranges; the
      random generator is replaced by the function `draws(i2, attempt)`. */
  predicate DrawsInRange(routes: seq<seq<int>>, i1: int, numAttempts: int, draws: (int, int) -> seq<int>)
    requires 0 <= i1 < |routes|
  {
    forall i2, a :: i1 < i2 < |routes| && 0 <= a < numAttempts && BigEnough(routes, i1, i2)
      ==> InBox(DrawBox(|routes[i1]|, |routes[i2]|), draws(i2, a))
  }

  /** The attempts with route `i2` whose draws are pairwise distinct (the
      others are skipped but still use up an attempt). */
  function DrawnWith(routes: seq<seq<int>>, i1: int, numAttempts: int, draws: (int, int) -> seq<int>, i2: int)
    : (cs: seq<Interchange>)
    requires 0 <= i1 < |routes|
    ensures |cs| <= if numAttempts < 0 then 0 else numAttempts
  {
    if !(i1 < i2 < |routes|) || !BigEnough(routes, i1, i2) || numAttempts <= 0 then []
    else Filter(seq(numAttempts, a => DrawnSwap(i1, i2, draws(i2, a))), Distinct2I)
  }

  /** The interchanges the random calculator evaluates, in order. */
  function RandomDoubleSwaps(routes: seq<seq<int>>, i1: int, numAttempts: int, draws: (int, int) -> seq<int>)
    : seq<Interchange>
    requires 0 <= i1 < |routes|
  {
    PerRoute(i1 + 1, |routes|, i2 => DrawnWith(routes, i1, numAttempts, draws, i2))
  }

  /** A draw in its ranges is a double swap in range. */
  lemma DrawBoxInRange(i1: int, i2: int, n1: int, n2: int, v: seq<int>)
    requires InBox(DrawBox(n1, n2), v)
    ensures DrawnSwap(i1, i2, v).Shape(2, 2) && DoubleInRange(n1, n2, DrawnSwap(i1, i2, v))
  {
    var b := DrawBox(n1, n2);
    assert b[0].0 <= v[0] < b[0].1 && b[1].0 <= v[1] < b[1].1;
    assert b[2].0 <= v[2] < b[2].1 && b[3].0 <= v[3] < b[3].1;
    assert b[4].0 <= v[4] < b[4].1 && b[5].0 <= v[5] < b[5].1;
    assert b[6].0 <= v[6] < b[6].1 && b[7].0 <= v[7] < b[7].1;
  }

  /** Every random candidate is a double swap the exhaustive calculator
      also tries. */
  lemma RandomDoubleSwapsSound(routes: seq<seq<int>>, i1: int, numAttempts: int, draws: (int, int) -> seq<int>, c: Interchange)
    requires 0 <= i1 < |routes|
    requires DrawsInRange(routes, i1, numAttempts, draws)
    requires c in RandomDoubleSwaps(routes, i1, numAttempts, draws)
    ensures IsDoubleSwap(routes, i1, c)
  {
    var f := i2 => DrawnWith(routes, i1, numAttempts, draws, i2);
    InPerRoute(i1 + 1, |routes|, f, c);
    var i2 :| i1 + 1 <= i2 < |routes| && c in f(i2);
    assert BigEnough(routes, i1, i2) && numAttempts > 0;
    var s := seq(numAttempts, a => DrawnSwap(i1, i2, draws(i2, a)));
    assert c in Filter(s, Distinct2I);
    var a :| 0 <= a < numAttempts && s[a] == c;
    assert InBox(DrawBox(|routes[i1]|, |routes[i2]|), draws(i2, a));
    DrawBoxInRange(i1, i2, |routes[i1]|, |routes[i2]|, draws(i2, a));
  }

  /** A flattening of blocks of at most `m` elements. */
  lemma {:induction false} FlattenBound<T>(ss: seq<seq<T>>, m: nat)
    requires forall i :: 0 <= i < |ss| ==> |ss[i]| <= m
    ensures |Flatten(ss)| <= m * |ss|
    decreases |ss|
  {
    if ss != [] {
      FlattenBound(ss[1..], m);
    }
  }

  /** At most `numAttempts` interchanges are evaluated per later route. */
  lemma RandomDoubleSwapsCount(routes: seq<seq<int>>, i1: int, numAttempts: nat, draws: (int, int) -> seq<int>)
    requires 0 <= i1 < |routes|
    ensures |RandomDoubleSwaps(routes, i1, numAttempts, draws)| <= numAttempts * (|routes| - i1 - 1)
  {
    var f := i2 => DrawnWith(routes, i1, numAttempts, draws, i2);
    FlattenBound(MapSeq(Range(i1 + 1, |routes|), f), numAttempts);
  }
}

=== FILE: common.dfy ===
/** Shared vocabulary: optional values, the exceptions the solver can raise,
    a stable sort, sums over sequences and flattening of nested sequences. */
module Common {

  /** A value that may be absent (Java's `null`). */
  datatype Option<T> = None | Some(value: T)

  /** The Java exceptions the modelled code throws. */
  datatype Error = IndexOutOfBounds | IllegalArgument | IllegalState

  /** A computation that either returns a value or throws one of `Error`. */
  datatype Result<T> = Ok(value: T) | Err(error: Error)

  /** An objective value that may be positive infinity, the initial
      `bestObjective` of every calculator and the objective given to a
      missing interchange. */
  datatype ExtReal = Finite(v: real) | PosInf {
    predicate Le(other: ExtReal) {
      match (this, other)
      case (_, PosInf) => true
      case (PosInf, Finite(_)) => false
      case (Finite(a), Finite(b)) => a <= b
    }
  }

  // ---------------------------------------------------------------------
  // Stable sort by an integer key (Java's List.sort and Arrays.sort on
  // objects are stable merge sorts; only the resulting order matters).
  // ---------------------------------------------------------------------

  /** `s` is ordered by ascending `key`. */
  predicate SortedBy<T>(s: seq<T>, key: T -> int) {
    forall i, j :: 0 <= i < j < |s| ==> key(s[i]) <= key(s[j])
  }

  /** Inserts `x` in front of the first element whose key is not smaller. */
  function InsertByKey<T>(x: T, s: seq<T>, key: T -> int): (r: seq<T>)
    ensures |r| == |s| + 1
  {
    if s == [] then [x]
    else if key(x) <= key(s[0]) then [x] + s
    else [s[0]] + InsertByKey(x, s[1..], key)
  }

  /** Insertion adds exactly `x`. */
  lemma {:induction false} InsertByKeyMultiset<T>(x: T, s: seq<T>, key: T -> int)
    ensures multiset(InsertByKey(x, s, key)) == multiset(s) + multiset{x}
    decreases |s|
  {
    if s != [] && key(x) > key(s[0]) {
      InsertByKeyMultiset(x, s[1..], key);
      assert s == [s[0]] + s[1..];
    }
  }

  lemma {:induction false} InsertByKeySorted<T>(x: T, s: seq<T>, key: T -> int)
    requires SortedBy(s, key)
    ensures SortedBy(InsertByKey(x, s, key), key)
    decreases |s|
  {
    if s != [] && key(x) > key(s[0]) {
      var t := InsertByKey(x, s[1..], key);
      InsertByKeySorted(x, s[1..], key);
      InsertByKeyMultiset(x, s[1..], key);
      assert s == [s[0]] + s[1..];
      forall k | 0 <= k < |t| ensures key(s[0]) <= key(t[k]) {
        assert t[k] in multiset(t);
        if t[k] != x {
          assert t[k] in multiset(s[1..]);
          var m :| 0 <= m < |s[1..]| && s[1..][m] == t[k];
          assert s[m + 1] == t[k];
        }
      }
      assert InsertByKey(x, s, key) == [s[0]] + t;
    }
  }

  /** Stable insertion sort: elements with equal keys keep their order. */
  function SortBy<T>(s: seq<T>, key: T -> int): (r: seq<T>)
    ensures |r| == |s|
  {
    if s == [] then []
    else InsertByKey(s[0], SortBy(s[1..], key), key)
  }

  /** Sorting is a permutation. */
  lemma {:induction false} SortByMultiset<T>(s: seq<T>, key: T -> int)
    ensures multiset(SortBy(s, key)) == multiset(s)
    decreases |s|
  {
    if s != [] {
      var t := SortBy(s[1..], key);
      SortByMultiset(s[1..], key);
      InsertByKeyMultiset(s[0], t, key);
      assert SortBy(s, key) == InsertByKey(s[0], t, key);
      assert multiset(SortBy(s, key)) == multiset(t) + multiset{s[0]};
      assert s == [s[0]] + s[1..];
      assert multiset(s) == multiset{s[0]} + multiset(s[1..]);
    } else {
      assert SortBy(s, key) == [];
    }
  }

  lemma {:induction false} SortBySorted<T>(s: seq<T>, key: T -> int)
    ensures SortedBy(SortBy(s, key), key)
    decreases |s|
  {
    if s != [] {
      SortBySorted(s[1..], key);
      InsertByKeySorted(s[0], SortBy(s[1..], key), key);
    }
  }

  /** Sorting a sequence of two elements. */
  lemma SortTwo<T>(a: T, b: T, key: T -> int)
    ensures SortBy([a, b], key) == if key(a) <= key(b) then [a, b] else [b, a]
  {
    assert [a, b][1..] == [b];
    assert [b][1..] == [];
    assert SortBy([b], key) == InsertByKey(b, SortBy([], key), key) == [b];
    assert [b][1..] == [];
    assert InsertByKey(a, [], key) == [a];
    assert SortBy([a, b], key) == InsertByKey(a, [b], key);
  }

  /** No two elements of `s` agree on `f`. */
  predicate Injective<T>(s: seq<T>, f: T -> int) {
    forall i, j :: 0 <= i < |s| && 0 <= j < |s| && i != j ==> f(s[i]) != f(s[j])
  }

  /** Putting an element with a new `f` value in front keeps `f` injective. */
  lemma ConsInjective<T>(h: T, t: seq<T>, f: T -> int)
    requires Injective(t, f)
    requires forall k :: 0 <= k < |t| ==> f(t[k]) != f(h)
    ensures Injective([h] + t, f)
  {
    var r := [h] + t;
    forall i, j | 0 <= i < |r| && 0 <= j < |r| && i != j ensures f(r[i]) != f(r[j]) {
      if i > 0 && j > 0 {
        assert r[i] == t[i - 1] && r[j] == t[j - 1];
      }
    }
  }

  /** Insertion adds no `f` value other than that of `x`. */
  lemma {:induction false} InsertByKeyAvoids<T>(x: T, s: seq<T>, key: T -> int, f: T -> int, v: int)
    requires f(x) != v
    requires forall k :: 0 <= k < |s| ==> f(s[k]) != v
    ensures forall k :: 0 <= k < |InsertByKey(x, s, key)| ==> f(InsertByKey(x, s, key)[k]) != v
    decreases |s|
  {
    if s != [] && key(x) > key(s[0]) {
      var t := InsertByKey(x, s[1..], key);
      InsertByKeyAvoids(x, s[1..], key, f, v);
      assert InsertByKey(x, s, key) == [s[0]] + t;
    }
  }

  lemma {:induction false} InsertByKeyInjective<T>(x: T, s: seq<T>, key: T -> int, f: T -> int)
    requires Injective(s, f)
    requires forall k :: 0 <= k < |s| ==> f(s[k]) != f(x)
    ensures Injective(InsertByKey(x, s, key), f)
    decreases |s|
  {
    if s != [] && key(x) > key(s[0]) {
      var t := InsertByKey(x, s[1..], key);
      assert Injective(s[1..], f) by {
        assert forall k :: 0 <= k < |s| - 1 ==> s[1..][k] == s[k + 1];
      }
      InsertByKeyInjective(x, s[1..], key, f);
      assert forall k :: 0 <= k < |s| - 1 ==> f(s[1..][k]) != f(s[0]) by {
        assert forall k :: 0 <= k < |s| - 1 ==> s[1..][k] == s[k + 1];
      }
      InsertByKeyAvoids(x, s[1..], key, f, f(s[0]));
      ConsInjective(s[0], t, f);
      assert InsertByKey(x, s, key) == [s[0]] + t;
    } else if s != [] {
      ConsInjective(x, s, f);
    }
  }

  lemma {:induction false} SortByInjective<T>(s: seq<T>, key: T -> int, f: T -> int)
    requires Injective(s, f)
    ensures Injective(SortBy(s, key), f)
    decreases |s|
  {
    if s != [] {
      var t := SortBy(s[1..], key);
      SortByInjective(s[1..], key, f);
      SortByMultiset(s[1..], key);
      forall k | 0 <= k < |t| ensures f(t[k]) != f(s[0]) {
        assert t[k] in multiset(t);
        assert t[k] in multiset(s[1..]);
        var m :| 0 <= m < |s[1..]| && s[1..][m] == t[k];
        assert s[m + 1] == t[k];
      }
      InsertByKeyInjective(s[0], t, key, f);
    }
  }

  /** Applies `f` to every element. */
  function MapSeq<T, U>(s: seq<T>, f: T -> U): (r: seq<U>)
    ensures |r| == |s|
    ensures forall k :: 0 <= k < |s| ==> r[k] == f(s[k])
  {
    seq(|s|, k requires 0 <= k < |s| => f(s[k]))
  }

  lemma {:induction false} MapSeqInsert<T, U>(x: T, s: seq<T>, key: T -> int, f: T -> U)
    ensures multiset(MapSeq(InsertByKey(x, s, key), f)) == multiset(MapSeq(s, f)) + multiset{f(x)}
    decreases |s|
  {
    if s == [] {
    } else if key(x) <= key(s[0]) {
      assert MapSeq([x] + s, f) == [f(x)] + MapSeq(s, f);
    } else {
      MapSeqInsert(x, s[1..], key, f);
      assert MapSeq([s[0]] + InsertByKey(x, s[1..], key), f)
          == [f(s[0])] + MapSeq(InsertByKey(x, s[1..], key), f);
      assert MapSeq(s, f) == [f(s[0])] + MapSeq(s[1..], f);
    }
  }

  /** Sorting permutes the images under any `f`. */
  lemma {:induction false} MapSeqSort<T, U>(s: seq<T>, key: T -> int, f: T -> U)
    ensures multiset(MapSeq(SortBy(s, key), f)) == multiset(MapSeq(s, f))
    decreases |s|
  {
    if s != [] {
      MapSeqSort(s[1..], key, f);
      MapSeqInsert(s[0], SortBy(s[1..], key), key, f);
      assert MapSeq(s, f) == [f(s[0])] + MapSeq(s[1..], f);
    }
  }

  // ---------------------------------------------------------------------
  // Sums and flattening
  // ---------------------------------------------------------------------

  /** Sum of `f` over a sequence. */
  function SumInt<T>(s: seq<T>, f: T -> int): int {
    if s == [] then 0 else f(s[0]) + SumInt(s[1..], f)
  }

  lemma {:induction false} SumIntConcat<T>(a: seq<T>, b: seq<T>, f: T -> int)
    ensures SumInt(a + b, f) == SumInt(a, f) + SumInt(b, f)
    decreases |a|
  {
    if a == [] {
      assert a + b == b;
    } else {
      assert (a + b)[0] == a[0];
      assert (a + b)[1..] == a[1..] + b;
      SumIntConcat(a[1..], b, f);
    }
  }

  /** Inserting into a sorted sequence adds the element's term to the sum. */
  lemma {:induction false} SumIntInsert<T>(x: T, s: seq<T>, key: T -> int, f: T -> int)
    ensures SumInt(InsertByKey(x, s, key), f) == f(x) + SumInt(s, f)
    decreases |s|
  {
    if s != [] && key(x) > key(s[0]) {
      SumIntInsert(x, s[1..], key, f);
    }
  }

  /** Sorting does not change a sum. */
  lemma {:induction false} SumIntSort<T>(s: seq<T>, key: T -> int, f: T -> int)
    ensures SumInt(SortBy(s, key), f) == SumInt(s, f)
    decreases |s|
  {
    if s != [] {
      SumIntSort(s[1..], key, f);
      SumIntInsert(s[0], SortBy(s[1..], key), key, f);
    }
  }

  /** Two sums agree when their terms agree position by position. */
  lemma {:induction false} SumIntPointwise<A, B>(a: seq<A>, b: seq<B>, f: A -> int, g: B -> int)
    requires |a| == |b| && forall k :: 0 <= k < |a| ==> f(a[k]) == g(b[k])
    ensures SumInt(a, f) == SumInt(b, g)
    decreases |a|
  {
    if a != [] {
      SumIntPointwise(a[1..], b[1..], f, g);
    }
  }

  /** Concatenation of a sequence of sequences, in order. */
  function Flatten<T>(ss: seq<seq<T>>): seq<T> {
    if ss == [] then [] else ss[0] + Flatten(ss[1..])
  }

  lemma {:induction false} InFlatten<T>(ss: seq<seq<T>>, x: T)
    ensures x in Flatten(ss) <==> exists i :: 0 <= i < |ss| && x in ss[i]
    decreases |ss|
  {
    if ss != [] {
      InFlatten(ss[1..], x);
      if x in Flatten(ss[1..]) {
        var i :| 0 <= i < |ss[1..]| && x in ss[1..][i];
        assert x in ss[i + 1];
      }
      if exists i :: 0 <= i < |ss| && x in ss[i] {
        var i :| 0 <= i < |ss| && x in ss[i];
        if i > 0 { assert x in ss[1..][i - 1]; }
      }
    }
  }

  /** Elements of `s` satisfying `p`, in order. */
  function Filter<T>(s: seq<T>, p: T -> bool): (r: seq<T>)
    ensures |r| <= |s|
    ensures forall k :: 0 <= k < |r| ==> r[k] in s && p(r[k])
    ensures forall k :: 0 <= k < |s| && p(s[k]) ==> s[k] in r
  {
    if s == [] then []
    else
      assert s == [s[0]] + s[1..];
      (if p(s[0]) then [s[0]] else []) + Filter(s[1..], p)
  }

  /** Filtering distributes over concatenation: the kept elements of each
      part stay in their order. */
  lemma {:induction false} FilterConcat<T>(a: seq<T>, b: seq<T>, p: T -> bool)
    ensures Filter(a + b, p) == Filter(a, p) + Filter(b, p)
    decreases |a|
  {
    if a == [] {
      assert a + b == b;
    } else {
      assert (a + b)[0] == a[0];
      assert (a + b)[1..] == a[1..] + b;
      FilterConcat(a[1..], b, p);
    }
  }

  /** A sequence whose every element passes is kept whole. */
  lemma {:induction false} FilterAll<T>(s: seq<T>, p: T -> bool)
    requires forall k :: 0 <= k < |s| ==> p(s[k])
    ensures Filter(s, p) == s
    decreases |s|
  {
    if s != [] {
      FilterAll(s[1..], p);
    }
  }

  function Min(a: int, b: int): int { if a < b then a else b }
  function Max(a: int, b: int): int { if a > b then a else b }
  function Abs(a: int): int { if a < 0 then -a else a }
}

=== FILE: controller.dfy ===
/** Controller pieces both tabu-search drivers share: the fan-in of the
    per-route calculator results, the purge of expired tabu items, the
    signed feasibility streak, the random tabu tenure and the excess of a
    whole route list. */
module Controls {
  import opened Common
  import opened Routes
  import opened RouteModel
  import opened RouteLists
  import opened Scans
  import opened Calculators

  // ---------------------------------------------------------------------
  // Fan-in of the calculator results
  // ---------------------------------------------------------------------

  /** `a < b` on doubles where +∞ is `PosInf`: false whenever `a` is +∞. */
  predicate Less(a: ExtReal, b: ExtReal) {
    a.Finite? && (b.PosInf? || a.v < b.v)
  }

  /** The loop over the futures from index `i` on, with the best result so
      far `acc`: a result replaces it only when strictly smaller. */
  function FanInFrom<T>(rs: seq<Best<T>>, i: nat, acc: Best<T>): Best<T>
    requires i <= |rs|
    decreases |rs| - i
  {
    if i == |rs| then acc
    else FanInFrom(rs, i + 1, if Less(rs[i].objective, acc.objective) then rs[i] else acc)
  }

  /** `findBestInsertion`, `findBestSwap`, `searchNeighborhood`: the
      reduction of the per-route results, starting from (null, +∞). */
  function FanIn<T>(rs: seq<Best<T>>): Best<T> {
    FanInFrom(rs, 0, Best(None, PosInf))
  }

  /** Result `k` has the least objective among the first `n`, every earlier
      one is strictly worse, and it is finite. */
  predicate FirstMinUpTo<T>(rs: seq<Best<T>>, n: nat, k: nat) {
    && k < n <= |rs| && rs[k].objective.Finite?
    && (forall j :: 0 <= j < n ==> rs[k].objective.Le(rs[j].objective))
    && (forall j :: 0 <= j < k ==> Less(rs[k].objective, rs[j].objective))
  }

  /** What the reduction holds after the first `n` results. */
  ghost predicate Reduced<T>(rs: seq<Best<T>>, n: nat, acc: Best<T>) {
    || (acc == Best(None, PosInf) && n <= |rs| && forall j :: 0 <= j < n ==> rs[j].objective.PosInf?)
    || (exists k :: 0 <= k && FirstMinUpTo(rs, n, k) && acc == rs[k])
  }

  /** One more result keeps the reduction's invariant. */
  lemma ReducedStep<T>(rs: seq<Best<T>>, i: nat, acc: Best<T>)
    requires i < |rs| && Reduced(rs, i, acc)
    ensures Reduced(rs, i + 1, if Less(rs[i].objective, acc.objective) then rs[i] else acc)
  {
    if acc == Best(None, PosInf) && forall j :: 0 <= j < i ==> rs[j].objective.PosInf? {
      if rs[i].objective.Finite? {
        assert FirstMinUpTo(rs, i + 1, i);
      }
    } else {
      var k :| 0 <= k && FirstMinUpTo(rs, i, k) && acc == rs[k];
      if Less(rs[i].objective, acc.objective) {
        assert FirstMinUpTo(rs, i + 1, i);
      } else {
        assert FirstMinUpTo(rs, i + 1, k);
      }
    }
  }

  lemma {:induction false} FanInFromReduces<T>(rs: seq<Best<T>>, i: nat, acc: Best<T>)
    requires i <= |rs| && Reduced(rs, i, acc)
    ensures Reduced(rs, |rs|, FanInFrom(rs, i, acc))
    decreases |rs| - i
  {
    if i < |rs| {
      ReducedStep(rs, i, acc);
      FanInFromReduces(rs, i + 1, if Less(rs[i].objective, acc.objective) then rs[i] else acc);
    }
  }

  /** The reduction keeps the first result with the strictly smallest
      objective, and (null, +∞) when every result is +∞. */
  lemma FanInSpec<T>(rs: seq<Best<T>>)
    ensures var r := FanIn(rs);
      || (r == Best(None, PosInf) && forall j :: 0 <= j < |rs| ==> rs[j].objective.PosInf?)
      || (exists k :: 0 <= k && FirstMinUpTo(rs, |rs|, k) && r == rs[k])
  {
    FanInFromReduces(rs, 0, Best(None, PosInf));
  }

  /** A calculator result is consistent when it has an interchange exactly
      when its objective is finite. */
  predicate Consistent<T>(b: Best<T>) {
    b.found.None? <==> b.objective.PosInf?
  }

  /** Over consistent results, the reduction is null exactly when every
      calculator found nothing, and otherwise it is the interchange some
      calculator found. */
  lemma FanInFound<T>(rs: seq<Best<T>>)
    requires forall j :: 0 <= j < |rs| ==> Consistent(rs[j])
    ensures FanIn(rs).found.None? <==> forall j :: 0 <= j < |rs| ==> rs[j].found.None?
    ensures FanIn(rs).found.Some? ==>
      exists k :: 0 <= k < |rs| && rs[k].found.Some? && FanIn(rs).found.value == rs[k].found.value
  {
    FanInSpec(rs);
    var r := FanIn(rs);
    if exists k :: 0 <= k && FirstMinUpTo(rs, |rs|, k) && r == rs[k] {
      var k :| 0 <= k && FirstMinUpTo(rs, |rs|, k) && r == rs[k];
      assert Consistent(rs[k]);
    }
  }

  // ---------------------------------------------------------------------
  // Short-term memory
  // ---------------------------------------------------------------------

  function Unexpired(iteration: int): TabuItem -> bool {
    (item: TabuItem) => item.expiration >= iteration
  }

  /** `shortTermMemory.removeIf(expirationIteration < currentIteration)`. */
  function Purge(memory: seq<TabuItem>, iteration: int): (r: seq<TabuItem>)
    ensures |r| <= |memory|
    ensures forall k :: 0 <= k < |r| ==> r[k] in memory && r[k].expiration >= iteration
    ensures forall k :: 0 <= k < |memory| && memory[k].expiration >= iteration ==> memory[k] in r
  {
    Filter(memory, Unexpired(iteration))
  }

  /** Purging items appended later leaves the purge of the earlier ones in
      front: the order of the memory is kept. */
  lemma PurgeConcat(a: seq<TabuItem>, b: seq<TabuItem>, iteration: int)
    ensures Purge(a + b, iteration) == Purge(a, iteration) + Purge(b, iteration)
  {
    FilterConcat(a, b, Unexpired(iteration));
  }

  /** A memory with nothing expired is kept as is; in particular a second
      purge in the same iteration changes nothing. */
  lemma PurgeIdempotent(memory: seq<TabuItem>, iteration: int)
    ensures Purge(Purge(memory, iteration), iteration) == Purge(memory, iteration)
  {
    var r := Purge(memory, iteration);
    FilterAll(r, Unexpired(iteration));
  }

  /** `getRandomTabuTenure`: `nextInt(max - min + 1) + min`, where `draw` is
      the value `nextInt` returns; a non-positive bound throws. */
  function TabuTenure(minTenure: int, maxTenure: int, draw: int): (t: Result<int>)
    requires maxTenure - minTenure + 1 > 0 ==> 0 <= draw < maxTenure - minTenure + 1
    ensures t.Ok? <==> minTenure <= maxTenure
    ensures t.Err? ==> t.error == IllegalArgument
    ensures t.Ok? ==> minTenure <= t.value <= maxTenure
  {
    if maxTenure - minTenure + 1 <= 0 then Err(IllegalArgument) else Ok(draw + minTenure)
  }

  // ---------------------------------------------------------------------
  // Feasibility streak
  // ---------------------------------------------------------------------

  /** `lastFeasibleIterations` / `numLastFeasible` after an iteration whose
      route list is feasible or not. */
  function NextStreak(streak: int, feasible: bool): (r: int)
    ensures r != 0 && (r > 0 <==> feasible)
  {
    if feasible then (if streak > 0 then streak + 1 else 1)
    else (if streak < 0 then streak - 1 else -1)
  }

  /** The streak after a history of iterations, starting from 1. */
  function StreakOf(history: seq<bool>): int {
    if history == [] then 1 else NextStreak(StreakOf(history[..|history| - 1]), history[|history| - 1])
  }

  /** How many of the last entries of `history` equal `b`. */
  function TrailingRun(history: seq<bool>, b: bool): (n: nat)
    ensures n <= |history|
  {
    if history == [] || history[|history| - 1] != b then 0
    else 1 + TrailingRun(history[..|history| - 1], b)
  }

  /** The streak counts the current run of equal feasibility outcomes, with
      its sign telling which; the initial value 1 counts as one more
      feasible iteration before the first. */
  lemma {:induction false} StreakCountsRun(history: seq<bool>)
    ensures history == [] ==> StreakOf(history) == 1
    ensures history != [] && history[|history| - 1] ==>
      StreakOf(history) == TrailingRun(history, true) + (if TrailingRun(history, true) == |history| then 1 else 0)
    ensures history != [] && !history[|history| - 1] ==>
      StreakOf(history) == -(TrailingRun(history, false) as int)
    decreases |history|
  {
    if history != [] {
      var h := history[..|history| - 1];
      StreakCountsRun(h);
      var b := history[|history| - 1];
      if h != [] && h[|h| - 1] != b {
        assert TrailingRun(history, b) == 1;
      }
    }
  }

  // ---------------------------------------------------------------------
  // Excess of a whole route list
  // ---------------------------------------------------------------------

  /** `calculateExcessCapacity(routeList)` of the drivers: the excess of
      every route's cached demand, summed. */
  method RouteListExcess(capacity: int, rl: RouteList) returns (x: int)
    ensures x == TotalExcess(capacity, Demands(rl.routes))
    ensures x >= 0
    ensures x == 0 <==> forall k :: 0 <= k < |rl.routes| ==> rl.routes[k].demand <= capacity
  {
    ghost var ds := Demands(rl.routes);
    x := 0;
    var k := |rl.routes|;
    while k > 0
      invariant 0 <= k <= |rl.routes|
      invariant x == TotalExcess(capacity, ds[k..])
    {
      k := k - 1;
      assert ds[k..][1..] == ds[k + 1..];
      if capacity < rl.routes[k].demand {
        x := x + (rl.routes[k].demand - capacity);
      }
    }
    assert ds[0..] == ds;
    TotalExcessZero(capacity, ds);
  }

  /** The excess of a route list, as a value. */
  function ListExcess(capacity: int, rl: RouteList): int {
    TotalExcess(capacity, Demands(rl.routes))
  }

  /** A route list is feasible when no route exceeds the capacity. */
  predicate Feasible(capacity: int, rl: RouteList) {
    forall k :: 0 <= k < |rl.routes| ==> rl.routes[k].demand <= capacity
  }

  lemma ListExcessZero(capacity: int, rl: RouteList)
    ensures ListExcess(capacity, rl) >= 0
    ensures ListExcess(capacity, rl) == 0 <==> Feasible(capacity, rl)
  {
    TotalExcessZero(capacity, Demands(rl.routes));
  }

  // ---------------------------------------------------------------------
  // Optimising single routes of the list
  // ---------------------------------------------------------------------

  /** `routeList.length += routes.get(k).optimize(...)`: the route is
      replaced by its optimised version and the returned gain is added to
      the cached length; a missing route throws. */
  function Polish(optimize: Route -> Optimized, rl: RouteList, k: int): (r: Result<RouteList>)
    ensures r.Err? <==> !(0 <= k < |rl.routes|)
    ensures r.Err? ==> r.error == IndexOutOfBounds
    ensures r.Ok? ==> |r.value.routes| == |rl.routes|
    ensures r.Ok? ==> forall j :: 0 <= j < |rl.routes| && j != k ==> r.value.routes[j] == rl.routes[j]
  {
    if 0 <= k < |rl.routes| then
      var o := optimize(rl.routes[k]);
      Ok(RouteList(rl.routes[k := o.route], rl.length + o.gain))
    else Err(IndexOutOfBounds)
  }

  /** What `Route.optimize` guarantees: the demand is kept and the returned
      gain is never positive. */
  ghost predicate Polisher(optimize: Route -> Optimized) {
    forall r :: optimize(r).route.demand == r.demand && optimize(r).gain <= 0.0
  }

  /** Optimising a route keeps every demand and never lengthens the list. */
  lemma PolishKeepsDemands(optimize: Route -> Optimized, rl: RouteList, k: int)
    requires Polisher(optimize) && 0 <= k < |rl.routes|
    ensures Demands(Polish(optimize, rl, k).value.routes) == Demands(rl.routes)
    ensures Polish(optimize, rl, k).value.length <= rl.length
  {
    var o := optimize(rl.routes[k]);
    assert o.route.demand == rl.routes[k].demand && o.gain <= 0.0;
  }

  /** When the draw falls below `chance`, both routes of the move are
      optimised before the list becomes the incumbent. */
  function PolishPair(optimize: Route -> Optimized, rl: RouteList, idx1: int, idx2: int,
                      draw: real, chance: real): (r: Result<RouteList>)
    ensures r.Ok? ==> |r.value.routes| == |rl.routes|
    ensures r.Err? ==> draw < chance && !(0 <= idx1 < |rl.routes| && 0 <= idx2 < |rl.routes|)
    ensures draw >= chance ==> r == Ok(rl)
  {
    if draw < chance then
      match Polish(optimize, rl, idx1)
      case Err(e) => Err(e)
      case Ok(p) => Polish(optimize, p, idx2)
    else Ok(rl)
  }

  lemma PolishPairKeepsDemands(optimize: Route -> Optimized, rl: RouteList, idx1: int, idx2: int,
                               draw: real, chance: real)
    requires Polisher(optimize)
    requires PolishPair(optimize, rl, idx1, idx2, draw, chance).Ok?
    ensures Demands(PolishPair(optimize, rl, idx1, idx2, draw, chance).value.routes) == Demands(rl.routes)
    ensures PolishPair(optimize, rl, idx1, idx2, draw, chance).value.length <= rl.length
  {
    if draw < chance {
      PolishKeepsDemands(optimize, rl, idx1);
      PolishKeepsDemands(optimize, Polish(optimize, rl, idx1).value, idx2);
    }
  }

  /** What `optimize` guarantees when the tour the solver returns is
      measured on the same matrix: the returned gain is exactly the change
      of the route's length (see `AcceptTourLength`). */
  ghost predicate ExactPolisher(d: Dist, optimize: Route -> Optimized) {
    forall r :: Len(d, optimize(r).route.customers) == Len(d, r.customers) + optimize(r).gain
  }

  /** Optimising a route keeps the cached length equal to the sum of the
      route lengths. */
  lemma PolishKeepsLength(d: Dist, optimize: Route -> Optimized, rl: RouteList, k: int)
    requires ExactPolisher(d, optimize) && 0 <= k < |rl.routes|
    requires rl.length == TotalLength(d, rl.routes)
    ensures Polish(optimize, rl, k).value.length == TotalLength(d, Polish(optimize, rl, k).value.routes)
  {
    TotalLengthUpdate(d, rl.routes, k, optimize(rl.routes[k]).route);
  }

  lemma PolishPairKeepsLength(d: Dist, optimize: Route -> Optimized, rl: RouteList, idx1: int, idx2: int,
                              draw: real, chance: real)
    requires ExactPolisher(d, optimize) && rl.length == TotalLength(d, rl.routes)
    requires PolishPair(optimize, rl, idx1, idx2, draw, chance).Ok?
    ensures PolishPair(optimize, rl, idx1, idx2, draw, chance).value.length
         == TotalLength(d, PolishPair(optimize, rl, idx1, idx2, draw, chance).value.routes)
  {
    if draw < chance {
      PolishKeepsLength(d, optimize, rl, idx1);
      PolishKeepsLength(d, optimize, Polish(optimize, rl, idx1).value, idx2);
    }
  }

  /** What `Route.optimize` guarantees when the solver's tour visits every
      customer of the route once: the route keeps its customers, possibly
      in a new order. */
  ghost predicate KeepsCustomers(optimize: Route -> Optimized) {
    forall r :: multiset(optimize(r).route.customers) == multiset(r.customers)
  }

  /** The route list holds exactly the customer visits `cs`, and every
      cached demand is the true demand of its route's customers. */
  predicate Intact(demandOf: int -> int, cs: multiset<int>, rl: RouteList) {
    AllCustomers(rl.routes) == cs && DemandsConsistent(demandOf, rl.routes)
  }

  /** Optimising a route keeps the list's customers and its consistent
      demand caches. */
  lemma PolishKeepsIntact(demandOf: int -> int, cs: multiset<int>, optimize: Route -> Optimized, rl: RouteList, k: int)
    requires Polisher(optimize) && KeepsCustomers(optimize) && 0 <= k < |rl.routes|
    requires Intact(demandOf, cs, rl)
    ensures Intact(demandOf, cs, Polish(optimize, rl, k).value)
  {
    var r := rl.routes[k];
    var o := optimize(r).route;
    var p := Polish(optimize, rl, k).value;
    assert multiset(o.customers) == multiset(r.customers) && o.demand == r.demand;
    AllCustomersUpdate(rl.routes, k, o);
    DemandOfPerm(demandOf, o.customers, r.customers);
    forall c ensures AllCustomers(p.routes)[c] == AllCustomers(rl.routes)[c] {
      assert (AllCustomers(p.routes) + multiset(r.customers))[c] == (AllCustomers(rl.routes) + multiset(o.customers))[c];
    }
  }

  lemma PolishPairKeepsIntact(demandOf: int -> int, cs: multiset<int>, optimize: Route -> Optimized, rl: RouteList,
                              idx1: int, idx2: int, draw: real, chance: real)
    requires Polisher(optimize) && KeepsCustomers(optimize) && Intact(demandOf, cs, rl)
    requires PolishPair(optimize, rl, idx1, idx2, draw, chance).Ok?
    ensures Intact(demandOf, cs, PolishPair(optimize, rl, idx1, idx2, draw, chance).value)
  {
    if draw < chance {
      PolishKeepsIntact(demandOf, cs, optimize, rl, idx1);
      PolishKeepsIntact(demandOf, cs, optimize, Polish(optimize, rl, idx1).value, idx2);
    }
  }

  // ---------------------------------------------------------------------
  // Fan-in of best-over-a-set results
  // ---------------------------------------------------------------------

  /** The union of the per-route candidate sets. */
  function Union<T>(n: int, sets: int -> (T -> bool)): T -> bool {
    c => exists i :: 0 <= i < n && sets(i)(c)
  }

  /** When every per-route result is the best over its route's candidates,
      the fan-in is the best over all of them: the neighbourhood search
      finds the globally best admitted interchange. */
  lemma FanInBestOf<T(!new)>(p: Policy, ev: T -> Eval, sets: int -> (T -> bool), rs: seq<Best<T>>)
    requires forall i :: 0 <= i < |rs| ==> BestOf(p, ev, sets(i), rs[i])
    ensures BestOf(p, ev, Union(|rs|, sets), FanIn(rs))
  {
    FanInSpec(rs);
    var r := FanIn(rs);
    var all := Union(|rs|, sets);
    if exists k :: 0 <= k && FirstMinUpTo(rs, |rs|, k) && r == rs[k] {
      var k :| 0 <= k && FirstMinUpTo(rs, |rs|, k) && r == rs[k];
      assert BestOf(p, ev, sets(k), rs[k]);
      var b := rs[k].found.value;
      assert all(b);
      forall c | all(c) && Admits(p, ev(c)) ensures ev(b).objective <= ev(c).objective {
        var i :| 0 <= i < |rs| && sets(i)(c);
        assert BestOf(p, ev, sets(i), rs[i]);
        assert rs[k].objective.Le(rs[i].objective);
      }
    } else {
      forall c | all(c) ensures !Admits(p, ev(c)) {
        var i :| 0 <= i < |rs| && sets(i)(c);
        assert BestOf(p, ev, sets(i), rs[i]);
      }
    }
  }
}

=== FILE: edge_deltas.dfy ===
/** `EdgeDeltaCalculators`: the change in total route length caused by a
    (1,0), (1,1) or (2,2) interchange, computed from the handful of edges
    the move touches. Each formula is proved equal to the naive delta, the
    length difference after actually performing the raw interchange. */
module EdgeDeltas {
  import opened Common
  import opened Routes
  import opened Interchanges
  import opened RawInterchange

  /** Position `i` holds a customer with a neighbour on each side. */
  predicate Interior(r: seq<int>, i: int) { 1 <= i <= |r| - 2 }

  /** Position `j` lies between two customers of `r` (a place to insert). */
  predicate Gap(r: seq<int>, j: int) { 1 <= j <= |r| - 1 }

  /** `naiveDelta`: perform the interchange on copies of both routes and
      compare the recomputed lengths; `None` when the interchange throws. */
  function NaiveDelta(d: Dist, r1: seq<int>, r2: seq<int>, ic: Interchange): Option<real> {
    match ApplyRaw(r1, r2, ic.list1, ic.list2)
    case Some(o) => Some(Len(d, o.route1) - Len(d, r1) + Len(d, o.route2) - Len(d, r2))
    case None => None
  }

  /** The naive delta of an interchange whose resulting routes are known. */
  lemma NaiveDeltaFrom(d: Dist, r1: seq<int>, r2: seq<int>, ic: Interchange,
                       n1: seq<int>, n2: seq<int>, x: real)
    requires ApplyRaw(r1, r2, ic.list1, ic.list2).Some?
    requires ApplyRaw(r1, r2, ic.list1, ic.list2).value.route1 == n1
    requires ApplyRaw(r1, r2, ic.list1, ic.list2).value.route2 == n2
    requires x == (Len(d, n1) - Len(d, r1)) + (Len(d, n2) - Len(d, r2))
    ensures NaiveDelta(d, r1, r2, ic).Some?
    ensures NaiveDelta(d, r1, r2, ic).value == x
  {
  }

  // ---------------------------------------------------------------------
  // (1,0): one customer moves from route 1 into route 2
  // ---------------------------------------------------------------------

  predicate Domain0I(r1: seq<int>, r2: seq<int>, ic: Interchange) {
    ic.Shape(1, 0) && Interior(r1, ic.list1[0].from) && Gap(r2, ic.list1[0].to)
  }

  /** `delta0I`: three edges appear, three disappear. */
  function Delta0I(d: Dist, r1: seq<int>, r2: seq<int>, ic: Interchange): real
    requires Domain0I(r1, r2, ic)
  {
    var ins := ic.list1[0];
    var c := r1[ins.from];
    var left, right := r1[ins.from - 1], r1[ins.from + 1];
    var newLeft, newRight := r2[ins.to - 1], r2[ins.to];
    var positive := d(c, newLeft) + d(c, newRight) + d(left, right);
    var negative := d(c, left) + d(c, right) + d(newLeft, newRight);
    positive - negative
  }

  lemma ApplyRaw0I(r1: seq<int>, r2: seq<int>, ic: Interchange)
    requires Domain0I(r1, r2, ic)
    ensures ApplyRaw(r1, r2, ic.list1, ic.list2).Some?
    ensures ApplyRaw(r1, r2, ic.list1, ic.list2).value.route1 == RemoveAt(r1, ic.list1[0].from)
    ensures ApplyRaw(r1, r2, ic.list1, ic.list2).value.route2 == InsertAt(r2, ic.list1[0].to, r1[ic.list1[0].from])
  {
    var ins := ic.list1[0];
    assert ic.list1 == [ins] && ic.list2 == [];
    SortOne(ins, DescFrom);
    var m := Moved(r1[ins.from], ins);
    RemoveAllOne(r1, ins);
    SortOne(m, MovedTo);
    InsertAllOne(r2, m);
    assert SortBy(ic.list2, DescFrom) == [];
    assert SortBy([], MovedTo) == [];
    var a1, a2 := (RemoveAt(r1, ins.from), [m]), (r2, []);
    assert RemoveAll(r2, []) == Some(a2);
    assert InsertAll(a1.0, []) == Some(a1.0);
    ApplyRawFrom(r1, r2, ic.list1, ic.list2, a1, a2, a1.0, InsertAt(r2, ins.to, m.customer));
  }

  /** The (1,0) formula is the exact length difference. */
  lemma Delta0IMatchesNaive(d: Dist, r1: seq<int>, r2: seq<int>, ic: Interchange)
    requires Symmetric(d)
    requires Domain0I(r1, r2, ic)
    ensures NaiveDelta(d, r1, r2, ic) == Some(Delta0I(d, r1, r2, ic))
  {
    var ins := ic.list1[0];
    var c := r1[ins.from];
    ApplyRaw0I(r1, r2, ic);
    LenRemove(d, r1, ins.from);
    LenInsert(d, r2, ins.to, c);
    SymmetricAt(d, r1[ins.from - 1], c);
    SymmetricAt(d, r2[ins.to - 1], c);
  }

  // ---------------------------------------------------------------------
  // (1,1): one customer of each route changes places with the other's
  // ---------------------------------------------------------------------

  predicate Domain1I(r1: seq<int>, r2: seq<int>, ic: Interchange) {
    && ic.Shape(1, 1)
    && Interior(r1, ic.list1[0].from) && Interior(r2, ic.list2[0].from)
    && 1 <= ic.list1[0].to <= |r2| - 2 && 1 <= ic.list2[0].to <= |r1| - 2
  }

  /** `delta1I`: the future neighbours are read from the original route,
      one position further right once past the removed customer. */
  function Delta1I(d: Dist, r1: seq<int>, r2: seq<int>, ic: Interchange): real
    requires Domain1I(r1, r2, ic)
  {
    var i1, i2 := ic.list1[0], ic.list2[0];
    var c1, c1l, c1r := r1[i1.from], r1[i1.from - 1], r1[i1.from + 1];
    var c2, c2l, c2r := r2[i2.from], r2[i2.from - 1], r2[i2.from + 1];
    var extraction := d(c1l, c1r) - d(c1l, c1) - d(c1r, c1) + d(c2l, c2r) - d(c2l, c2) - d(c2r, c2);
    var f1l := r2[if i1.to - 1 < i2.from then i1.to - 1 else i1.to];
    var f1r := r2[if i1.to < i2.from then i1.to else i1.to + 1];
    var f2l := r1[if i2.to - 1 < i1.from then i2.to - 1 else i2.to];
    var f2r := r1[if i2.to < i1.from then i2.to else i2.to + 1];
    var insertion := -d(f1l, f1r) + d(f1l, c1) + d(f1r, c1) - d(f2l, f2r) + d(f2l, c2) + d(f2r, c2);
    extraction + insertion
  }

  lemma ApplyRaw1I(r1: seq<int>, r2: seq<int>, ic: Interchange)
    requires Domain1I(r1, r2, ic)
    ensures ApplyRaw(r1, r2, ic.list1, ic.list2).Some?
    ensures ApplyRaw(r1, r2, ic.list1, ic.list2).value.route1
         == InsertAt(RemoveAt(r1, ic.list1[0].from), ic.list2[0].to, r2[ic.list2[0].from])
    ensures ApplyRaw(r1, r2, ic.list1, ic.list2).value.route2
         == InsertAt(RemoveAt(r2, ic.list2[0].from), ic.list1[0].to, r1[ic.list1[0].from])
  {
    var i1, i2 := ic.list1[0], ic.list2[0];
    assert ic.list1 == [i1] && ic.list2 == [i2];
    SortOne(i1, DescFrom);
    SortOne(i2, DescFrom);
    var m1, m2 := Moved(r1[i1.from], i1), Moved(r2[i2.from], i2);
    RemoveAllOne(r1, i1);
    RemoveAllOne(r2, i2);
    SortOne(m1, MovedTo);
    SortOne(m2, MovedTo);
    InsertAllOne(RemoveAt(r1, i1.from), m2);
    InsertAllOne(RemoveAt(r2, i2.from), m1);
    var a1, a2 := (RemoveAt(r1, i1.from), [m1]), (RemoveAt(r2, i2.from), [m2]);
    ApplyRawFrom(r1, r2, ic.list1, ic.list2, a1, a2,
                 InsertAt(a1.0, i2.to, m2.customer), InsertAt(a2.0, i1.to, m1.customer));
  }

  /** The length change of one route in a swap, with the neighbours at the
      insertion point read from the original route as `delta1I` reads them. */
  function SwapGain(d: Dist, r: seq<int>, f: int, t: int, c: int): real
    requires Interior(r, f) && 1 <= t <= |r| - 2
  {
    var left := r[if t - 1 < f then t - 1 else t];
    var right := r[if t < f then t else t + 1];
    - d(r[f - 1], r[f]) - d(r[f], r[f + 1]) + d(r[f - 1], r[f + 1])
    - d(left, right) + d(left, c) + d(c, right)
  }

  /** Losing the customer at `f` and receiving `c` at `t` of the shortened
      route changes the length by `SwapGain`. */
  lemma LenRemoveInsert(d: Dist, r: seq<int>, f: int, t: int, c: int)
    requires Interior(r, f) && 1 <= t <= |r| - 2
    ensures Len(d, InsertAt(RemoveAt(r, f), t, c)) - Len(d, r) == SwapGain(d, r, f, t, c)
  {
    var s := RemoveAt(r, f);
    LenRemove(d, r, f);
    LenInsert(d, s, t, c);
    assert s[t - 1] == r[if t - 1 < f then t - 1 else t];
    assert s[t] == r[if t < f then t else t + 1];
  }

  /** The (1,1) formula is the exact length difference. */
  lemma Delta1IMatchesNaive(d: Dist, r1: seq<int>, r2: seq<int>, ic: Interchange)
    requires Symmetric(d)
    requires Domain1I(r1, r2, ic)
    ensures NaiveDelta(d, r1, r2, ic) == Some(Delta1I(d, r1, r2, ic))
  {
    var i1, i2 := ic.list1[0], ic.list2[0];
    var c1, c2 := r1[i1.from], r2[i2.from];
    var n1 := InsertAt(RemoveAt(r1, i1.from), i2.to, c2);
    var n2 := InsertAt(RemoveAt(r2, i2.from), i1.to, c1);
    var g1, g2 := SwapGain(d, r1, i1.from, i2.to, c2), SwapGain(d, r2, i2.from, i1.to, c1);
    LenRemoveInsert(d, r1, i1.from, i2.to, c2);
    LenRemoveInsert(d, r2, i2.from, i1.to, c1);
    Delta1IArith(d, r1, r2, ic, g1, g2);
    ApplyRaw1I(r1, r2, ic);
    NaiveDeltaFrom(d, r1, r2, ic, n1, n2, Delta1I(d, r1, r2, ic));
  }

  /** The arithmetic step of `Delta1IMatchesNaive`: both per-route changes,
      written with the formula's neighbours, add up to `delta1I`. */
  lemma Delta1IArith(d: Dist, r1: seq<int>, r2: seq<int>, ic: Interchange, g1: real, g2: real)
    requires Symmetric(d)
    requires Domain1I(r1, r2, ic)
    requires g1 == SwapGain(d, r1, ic.list1[0].from, ic.list2[0].to, r2[ic.list2[0].from])
    requires g2 == SwapGain(d, r2, ic.list2[0].from, ic.list1[0].to, r1[ic.list1[0].from])
    ensures g1 + g2 == Delta1I(d, r1, r2, ic)
  {
    var i1, i2 := ic.list1[0], ic.list2[0];
    var c1, c2 := r1[i1.from], r2[i2.from];
    var f1r := r2[if i1.to < i2.from then i1.to else i1.to + 1];
    var f2r := r1[if i2.to < i1.from then i2.to else i2.to + 1];
    SymmetricAt(d, r1[i1.from - 1], c1);
    SymmetricAt(d, c1, r1[i1.from + 1]);
    SymmetricAt(d, r2[i2.from - 1], c2);
    SymmetricAt(d, c2, r2[i2.from + 1]);
    SymmetricAt(d, c1, f1r);
    SymmetricAt(d, c2, f2r);
  }

  // ---------------------------------------------------------------------
  // (2,2): two customers of each route move into the other
  // ---------------------------------------------------------------------

  predicate Domain2I(r1: seq<int>, r2: seq<int>, ic: Interchange) {
    && ic.Shape(2, 2)
    && Interior(r1, ic.list1[0].from) && Interior(r1, ic.list1[1].from)
    && Interior(r2, ic.list2[0].from) && Interior(r2, ic.list2[1].from)
    && ic.list1[0].from != ic.list1[1].from && ic.list2[0].from != ic.list2[1].from
    && 1 <= ic.list1[0].to <= |r2| - 2 && 1 <= ic.list1[1].to <= |r2| - 2
    && 1 <= ic.list2[0].to <= |r1| - 2 && 1 <= ic.list2[1].to <= |r1| - 2
    && ic.list1[0].to != ic.list1[1].to && ic.list2[0].to != ic.list2[1].to
  }

  /** Removes two distinct positions, the higher one first. */
  function RemoveTwo(r: seq<int>, i: int, j: int): (s: seq<int>)
    requires 0 <= i < |r| && 0 <= j < |r| && i != j
    ensures |s| == |r| - 2
  {
    RemoveAt(RemoveAt(r, Max(i, j)), Min(i, j))
  }

  /** Inserts two customers at distinct positions, the lower one first. */
  function InsertTwo(r: seq<int>, t1: int, c1: int, t2: int, c2: int): (s: seq<int>)
    requires 0 <= t1 <= |r| && 0 <= t2 <= |r| && t1 != t2
    ensures |s| == |r| + 2
  {
    if t1 < t2 then InsertAt(InsertAt(r, t1, c1), t2, c2)
    else InsertAt(InsertAt(r, t2, c2), t1, c1)
  }

  /** `extractionCost2I`: the length change of removing two customers,
      which share an edge when they are adjacent. */
  function ExtractionCost2I(d: Dist, r: seq<int>, ins1: Insertion, ins2: Insertion): real
    requires Interior(r, ins1.from) && Interior(r, ins2.from)
  {
    var c1, c1l, c1r := r[ins1.from], r[ins1.from - 1], r[ins1.from + 1];
    var c2, c2l, c2r := r[ins2.from], r[ins2.from - 1], r[ins2.from + 1];
    if Abs(ins1.from - ins2.from) > 1 then
      d(c1l, c1r) - d(c1l, c1) - d(c1, c1r) + d(c2l, c2r) - d(c2l, c2) - d(c2, c2r)
    else if ins1.from < ins2.from then
      d(c1l, c2r) - d(c1l, c1) - d(c2, c2r) - d(c1, c2)
    else
      d(c1r, c2l) - d(c1, c1r) - d(c2l, c2) - d(c1, c2)
  }

  /** The removal of the two positions, highest first, changes the length
      by exactly the extraction cost. */
  lemma ExtractionCost2IMatches(d: Dist, r: seq<int>, ins1: Insertion, ins2: Insertion)
    requires Symmetric(d)
    requires Interior(r, ins1.from) && Interior(r, ins2.from) && ins1.from != ins2.from
    ensures Len(d, RemoveTwo(r, ins1.from, ins2.from)) == Len(d, r) + ExtractionCost2I(d, r, ins1, ins2)
  {
    var hi, lo := Max(ins1.from, ins2.from), Min(ins1.from, ins2.from);
    var s := RemoveAt(r, hi);
    LenRemove(d, r, hi);
    LenRemove(d, s, lo);
    assert s[lo - 1] == r[lo - 1] && s[lo] == r[lo];
    if lo + 1 < hi {
      assert s[lo + 1] == r[lo + 1];
    } else {
      assert s[lo + 1] == r[lo + 2];
      SymmetricAt(d, r[lo], r[hi]);
      SymmetricAt(d, r[lo - 1], r[hi + 1]);
    }
  }

  /** `k + 1` past the first removed position, `+ 1` again past the second:
      the index in the original route of position `k` of the shortened one. */
  function Shift(k: int, lo: int, hi: int): (j: int)
    ensures k <= j <= k + 2
  {
    var k1 := if k >= lo then k + 1 else k;
    if k1 >= hi then k1 + 1 else k1
  }

  lemma RemoveTwoShift(r: seq<int>, i: int, j: int, k: int)
    requires 0 <= i < |r| && 0 <= j < |r| && i != j && 0 <= k < |r| - 2
    ensures RemoveTwo(r, i, j)[k] == r[Shift(k, Min(i, j), Max(i, j))]
  {
  }

  /** The indices (into the route before removal) of the future neighbours
      of the two inserted customers, as `insertionCost2I` computes them. */
  datatype Neighbours = Neighbours(left1: int, right1: int, left2: int, right2: int)

  /** Positions in the shortened route next to each insertion point: the
      code decrements the second index when the two insertions interact. */
  function ShortNeighbours(ins1: Insertion, ins2: Insertion): (p: Neighbours)
    ensures ins1.to < ins2.to ==> p == Neighbours(ins1.to - 1, ins1.to, ins2.to - 2, ins2.to - 1)
    ensures ins1.to >= ins2.to ==> p == Neighbours(ins1.to - 2, ins1.to - 1, ins2.to - 1, ins2.to)
  {
    if ins1.to < ins2.to then Neighbours(ins1.to - 1, ins1.to, ins2.to - 2, ins2.to - 1)
    else Neighbours(ins1.to - 2, ins1.to - 1, ins2.to - 1, ins2.to)
  }

  function FutureNeighbours(ins1: Insertion, ins2: Insertion, ex1: int, ex2: int): (n: Neighbours)
    ensures var p, lo, hi := ShortNeighbours(ins1, ins2), Min(ex1, ex2), Max(ex1, ex2);
      n == Neighbours(Shift(p.left1, lo, hi), Shift(p.right1, lo, hi), Shift(p.left2, lo, hi), Shift(p.right2, lo, hi))
  {
    var p, lo, hi := ShortNeighbours(ins1, ins2), Min(ex1, ex2), Max(ex1, ex2);
    Neighbours(Shift(p.left1, lo, hi), Shift(p.right1, lo, hi), Shift(p.left2, lo, hi), Shift(p.right2, lo, hi))
  }

  predicate InsertionDomain(into: seq<int>, ins1: Insertion, ins2: Insertion, ex1: int, ex2: int) {
    && Interior(into, ex1) && Interior(into, ex2) && ex1 != ex2
    && 1 <= ins1.to <= |into| - 2 && 1 <= ins2.to <= |into| - 2 && ins1.to != ins2.to
  }

  lemma FutureNeighboursInRange(into: seq<int>, ins1: Insertion, ins2: Insertion, ex1: int, ex2: int)
    requires InsertionDomain(into, ins1, ins2, ex1, ex2)
    ensures var n := FutureNeighbours(ins1, ins2, ex1, ex2);
      0 <= n.left1 < |into| && 0 <= n.right1 < |into| && 0 <= n.left2 < |into| && 0 <= n.right2 < |into|
  {
  }

  /** `insertionCost2I`: the length change of inserting `c1` at `ins1.to`
      and `c2` at `ins2.to` into the route after its own two removals. */
  function InsertionCost2I(d: Dist, into: seq<int>, ins1: Insertion, ins2: Insertion,
                           ex1: int, ex2: int, c1: int, c2: int): real
    requires InsertionDomain(into, ins1, ins2, ex1, ex2)
  {
    var n := FutureNeighbours(ins1, ins2, ex1, ex2);
    FutureNeighboursInRange(into, ins1, ins2, ex1, ex2);
    if Abs(ins1.to - ins2.to) > 1 then
      - d(into[n.left1], into[n.right1]) + d(into[n.left1], c1) + d(c1, into[n.right1])
      - d(into[n.left2], into[n.right2]) + d(into[n.left2], c2) + d(c2, into[n.right2])
    else
      var left, right := into[Max(n.left1, n.left2)], into[Min(n.right1, n.right2)];
      if ins1.to < ins2.to then
        -d(left, right) + d(left, c1) + d(c2, right) + d(c1, c2)
      else
        -d(left, right) + d(c1, right) + d(left, c2) + d(c1, c2)
  }

  /** Two insertions into `s`, the lower position first, seen from `s`. */
  lemma InsertPairFacts(s: seq<int>, ta: int, ca: int, tb: int, cb: int)
    requires 1 <= ta < tb <= |s|
    ensures var f := InsertAt(InsertAt(s, ta, ca), tb, cb);
      && f[ta] == ca && f[tb] == cb && f[ta - 1] == s[ta - 1] && f[tb + 1] == s[tb - 1]
      && (tb > ta + 1 ==> f[ta + 1] == s[ta] && f[tb - 1] == s[tb - 2])
  {
  }

  /** The length change of two insertions into `s`, the lower position
      first: two separate edge replacements, or one edge replaced by a
      three-edge path when the two positions are adjacent. */
  function InsertPairGain(d: Dist, s: seq<int>, ta: int, ca: int, tb: int, cb: int): real
    requires 1 <= ta < tb <= |s|
  {
    if tb > ta + 1 then
      - d(s[ta - 1], s[ta]) + d(s[ta - 1], ca) + d(ca, s[ta])
      - d(s[tb - 2], s[tb - 1]) + d(s[tb - 2], cb) + d(cb, s[tb - 1])
    else
      - d(s[ta - 1], s[ta]) + d(s[ta - 1], ca) + d(ca, cb) + d(cb, s[ta])
  }

  lemma InsertPairLen(d: Dist, s: seq<int>, ta: int, ca: int, tb: int, cb: int)
    requires 1 <= ta < tb <= |s|
    ensures Len(d, InsertAt(InsertAt(s, ta, ca), tb, cb)) - Len(d, s) == InsertPairGain(d, s, ta, ca, tb, cb)
  {
    var s1 := InsertAt(s, ta, ca);
    LenInsert(d, s, ta, ca);
    LenInsert(d, s1, tb, cb);
  }

  /** The future-neighbour indices read, in the original route, the
      customers of the shortened route around each insertion point. */
  lemma FutureNeighboursRead(into: seq<int>, ins1: Insertion, ins2: Insertion, ex1: int, ex2: int)
    requires InsertionDomain(into, ins1, ins2, ex1, ex2)
    ensures var s := RemoveTwo(into, ex1, ex2);
      var n, p := FutureNeighbours(ins1, ins2, ex1, ex2), ShortNeighbours(ins1, ins2);
      && 0 <= p.left1 < |s| && 0 <= p.right1 < |s| && 0 <= p.left2 < |s| && 0 <= p.right2 < |s|
      && into[n.left1] == s[p.left1] && into[n.right1] == s[p.right1]
      && into[n.left2] == s[p.left2] && into[n.right2] == s[p.right2]
  {
    var p := ShortNeighbours(ins1, ins2);
    RemoveTwoShift(into, ex1, ex2, p.left1);
    RemoveTwoShift(into, ex1, ex2, p.right1);
    RemoveTwoShift(into, ex1, ex2, p.left2);
    RemoveTwoShift(into, ex1, ex2, p.right2);
  }

  /** `insertionCost2I` is the pair gain at the two insertion points of the
      shortened route. */
  lemma InsertionCost2IIsPairGain(d: Dist, into: seq<int>, ins1: Insertion, ins2: Insertion,
                                  ex1: int, ex2: int, c1: int, c2: int)
    requires Symmetric(d)
    requires InsertionDomain(into, ins1, ins2, ex1, ex2)
    ensures var s := RemoveTwo(into, ex1, ex2);
      InsertionCost2I(d, into, ins1, ins2, ex1, ex2, c1, c2)
        == if ins1.to < ins2.to then InsertPairGain(d, s, ins1.to, c1, ins2.to, c2)
           else InsertPairGain(d, s, ins2.to, c2, ins1.to, c1)
  {
    var s := RemoveTwo(into, ex1, ex2);
    var n, p := FutureNeighbours(ins1, ins2, ex1, ex2), ShortNeighbours(ins1, ins2);
    FutureNeighboursRead(into, ins1, ins2, ex1, ex2);
    var t1, t2 := ins1.to, ins2.to;
    if Abs(t1 - t2) > 1 {
      PairGainApart(d, into, ins1, ins2, ex1, ex2, c1, c2);
    } else {
      assert p.left1 == p.left2 && p.right1 == p.right2;
      assert n.left1 == n.left2 && n.right1 == n.right2;
      var left, right := into[n.left1], into[n.right1];
      assert InsertionCost2I(d, into, ins1, ins2, ex1, ex2, c1, c2)
          == if t1 < t2 then -d(left, right) + d(left, c1) + d(c2, right) + d(c1, c2)
             else -d(left, right) + d(c1, right) + d(left, c2) + d(c1, c2);
      SymmetricAt(d, c2, c1);
    }
  }

  lemma PairGainApart(d: Dist, into: seq<int>, ins1: Insertion, ins2: Insertion,
                      ex1: int, ex2: int, c1: int, c2: int)
    requires InsertionDomain(into, ins1, ins2, ex1, ex2) && Abs(ins1.to - ins2.to) > 1
    ensures var s := RemoveTwo(into, ex1, ex2);
      InsertionCost2I(d, into, ins1, ins2, ex1, ex2, c1, c2)
        == if ins1.to < ins2.to then InsertPairGain(d, s, ins1.to, c1, ins2.to, c2)
           else InsertPairGain(d, s, ins2.to, c2, ins1.to, c1)
  {
    FutureNeighboursRead(into, ins1, ins2, ex1, ex2);
  }

  /** Inserting the two customers changes the length of the shortened route
      by exactly the insertion cost. */
  lemma InsertionCost2IMatches(d: Dist, into: seq<int>, ins1: Insertion, ins2: Insertion,
                               ex1: int, ex2: int, c1: int, c2: int)
    requires Symmetric(d)
    requires InsertionDomain(into, ins1, ins2, ex1, ex2)
    ensures var s := RemoveTwo(into, ex1, ex2);
      Len(d, InsertTwo(s, ins1.to, c1, ins2.to, c2)) - Len(d, s) == InsertionCost2I(d, into, ins1, ins2, ex1, ex2, c1, c2)
  {
    var s := RemoveTwo(into, ex1, ex2);
    InsertionCost2IIsPairGain(d, into, ins1, ins2, ex1, ex2, c1, c2);
    if ins1.to < ins2.to {
      InsertPairLen(d, s, ins1.to, c1, ins2.to, c2);
    } else {
      InsertPairLen(d, s, ins2.to, c2, ins1.to, c1);
    }
  }

  /** `delta2I`: extraction and insertion cost of each route. */
  function Delta2I(d: Dist, r1: seq<int>, r2: seq<int>, ic: Interchange): real
    requires Domain2I(r1, r2, ic)
  {
    var i11, i12 := ic.list1[0], ic.list1[1];
    var i21, i22 := ic.list2[0], ic.list2[1];
    ExtractionCost2I(d, r1, i11, i12) + ExtractionCost2I(d, r2, i21, i22)
    + InsertionCost2I(d, r1, i21, i22, i11.from, i12.from, r2[i21.from], r2[i22.from])
    + InsertionCost2I(d, r2, i11, i12, i21.from, i22.from, r1[i11.from], r1[i12.from])
  }

  /** Removing two distinct positions through `RemoveAll` in decreasing order. */
  lemma RemoveAllTwo(r: seq<int>, a: Insertion, b: Insertion)
    requires 0 <= a.from < |r| && 0 <= b.from < |r| && a.from != b.from
    ensures RemoveAll(r, SortBy([a, b], DescFrom)).Some?
    ensures RemoveAll(r, SortBy([a, b], DescFrom)).value.0 == RemoveTwo(r, a.from, b.from)
    ensures RemoveAll(r, SortBy([a, b], DescFrom)).value.1
         == if a.from > b.from then [Moved(r[a.from], a), Moved(r[b.from], b)]
            else [Moved(r[b.from], b), Moved(r[a.from], a)]
  {
    SortTwo(a, b, DescFrom);
    var l := SortBy([a, b], DescFrom);
    if a.from > b.from {
      assert l == [a, b];
      RemoveAllDescending(r, a, b, l);
    } else {
      assert l == [b, a];
      RemoveAllDescending(r, b, a, l);
    }
  }

  /** `l` lists `hi` then `lo`, the higher position first. */
  lemma RemoveAllDescending(r: seq<int>, hi: Insertion, lo: Insertion, l: seq<Insertion>)
    requires 0 <= lo.from < hi.from < |r| && l == [hi, lo]
    ensures RemoveAll(r, l)
         == Some((RemoveTwo(r, hi.from, lo.from), [Moved(r[hi.from], hi), Moved(r[lo.from], lo)]))
  {
    var s := RemoveAt(r, hi.from);
    var mh, ml := Moved(r[hi.from], hi), Moved(r[lo.from], lo);
    var p := (RemoveAt(s, lo.from), [ml]);
    assert RemoveAll(s, [lo]) == Some(p) by {
      assert s[lo.from] == r[lo.from];
      RemoveAllOne(s, lo);
    }
    RemoveAllCons(r, hi, [lo]);
    assert l == [hi] + [lo];
    assert [mh] + p.1 == [mh, ml];
    assert RemoveTwo(r, hi.from, lo.from) == p.0;
  }

  /** Inserting two removed customers through `InsertAll` in increasing
      target order. */
  lemma InsertAllTwo(r: seq<int>, m1: Moved, m2: Moved)
    requires 0 <= m1.insertion.to <= |r| && 0 <= m2.insertion.to <= |r|
    requires m1.insertion.to != m2.insertion.to
    ensures InsertAll(r, SortBy([m1, m2], MovedTo))
         == Some(InsertTwo(r, m1.insertion.to, m1.customer, m2.insertion.to, m2.customer))
  {
    SortTwo(m1, m2, MovedTo);
    var a := if m1.insertion.to < m2.insertion.to then m1 else m2;
    var b := if m1.insertion.to < m2.insertion.to then m2 else m1;
    assert SortBy([m1, m2], MovedTo) == [a, b];
    assert [a, b][1..] == [b];
    var s := InsertAt(r, a.insertion.to, a.customer);
    InsertAllOne(s, b);
  }

  /** Inserting two moved customers does not depend on the order they were
      collected in. */
  lemma InsertAllTwoEither(r: seq<int>, ms: seq<Moved>, m1: Moved, m2: Moved)
    requires ms == [m1, m2] || ms == [m2, m1]
    requires 0 <= m1.insertion.to <= |r| && 0 <= m2.insertion.to <= |r|
    requires m1.insertion.to != m2.insertion.to
    ensures InsertAll(r, SortBy(ms, MovedTo))
         == Some(InsertTwo(r, m1.insertion.to, m1.customer, m2.insertion.to, m2.customer))
  {
    if ms == [m1, m2] {
      InsertAllTwo(r, m1, m2);
    } else {
      InsertAllTwo(r, m2, m1);
    }
  }

  lemma ApplyRaw2I(r1: seq<int>, r2: seq<int>, ic: Interchange)
    requires Domain2I(r1, r2, ic)
    ensures ApplyRaw(r1, r2, ic.list1, ic.list2).Some?
    ensures ApplyRaw(r1, r2, ic.list1, ic.list2).value.route1
         == InsertTwo(RemoveTwo(r1, ic.list1[0].from, ic.list1[1].from),
                      ic.list2[0].to, r2[ic.list2[0].from], ic.list2[1].to, r2[ic.list2[1].from])
    ensures ApplyRaw(r1, r2, ic.list1, ic.list2).value.route2
         == InsertTwo(RemoveTwo(r2, ic.list2[0].from, ic.list2[1].from),
                      ic.list1[0].to, r1[ic.list1[0].from], ic.list1[1].to, r1[ic.list1[1].from])
  {
    var i11, i12, i21, i22 := ic.list1[0], ic.list1[1], ic.list2[0], ic.list2[1];
    assert ic.list1 == [i11, i12] && ic.list2 == [i21, i22];
    RemoveAllTwo(r1, i11, i12);
    RemoveAllTwo(r2, i21, i22);
    var a1 := RemoveAll(r1, SortBy(ic.list1, DescFrom)).value;
    var a2 := RemoveAll(r2, SortBy(ic.list2, DescFrom)).value;
    var c11, c12, c21, c22 := r1[i11.from], r1[i12.from], r2[i21.from], r2[i22.from];
    InsertAllTwoEither(a1.0, a2.1, Moved(c21, i21), Moved(c22, i22));
    InsertAllTwoEither(a2.0, a1.1, Moved(c11, i11), Moved(c12, i12));
    ApplyRawFrom(r1, r2, ic.list1, ic.list2, a1, a2,
                 InsertTwo(a1.0, i21.to, c21, i22.to, c22), InsertTwo(a2.0, i11.to, c11, i12.to, c12));
  }

  /** The (2,2) formula is the exact length difference. */
  lemma Delta2IMatchesNaive(d: Dist, r1: seq<int>, r2: seq<int>, ic: Interchange)
    requires Symmetric(d)
    requires Domain2I(r1, r2, ic)
    ensures NaiveDelta(d, r1, r2, ic) == Some(Delta2I(d, r1, r2, ic))
  {
    var i11, i12, i21, i22 := ic.list1[0], ic.list1[1], ic.list2[0], ic.list2[1];
    var s1, s2 := RemoveTwo(r1, i11.from, i12.from), RemoveTwo(r2, i21.from, i22.from);
    var n1 := InsertTwo(s1, i21.to, r2[i21.from], i22.to, r2[i22.from]);
    var n2 := InsertTwo(s2, i11.to, r1[i11.from], i12.to, r1[i12.from]);
    ExtractionCost2IMatches(d, r1, i11, i12);
    ExtractionCost2IMatches(d, r2, i21, i22);
    InsertionCost2IMatches(d, r1, i21, i22, i11.from, i12.from, r2[i21.from], r2[i22.from]);
    InsertionCost2IMatches(d, r2, i11, i12, i21.from, i22.from, r1[i11.from], r1[i12.from]);
    var x := Delta2I(d, r1, r2, ic);
    assert x == (Len(d, n1) - Len(d, r1)) + (Len(d, n2) - Len(d, r2));
    ApplyRaw2I(r1, r2, ic);
    NaiveDeltaFrom(d, r1, r2, ic, n1, n2, x);
  }

  // ---------------------------------------------------------------------
  // Dispatch
  // ---------------------------------------------------------------------

  /** The indices each supported shape reads are inside their routes. */
  predicate DeltaDomain(r1: seq<int>, r2: seq<int>, ic: Interchange) {
    && (ic.Shape(1, 0) ==> Domain0I(r1, r2, ic))
    && (ic.Shape(1, 1) ==> Domain1I(r1, r2, ic))
    && (ic.Shape(2, 2) ==> Domain2I(r1, r2, ic))
  }

  predicate Supported(ic: Interchange) {
    ic.Shape(1, 0) || ic.Shape(1, 1) || ic.Shape(2, 2)
  }

  /** `edgeDelta`: picks the formula by the interchange's shape and throws
      `IllegalArgumentException` for any other shape. */
  function EdgeDelta(d: Dist, routes: seq<seq<int>>, ic: Interchange): (r: Result<real>)
    requires 0 <= ic.routeIdx1 < |routes| && 0 <= ic.routeIdx2 < |routes|
    requires DeltaDomain(routes[ic.routeIdx1], routes[ic.routeIdx2], ic)
    ensures r.Err? <==> !Supported(ic)
    ensures r.Err? ==> r.error == IllegalArgument
  {
    var r1, r2 := routes[ic.routeIdx1], routes[ic.routeIdx2];
    if ic.Shape(1, 0) then Ok(Delta0I(d, r1, r2, ic))
    else if ic.Shape(1, 1) then Ok(Delta1I(d, r1, r2, ic))
    else if ic.Shape(2, 2) then Ok(Delta2I(d, r1, r2, ic))
    else Err(IllegalArgument)
  }

  /** Every value `edgeDelta` returns is the exact change in total length. */
  lemma EdgeDeltaMatchesNaive(d: Dist, routes: seq<seq<int>>, ic: Interchange)
    requires Symmetric(d)
    requires 0 <= ic.routeIdx1 < |routes| && 0 <= ic.routeIdx2 < |routes|
    requires DeltaDomain(routes[ic.routeIdx1], routes[ic.routeIdx2], ic)
    requires Supported(ic)
    ensures NaiveDelta(d, routes[ic.routeIdx1], routes[ic.routeIdx2], ic) == Some(EdgeDelta(d, routes, ic).value)
  {
    var r1, r2 := routes[ic.routeIdx1], routes[ic.routeIdx2];
    if ic.Shape(1, 0) {
      Delta0IMatchesNaive(d, r1, r2, ic);
    } else if ic.Shape(1, 1) {
      Delta1IMatchesNaive(d, r1, r2, ic);
    } else {
      Delta2IMatchesNaive(d, r1, r2, ic);
    }
  }

  /** `edgeDelta` reads only the two routes the interchange names. */
  lemma EdgeDeltaReadsTwoRoutes(d: Dist, routes: seq<seq<int>>, other: seq<seq<int>>, ic: Interchange)
    requires 0 <= ic.routeIdx1 < |routes| && 0 <= ic.routeIdx2 < |routes|
    requires DeltaDomain(routes[ic.routeIdx1], routes[ic.routeIdx2], ic)
    requires 0 <= ic.routeIdx1 < |other| && 0 <= ic.routeIdx2 < |other|
    requires other[ic.routeIdx1] == routes[ic.routeIdx1] && other[ic.routeIdx2] == routes[ic.routeIdx2]
    ensures EdgeDelta(d, other, ic) == EdgeDelta(d, routes, ic)
  {
  }
}

=== FILE: incomplete_driver.dfy ===
/** `instances.VRPInstanceIncomplete.search`: tabu search over relocations
    and swaps with the route list's own calculators, a short-term memory of
    moved customers, an adaptive excess-capacity penalty and an incumbent
    that only ever improves. The random draws, the route optimisation and
    the clock are inputs. */
module IncompleteDriver {
  import opened Common
  import opened Routes
  import opened Interchanges
  import opened RouteModel
  import opened RouteLists
  import opened Scans
  import opened Candidates
  import opened Calculators
  import opened Controls

  const MaxIterations := 10000
  const MinTenure := 5
  const MaxTenure := 10
  const FirstBestFirst := false
  const KOptimize: real := 0.25
  const FeasibilityBound := 10

  /** The state `search` carries from one iteration to the next. */
  datatype State = State(routeList: RouteList, incumbent: RouteList, objective: ExtReal,
                         shortTerm: seq<TabuItem>, iteration: int, penalty: real, lastFeasible: int)

  // ---------------------------------------------------------------------
  // The two neighbourhood searches
  // ---------------------------------------------------------------------

  /** The evaluation every calculator of this driver uses. */
  function Evals(inst: Instance, s: State): Interchange -> Eval {
    ListEvals(inst, s.routeList, s.penalty, s.shortTerm)
  }

  /** One `BestInsertionCalculator` result per route. */
  function InsertionResults(inst: Instance, s: State): (rs: seq<Best<Interchange>>)
    ensures |rs| == |s.routeList.routes|
  {
    seq(|s.routeList.routes|, i requires 0 <= i < |s.routeList.routes| =>
      BestInsertion(inst, s.routeList, s.incumbent, s.penalty, s.shortTerm, FirstBestFirst, i))
  }

  /** `findBestInsertion`. */
  function FindBestInsertion(inst: Instance, s: State): Best<Interchange> {
    FanIn(InsertionResults(inst, s))
  }

  /** One `BestSwapCalculator` result per route. */
  function SwapResults(inst: Instance, s: State): (rs: seq<Best<Interchange>>)
    ensures |rs| == |s.routeList.routes|
  {
    seq(|s.routeList.routes|, i requires 0 <= i < |s.routeList.routes| =>
      BestSwap(inst, s.routeList, s.incumbent, s.penalty, s.shortTerm, FirstBestFirst, i))
  }

  /** `findBestSwap`. */
  function FindBestSwap(inst: Instance, s: State): Best<Interchange> {
    FanIn(SwapResults(inst, s))
  }

  /** The relocation sets of the routes. */
  function RelocationSets(s: State): int -> (Interchange -> bool) {
    i => RelocationSet(Customers(s.routeList), i)
  }

  function SwapSets(s: State): int -> (Interchange -> bool) {
    i => SwapSet(Customers(s.routeList), i)
  }

  /** `findBestInsertion` returns the best admitted relocation over all
      routes, and nothing exactly when none is admitted. */
  lemma FindBestInsertionSpec(inst: Instance, s: State)
    ensures BestOf(AspirationPolicy(s.incumbent, FirstBestFirst), Evals(inst, s),
                   Union(|s.routeList.routes|, RelocationSets(s)), FindBestInsertion(inst, s))
  {
    var rs := InsertionResults(inst, s);
    forall i | 0 <= i < |rs|
      ensures BestOf(AspirationPolicy(s.incumbent, FirstBestFirst), Evals(inst, s), RelocationSets(s)(i), rs[i])
    {
      BestInsertionSpec(inst, s.routeList, s.incumbent, s.penalty, s.shortTerm, FirstBestFirst, i);
    }
    FanInBestOf(AspirationPolicy(s.incumbent, FirstBestFirst), Evals(inst, s), RelocationSets(s), rs);
  }

  /** `findBestSwap` returns the best admitted swap over all routes, and
      nothing exactly when none is admitted. */
  lemma FindBestSwapSpec(inst: Instance, s: State)
    ensures BestOf(SkipPolicy(s.incumbent, FirstBestFirst), Evals(inst, s),
                   Union(|s.routeList.routes|, SwapSets(s)), FindBestSwap(inst, s))
  {
    var rs := SwapResults(inst, s);
    forall i | 0 <= i < |rs|
      ensures BestOf(SkipPolicy(s.incumbent, FirstBestFirst), Evals(inst, s), SwapSets(s)(i), rs[i])
    {
      BestSwapSpec(inst, s.routeList, s.incumbent, s.penalty, s.shortTerm, FirstBestFirst, i);
    }
    FanInBestOf(SkipPolicy(s.incumbent, FirstBestFirst), Evals(inst, s), SwapSets(s), rs);
  }

  /** A relocation or swap of some route can be evaluated and performed. */
  lemma FoundPerformable(s: State, sets: int -> (Interchange -> bool), c: Interchange)
    requires sets == RelocationSets(s) || sets == SwapSets(s)
    requires Union(|s.routeList.routes|, sets)(c)
    ensures DeltaReadable(s.routeList, c) && DemandReadable(s.routeList, c) && OneInterchange(c)
    ensures c.routeIdx1 != c.routeIdx2
  {
    var i :| 0 <= i < |s.routeList.routes| && sets(i)(c);
    CandidateReadable(s.routeList, i, c);
  }

  // ---------------------------------------------------------------------
  // One iteration
  // ---------------------------------------------------------------------

  /** `calculateObjective(routeList.length + calculateEdgeDelta(x),
      calculateExcessCapacity(x))`, or +∞ without an interchange. */
  function DriverObjective(inst: Instance, s: State, found: Option<Interchange>): ExtReal {
    match found
    case None => PosInf
    case Some(c) =>
      if DeltaReadable(s.routeList, c) && DemandReadable(s.routeList, c) && OneInterchange(c) then
        Finite(Objective(s.routeList.length, CalculateEdgeDelta(inst, s.routeList, c).value,
                         TotalExcess(inst.capacity, DemandsAfter(inst, s.routeList, c)) as real, s.penalty))
      else PosInf
  }

  /** The driver recomputes exactly the objective the calculators returned
      with the interchange. */
  lemma DriverObjectiveAgrees(inst: Instance, s: State)
    ensures DriverObjective(inst, s, FindBestInsertion(inst, s).found) == FindBestInsertion(inst, s).objective
    ensures DriverObjective(inst, s, FindBestSwap(inst, s).found) == FindBestSwap(inst, s).objective
  {
    FindBestInsertionSpec(inst, s);
    FindBestSwapSpec(inst, s);
    var bi, bs := FindBestInsertion(inst, s), FindBestSwap(inst, s);
    if bi.found.Some? {
      FoundPerformable(s, RelocationSets(s), bi.found.value);
    }
    if bs.found.Some? {
      FoundPerformable(s, SwapSets(s), bs.found.value);
    }
  }

  /** The random inputs of one iteration: the tenure draws, the chance of
      optimising and the route optimisation itself. */
  datatype Draws = Draws(tenure1: int, tenure2: int, polish: real, optimize: Route -> Optimized)

  /** Every tenure draw is a value `nextInt(10 - 5 + 1)` may return. */
  predicate DrawsFit(dr: Draws) {
    0 <= dr.tenure1 <= MaxTenure - MinTenure && 0 <= dr.tenure2 <= MaxTenure - MinTenure
  }

  /** The chosen interchange and the objective the driver records. */
  datatype Chosen = Nothing | Chose(ic: Interchange, objective: ExtReal)

  /** The insertion when its objective is not worse than the swap's,
      otherwise the swap; nothing when neither search found one. */
  function Choose(inst: Instance, s: State): (c: Chosen)
    ensures var bi, bs := FindBestInsertion(inst, s), FindBestSwap(inst, s);
      && (c.Nothing? <==> bi.found.None? && bs.found.None?)
      && (c.Chose? ==> c.objective.Finite? && c.objective.Le(bi.objective) && c.objective.Le(bs.objective))
      && (c.Chose? ==> (bi.found == Some(c.ic) && c.objective == bi.objective)
                       || (bs.found == Some(c.ic) && c.objective == bs.objective && !bi.objective.Le(bs.objective)))
  {
    var bi, bs := FindBestInsertion(inst, s), FindBestSwap(inst, s);
    FindBestInsertionSpec(inst, s);
    FindBestSwapSpec(inst, s);
    DriverObjectiveAgrees(inst, s);
    var oi, os := DriverObjective(inst, s, bi.found), DriverObjective(inst, s, bs.found);
    if bi.found.None? && bs.found.None? then Nothing
    else if oi.Le(os) then Chose(bi.found.value, oi)
    else Chose(bs.found.value, os)
  }

  /** The chosen interchange is a relocation or swap of the route list. */
  lemma ChosenPerformable(inst: Instance, s: State)
    requires Choose(inst, s).Chose?
    ensures var c := Choose(inst, s).ic;
      && DeltaReadable(s.routeList, c) && DemandReadable(s.routeList, c) && OneInterchange(c)
      && c.routeIdx1 != c.routeIdx2
  {
    FindBestInsertionSpec(inst, s);
    FindBestSwapSpec(inst, s);
    var c := Choose(inst, s).ic;
    if FindBestInsertion(inst, s).found == Some(c) {
      FoundPerformable(s, RelocationSets(s), c);
    } else {
      FoundPerformable(s, SwapSets(s), c);
    }
  }

  /** The tabu item of the customer at position `from` of route `r`. */
  function TabuOf(rl: RouteList, r: int, from: int, iteration: int, draw: int): TabuItem
    requires 0 <= r < |rl.routes| && 0 <= from < |rl.routes[r].customers|
  {
    TabuItem(rl.routes[r].customers[from], iteration + draw + MinTenure)
  }

  /** Record the objective, put the moved customers on the short-term
      memory (one for an insertion, both for a swap) and perform. */
  function MoveStep(inst: Instance, s: State, c: Chosen, dr: Draws): (r: State)
    requires c.Chose? ==> DeltaReadable(s.routeList, c.ic) && DemandReadable(s.routeList, c.ic)
                          && OneInterchange(c.ic) && c.ic.routeIdx1 != c.ic.routeIdx2
    ensures |r.routeList.routes| == |s.routeList.routes|
    ensures r.incumbent == s.incumbent && r.iteration == s.iteration && r.penalty == s.penalty
    ensures r.lastFeasible == s.lastFeasible
    ensures c.Chose? ==> r.routeList == Perform(inst, s.routeList, c.ic).value && r.objective == c.objective
    ensures c.Chose? ==>
      var ic, n := c.ic, |s.shortTerm|;
      && |r.shortTerm| == n + (if ic.Shape(1, 0) then 1 else 2)
      && r.shortTerm[..n] == s.shortTerm
      && r.shortTerm[n].customer == s.routeList.routes[ic.routeIdx1].customers[ic.list1[0].from]
      && (!ic.Shape(1, 0) ==> r.shortTerm[n + 1].customer == s.routeList.routes[ic.routeIdx2].customers[ic.list2[0].from])
      && (DrawsFit(dr) ==> forall k :: n <= k < |r.shortTerm| ==>
            s.iteration + MinTenure <= r.shortTerm[k].expiration <= s.iteration + MaxTenure)
    ensures c.Nothing? ==> r == s
  {
    match c
    case Nothing => s
    case Chose(ic, objective) =>
      var first := TabuOf(s.routeList, ic.routeIdx1, ic.list1[0].from, s.iteration, dr.tenure1);
      var items := if ic.Shape(1, 0) then [first]
                   else [first, TabuOf(s.routeList, ic.routeIdx2, ic.list2[0].from, s.iteration, dr.tenure2)];
      s.(objective := objective, shortTerm := s.shortTerm + items,
         routeList := Perform(inst, s.routeList, ic).value)
  }

  /** A shorter route list without excess becomes the incumbent, after
      optimising the two routes of the move with probability 0.25. */
  function UpdateIncumbent(inst: Instance, s: State, idx1: int, idx2: int, dr: Draws): (r: Result<State>)
    ensures r.Ok? ==> |r.value.routeList.routes| == |s.routeList.routes|
    ensures r.Ok? ==> r.value.iteration == s.iteration && r.value.shortTerm == s.shortTerm
                      && r.value.penalty == s.penalty && r.value.lastFeasible == s.lastFeasible
  {
    var rl := s.routeList;
    if rl.length < s.incumbent.length && ListExcess(inst.capacity, rl) == 0 then
      match PolishPair(dr.optimize, rl, idx1, idx2, dr.polish, KOptimize)
      case Err(e) => Err(e)
      case Ok(p) => Ok(s.(routeList := p, incumbent := CloneList(p)))
    else Ok(s)
  }

  /** The penalty: divided by 1.5 after more than 10 feasible iterations in
      a row, multiplied by 1.5 after more than 10 infeasible ones. */
  function NextPenalty(penalty: real, streak: int): (r: real)
    ensures 0.0 < penalty ==> 0.0 < r
    ensures streak > FeasibilityBound && 0.0 < penalty ==> r < penalty
    ensures streak < -FeasibilityBound && 0.0 < penalty ==> r > penalty
    ensures -FeasibilityBound <= streak <= FeasibilityBound ==> r == penalty
  {
    if streak > FeasibilityBound then penalty * 2.0 / 3.0
    else if streak < -FeasibilityBound then penalty * 3.0 / 2.0
    else penalty
  }

  /** The route indices optimised with a new incumbent: those of the move,
      or route 0 twice without one. */
  function FirstRoute(c: Chosen): int { if c.Chose? then c.ic.routeIdx1 else 0 }
  function SecondRoute(c: Chosen): int { if c.Chose? then c.ic.routeIdx2 else 0 }

  /** The start of an iteration: advance the counter, perform the chosen
      interchange, purge expired tabu items. */
  function Advance(inst: Instance, s: State, dr: Draws): (r: State)
    ensures |r.routeList.routes| == |s.routeList.routes|
    ensures r.iteration == s.iteration + 1
    ensures r.incumbent == s.incumbent && r.penalty == s.penalty && r.lastFeasible == s.lastFeasible
    ensures forall k :: 0 <= k < |r.shortTerm| ==> r.shortTerm[k].expiration >= r.iteration
  {
    var s1 := s.(iteration := s.iteration + 1);
    var c := Choose(inst, s1);
    if c.Chose? then ChosenPerformable(inst, s1); MoveStepPurged(inst, s1, c, dr)
    else MoveStepPurged(inst, s1, c, dr)
  }

  function MoveStepPurged(inst: Instance, s: State, c: Chosen, dr: Draws): (r: State)
    requires c.Chose? ==> DeltaReadable(s.routeList, c.ic) && DemandReadable(s.routeList, c.ic)
                          && OneInterchange(c.ic) && c.ic.routeIdx1 != c.ic.routeIdx2
    ensures |r.routeList.routes| == |s.routeList.routes|
    ensures r.iteration == s.iteration && r.incumbent == s.incumbent
    ensures r.penalty == s.penalty && r.lastFeasible == s.lastFeasible
    ensures forall k :: 0 <= k < |r.shortTerm| ==> r.shortTerm[k].expiration >= r.iteration
    ensures c.Chose? ==> r.routeList == Perform(inst, s.routeList, c.ic).value
    ensures c.Nothing? ==> r.routeList == s.routeList
  {
    var s2 := MoveStep(inst, s, c, dr);
    s2.(shortTerm := Purge(s2.shortTerm, s2.iteration))
  }

  /** One iteration of `search`. */
  function Iterate(inst: Instance, s: State, dr: Draws): (r: Result<State>) {
    var c := Choose(inst, s.(iteration := s.iteration + 1));
    match UpdateIncumbent(inst, Advance(inst, s, dr), FirstRoute(c), SecondRoute(c), dr)
    case Err(e) => Err(e)
    case Ok(s4) =>
      var streak := NextStreak(s4.lastFeasible, ListExcess(inst.capacity, s4.routeList) == 0);
      Ok(s4.(lastFeasible := streak, penalty := NextPenalty(s4.penalty, streak)))
  }

  // ---------------------------------------------------------------------
  // Invariants of the search
  // ---------------------------------------------------------------------

  /** What holds between iterations: the current list and the incumbent
      both hold exactly the customer visits `cs` with consistent demand
      caches, so the incumbent has no excess over the customers' real
      demands; both cached lengths are the sums of the route lengths, the
      penalty is positive, the streak is never zero and nothing in the
      short-term memory has expired. */
  predicate Inv(inst: Instance, cs: multiset<int>, s: State) {
    && Intact(inst.demandOf, cs, s.routeList) && Intact(inst.demandOf, cs, s.incumbent)
    && Feasible(inst.capacity, s.incumbent)
    && s.incumbent.length == TotalLength(inst.d, s.incumbent.routes)
    && s.routeList.length == TotalLength(inst.d, s.routeList.routes)
    && 0.0 < s.penalty && s.lastFeasible != 0
    && (forall k :: 0 <= k < |s.shortTerm| ==> s.shortTerm[k].expiration >= s.iteration)
  }

  /** The start of an iteration keeps the cached length exact. */
  lemma AdvanceKeepsLength(inst: Instance, s: State, dr: Draws)
    requires Symmetric(inst.d) && s.routeList.length == TotalLength(inst.d, s.routeList.routes)
    ensures var r := Advance(inst, s, dr);
      r.routeList.length == TotalLength(inst.d, r.routeList.routes)
  {
    var s1 := s.(iteration := s.iteration + 1);
    var c := Choose(inst, s1);
    if c.Chose? {
      ChosenPerformable(inst, s1);
      PerformKeepsLength(inst, s1.routeList, c.ic);
    }
  }

  /** The start of an iteration keeps the customers and the consistent
      demand caches of the current list. */
  lemma AdvanceKeepsIntact(inst: Instance, cs: multiset<int>, s: State, dr: Draws)
    requires Intact(inst.demandOf, cs, s.routeList)
    ensures Intact(inst.demandOf, cs, Advance(inst, s, dr).routeList)
  {
    var s1 := s.(iteration := s.iteration + 1);
    var c := Choose(inst, s1);
    if c.Chose? {
      ChosenPerformable(inst, s1);
      PerformKeepsCustomers(inst, s1.routeList, c.ic);
      PerformKeepsDemandsConsistent(inst, s1.routeList, c.ic);
    }
  }

  /** The incumbent update keeps the customers and the consistent demand
      caches of the current list, and a new incumbent is a copy of it. */
  lemma UpdateIncumbentKeepsIntact(inst: Instance, cs: multiset<int>, s: State, idx1: int, idx2: int, dr: Draws)
    requires Polisher(dr.optimize) && KeepsCustomers(dr.optimize)
    requires Intact(inst.demandOf, cs, s.routeList) && Intact(inst.demandOf, cs, s.incumbent)
    requires UpdateIncumbent(inst, s, idx1, idx2, dr).Ok?
    ensures var r := UpdateIncumbent(inst, s, idx1, idx2, dr).value;
      Intact(inst.demandOf, cs, r.routeList) && Intact(inst.demandOf, cs, r.incumbent)
  {
    var rl := s.routeList;
    if rl.length < s.incumbent.length && ListExcess(inst.capacity, rl) == 0 {
      PolishPairKeepsIntact(inst.demandOf, cs, dr.optimize, rl, idx1, idx2, dr.polish, KOptimize);
    }
  }

  /** A new incumbent is taken exactly when the list is shorter than the
      incumbent and has no excess; it is then strictly shorter and
      feasible. Otherwise nothing changes. The demands are kept either
      way, and the cached length stays exact. */
  lemma UpdateIncumbentSpec(inst: Instance, s: State, idx1: int, idx2: int, dr: Draws)
    requires Polisher(dr.optimize) && ExactPolisher(inst.d, dr.optimize)
    requires s.routeList.length == TotalLength(inst.d, s.routeList.routes)
    requires UpdateIncumbent(inst, s, idx1, idx2, dr).Ok?
    ensures var r := UpdateIncumbent(inst, s, idx1, idx2, dr).value;
      && r.routeList.length == TotalLength(inst.d, r.routeList.routes)
      && Demands(r.routeList.routes) == Demands(s.routeList.routes)
      && ((r.incumbent.length < s.incumbent.length) <==>
            (s.routeList.length < s.incumbent.length && Feasible(inst.capacity, s.routeList)))
      && (r.incumbent.length < s.incumbent.length ==>
            r.incumbent == r.routeList && Feasible(inst.capacity, r.incumbent))
      && (r.incumbent.length >= s.incumbent.length ==> r == s)
  {
    var rl := s.routeList;
    ListExcessZero(inst.capacity, rl);
    if rl.length < s.incumbent.length && ListExcess(inst.capacity, rl) == 0 {
      var p := PolishPair(dr.optimize, rl, idx1, idx2, dr.polish, KOptimize).value;
      PolishPairKeepsDemands(dr.optimize, rl, idx1, idx2, dr.polish, KOptimize);
      PolishPairKeepsLength(inst.d, dr.optimize, rl, idx1, idx2, dr.polish, KOptimize);
      ListExcessZero(inst.capacity, p);
    }
  }

  /** Every iteration keeps the invariant, advances the counter by one and
      never lengthens the incumbent; a changed incumbent is strictly
      shorter and is the current list. */
  lemma IterateKeepsInv(inst: Instance, cs: multiset<int>, s: State, dr: Draws)
    requires Symmetric(inst.d) && Polisher(dr.optimize) && ExactPolisher(inst.d, dr.optimize)
    requires KeepsCustomers(dr.optimize)
    requires Inv(inst, cs, s) && Iterate(inst, s, dr).Ok?
    ensures var r := Iterate(inst, s, dr).value;
      && Inv(inst, cs, r) && r.iteration == s.iteration + 1
      && r.incumbent.length <= s.incumbent.length
      && (r.incumbent != s.incumbent ==> r.incumbent == r.routeList && r.incumbent.length < s.incumbent.length)
  {
    var c := Choose(inst, s.(iteration := s.iteration + 1));
    var s3 := Advance(inst, s, dr);
    AdvanceKeepsLength(inst, s, dr);
    AdvanceKeepsIntact(inst, cs, s, dr);
    UpdateIncumbentSpec(inst, s3, FirstRoute(c), SecondRoute(c), dr);
    UpdateIncumbentKeepsIntact(inst, cs, s3, FirstRoute(c), SecondRoute(c), dr);
  }

  /** The penalty moves down only after more than ten feasible iterations
      in a row and up only after more than ten infeasible ones. */
  lemma IteratePenaltyDirection(inst: Instance, s: State, dr: Draws)
    requires 0.0 < s.penalty && Iterate(inst, s, dr).Ok?
    ensures var r := Iterate(inst, s, dr).value;
      && (r.penalty < s.penalty <==> r.lastFeasible > FeasibilityBound)
      && (r.penalty > s.penalty <==> r.lastFeasible < -FeasibilityBound)
      && (r.lastFeasible > 0 <==> Feasible(inst.capacity, r.routeList))
  {
    var c := Choose(inst, s.(iteration := s.iteration + 1));
    var s4 := UpdateIncumbent(inst, Advance(inst, s, dr), FirstRoute(c), SecondRoute(c), dr).value;
    ListExcessZero(inst.capacity, s4.routeList);
  }

  // ---------------------------------------------------------------------
  // Construction and the search loop
  // ---------------------------------------------------------------------

  /** Optimise routes `k..` of the list one after the other. */
  function PolishFrom(optimize: Route -> Optimized, rl: RouteList, k: nat): (r: RouteList)
    ensures |r.routes| == |rl.routes|
    decreases |rl.routes| - k
  {
    if k >= |rl.routes| then rl
    else PolishFrom(optimize, Polish(optimize, rl, k).value, k + 1)
  }

  /** Optimising every route keeps the demands and the exact cached length
      and never lengthens the list. */
  lemma {:induction false} PolishFromSpec(d: Dist, optimize: Route -> Optimized, rl: RouteList, k: nat)
    requires Polisher(optimize) && ExactPolisher(d, optimize)
    requires rl.length == TotalLength(d, rl.routes)
    ensures var r := PolishFrom(optimize, rl, k);
      && Demands(r.routes) == Demands(rl.routes)
      && r.length == TotalLength(d, r.routes)
      && r.length <= rl.length
    decreases |rl.routes| - k
  {
    if k < |rl.routes| {
      var p := Polish(optimize, rl, k).value;
      PolishKeepsDemands(optimize, rl, k);
      PolishKeepsLength(d, optimize, rl, k);
      PolishFromSpec(d, optimize, p, k + 1);
    }
  }

  /** Optimising every route keeps the customers and the consistent
      demand caches. */
  lemma {:induction false} PolishFromKeepsIntact(demandOf: int -> int, cs: multiset<int>, optimize: Route -> Optimized,
                                                 rl: RouteList, k: nat)
    requires Polisher(optimize) && KeepsCustomers(optimize) && Intact(demandOf, cs, rl)
    ensures Intact(demandOf, cs, PolishFrom(optimize, rl, k))
    decreases |rl.routes| - k
  {
    if k < |rl.routes| {
      PolishKeepsIntact(demandOf, cs, optimize, rl, k);
      PolishFromKeepsIntact(demandOf, cs, optimize, Polish(optimize, rl, k).value, k + 1);
    }
  }

  /** The constructor: optimise every route of the generated initial
      solution, clone it into the incumbent, record its length as the
      objective; the penalty and the streak start at 1. */
  function Construct(generated: RouteList, optimize: Route -> Optimized): (s: State)
    ensures s.iteration == 0 && s.shortTerm == [] && s.penalty == 1.0 && s.lastFeasible == 1
    ensures s.incumbent == s.routeList && s.objective == Finite(s.routeList.length)
  {
    var rl := PolishFrom(optimize, generated, 0);
    State(rl, CloneList(rl), Finite(rl.length), [], 0, 1.0, 1)
  }

  /** A feasible generated solution with an exact cached length and
      consistent demand caches gives a state that satisfies the invariant
      for its customers and is no longer than it. */
  lemma ConstructInv(inst: Instance, generated: RouteList, optimize: Route -> Optimized)
    requires Polisher(optimize) && ExactPolisher(inst.d, optimize) && KeepsCustomers(optimize)
    requires Feasible(inst.capacity, generated) && generated.length == TotalLength(inst.d, generated.routes)
    requires DemandsConsistent(inst.demandOf, generated.routes)
    ensures Inv(inst, AllCustomers(generated.routes), Construct(generated, optimize))
    ensures Construct(generated, optimize).incumbent.length <= generated.length
  {
    var rl := PolishFrom(optimize, generated, 0);
    PolishFromSpec(inst.d, optimize, generated, 0);
    PolishFromKeepsIntact(inst.demandOf, AllCustomers(generated.routes), optimize, generated, 0);
    ListExcessZero(inst.capacity, generated);
    ListExcessZero(inst.capacity, rl);
  }

  /** `search`: iterate while fewer than 10000 iterations have run and time
      remains; the clock is the number of draws supplied, one per
      iteration. An exception ends the search with its error. */
  method Search(inst: Instance, cs: multiset<int>, s0: State, draws: seq<Draws>) returns (r: Result<State>)
    requires Symmetric(inst.d) && Inv(inst, cs, s0) && s0.iteration == 0
    requires forall k :: 0 <= k < |draws| ==>
      Polisher(draws[k].optimize) && ExactPolisher(inst.d, draws[k].optimize) && KeepsCustomers(draws[k].optimize)
    ensures r.Ok? ==> Inv(inst, cs, r.value)
    ensures r.Ok? ==> r.value.iteration == if |draws| < MaxIterations then |draws| else MaxIterations
    ensures r.Ok? ==> r.value.incumbent.length <= s0.incumbent.length
  {
    var s := s0;
    while s.iteration < MaxIterations && s.iteration < |draws|
      invariant Inv(inst, cs, s) && 0 <= s.iteration <= MaxIterations && s.iteration <= |draws|
      invariant s.incumbent.length <= s0.incumbent.length
      decreases MaxIterations - s.iteration
    {
      var dr := draws[s.iteration];
      var next := Iterate(inst, s, dr);
      if next.Err? {
        return Err(next.error);
      }
      IterateKeepsInv(inst, cs, s, dr);
      s := next.value;
    }
    return Ok(s);
  }
}

=== FILE: interchange.dfy ===
/** A λ-interchange between two routes: the customers at the listed
    positions of route 1 move into route 2 and vice versa. */
module Interchanges {

  /** Move the customer at `from` (in its own route) to position `to` of the
      other route. */
  datatype Insertion = Insertion(from: int, to: int)

  datatype Interchange = Interchange(
    routeIdx1: int, list1: seq<Insertion>,
    routeIdx2: int, list2: seq<Insertion>)
  {
    /** The move's shape: (1,0) insertion, (1,1) swap, (2,2) double swap. */
    predicate Shape(n1: nat, n2: nat) { |list1| == n1 && |list2| == n2 }
  }

  /** Exchanges the two indices of an insertion. */
  function Flip(ins: Insertion): (r: Insertion)
    ensures r.from == ins.to && r.to == ins.from
  {
    Insertion(ins.to, ins.from)
  }

  /** `Interchange.invert`: the route indices change places and every
      insertion of the first list has its indices exchanged; the second list
      is left as it is. */
  function Invert(ic: Interchange): (r: Interchange)
    ensures r.routeIdx1 == ic.routeIdx2 && r.routeIdx2 == ic.routeIdx1
    ensures |r.list1| == |ic.list1|
    ensures forall k :: 0 <= k < |r.list1| ==>
              r.list1[k].from == ic.list1[k].to && r.list1[k].to == ic.list1[k].from
    ensures r.list2 == ic.list2
  {
    Interchange(ic.routeIdx2, seq(|ic.list1|, k requires 0 <= k < |ic.list1| => Flip(ic.list1[k])),
                ic.routeIdx1, ic.list2)
  }

  /** Inverting twice gives back the original interchange. */
  lemma InvertInvolution(ic: Interchange)
    ensures Invert(Invert(ic)) == ic
  {
    var r := Invert(Invert(ic));
    assert r.list1 == ic.list1;
  }

  /** `Interchange.clone` makes an independent deep copy; with value
      semantics the copy is equal to the original. */
  function Clone(ic: Interchange): (r: Interchange)
    ensures r == ic
  {
    Interchange(ic.routeIdx1, seq(|ic.list1|, k requires 0 <= k < |ic.list1| => ic.list1[k]),
                ic.routeIdx2, seq(|ic.list2|, k requires 0 <= k < |ic.list2| => ic.list2[k]))
  }
}

=== FILE: old_incomplete.dfy ===
/** The oldest `solver.ls.VRPInstanceIncomplete`: routes as plain customer
    lists, a best-insertion search that tries every customer at every
    position, a swap search over every pair of customers of different
    routes, and the round of `optimizeCustomerInterchange` that applies
    them. The objective (`getTourLength + getAmtOverCapacity`, not part of
    this model) is a function parameter. */
module OldIncomplete {
  import opened Common
  import opened Routes

  /** The routes of a solution. */
  type Solution = seq<seq<int>>

  /** `calculateObjFunction`. */
  type Objective = Solution -> real

  /** A customer position: route index and index within the route. */
  datatype Pos = Pos(route: int, index: int)

  predicate At(s: Solution, p: Pos) {
    0 <= p.route < |s| && 0 <= p.index < |s[p.route]|
  }

  // ---------------------------------------------------------------------
  // swap
  // ---------------------------------------------------------------------

  /** Both `swap` helpers: the customer at `p` takes the place of the one
      at `q`, which takes the old place of the first. */
  function Swap(s: Solution, p: Pos, q: Pos): (r: Solution)
    requires At(s, p) && At(s, q)
    ensures |r| == |s| && forall k :: 0 <= k < |s| ==> |r[k]| == |s[k]|
    ensures forall k :: 0 <= k < |s| && k != p.route && k != q.route ==> r[k] == s[k]
    ensures p.route != q.route ==> r[p.route] == s[p.route][p.index := s[q.route][q.index]]
                                   && r[q.route] == s[q.route][q.index := s[p.route][p.index]]
  {
    var temp := s[p.route][p.index];
    var a := s[p.route := s[p.route][p.index := s[q.route][q.index]]];
    a[q.route := a[q.route][q.index := temp]]
  }

  /** The two customers trade places, also within one route. */
  lemma SwapExchanges(s: Solution, p: Pos, q: Pos)
    requires At(s, p) && At(s, q)
    ensures Swap(s, p, q)[p.route][p.index] == s[q.route][q.index]
    ensures Swap(s, p, q)[q.route][q.index] == s[p.route][p.index]
    ensures forall k, m :: 0 <= k < |s| && 0 <= m < |s[k]| && Pos(k, m) != p && Pos(k, m) != q
                           ==> Swap(s, p, q)[k][m] == s[k][m]
  {
  }

  /** Swapping twice restores the solution. */
  lemma SwapSelfInverse(s: Solution, p: Pos, q: Pos)
    requires At(s, p) && At(s, q)
    ensures At(Swap(s, p, q), p) && At(Swap(s, p, q), q)
    ensures Swap(Swap(s, p, q), p, q) == s
  {
    var r := Swap(s, p, q);
    SwapExchanges(s, p, q);
    SwapExchanges(r, p, q);
    var t := Swap(r, p, q);
    forall k | 0 <= k < |s| ensures t[k] == s[k] {
      assert |t[k]| == |s[k]|;
      forall m | 0 <= m < |s[k]| ensures t[k][m] == s[k][m] {
        if Pos(k, m) == p {
        } else if Pos(k, m) == q {
        } else {
          assert t[k][m] == r[k][m];
        }
      }
    }
  }

  // ---------------------------------------------------------------------
  // getAllPairs
  // ---------------------------------------------------------------------

  /** `((i, k), (j, l))`: customer `k` of route `i` and customer `l` of
      route `j`. */
  datatype Pair = Pair(i: int, k: int, j: int, l: int) {
    function First(): Pos { Pos(i, k) }
    function Second(): Pos { Pos(j, l) }
  }

  /** What `getAllPairs` lists: two interior customers of two routes, the
      first route of smaller index. */
  predicate ValidPair(s: Solution, p: Pair) {
    0 <= p.i < p.j < |s| && 1 <= p.k <= |s[p.i]| - 2 && 1 <= p.l <= |s[p.j]| - 2
  }

  /** The loop order of `getAllPairs`: by `i`, then `j`, then `k`, then `l`. */
  predicate Before(p: Pair, q: Pair) {
    || p.i < q.i
    || (p.i == q.i && p.j < q.j)
    || (p.i == q.i && p.j == q.j && p.k < q.k)
    || (p.i == q.i && p.j == q.j && p.k == q.k && p.l < q.l)
  }

  predicate Increasing(ps: seq<Pair>) {
    forall a, b :: 0 <= a < b < |ps| ==> Before(ps[a], ps[b])
  }

  lemma IncreasingConcat(xs: seq<Pair>, ys: seq<Pair>)
    requires Increasing(xs) && Increasing(ys)
    requires forall x, y :: x in xs && y in ys ==> Before(x, y)
    ensures Increasing(xs + ys)
  {
    forall a, b | 0 <= a < b < |xs + ys| ensures Before((xs + ys)[a], (xs + ys)[b]) {
      if b < |xs| {
      } else if a >= |xs| {
        assert (xs + ys)[a] == ys[a - |xs|] && (xs + ys)[b] == ys[b - |xs|];
      } else {
        assert (xs + ys)[a] in xs && (xs + ys)[b] in ys;
      }
    }
  }

  /** The innermost loop: `l` from `lo` up to `hi - 1`. */
  function Ls(i: int, k: int, j: int, lo: int, hi: int): (ps: seq<Pair>)
    ensures forall p :: p in ps <==> p.i == i && p.k == k && p.j == j && lo <= p.l < hi
    ensures Increasing(ps)
  {
    var ps := seq(if hi <= lo then 0 else hi - lo, t => Pair(i, k, j, lo + t));
    forall p: Pair | p.i == i && p.k == k && p.j == j && lo <= p.l < hi ensures p in ps {
      assert ps[p.l - lo] == p;
    }
    ps
  }

  /** The loop over `k` from `k` on, for routes `i` and `j`. */
  function Ks(s: Solution, i: int, j: int, k: int): seq<Pair>
    requires 0 <= i < |s| && 0 <= j < |s|
    decreases |s[i]| - k
  {
    if k >= |s[i]| - 1 then [] else Ls(i, k, j, 1, |s[j]| - 1) + Ks(s, i, j, k + 1)
  }

  lemma {:induction false} KsSpec(s: Solution, i: int, j: int, k: int)
    requires 0 <= i < |s| && 0 <= j < |s|
    ensures forall p :: p in Ks(s, i, j, k) <==>
      p.i == i && p.j == j && k <= p.k <= |s[i]| - 2 && 1 <= p.l <= |s[j]| - 2
    ensures Increasing(Ks(s, i, j, k))
    decreases |s[i]| - k
  {
    if k < |s[i]| - 1 {
      KsSpec(s, i, j, k + 1);
      IncreasingConcat(Ls(i, k, j, 1, |s[j]| - 1), Ks(s, i, j, k + 1));
    }
  }

  /** The loop over `j` from `j` on, for route `i`. */
  function Js(s: Solution, i: int, j: int): seq<Pair>
    requires 0 <= i < |s| && 0 <= j
    decreases |s| - j
  {
    if j >= |s| then [] else Ks(s, i, j, 1) + Js(s, i, j + 1)
  }

  lemma {:induction false} JsSpec(s: Solution, i: int, j: int)
    requires 0 <= i < |s| && 0 <= j
    ensures forall p :: p in Js(s, i, j) <==>
      p.i == i && j <= p.j < |s| && 1 <= p.k <= |s[i]| - 2 && 1 <= p.l <= |s[p.j]| - 2
    ensures Increasing(Js(s, i, j))
    decreases |s| - j
  {
    if j < |s| {
      KsSpec(s, i, j, 1);
      JsSpec(s, i, j + 1);
      IncreasingConcat(Ks(s, i, j, 1), Js(s, i, j + 1));
    }
  }

  /** The loop over `i` from `i` on. */
  function Is(s: Solution, i: int): seq<Pair>
    requires 0 <= i
    decreases |s| - i
  {
    if i >= |s| then [] else Js(s, i, i + 1) + Is(s, i + 1)
  }

  lemma {:induction false} IsSpec(s: Solution, i: int)
    requires 0 <= i
    ensures forall p :: p in Is(s, i) <==> i <= p.i && ValidPair(s, p)
    ensures Increasing(Is(s, i))
    decreases |s| - i
  {
    if i < |s| {
      JsSpec(s, i, i + 1);
      IsSpec(s, i + 1);
      IncreasingConcat(Js(s, i, i + 1), Is(s, i + 1));
    }
  }

  /** `getAllPairs`. */
  function GetAllPairs(s: Solution): seq<Pair> {
    Is(s, 0)
  }

  /** `getAllPairs` lists exactly the valid pairs, each once, in strictly
      increasing loop order. */
  lemma GetAllPairsSpec(s: Solution)
    ensures forall p :: p in GetAllPairs(s) <==> ValidPair(s, p)
    ensures Increasing(GetAllPairs(s))
  {
    IsSpec(s, 0);
  }

  // ---------------------------------------------------------------------
  // The first strict minimum of a scan
  // ---------------------------------------------------------------------

  /** A loop that records a candidate only when it is strictly below the
      best so far, starting from `bound`: the index of the recorded one. */
  function FirstMin<T>(ts: seq<T>, f: T -> real, bound: real): (r: Option<nat>)
    ensures r.Some? ==> r.value < |ts|
    decreases |ts|
  {
    if ts == [] then None
    else
      var r := FirstMin(ts[..|ts| - 1], f, bound);
      var best := if r.None? then bound else f(ts[r.value]);
      if f(ts[|ts| - 1]) < best then Some(|ts| - 1) else r
  }

  /** The scan finds nothing exactly when no candidate is below `bound`;
      otherwise it returns the first candidate of least value. */
  lemma {:induction false} FirstMinSpec<T>(ts: seq<T>, f: T -> real, bound: real)
    ensures var r := FirstMin(ts, f, bound);
      && (r.None? <==> forall m :: 0 <= m < |ts| ==> f(ts[m]) >= bound)
      && (r.Some? ==> f(ts[r.value]) < bound
                      && (forall m :: 0 <= m < |ts| ==> f(ts[m]) >= f(ts[r.value]))
                      && (forall m :: 0 <= m < r.value ==> f(ts[m]) > f(ts[r.value])))
    decreases |ts|
  {
    if ts != [] {
      var init := ts[..|ts| - 1];
      FirstMinSpec(init, f, bound);
      assert forall m :: 0 <= m < |init| ==> init[m] == ts[m];
    }
  }

  // ---------------------------------------------------------------------
  // Insertions
  // ---------------------------------------------------------------------

  /** Every position `j` with `1 <= j < |route| - trim`, route by route. */
  function Slots(s: Solution, trim: int): seq<Pos> {
    Flatten(seq(|s|, i requires 0 <= i < |s| =>
      seq(if |s[i]| - 1 - trim < 0 then 0 else |s[i]| - 1 - trim, t => Pos(i, t + 1))))
  }

  lemma InSlots(s: Solution, trim: int, p: Pos)
    ensures p in Slots(s, trim) <==> 0 <= p.route < |s| && 1 <= p.index < |s[p.route]| - trim
  {
    var ls := seq(|s|, i requires 0 <= i < |s| =>
      seq(if |s[i]| - 1 - trim < 0 then 0 else |s[i]| - 1 - trim, t => Pos(i, t + 1)));
    InFlatten(ls, p);
    if 0 <= p.route < |s| && 1 <= p.index < |s[p.route]| - trim {
      assert ls[p.route][p.index - 1] == p;
    }
  }

  /** The solution with the customer at `p` taken out. */
  function Removed(s: Solution, p: Pos): (r: Solution)
    requires At(s, p)
    ensures |r| == |s|
  {
    s[p.route := RemoveAt(s[p.route], p.index)]
  }

  /** The solution with customer `c` put in at `q`. */
  function Inserted(s: Solution, q: Pos, c: int): (r: Solution)
    requires 0 <= q.route < |s| && 0 <= q.index <= |s[q.route]|
    ensures |r| == |s|
  {
    s[q.route := InsertAt(s[q.route], q.index, c)]
  }

  /** A trial of `checkInsertions`: the customer at `from` is taken out and
      put in at `to`, positions of the solution without it; `to` is never
      in front of the first depot and may be just before the last one. */
  predicate ValidMove(s: Solution, from: Pos, to: Pos) {
    && 0 <= from.route < |s| && 1 <= from.index <= |s[from.route]| - 2
    && 0 <= to.route < |s| && 1 <= to.index < |Removed(s, from)[to.route]|
  }

  /** The solution a trial evaluates. */
  function MoveTrial(s: Solution, from: Pos, to: Pos): Solution
    requires ValidMove(s, from, to)
  {
    Inserted(Removed(s, from), to, s[from.route][from.index])
  }

  /** The objective of putting `c` in at `q` of the reduced solution `s`. */
  function TrialObj(obj: Objective, s: Solution, c: int, fallback: real): Pos -> real {
    (q: Pos) => if 0 <= q.route < |s| && 0 <= q.index <= |s[q.route]| then obj(Inserted(s, q, c)) else fallback
  }

  datatype Check = Check(best: Pos, bestObj: real, after: Solution)

  /** `checkInsertions`: take the customer out, try it at every position of
      every route, keep the first strictly best one, put the customer back. */
  function CheckInsertions(obj: Objective, s: Solution, bestObj: real, cur: Pos): (r: Check)
    requires At(s, cur)
    ensures r.after == s
    ensures r.bestObj <= bestObj
  {
    var c := s[cur.route][cur.index];
    var removed := Removed(s, cur);
    var trials := Slots(removed, 0);
    var f := TrialObj(obj, removed, c, bestObj);
    var m := FirstMin(trials, f, bestObj);
    FirstMinSpec(trials, f, bestObj);
    var after := Inserted(removed, cur, c);
    InsertRemoveInverse(s[cur.route], cur.index);
    if m.None? then Check(cur, bestObj, after) else Check(trials[m.value], f(trials[m.value]), after)
  }

  /** `checkInsertions` returns the starting position and bound exactly when
      no trial is strictly below the bound; otherwise a trial of least
      objective, strictly below the bound. */
  lemma CheckInsertionsSpec(obj: Objective, s: Solution, bestObj: real, cur: Pos)
    requires 0 <= cur.route < |s| && 1 <= cur.index <= |s[cur.route]| - 2
    ensures var r := CheckInsertions(obj, s, bestObj, cur);
      && (r.bestObj < bestObj <==> exists to :: ValidMove(s, cur, to) && obj(MoveTrial(s, cur, to)) < bestObj)
      && (r.bestObj == bestObj ==> r.best == cur)
      && (r.bestObj < bestObj ==> ValidMove(s, cur, r.best) && obj(MoveTrial(s, cur, r.best)) == r.bestObj)
      && (forall to :: ValidMove(s, cur, to) ==> obj(MoveTrial(s, cur, to)) >= r.bestObj)
  {
    var c := s[cur.route][cur.index];
    var removed := Removed(s, cur);
    var trials := Slots(removed, 0);
    var f := TrialObj(obj, removed, c, bestObj);
    FirstMinSpec(trials, f, bestObj);
    forall to | ValidMove(s, cur, to) ensures to in trials && f(to) == obj(MoveTrial(s, cur, to)) {
      InSlots(removed, 0, to);
    }
    forall k | 0 <= k < |trials| ensures ValidMove(s, cur, trials[k]) {
      InSlots(removed, 0, trials[k]);
    }
  }

  /** What `calculateInsertions` returns: the customer to move, where to put
      it, and the objective after the move. */
  datatype InsertionMove = InsertionMove(from: Pos, to: Pos, obj: real)

  /** `calculateInsertions`: try every interior customer, keep the first
      strictly best result, or nothing when none beats `currentBest`. */
  function CalculateInsertions(obj: Objective, s: Solution, currentBest: real): (r: Option<InsertionMove>)
    ensures r.Some? ==> ValidMove(s, r.value.from, r.value.to) && r.value.obj < currentBest
  {
    var customers := Slots(s, 1);
    var g := CheckOf(obj, s, currentBest);
    var m := FirstMin(customers, g, currentBest);
    FirstMinSpec(customers, g, currentBest);
    if m.None? then None
    else
      var from := customers[m.value];
      InSlots(s, 1, from);
      var check := CheckInsertions(obj, s, currentBest, from);
      CheckInsertionsSpec(obj, s, currentBest, from);
      Some(InsertionMove(from, check.best, check.bestObj))
  }

  /** The best objective `checkInsertions` reports for a customer. */
  function CheckOf(obj: Objective, s: Solution, currentBest: real): Pos -> real {
    (p: Pos) => if At(s, p) then CheckInsertions(obj, s, currentBest, p).bestObj else currentBest
  }

  /** `calculateInsertions` finds nothing exactly when no single move of a
      customer beats `currentBest`; otherwise it returns a move of least
      objective over all customers and positions, with that objective. */
  lemma CalculateInsertionsSpec(obj: Objective, s: Solution, currentBest: real)
    ensures var r := CalculateInsertions(obj, s, currentBest);
      && (r.None? <==> forall from, to :: ValidMove(s, from, to) ==> obj(MoveTrial(s, from, to)) >= currentBest)
      && (r.Some? ==> obj(MoveTrial(s, r.value.from, r.value.to)) == r.value.obj
                      && forall from, to :: ValidMove(s, from, to) ==> obj(MoveTrial(s, from, to)) >= r.value.obj)
  {
    var customers := Slots(s, 1);
    var g := CheckOf(obj, s, currentBest);
    var m := FirstMin(customers, g, currentBest);
    FirstMinSpec(customers, g, currentBest);
    if m.None? {
      forall from, to | ValidMove(s, from, to) ensures obj(MoveTrial(s, from, to)) >= currentBest {
        CheckOfBelow(obj, s, currentBest, from, to);
      }
    } else {
      var from := customers[m.value];
      InSlots(s, 1, from);
      CheckInsertionsSpec(obj, s, currentBest, from);
      forall from', to | ValidMove(s, from', to) ensures obj(MoveTrial(s, from', to)) >= g(from) {
        CheckOfBelow(obj, s, currentBest, from', to);
      }
    }
  }

  /** Every trial of a customer is at least what `checkInsertions`
      reports for it, and that customer is one `calculateInsertions` tries. */
  lemma CheckOfBelow(obj: Objective, s: Solution, currentBest: real, from: Pos, to: Pos)
    requires ValidMove(s, from, to)
    ensures obj(MoveTrial(s, from, to)) >= CheckOf(obj, s, currentBest)(from)
    ensures exists k :: 0 <= k < |Slots(s, 1)| && Slots(s, 1)[k] == from
  {
    CheckInsertionsSpec(obj, s, currentBest, from);
    InSlots(s, 1, from);
  }

  /** Lines 43-46 as written: the customer is first added at the
      destination, then removed from its old index. */
  function PerformInsertionAsWritten(s: Solution, m: InsertionMove): (r: Solution)
    requires ValidMove(s, m.from, m.to)
  {
    var a := Inserted(s, m.to, s[m.from.route][m.from.index]);
    a[m.from.route := RemoveAt(a[m.from.route], m.from.index)]
  }

  /** The move as `checkInsertions` evaluated it: removed first, then added. */
  function PerformInsertion(s: Solution, m: InsertionMove): (r: Solution)
    requires ValidMove(s, m.from, m.to)
    ensures r == MoveTrial(s, m.from, m.to)
  {
    Inserted(Removed(s, m.from), m.to, s[m.from.route][m.from.index])
  }

  /** Between two different routes both orders give the same solution. */
  lemma PerformInsertionOrdersAgree(s: Solution, m: InsertionMove)
    requires ValidMove(s, m.from, m.to) && m.from.route != m.to.route
    ensures PerformInsertionAsWritten(s, m) == PerformInsertion(s, m)
  {
  }

  /** Within one route they differ. Moving customer 1 of [0, 1, 2, 0] to
      index 2 of [0, 2, 0] is the evaluated [0, 2, 1, 0], but adding first
      and removing at the old index gives back [0, 1, 2, 0]. Moving
      customer 2 to index 1 is worse: the old index now holds customer 1,
      which is removed, so customer 1 is lost and customer 2 visited twice. */
  lemma PerformInsertionAsWrittenCounterexample()
    ensures var s, m := [[0, 1, 2, 0]], InsertionMove(Pos(0, 1), Pos(0, 2), 0.0);
      && ValidMove(s, m.from, m.to)
      && PerformInsertionAsWritten(s, m) == [[0, 1, 2, 0]]
      && PerformInsertion(s, m) == [[0, 2, 1, 0]]
    ensures var s, m := [[0, 1, 2, 0]], InsertionMove(Pos(0, 2), Pos(0, 1), 0.0);
      && ValidMove(s, m.from, m.to)
      && PerformInsertionAsWritten(s, m) == [[0, 2, 2, 0]]
      && PerformInsertion(s, m) == [[0, 2, 1, 0]]
  {
    var s, m := [[0, 1, 2, 0]], InsertionMove(Pos(0, 1), Pos(0, 2), 0.0);
    assert RemoveAt(s[0], 1) == [0, 2, 0];
    assert InsertAt([0, 2, 0], 2, 1) == [0, 2, 1, 0];
    assert InsertAt(s[0], 2, 1) == [0, 1, 1, 2, 0];
    assert RemoveAt([0, 1, 1, 2, 0], 1) == [0, 1, 2, 0];
    assert RemoveAt(s[0], 2) == [0, 1, 0];
    assert InsertAt([0, 1, 0], 1, 2) == [0, 2, 1, 0];
    assert InsertAt(s[0], 1, 2) == [0, 2, 1, 2, 0];
    assert RemoveAt([0, 2, 1, 2, 0], 2) == [0, 2, 2, 0];
  }

  // ---------------------------------------------------------------------
  // Swaps
  // ---------------------------------------------------------------------

  predicate PairAt(s: Solution, p: Pair) {
    At(s, p.First()) && At(s, p.Second())
  }

  /** `checkSwap`: swap, evaluate, swap back; when the objective is below
      `bestObj` the pair is swapped once more and the objective returned,
      otherwise -1. */
  function CheckSwap(obj: Objective, s: Solution, bestObj: real, p: Pair): (r: (Solution, real))
    requires PairAt(s, p)
    ensures obj(Swap(s, p.First(), p.Second())) < bestObj ==>
              r == (Swap(s, p.First(), p.Second()), obj(Swap(s, p.First(), p.Second())))
    ensures !(obj(Swap(s, p.First(), p.Second())) < bestObj) ==> r == (s, -1.0)
  {
    var swapped := Swap(s, p.First(), p.Second());
    var o := obj(swapped);
    SwapSelfInverse(s, p.First(), p.Second());
    var back := Swap(swapped, p.First(), p.Second());
    if o < bestObj then (Swap(back, p.First(), p.Second()), o) else (back, -1.0)
  }

  /** Every pair points at customers of `s`. */
  predicate PairsAt(s: Solution, ps: seq<Pair>) {
    forall n :: 0 <= n < |ps| ==> PairAt(s, ps[n])
  }

  /** Solutions with routes of the same sizes. */
  predicate SameShape(s: Solution, t: Solution) {
    |s| == |t| && forall k :: 0 <= k < |s| ==> |s[k]| == |t[k]|
  }

  datatype SwapScan = SwapScan(routes: Solution, bestObj: real, bestPair: Option<Pair>)

  /** The loop of `calculateSwaps` from a given state on. */
  function SwapLoop(obj: Objective, s: Solution, ps: seq<Pair>, bestObj: real, bestPair: Option<Pair>): (r: SwapScan)
    requires PairsAt(s, ps)
    ensures SameShape(r.routes, s)
    ensures r.bestObj <= bestObj
    ensures r.bestObj == bestObj ==> r.bestPair == bestPair
    ensures r.bestObj < bestObj ==> r.bestPair.Some? && r.bestPair.value in ps
    decreases |ps|
  {
    if ps == [] then SwapScan(s, bestObj, bestPair)
    else
      var (s1, o) := CheckSwap(obj, s, bestObj, ps[0]);
      assert PairsAt(s1, ps[1..]) by {
        assert forall n :: 0 <= n < |ps| - 1 ==> ps[1..][n] == ps[n + 1];
      }
      if o > 0.0 then SwapLoop(obj, s1, ps[1..], o, Some(ps[0]))
      else SwapLoop(obj, s1, ps[1..], bestObj, bestPair)
  }

  /** `calculateSwaps`: the routes it leaves behind, and the best objective
      with its pair, or nothing when `bestObj` still equals `currentBest`. */
  function CalculateSwaps(obj: Objective, s: Solution, currentBest: real): (r: (Solution, Option<(real, Pair)>))
    ensures r.1.Some? ==> r.1.value.0 < currentBest
    ensures r.1.Some? ==> ValidPair(s, r.1.value.1) && PairAt(r.0, r.1.value.1)
  {
    var ps := GetAllPairs(s);
    GetAllPairsSpec(s);
    assert PairsAt(s, ps) by {
      forall n | 0 <= n < |ps| ensures PairAt(s, ps[n]) {
        assert ps[n] in ps;
      }
    }
    var scan := SwapLoop(obj, s, ps, currentBest, None);
    assert scan.bestObj != currentBest ==> ValidPair(s, scan.bestPair.value);
    if scan.bestObj == currentBest then (scan.routes, None) else (scan.routes, Some((scan.bestObj, scan.bestPair.value)))
  }

  /** An objective that is positive everywhere, as a tour length with
      excess added is for any route list with two distinct places. */
  ghost predicate Positive(obj: Objective) {
    forall s :: obj(s) > 0.0
  }

  /** One pass of the loop: the first pair is checked against the bound,
      and the rest of the loop goes on from the state that leaves. */
  lemma SwapLoopUnfold(obj: Objective, s: Solution, ps: seq<Pair>, bestObj: real, bestPair: Option<Pair>)
    requires Positive(obj) && PairsAt(s, ps) && ps != []
    ensures var swapped := Swap(s, ps[0].First(), ps[0].Second());
      && PairsAt(swapped, ps[1..]) && PairsAt(s, ps[1..])
      && SwapLoop(obj, s, ps, bestObj, bestPair) ==
           if obj(swapped) < bestObj then SwapLoop(obj, swapped, ps[1..], obj(swapped), Some(ps[0]))
           else SwapLoop(obj, s, ps[1..], bestObj, bestPair)
  {
    var swapped := Swap(s, ps[0].First(), ps[0].Second());
    assert obj(swapped) > 0.0;
    assert forall n :: 0 <= n < |ps| - 1 ==> ps[1..][n] == ps[n + 1];
  }

  /** With a positive objective the loop leaves the routes untouched
      exactly when no pair, swapped in them, beats the bound; once one
      does, the routes left behind have the recorded objective. */
  lemma {:induction false} SwapLoopSpec(obj: Objective, s: Solution, ps: seq<Pair>, bestObj: real, bestPair: Option<Pair>)
    requires Positive(obj) && PairsAt(s, ps)
    ensures var r := SwapLoop(obj, s, ps, bestObj, bestPair);
      && (r.bestObj == bestObj <==>
            forall n :: 0 <= n < |ps| ==> obj(Swap(s, ps[n].First(), ps[n].Second())) >= bestObj)
      && (r.bestObj == bestObj ==> r.routes == s)
      && (r.bestObj < bestObj ==> obj(r.routes) == r.bestObj)
    decreases |ps|
  {
    if ps != [] {
      var p := ps[0];
      var swapped := Swap(s, p.First(), p.Second());
      var rest := ps[1..];
      SwapLoopUnfold(obj, s, ps, bestObj, bestPair);
      if obj(swapped) < bestObj {
        SwapLoopSpec(obj, swapped, rest, obj(swapped), Some(p));
      } else {
        SwapLoopSpec(obj, s, rest, bestObj, bestPair);
        assert forall n :: 1 <= n < |ps| ==> ps[n] == rest[n - 1];
      }
    }
  }

  /** `calculateSwaps` finds nothing exactly when no single swap of a valid
      pair beats `currentBest`, and then leaves the routes as they were;
      otherwise the routes it leaves behind have the returned objective. */
  lemma CalculateSwapsSpec(obj: Objective, s: Solution, currentBest: real)
    requires Positive(obj)
    ensures var r := CalculateSwaps(obj, s, currentBest);
      && (r.1.None? <==> forall p :: ValidPair(s, p) ==> obj(Swap(s, p.First(), p.Second())) >= currentBest)
      && (r.1.None? ==> r.0 == s)
      && (r.1.Some? ==> obj(r.0) == r.1.value.0)
  {
    var ps := GetAllPairs(s);
    GetAllPairsSpec(s);
    assert PairsAt(s, ps) by {
      forall n | 0 <= n < |ps| ensures PairAt(s, ps[n]) {
        assert ps[n] in ps;
      }
    }
    SwapLoopSpec(obj, s, ps, currentBest, None);
    forall p | ValidPair(s, p) ensures exists n :: 0 <= n < |ps| && ps[n] == p {
      assert p in ps;
    }
  }

  // ---------------------------------------------------------------------
  // One round of optimizeCustomerInterchange
  // ---------------------------------------------------------------------

  datatype Round = Round(routes: Solution, current: real, done: bool)

  /** The insertion half of a round: apply the best insertion, if any. */
  function InsertionStep(obj: Objective, s: Solution, current: real): (r: (Solution, real, bool))
  {
    match CalculateInsertions(obj, s, current)
    case None => (s, current, false)
    case Some(m) => (PerformInsertion(s, m), m.obj, true)
  }

  /** The swap half as written: after `calculateSwaps` has left its swaps
      applied, the best pair is swapped once more (line 62). */
  function SwapStepAsWritten(obj: Objective, s: Solution, current: real): (r: (Solution, real, bool))
  {
    var (s1, found) := CalculateSwaps(obj, s, current);
    match found
    case None => (s1, current, false)
    case Some((o, p)) => (Swap(s1, p.First(), p.Second()), o, true)
  }

  /** The swap half as intended: keep the routes `calculateSwaps` left. */
  function SwapStep(obj: Objective, s: Solution, current: real): (r: (Solution, real, bool))
  {
    var (s1, found) := CalculateSwaps(obj, s, current);
    match found
    case None => (s1, current, false)
    case Some((o, _)) => (s1, o, true)
  }

  /** One pass of the `while` loop; `done` when neither half found a move. */
  function RoundOf(obj: Objective, s: Solution, current: real): Round {
    var (s1, c1, moved1) := InsertionStep(obj, s, current);
    var (s2, c2, moved2) := SwapStep(obj, s1, c1);
    Round(s2, c2, !moved1 && !moved2)
  }

  /** With a positive objective, a round keeps the recorded objective equal
      to the objective of the routes, and a round that is not the last one
      strictly lowers it. */
  lemma RoundKeepsObjective(obj: Objective, s: Solution, current: real)
    requires Positive(obj) && obj(s) == current
    ensures var r := RoundOf(obj, s, current);
      && obj(r.routes) == r.current
      && (r.done ==> r.routes == s && r.current == current)
      && (!r.done ==> r.current < current)
  {
    CalculateInsertionsSpec(obj, s, current);
    var (s1, c1, moved1) := InsertionStep(obj, s, current);
    CalculateSwapsSpec(obj, s1, c1);
  }

  /** The objective of the line 62 example: 1 for the swapped routes, 2
      for everything else. */
  function ExampleObj(s: Solution): real {
    if s == [[0, 2, 0], [0, 1, 0]] then 1.0 else 2.0
  }

  /** The only pair of the example: the two single customers. */
  lemma ExamplePairs()
    ensures GetAllPairs([[0, 1, 0], [0, 2, 0]]) == [Pair(0, 1, 1, 1)]
  {
    var s: Solution := [[0, 1, 0], [0, 2, 0]];
    var p := Pair(0, 1, 1, 1);
    assert Ls(0, 1, 1, 1, 2) == [p];
    assert Ks(s, 0, 1, 1) == [p] + Ks(s, 0, 1, 2) && Ks(s, 0, 1, 2) == [];
    assert Js(s, 0, 1) == Ks(s, 0, 1, 1) + Js(s, 0, 2) && Js(s, 0, 2) == [];
    assert Is(s, 1) == Js(s, 1, 2) + Is(s, 2) && Js(s, 1, 2) == [] && Is(s, 2) == [];
  }

  /** Swapping the two customers of the example, and swapping back. */
  lemma ExampleSwaps()
    ensures Swap([[0, 1, 0], [0, 2, 0]], Pos(0, 1), Pos(1, 1)) == [[0, 2, 0], [0, 1, 0]]
    ensures Swap([[0, 2, 0], [0, 1, 0]], Pos(0, 1), Pos(1, 1)) == [[0, 1, 0], [0, 2, 0]]
  {
    var s: Solution := [[0, 1, 0], [0, 2, 0]];
    assert s[0][1 := s[1][1]] == [0, 2, 0];
    assert s[1][1 := s[0][1]] == [0, 1, 0];
    SwapSelfInverse(s, Pos(0, 1), Pos(1, 1));
  }

  /** `calculateSwaps` on the example leaves the routes swapped and
      reports objective 1 for the pair. */
  lemma ExampleCalculateSwaps()
    ensures CalculateSwaps(ExampleObj, [[0, 1, 0], [0, 2, 0]], 2.0)
         == ([[0, 2, 0], [0, 1, 0]], Some((1.0, Pair(0, 1, 1, 1))))
  {
    var s: Solution := [[0, 1, 0], [0, 2, 0]];
    var swapped: Solution := [[0, 2, 0], [0, 1, 0]];
    var p := Pair(0, 1, 1, 1);
    ExamplePairs();
    ExampleSwaps();
    assert p.First() == Pos(0, 1) && p.Second() == Pos(1, 1);
    assert CheckSwap(ExampleObj, s, 2.0, p) == (swapped, 1.0);
    assert [p][1..] == [];
    assert SwapLoop(ExampleObj, swapped, [], 1.0, Some(p)) == SwapScan(swapped, 1.0, Some(p));
  }

  /** Line 62 undoes the swap: from [[0, 1, 0], [0, 2, 0]], where only the
      swapped solution has objective 1, the round records 1 but keeps the
      routes of objective 2. */
  lemma SwapStepAsWrittenCounterexample()
    ensures var s: Solution := [[0, 1, 0], [0, 2, 0]];
      && SwapStepAsWritten(ExampleObj, s, 2.0) == (s, 1.0, true)
      && ExampleObj(s) == 2.0
      && SwapStep(ExampleObj, s, 2.0) == ([[0, 2, 0], [0, 1, 0]], 1.0, true)
  {
    ExampleCalculateSwaps();
    ExampleSwaps();
    assert Pair(0, 1, 1, 1).First() == Pos(0, 1) && Pair(0, 1, 1, 1).Second() == Pos(1, 1);
  }
}

=== FILE: old_route_list.dfy ===
/** The oldest `solver.ls.RouteList`: one customer is either swapped in
    place with a customer of another route or moved into another route.
    The edge delta, the excess capacity after the move and the move itself
    are computed from the routes as they are before the move. */
module OldRouteLists {
  import opened Common
  import opened Routes
  import opened RouteModel
  import RouteLists

  /** `InterchangeType`: the two kinds the list handles, and every other
      value of the enumeration, which it rejects. */
  datatype Kind = SwapKind | InsertionKind | OtherKind

  /** `solver.ls.OneInterchange`. */
  datatype OneInterchange = OneInterchange(kind: Kind, newObjective: real,
                                           fromRoute: int, fromCustomer: int,
                                           toRoute: int, toCustomer: int)

  datatype RouteList = RouteList(routes: seq<Route>, totalLength: real)

  /** `clone`: a fresh list of copied routes with the same total length. */
  function Clone(rl: RouteList): (c: RouteList)
    ensures c == rl
  {
    RouteList(seq(|rl.routes|, k requires 0 <= k < |rl.routes| => CloneRoute(rl.routes[k])), rl.totalLength)
  }

  predicate ValidRoutes(rl: RouteList, ic: OneInterchange) {
    0 <= ic.fromRoute < |rl.routes| && 0 <= ic.toRoute < |rl.routes|
  }

  function From(rl: RouteList, ic: OneInterchange): seq<int>
    requires ValidRoutes(rl, ic)
  {
    rl.routes[ic.fromRoute].customers
  }

  function To(rl: RouteList, ic: OneInterchange): seq<int>
    requires ValidRoutes(rl, ic)
  {
    rl.routes[ic.toRoute].customers
  }

  /** Every position the edge delta reads exists: the neighbours of both
      swapped customers, or the neighbours of the moved customer and the
      two customers around the insertion point. */
  predicate DeltaReadable(rl: RouteList, ic: OneInterchange) {
    && ValidRoutes(rl, ic)
    && 1 <= ic.fromCustomer <= |From(rl, ic)| - 2
    && (ic.kind == SwapKind ==> 1 <= ic.toCustomer <= |To(rl, ic)| - 2)
    && (ic.kind == InsertionKind ==> 1 <= ic.toCustomer <= |To(rl, ic)| - 1)
  }

  /** `calculateEdgeDelta`. */
  function EdgeDelta(d: Dist, rl: RouteList, ic: OneInterchange): (r: Result<real>)
    ensures r.Err? <==> ic.kind == OtherKind || !DeltaReadable(rl, ic)
    ensures r.Err? ==> (r.error == IllegalState <==> ic.kind == OtherKind)
    ensures r.Err? && r.error != IllegalState ==> r.error == IndexOutOfBounds
  {
    if ic.kind == OtherKind then Err(IllegalState)
    else if !DeltaReadable(rl, ic) then Err(IndexOutOfBounds)
    else
      var r1, r2, f, t := From(rl, ic), To(rl, ic), ic.fromCustomer, ic.toCustomer;
      if ic.kind == SwapKind then
        var c1, c1l, c1r := r1[f], r1[f - 1], r1[f + 1];
        var c2, c2l, c2r := r2[t], r2[t - 1], r2[t + 1];
        Ok((d(c1, c2l) + d(c1, c2r) + d(c2, c1l) + d(c2, c1r))
           - (d(c1, c1l) + d(c1, c1r) + d(c2, c2l) + d(c2, c2r)))
      else
        var c, left, right := r1[f], r1[f - 1], r1[f + 1];
        var futureLeft, futureRight := r2[t - 1], r2[t];
        Ok((d(c, futureLeft) + d(c, futureRight) + d(left, right))
           - (d(c, left) + d(c, right) + d(futureLeft, futureRight)))
  }

  /** The two customers the excess computation reads exist. */
  predicate DemandReadable(rl: RouteList, ic: OneInterchange) {
    && ValidRoutes(rl, ic)
    && 0 <= ic.fromCustomer < |From(rl, ic)|
    && (ic.kind == SwapKind ==> 0 <= ic.toCustomer < |To(rl, ic)|)
  }

  /** The demands of the two routes after the move, from their cached
      demands: a swap exchanges two customers' demands, an insertion moves
      one. */
  function NewDemandFrom(demandOf: int -> int, rl: RouteList, ic: OneInterchange): int
    requires DemandReadable(rl, ic)
  {
    var c1 := From(rl, ic)[ic.fromCustomer];
    if ic.kind == SwapKind then rl.routes[ic.fromRoute].demand + demandOf(To(rl, ic)[ic.toCustomer]) - demandOf(c1)
    else rl.routes[ic.fromRoute].demand - demandOf(c1)
  }

  function NewDemandTo(demandOf: int -> int, rl: RouteList, ic: OneInterchange): int
    requires DemandReadable(rl, ic)
  {
    var c1 := From(rl, ic)[ic.fromCustomer];
    if ic.kind == SwapKind then rl.routes[ic.toRoute].demand + demandOf(c1) - demandOf(To(rl, ic)[ic.toCustomer])
    else rl.routes[ic.toRoute].demand + demandOf(c1)
  }

  /** `calculateExcessCapacity`: the excess summed over every route, the
      from and to routes taking their new demands. */
  function ExcessCapacity(inst: RouteLists.Instance, rl: RouteList, ic: OneInterchange): (r: Result<int>)
    ensures r.Err? <==> ic.kind == OtherKind || !DemandReadable(rl, ic)
    ensures r.Err? ==> (r.error == IllegalState <==> ic.kind == OtherKind)
    ensures r.Ok? ==> r.value >= 0
  {
    if ic.kind == OtherKind then Err(IllegalState)
    else if !DemandReadable(rl, ic) then Err(IndexOutOfBounds)
    else
      var nf, nt := NewDemandFrom(inst.demandOf, rl, ic), NewDemandTo(inst.demandOf, rl, ic);
      var ds := seq(|rl.routes|, k requires 0 <= k < |rl.routes| =>
                  if k == ic.fromRoute then nf else if k == ic.toRoute then nt else rl.routes[k].demand);
      RouteLists.TotalExcessZero(inst.capacity, ds);
      Ok(RouteLists.TotalExcess(inst.capacity, ds))
  }

  /** A route with its customers replaced and its demand shifted. */
  function Edit(r: Route, customers: seq<int>, shift: int): Route {
    Route(customers, r.demand + shift)
  }

  /** The demand updates of `perform`, one route object after the other. */
  function ShiftDemands(rl: RouteList, ic: OneInterchange, fromShift: int, toShift: int): (routes: seq<Route>)
    requires ValidRoutes(rl, ic)
    ensures |routes| == |rl.routes|
  {
    var a := rl.routes[ic.fromRoute := Edit(rl.routes[ic.fromRoute], From(rl, ic), fromShift)];
    a[ic.toRoute := Edit(a[ic.toRoute], a[ic.toRoute].customers, toShift)]
  }

  /** `perform`: the length grows by the delta read before the move; a swap
      exchanges the two customers in place, an insertion adds the customer
      at the destination and then removes it from its old position. */
  function Perform(inst: RouteLists.Instance, rl: RouteList, ic: OneInterchange): (r: Result<RouteList>)
    ensures r.Err? <==> EdgeDelta(inst.d, rl, ic).Err?
    ensures r.Err? ==> r.error == EdgeDelta(inst.d, rl, ic).error
    ensures r.Ok? ==> |r.value.routes| == |rl.routes|
    ensures r.Ok? ==> forall k :: 0 <= k < |rl.routes| && k != ic.fromRoute && k != ic.toRoute
                                  ==> r.value.routes[k] == rl.routes[k]
  {
    match EdgeDelta(inst.d, rl, ic)
    case Err(e) => Err(e)
    case Ok(delta) =>
      var f, t := ic.fromCustomer, ic.toCustomer;
      var c1 := From(rl, ic)[f];
      var length := rl.totalLength + delta;
      if ic.kind == SwapKind then
        var c2 := To(rl, ic)[t];
        var dm := inst.demandOf(c2) - inst.demandOf(c1);
        var a := ShiftDemands(rl, ic, dm, -dm);
        var b := a[ic.fromRoute := Edit(a[ic.fromRoute], a[ic.fromRoute].customers[f := a[ic.toRoute].customers[t]], 0)];
        var c := b[ic.toRoute := Edit(b[ic.toRoute], b[ic.toRoute].customers[t := c1], 0)];
        Ok(RouteList(c, length))
      else
        var dm := inst.demandOf(c1);
        var a := ShiftDemands(rl, ic, -dm, dm);
        var b := a[ic.toRoute := Edit(a[ic.toRoute], InsertAt(a[ic.toRoute].customers, t, c1), 0)];
        var removeFrom := b[ic.fromRoute].customers;
        assert f < |removeFrom|;
        Ok(RouteList(b[ic.fromRoute := Edit(b[ic.fromRoute], RemoveAt(removeFrom, f), 0)], length))
  }

  // ---------------------------------------------------------------------
  // Properties of a move between two different routes
  // ---------------------------------------------------------------------

  /** Both routes of the move exist and differ. */
  predicate Between(rl: RouteList, ic: OneInterchange) {
    ValidRoutes(rl, ic) && ic.fromRoute != ic.toRoute
  }

  /** Replacing an interior customer replaces its two edges. */
  lemma LenSet(d: Dist, r: seq<int>, i: int, c: int)
    requires 1 <= i <= |r| - 2
    ensures Len(d, r[i := c]) == Len(d, r) - d(r[i - 1], r[i]) - d(r[i], r[i + 1]) + d(r[i - 1], c) + d(c, r[i + 1])
  {
    var s := RemoveAt(r, i);
    LenRemove(d, r, i);
    LenInsert(d, s, i, c);
    assert InsertAt(s, i, c) == r[i := c];
  }

  /** What a swap between two routes does: the two customers trade places,
      every other position and both sizes are kept, and the cached demands
      trade the two customers' demands. */
  lemma PerformSwap(inst: RouteLists.Instance, rl: RouteList, ic: OneInterchange)
    requires Between(rl, ic) && ic.kind == SwapKind && DeltaReadable(rl, ic)
    ensures var r := Perform(inst, rl, ic).value;
      var f, t, c1, c2 := ic.fromCustomer, ic.toCustomer, From(rl, ic)[ic.fromCustomer], To(rl, ic)[ic.toCustomer];
      && r.routes[ic.fromRoute] == Route(From(rl, ic)[f := c2], rl.routes[ic.fromRoute].demand + inst.demandOf(c2) - inst.demandOf(c1))
      && r.routes[ic.toRoute] == Route(To(rl, ic)[t := c1], rl.routes[ic.toRoute].demand + inst.demandOf(c1) - inst.demandOf(c2))
  {
  }

  /** What an insertion between two routes does: the customer is added at
      `toCustomer` of the destination and removed from `fromCustomer`, and
      its demand moves with it. */
  lemma PerformInsertion(inst: RouteLists.Instance, rl: RouteList, ic: OneInterchange)
    requires Between(rl, ic) && ic.kind == InsertionKind && DeltaReadable(rl, ic)
    ensures var r := Perform(inst, rl, ic).value;
      var c := From(rl, ic)[ic.fromCustomer];
      && r.routes[ic.fromRoute] == Route(RemoveAt(From(rl, ic), ic.fromCustomer), rl.routes[ic.fromRoute].demand - inst.demandOf(c))
      && r.routes[ic.toRoute] == Route(InsertAt(To(rl, ic), ic.toCustomer, c), rl.routes[ic.toRoute].demand + inst.demandOf(c))
  {
  }

  /** The swap delta is the length change of the two routes. */
  lemma SwapDeltaMatches(d: Dist, inst: RouteLists.Instance, rl: RouteList, ic: OneInterchange)
    requires Symmetric(d) && inst.d == d
    requires Between(rl, ic) && ic.kind == SwapKind && DeltaReadable(rl, ic)
    ensures var r := Perform(inst, rl, ic).value;
      EdgeDelta(d, rl, ic).value
      == Len(d, r.routes[ic.fromRoute].customers) - Len(d, From(rl, ic))
         + Len(d, r.routes[ic.toRoute].customers) - Len(d, To(rl, ic))
  {
    var r1, r2, f, t := From(rl, ic), To(rl, ic), ic.fromCustomer, ic.toCustomer;
    PerformSwap(inst, rl, ic);
    LenSet(d, r1, f, r2[t]);
    LenSet(d, r2, t, r1[f]);
    SymmetricAt(d, r1[f - 1], r2[t]);
    SymmetricAt(d, r1[f - 1], r1[f]);
    SymmetricAt(d, r2[t - 1], r1[f]);
    SymmetricAt(d, r2[t - 1], r2[t]);
  }

  /** The insertion delta is the length change of the two routes. */
  lemma InsertionDeltaMatches(d: Dist, inst: RouteLists.Instance, rl: RouteList, ic: OneInterchange)
    requires Symmetric(d) && inst.d == d
    requires Between(rl, ic) && ic.kind == InsertionKind && DeltaReadable(rl, ic)
    ensures var r := Perform(inst, rl, ic).value;
      EdgeDelta(d, rl, ic).value
      == Len(d, r.routes[ic.fromRoute].customers) - Len(d, From(rl, ic))
         + Len(d, r.routes[ic.toRoute].customers) - Len(d, To(rl, ic))
  {
    var r1, r2, f, t := From(rl, ic), To(rl, ic), ic.fromCustomer, ic.toCustomer;
    PerformInsertion(inst, rl, ic);
    LenRemove(d, r1, f);
    LenInsert(d, r2, t, r1[f]);
    SymmetricAt(d, r1[f - 1], r1[f]);
    SymmetricAt(d, r2[t - 1], r1[f]);
  }

  /** A route list whose cached length is the sum of its route lengths
      keeps that property under every move between two routes. */
  lemma PerformKeepsLength(inst: RouteLists.Instance, rl: RouteList, ic: OneInterchange)
    requires Symmetric(inst.d) && Between(rl, ic) && Perform(inst, rl, ic).Ok?
    requires rl.totalLength == RouteLists.TotalLength(inst.d, rl.routes)
    ensures var r := Perform(inst, rl, ic).value;
      r.totalLength == RouteLists.TotalLength(inst.d, r.routes)
  {
    var r := Perform(inst, rl, ic).value;
    var i1, i2 := ic.fromRoute, ic.toRoute;
    if ic.kind == SwapKind {
      SwapDeltaMatches(inst.d, inst, rl, ic);
    } else {
      InsertionDeltaMatches(inst.d, inst, rl, ic);
    }
    var mid := rl.routes[i1 := r.routes[i1]];
    RouteLists.TotalLengthUpdate(inst.d, rl.routes, i1, r.routes[i1]);
    RouteLists.TotalLengthUpdate(inst.d, mid, i2, r.routes[i2]);
    assert mid[i2 := r.routes[i2]] == r.routes;
  }

  /** The excess computed for a move between two routes is the excess of
      the route list the move produces; nothing is changed to compute it. */
  lemma ExcessMatchesPerform(inst: RouteLists.Instance, rl: RouteList, ic: OneInterchange)
    requires Between(rl, ic) && Perform(inst, rl, ic).Ok?
    ensures ExcessCapacity(inst, rl, ic)
         == Ok(RouteLists.TotalExcess(inst.capacity, RouteLists.Demands(Perform(inst, rl, ic).value.routes)))
  {
    var r := Perform(inst, rl, ic).value;
    var nf, nt := NewDemandFrom(inst.demandOf, rl, ic), NewDemandTo(inst.demandOf, rl, ic);
    var ds := seq(|rl.routes|, k requires 0 <= k < |rl.routes| =>
                if k == ic.fromRoute then nf else if k == ic.toRoute then nt else rl.routes[k].demand);
    if ic.kind == SwapKind {
      PerformSwap(inst, rl, ic);
    } else {
      PerformInsertion(inst, rl, ic);
    }
    assert ds == RouteLists.Demands(r.routes);
  }

  /** The two routes a move edits keep cached demands that match their
      customers. */
  lemma MovedRoutesConsistent(inst: RouteLists.Instance, rl: RouteList, ic: OneInterchange)
    requires Between(rl, ic) && Perform(inst, rl, ic).Ok?
    requires rl.routes[ic.fromRoute].demand == DemandOf(inst.demandOf, From(rl, ic))
    requires rl.routes[ic.toRoute].demand == DemandOf(inst.demandOf, To(rl, ic))
    ensures var r := Perform(inst, rl, ic).value;
      && r.routes[ic.fromRoute].demand == DemandOf(inst.demandOf, r.routes[ic.fromRoute].customers)
      && r.routes[ic.toRoute].demand == DemandOf(inst.demandOf, r.routes[ic.toRoute].customers)
  {
    var f, t := ic.fromCustomer, ic.toCustomer;
    var r1, r2 := From(rl, ic), To(rl, ic);
    if ic.kind == SwapKind {
      PerformSwap(inst, rl, ic);
      DemandRemove(inst.demandOf, r1, f);
      DemandInsert(inst.demandOf, RemoveAt(r1, f), f, r2[t]);
      assert InsertAt(RemoveAt(r1, f), f, r2[t]) == r1[f := r2[t]];
      DemandRemove(inst.demandOf, r2, t);
      DemandInsert(inst.demandOf, RemoveAt(r2, t), t, r1[f]);
      assert InsertAt(RemoveAt(r2, t), t, r1[f]) == r2[t := r1[f]];
    } else {
      PerformInsertion(inst, rl, ic);
      DemandRemove(inst.demandOf, r1, f);
      DemandInsert(inst.demandOf, r2, t, r1[f]);
    }
  }

  /** Cached demands that match the customers keep matching, and the total
      demand is unchanged. */
  lemma PerformKeepsDemands(inst: RouteLists.Instance, rl: RouteList, ic: OneInterchange)
    requires Between(rl, ic) && Perform(inst, rl, ic).Ok?
    requires RouteLists.DemandsConsistent(inst.demandOf, rl.routes)
    ensures var r := Perform(inst, rl, ic).value;
      && RouteLists.DemandsConsistent(inst.demandOf, r.routes)
      && RouteLists.TotalDemand(r.routes) == RouteLists.TotalDemand(rl.routes)
  {
    var r := Perform(inst, rl, ic).value;
    var i1, i2 := ic.fromRoute, ic.toRoute;
    MovedRoutesConsistent(inst, rl, ic);
    var x1, x2 := r.routes[i1].demand - rl.routes[i1].demand, r.routes[i2].demand - rl.routes[i2].demand;
    assert x1 + x2 == 0 by {
      if ic.kind == SwapKind { PerformSwap(inst, rl, ic); } else { PerformInsertion(inst, rl, ic); }
    }
    var mid := rl.routes[i1 := r.routes[i1]];
    RouteLists.TotalDemandUpdate(rl.routes, i1, r.routes[i1]);
    RouteLists.TotalDemandUpdate(mid, i2, r.routes[i2]);
    assert mid[i2 := r.routes[i2]] == r.routes;
  }

  /** Performing the same swap twice restores both routes. */
  lemma SwapTwiceRestores(inst: RouteLists.Instance, rl: RouteList, ic: OneInterchange)
    requires Between(rl, ic) && ic.kind == SwapKind && DeltaReadable(rl, ic)
    ensures Perform(inst, rl, ic).Ok? && Perform(inst, Perform(inst, rl, ic).value, ic).Ok?
    ensures Perform(inst, Perform(inst, rl, ic).value, ic).value.routes == rl.routes
  {
    var r := Perform(inst, rl, ic).value;
    PerformSwap(inst, rl, ic);
    assert DeltaReadable(r, ic);
    PerformSwap(inst, r, ic);
    var r2 := Perform(inst, r, ic).value;
    assert From(rl, ic)[ic.fromCustomer := To(rl, ic)[ic.toCustomer]][ic.fromCustomer := From(rl, ic)[ic.fromCustomer]]
        == From(rl, ic);
    assert To(rl, ic)[ic.toCustomer := From(rl, ic)[ic.fromCustomer]][ic.toCustomer := To(rl, ic)[ic.toCustomer]]
        == To(rl, ic);
    assert r2.routes == rl.routes;
  }
}

=== FILE: raw_interchange.dfy ===
/** `performRawInterchange`, shared by the list-based `RouteList` and the
    array-based `EdgeDeltaCalculators`: both insertion lists are sorted by
    decreasing `from` and their customers removed in that order, then the
    removed customers are sorted by increasing `to` and inserted into the
    other route in that order. A Java index error becomes `None`. */
module RawInterchange {
  import opened Common
  import opened Routes
  import opened Interchanges

  /** A customer taken out of its route, with the insertion that moves it. */
  datatype Moved = Moved(customer: int, insertion: Insertion)

  /** Sort key for decreasing `from` order (the comparator `b.from - a.from`). */
  function DescFrom(ins: Insertion): int { -ins.from }
  function FromOf(ins: Insertion): int { ins.from }
  function ToOf(ins: Insertion): int { ins.to }
  /** Sort key for increasing `to` order. */
  function MovedTo(m: Moved): int { m.insertion.to }
  function CustomerOf(m: Moved): int { m.customer }

  /** Successive `List.remove(from)` calls in list order, collecting the
      removed customers; `None` when an index is out of bounds. */
  function RemoveAll(r: seq<int>, ins: seq<Insertion>): (o: Option<(seq<int>, seq<Moved>)>)
    ensures o.Some? ==> |o.value.0| == |r| - |ins| && |o.value.1| == |ins|
    ensures o.Some? ==> forall k :: 0 <= k < |ins| ==> o.value.1[k].insertion == ins[k]
    decreases |ins|
  {
    if ins == [] then Some((r, []))
    else if 0 <= ins[0].from < |r| then
      match RemoveAll(RemoveAt(r, ins[0].from), ins[1..])
      case None => None
      case Some(p) => Some((p.0, [Moved(r[ins[0].from], ins[0])] + p.1))
    else None
  }

  /** Successive `List.add(to, customer)` calls in list order; `None` when
      an index is out of bounds. */
  function InsertAll(r: seq<int>, ms: seq<Moved>): (o: Option<seq<int>>)
    ensures o.Some? ==> |o.value| == |r| + |ms|
    decreases |ms|
  {
    if ms == [] then Some(r)
    else if 0 <= ms[0].insertion.to <= |r| then
      InsertAll(InsertAt(r, ms[0].insertion.to, ms[0].customer), ms[1..])
    else None
  }

  /** Both routes after the interchange, and the two insertion lists as the
      call leaves them (sorted by decreasing `from`). */
  datatype Raw = Raw(route1: seq<int>, route2: seq<int>, sorted1: seq<Insertion>, sorted2: seq<Insertion>)

  function ApplyRaw(r1: seq<int>, r2: seq<int>, l1: seq<Insertion>, l2: seq<Insertion>): (o: Option<Raw>)
    ensures o.Some? ==> |o.value.route1| == |r1| - |l1| + |l2|
    ensures o.Some? ==> |o.value.route2| == |r2| - |l2| + |l1|
  {
    var s1 := SortBy(l1, DescFrom);
    var s2 := SortBy(l2, DescFrom);
    match (RemoveAll(r1, s1), RemoveAll(r2, s2))
    case (Some(a1), Some(a2)) =>
      (match (InsertAll(a1.0, SortBy(a2.1, MovedTo)), InsertAll(a2.0, SortBy(a1.1, MovedTo)))
       case (Some(n1), Some(n2)) => Some(Raw(n1, n2, s1, s2))
       case _ => None)
    case _ => None
  }

  lemma RemoveAllOne(r: seq<int>, ins: Insertion)
    requires 0 <= ins.from < |r|
    ensures RemoveAll(r, [ins]) == Some((RemoveAt(r, ins.from), [Moved(r[ins.from], ins)]))
  {
    var s := RemoveAt(r, ins.from);
    assert [ins][1..] == [];
    assert RemoveAll(s, []) == Some((s, []));
    assert RemoveAll(r, [ins]) == Some((s, [Moved(r[ins.from], ins)] + []));
    assert [Moved(r[ins.from], ins)] + [] == [Moved(r[ins.from], ins)];
  }

  lemma RemoveAllCons(r: seq<int>, ins: Insertion, rest: seq<Insertion>)
    requires 0 <= ins.from < |r| && RemoveAll(RemoveAt(r, ins.from), rest).Some?
    ensures RemoveAll(r, [ins] + rest)
         == Some((RemoveAll(RemoveAt(r, ins.from), rest).value.0,
                  [Moved(r[ins.from], ins)] + RemoveAll(RemoveAt(r, ins.from), rest).value.1))
  {
    var l := [ins] + rest;
    assert l[0] == ins && l[1..] == rest;
    var p := RemoveAll(RemoveAt(r, ins.from), rest).value;
    assert RemoveAll(r, l) == Some((p.0, [Moved(r[ins.from], ins)] + p.1));
  }

  lemma InsertAllOne(r: seq<int>, m: Moved)
    requires 0 <= m.insertion.to <= |r|
    ensures InsertAll(r, [m]) == Some(InsertAt(r, m.insertion.to, m.customer))
  {
    var s := InsertAt(r, m.insertion.to, m.customer);
    assert [m][1..] == [];
    assert InsertAll(s, []) == Some(s);
    assert InsertAll(r, [m]) == InsertAll(s, [m][1..]);
  }

  lemma SortOne<T>(x: T, key: T -> int)
    ensures SortBy([x], key) == [x]
  {
    assert [x][1..] == [];
    assert SortBy([], key) == [];
  }

  /** The four phases of a completed raw interchange, spelled out. */
  lemma ApplyRawSteps(r1: seq<int>, r2: seq<int>, l1: seq<Insertion>, l2: seq<Insertion>)
    requires ApplyRaw(r1, r2, l1, l2).Some?
    ensures var s1, s2 := SortBy(l1, DescFrom), SortBy(l2, DescFrom);
      && RemoveAll(r1, s1).Some? && RemoveAll(r2, s2).Some?
      && var a1, a2 := RemoveAll(r1, s1).value, RemoveAll(r2, s2).value;
      && InsertAll(a1.0, SortBy(a2.1, MovedTo)).Some?
      && InsertAll(a2.0, SortBy(a1.1, MovedTo)).Some?
      && ApplyRaw(r1, r2, l1, l2).value
         == Raw(InsertAll(a1.0, SortBy(a2.1, MovedTo)).value,
                InsertAll(a2.0, SortBy(a1.1, MovedTo)).value, s1, s2)
  {
  }

  /** A raw interchange whose four phases are known completes with the
      routes the insertion phases produce. */
  lemma ApplyRawFrom(r1: seq<int>, r2: seq<int>, l1: seq<Insertion>, l2: seq<Insertion>,
                     a1: (seq<int>, seq<Moved>), a2: (seq<int>, seq<Moved>), n1: seq<int>, n2: seq<int>)
    requires RemoveAll(r1, SortBy(l1, DescFrom)) == Some(a1)
    requires RemoveAll(r2, SortBy(l2, DescFrom)) == Some(a2)
    requires InsertAll(a1.0, SortBy(a2.1, MovedTo)) == Some(n1)
    requires InsertAll(a2.0, SortBy(a1.1, MovedTo)) == Some(n2)
    ensures ApplyRaw(r1, r2, l1, l2).Some?
    ensures ApplyRaw(r1, r2, l1, l2).value.route1 == n1
    ensures ApplyRaw(r1, r2, l1, l2).value.route2 == n2
  {
  }

  // ---------------------------------------------------------------------
  // Contents: nothing is lost or duplicated
  // ---------------------------------------------------------------------

  lemma {:induction false} RemoveAllContents(r: seq<int>, ins: seq<Insertion>, demand: int -> int)
    requires RemoveAll(r, ins).Some?
    ensures multiset(r) == multiset(RemoveAll(r, ins).value.0)
                           + multiset(MapSeq(RemoveAll(r, ins).value.1, CustomerOf))
    ensures DemandOf(demand, r) == DemandOf(demand, RemoveAll(r, ins).value.0)
                                   + SumInt(MapSeq(RemoveAll(r, ins).value.1, CustomerOf), demand)
    decreases |ins|
  {
    if ins != [] {
      var f := ins[0].from;
      var rest := RemoveAll(RemoveAt(r, f), ins[1..]).value;
      RemoveAllContents(RemoveAt(r, f), ins[1..], demand);
      var ms := RemoveAll(r, ins).value.1;
      assert RemoveAll(r, ins).value.0 == rest.0 && ms == [Moved(r[f], ins[0])] + rest.1;
      assert ms[1..] == rest.1;
      CustomersUncons(ms, demand);
      MultisetRemove(r, f);
      DemandRemove(demand, r, f);
    }
  }

  lemma {:induction false} InsertAllContents(r: seq<int>, ms: seq<Moved>, demand: int -> int)
    requires InsertAll(r, ms).Some?
    ensures multiset(InsertAll(r, ms).value) == multiset(r) + multiset(MapSeq(ms, CustomerOf))
    ensures DemandOf(demand, InsertAll(r, ms).value) == DemandOf(demand, r) + SumInt(MapSeq(ms, CustomerOf), demand)
    decreases |ms|
  {
    if ms != [] {
      var t, c := ms[0].insertion.to, ms[0].customer;
      InsertAllContents(InsertAt(r, t, c), ms[1..], demand);
      CustomersUncons(ms, demand);
      MultisetInsert(r, t, c);
      DemandInsert(demand, r, t, c);
    }
  }

  /** The customers of a list of moves: the first one, then the rest. */
  lemma CustomersUncons(ms: seq<Moved>, demand: int -> int)
    requires ms != []
    ensures multiset(MapSeq(ms, CustomerOf))
         == multiset{ms[0].customer} + multiset(MapSeq(ms[1..], CustomerOf))
    ensures SumInt(MapSeq(ms, CustomerOf), demand)
         == demand(ms[0].customer) + SumInt(MapSeq(ms[1..], CustomerOf), demand)
  {
    var cs := MapSeq(ms, CustomerOf);
    assert cs == [ms[0].customer] + MapSeq(ms[1..], CustomerOf);
    assert cs[1..] == MapSeq(ms[1..], CustomerOf);
  }

  /** Whenever the raw interchange completes, the customers of the two
      routes are the same multiset as before. */
  lemma ApplyRawPreservesCustomers(r1: seq<int>, r2: seq<int>, l1: seq<Insertion>, l2: seq<Insertion>)
    requires ApplyRaw(r1, r2, l1, l2).Some?
    ensures multiset(ApplyRaw(r1, r2, l1, l2).value.route1) + multiset(ApplyRaw(r1, r2, l1, l2).value.route2)
         == multiset(r1) + multiset(r2)
  {
    var demand := (c: int) => 0;
    var s1, s2 := SortBy(l1, DescFrom), SortBy(l2, DescFrom);
    var a1, a2 := RemoveAll(r1, s1).value, RemoveAll(r2, s2).value;
    var m1, m2 := SortBy(a1.1, MovedTo), SortBy(a2.1, MovedTo);
    RemoveAllContents(r1, s1, demand);
    RemoveAllContents(r2, s2, demand);
    InsertAllContents(a1.0, m2, demand);
    InsertAllContents(a2.0, m1, demand);
    MapSeqSort(a1.1, MovedTo, CustomerOf);
    MapSeqSort(a2.1, MovedTo, CustomerOf);
  }

  /** The demand of the customer at an insertion's source position, 0 for
      a position outside the route. */
  function FromDemand(demand: int -> int, r: seq<int>): Insertion -> int {
    (ins: Insertion) => if 0 <= ins.from < |r| then demand(r[ins.from]) else 0
  }

  function MovedDemandOf(demand: int -> int): Moved -> int {
    (m: Moved) => demand(m.customer)
  }

  /** Sorting the removed customers by target keeps their total demand. */
  lemma SortedMovedDemand(ms: seq<Moved>, demand: int -> int)
    ensures SumInt(MapSeq(SortBy(ms, MovedTo), CustomerOf), demand) == SumInt(MapSeq(ms, CustomerOf), demand)
  {
    var t := SortBy(ms, MovedTo);
    SumIntPointwise(MapSeq(t, CustomerOf), t, demand, MovedDemandOf(demand));
    SumIntPointwise(MapSeq(ms, CustomerOf), ms, demand, MovedDemandOf(demand));
    SumIntSort(ms, MovedTo, MovedDemandOf(demand));
  }

  /** With distinct source positions inside the route, the removal phase
      takes out customers whose demands add up to those at the listed
      positions. */
  lemma RemovedDemand(r: seq<int>, l: seq<Insertion>, demand: int -> int)
    requires Injective(l, FromOf)
    requires forall k :: 0 <= k < |l| ==> 0 <= l[k].from < |r|
    ensures RemoveAll(r, SortBy(l, DescFrom)).Some?
    ensures SumInt(MapSeq(RemoveAll(r, SortBy(l, DescFrom)).value.1, CustomerOf), demand)
         == SumInt(l, FromDemand(demand, r))
  {
    var s := SortBy(l, DescFrom);
    SortedDistinctFroms(l);
    SortedFromsInRange(r, l);
    RemoveAllDistinct(r, s);
    var ms := RemoveAll(r, s).value.1;
    SumIntPointwise(MapSeq(ms, CustomerOf), s, demand, FromDemand(demand, r));
    SumIntSort(l, DescFrom, FromDemand(demand, r));
  }

  /** With distinct source positions inside their routes, each route's
      demand after the interchange is its demand before, less the demand
      of the customers listed out of it, plus that of the customers listed
      into it. */
  lemma ApplyRawDemands(r1: seq<int>, r2: seq<int>, l1: seq<Insertion>, l2: seq<Insertion>, demand: int -> int)
    requires Injective(l1, FromOf) && Injective(l2, FromOf)
    requires forall k :: 0 <= k < |l1| ==> 0 <= l1[k].from < |r1|
    requires forall k :: 0 <= k < |l2| ==> 0 <= l2[k].from < |r2|
    requires ApplyRaw(r1, r2, l1, l2).Some?
    ensures var o, m1, m2 := ApplyRaw(r1, r2, l1, l2).value, SumInt(l1, FromDemand(demand, r1)), SumInt(l2, FromDemand(demand, r2));
      && DemandOf(demand, o.route1) == DemandOf(demand, r1) - m1 + m2
      && DemandOf(demand, o.route2) == DemandOf(demand, r2) + m1 - m2
  {
    ApplyRawSteps(r1, r2, l1, l2);
    var s1, s2 := SortBy(l1, DescFrom), SortBy(l2, DescFrom);
    var a1, a2 := RemoveAll(r1, s1).value, RemoveAll(r2, s2).value;
    RemoveAllContents(r1, s1, demand);
    RemoveAllContents(r2, s2, demand);
    InsertAllContents(a1.0, SortBy(a2.1, MovedTo), demand);
    InsertAllContents(a2.0, SortBy(a1.1, MovedTo), demand);
    RemovedDemand(r1, l1, demand);
    RemovedDemand(r2, l2, demand);
    SortedMovedDemand(a1.1, demand);
    SortedMovedDemand(a2.1, demand);
  }

  /** The call leaves both insertion lists sorted by decreasing `from`,
      as permutations of the lists it was given. */
  lemma ApplyRawSortsLists(r1: seq<int>, r2: seq<int>, l1: seq<Insertion>, l2: seq<Insertion>)
    requires ApplyRaw(r1, r2, l1, l2).Some?
    ensures var o := ApplyRaw(r1, r2, l1, l2).value;
      && (forall i, j :: 0 <= i < j < |o.sorted1| ==> o.sorted1[i].from >= o.sorted1[j].from)
      && (forall i, j :: 0 <= i < j < |o.sorted2| ==> o.sorted2[i].from >= o.sorted2[j].from)
      && multiset(o.sorted1) == multiset(l1) && multiset(o.sorted2) == multiset(l2)
  {
    ApplyRawSteps(r1, r2, l1, l2);
    SortBySorted(l1, DescFrom);
    SortBySorted(l2, DescFrom);
    SortByMultiset(l1, DescFrom);
    SortByMultiset(l2, DescFrom);
  }

  // ---------------------------------------------------------------------
  // Distinct indices: the listed customers are the ones that move
  // ---------------------------------------------------------------------

  /** Positions strictly decreasing along the list. */
  predicate StrictlyDecreasingFrom(s: seq<Insertion>) {
    forall i, j :: 0 <= i < j < |s| ==> s[i].from > s[j].from
  }

  lemma SortedDistinctFroms(l: seq<Insertion>)
    requires Injective(l, FromOf)
    ensures StrictlyDecreasingFrom(SortBy(l, DescFrom))
  {
    SortBySorted(l, DescFrom);
    SortByInjective(l, DescFrom, FromOf);
  }

  /** Removing distinct positions from the highest down takes out exactly
      the customers originally at those positions. */
  lemma {:induction false} RemoveAllDistinct(r: seq<int>, s: seq<Insertion>)
    requires StrictlyDecreasingFrom(s)
    requires forall k :: 0 <= k < |s| ==> 0 <= s[k].from < |r|
    ensures RemoveAll(r, s).Some?
    ensures forall k :: 0 <= k < |s| ==> RemoveAll(r, s).value.1[k] == Moved(r[s[k].from], s[k])
    decreases |s|
  {
    if s != [] {
      var f := s[0].from;
      var r' := RemoveAt(r, f);
      assert forall k :: 0 <= k < |s[1..]| ==> s[1..][k].from == s[k + 1].from < f;
      RemoveAllDistinct(r', s[1..]);
      var ms := RemoveAll(r, s).value.1;
      forall k | 0 <= k < |s| ensures ms[k] == Moved(r[s[k].from], s[k]) {
        if k > 0 {
          assert ms[k] == RemoveAll(r', s[1..]).value.1[k - 1];
          assert r'[s[k].from] == r[s[k].from];
        }
      }
    }
  }

  /** Inserting at increasing positions never disturbs a position below
      all of them. */
  lemma {:induction false} InsertAllKeepsBelow(r: seq<int>, ms: seq<Moved>, p: int)
    requires InsertAll(r, ms).Some?
    requires 0 <= p < |r|
    requires forall k :: 0 <= k < |ms| ==> ms[k].insertion.to > p
    ensures InsertAll(r, ms).value[p] == r[p]
    decreases |ms|
  {
    if ms != [] {
      InsertAllKeepsBelow(InsertAt(r, ms[0].insertion.to, ms[0].customer), ms[1..], p);
    }
  }

  /** Inserting at strictly increasing positions, each within the route
      the insertions start from, succeeds and leaves every customer at its
      target position. */
  lemma {:induction false} InsertAllPositions(r: seq<int>, ms: seq<Moved>)
    requires forall i, j :: 0 <= i < j < |ms| ==> ms[i].insertion.to < ms[j].insertion.to
    requires forall k :: 0 <= k < |ms| ==> 0 <= ms[k].insertion.to <= |r|
    ensures InsertAll(r, ms).Some?
    ensures forall k :: 0 <= k < |ms| ==> InsertAll(r, ms).value[ms[k].insertion.to] == ms[k].customer
    decreases |ms|
  {
    if ms != [] {
      var t := ms[0].insertion.to;
      var r' := InsertAt(r, t, ms[0].customer);
      InsertAllPositions(r', ms[1..]);
      assert forall k :: 0 <= k < |ms[1..]| ==> ms[1..][k].insertion.to > t;
      InsertAllKeepsBelow(r', ms[1..], t);
    }
  }

  /** Sorting keeps every source position inside the route. */
  lemma SortedFromsInRange(r: seq<int>, l: seq<Insertion>)
    requires forall k :: 0 <= k < |l| ==> 0 <= l[k].from < |r|
    ensures forall k :: 0 <= k < |SortBy(l, DescFrom)| ==> 0 <= SortBy(l, DescFrom)[k].from < |r|
  {
    var s := SortBy(l, DescFrom);
    SortByMultiset(l, DescFrom);
    forall k | 0 <= k < |s| ensures 0 <= s[k].from < |r| {
      assert s[k] in multiset(l);
      var j :| 0 <= j < |l| && l[j] == s[k];
    }
  }

  /** The removal phase on a list with distinct source positions. */
  lemma RemovePhase(r: seq<int>, l: seq<Insertion>)
    requires Injective(l, FromOf)
    requires forall k :: 0 <= k < |l| ==> 0 <= l[k].from < |r|
    ensures RemoveAll(r, SortBy(l, DescFrom)).Some?
    ensures forall k :: 0 <= k < |l| ==> Moved(r[l[k].from], l[k]) in RemoveAll(r, SortBy(l, DescFrom)).value.1
    ensures forall x :: x in RemoveAll(r, SortBy(l, DescFrom)).value.1 ==> x.insertion in l
  {
    var s := SortBy(l, DescFrom);
    SortedDistinctFroms(l);
    SortedFromsInRange(r, l);
    SortByMultiset(l, DescFrom);
    RemoveAllDistinct(r, s);
    var ms := RemoveAll(r, s).value.1;
    RemovePhaseMembers(r, l, s, ms);
  }

  /** The moved customers are exactly the listed ones, with their customers. */
  lemma RemovePhaseMembers(r: seq<int>, l: seq<Insertion>, s: seq<Insertion>, ms: seq<Moved>)
    requires multiset(s) == multiset(l) && |ms| == |s|
    requires forall k :: 0 <= k < |l| ==> 0 <= l[k].from < |r|
    requires forall k :: 0 <= k < |s| ==> 0 <= s[k].from < |r| && ms[k] == Moved(r[s[k].from], s[k])
    ensures forall k :: 0 <= k < |l| ==> Moved(r[l[k].from], l[k]) in ms
    ensures forall x :: x in ms ==> x.insertion in l
  {
    forall k | 0 <= k < |l| ensures Moved(r[l[k].from], l[k]) in ms {
      assert l[k] in multiset(s);
      var j :| 0 <= j < |s| && s[j] == l[k];
      assert ms[j] == Moved(r[l[k].from], l[k]);
    }
    forall x | x in ms ensures x.insertion in l {
      var j :| 0 <= j < |ms| && ms[j] == x;
      assert s[j] in multiset(l);
    }
  }

  /** Distinct targets in the list give distinct targets among the
      removed customers. */
  lemma RemovePhaseTargets(r: seq<int>, l: seq<Insertion>)
    requires Injective(l, ToOf)
    requires RemoveAll(r, SortBy(l, DescFrom)).Some?
    ensures Injective(RemoveAll(r, SortBy(l, DescFrom)).value.1, MovedTo)
  {
    var s := SortBy(l, DescFrom);
    SortByInjective(l, DescFrom, ToOf);
    var ms := RemoveAll(r, s).value.1;
    assert forall k :: 0 <= k < |ms| ==> MovedTo(ms[k]) == ToOf(s[k]);
  }

  /** The insertion phase with distinct target positions inside the route. */
  lemma InsertPhase(r: seq<int>, ms: seq<Moved>)
    requires Injective(ms, MovedTo)
    requires forall x :: x in ms ==> 0 <= x.insertion.to <= |r|
    ensures InsertAll(r, SortBy(ms, MovedTo)).Some?
    ensures forall x :: x in ms ==> InsertAll(r, SortBy(ms, MovedTo)).value[x.insertion.to] == x.customer
  {
    var t := SortBy(ms, MovedTo);
    SortByMultiset(ms, MovedTo);
    assert forall i, j :: 0 <= i < j < |t| ==> t[i].insertion.to < t[j].insertion.to by {
      SortBySorted(ms, MovedTo);
      SortByInjective(ms, MovedTo, MovedTo);
    }
    forall k | 0 <= k < |t| ensures 0 <= t[k].insertion.to <= |r| {
      assert t[k] in multiset(ms);
    }
    InsertAllPositions(r, t);
    forall x | x in ms ensures InsertAll(r, t).value[x.insertion.to] == x.customer {
      assert x in multiset(t);
      var j :| 0 <= j < |t| && t[j] == x;
    }
  }

  /** The well-formed case: distinct positions in each list, sources inside
      their route, targets inside the other route after its removals. */
  predicate WellFormedLists(r1: seq<int>, r2: seq<int>, l1: seq<Insertion>, l2: seq<Insertion>) {
    && Injective(l1, FromOf) && Injective(l1, ToOf)
    && Injective(l2, FromOf) && Injective(l2, ToOf)
    && (forall k :: 0 <= k < |l1| ==> 0 <= l1[k].from < |r1| && 0 <= l1[k].to <= |r2| - |l2|)
    && (forall k :: 0 <= k < |l2| ==> 0 <= l2[k].from < |r2| && 0 <= l2[k].to <= |r1| - |l1|)
  }

  /** With well-formed lists the interchange completes and every moved
      customer ends at its `to` position in the other route. */
  lemma ApplyRawPlacesCustomers(r1: seq<int>, r2: seq<int>, l1: seq<Insertion>, l2: seq<Insertion>)
    requires WellFormedLists(r1, r2, l1, l2)
    ensures ApplyRaw(r1, r2, l1, l2).Some?
    ensures forall k :: 0 <= k < |l1| ==> ApplyRaw(r1, r2, l1, l2).value.route2[l1[k].to] == r1[l1[k].from]
    ensures forall k :: 0 <= k < |l2| ==> ApplyRaw(r1, r2, l1, l2).value.route1[l2[k].to] == r2[l2[k].from]
  {
    RemovePhase(r1, l1);
    RemovePhase(r2, l2);
    var s1, s2 := SortBy(l1, DescFrom), SortBy(l2, DescFrom);
    RemovePhaseTargets(r1, l1);
    RemovePhaseTargets(r2, l2);
    var a1, a2 := RemoveAll(r1, s1).value, RemoveAll(r2, s2).value;
    forall x | x in a2.1 ensures 0 <= x.insertion.to <= |a1.0| {
      var k :| 0 <= k < |l2| && l2[k] == x.insertion;
    }
    forall x | x in a1.1 ensures 0 <= x.insertion.to <= |a2.0| {
      var k :| 0 <= k < |l1| && l1[k] == x.insertion;
    }
    InsertPhase(a1.0, a2.1);
    InsertPhase(a2.0, a1.1);
    var n1 := InsertAll(a1.0, SortBy(a2.1, MovedTo)).value;
    var n2 := InsertAll(a2.0, SortBy(a1.1, MovedTo)).value;
    assert ApplyRaw(r1, r2, l1, l2) == Some(Raw(n1, n2, s1, s2));
    forall k | 0 <= k < |l1| ensures n2[l1[k].to] == r1[l1[k].from] {
      assert Moved(r1[l1[k].from], l1[k]) in a1.1;
    }
    forall k | 0 <= k < |l2| ensures n1[l2[k].to] == r2[l2[k].from] {
      assert Moved(r2[l2[k].from], l2[k]) in a2.1;
    }
  }
}

/** The array version of `performRawInterchange` in `EdgeDeltaCalculators`:
    routes held in arrays with an explicit length, removal by shifting the
    tail left, insertion by shifting it right. */
module RawInterchangeArrays {
  import opened Common
  import opened Routes
  import opened Interchanges
  import opened RawInterchange

  /** The removal loop: `a[i] = a[i + 1]` for `i` from `idx` to `len - 2`. */
  method ShiftLeft(a: array<int>, len: int, idx: int)
    requires 0 <= idx < len <= a.Length
    modifies a
    ensures a[..len - 1] == RemoveAt(old(a[..len]), idx)
  {
    var i := idx;
    while i < len - 1
      invariant idx <= i <= len - 1
      invariant forall k :: 0 <= k < idx ==> a[k] == old(a[k])
      invariant forall k :: idx <= k < i ==> a[k] == old(a[k + 1])
      invariant forall k :: i <= k < len ==> a[k] == old(a[k])
    {
      a[i] := a[i + 1];
      i := i + 1;
    }
  }

  /** The insertion loop: `a[i + 1] = a[i]` for `i` from `len - 1` down to
      `to`, then the customer is written at `to`. */
  method ShiftRight(a: array<int>, len: int, to: int, c: int)
    requires 0 <= to <= len < a.Length
    modifies a
    ensures a[..len + 1] == InsertAt(old(a[..len]), to, c)
  {
    var i := len - 1;
    while i >= to
      invariant to - 1 <= i <= len - 1
      invariant forall k :: 0 <= k <= i ==> a[k] == old(a[k])
      invariant forall k :: i + 1 < k <= len ==> a[k] == old(a[k - 1])
    {
      a[i + 1] := a[i];
      i := i - 1;
    }
    a[to] := c;
  }

  /** One removal pass: for each insertion in order, record the customer
      at its `from` position and shift the tail left. */
  method RemoveLoop(a: array<int>, len: int, s: seq<Insertion>) returns (moved: seq<Moved>, newLen: int)
    requires 0 <= len <= a.Length
    requires RemoveAll(a[..len], s).Some?
    modifies a
    ensures newLen == len - |s|
    ensures RemoveAll(old(a[..len]), s) == Some((a[..newLen], moved))
  {
    ghost var total := RemoveAll(a[..len], s).value;
    moved := [];
    newLen := len;
    var k := 0;
    while k < |s|
      invariant 0 <= k <= |s| && newLen == len - k
      invariant RemoveAll(a[..newLen], s[k..]).Some?
      invariant total.0 == RemoveAll(a[..newLen], s[k..]).value.0
      invariant total.1 == moved + RemoveAll(a[..newLen], s[k..]).value.1
    {
      var ins := s[k];
      ghost var cur := a[..newLen];
      RemoveStepAt(cur, s, k);
      var c := a[ins.from];
      ShiftLeft(a, newLen, ins.from);
      newLen := newLen - 1;
      RemoveLoopStep(total, cur, a[..newLen], s, k, moved, c);
      moved := moved + [Moved(c, ins)];
      k := k + 1;
    }
    assert s[k..] == [];
    assert moved + [] == moved;
  }

  /** The step of `RemoveAll` at position `k` of the insertions: the
      removal at `s[k].from` is in bounds and the rest follows it. */
  lemma RemoveStepAt(cur: seq<int>, s: seq<Insertion>, k: int)
    requires 0 <= k < |s| && RemoveAll(cur, s[k..]).Some?
    ensures 0 <= s[k].from < |cur|
    ensures RemoveAll(RemoveAt(cur, s[k].from), s[k + 1..]).Some?
    ensures var tail := RemoveAll(RemoveAt(cur, s[k].from), s[k + 1..]).value;
      RemoveAll(cur, s[k..]).value == (tail.0, [Moved(cur[s[k].from], s[k])] + tail.1)
  {
    assert s[k..][1..] == s[k + 1..];
  }

  /** The removal loop's invariant carries over one removal. */
  lemma RemoveLoopStep(total: (seq<int>, seq<Moved>), cur: seq<int>, after: seq<int>,
                       s: seq<Insertion>, k: int, moved: seq<Moved>, c: int)
    requires 0 <= k < |s| && 0 <= s[k].from < |cur| && RemoveAll(cur, s[k..]).Some?
    requires total.0 == RemoveAll(cur, s[k..]).value.0
    requires total.1 == moved + RemoveAll(cur, s[k..]).value.1
    requires after == RemoveAt(cur, s[k].from) && c == cur[s[k].from]
    ensures RemoveAll(after, s[k + 1..]).Some?
    ensures total.0 == RemoveAll(after, s[k + 1..]).value.0
    ensures total.1 == (moved + [Moved(c, s[k])]) + RemoveAll(after, s[k + 1..]).value.1
  {
    RemoveStepAt(cur, s, k);
    var tail := RemoveAll(after, s[k + 1..]).value;
    assert moved + ([Moved(c, s[k])] + tail.1) == (moved + [Moved(c, s[k])]) + tail.1;
  }

  /** One insertion pass: for each removed customer in order, shift the
      tail right and write the customer at its `to` position. */
  method InsertLoop(a: array<int>, len: int, ms: seq<Moved>) returns (newLen: int)
    requires 0 <= len && len + |ms| <= a.Length
    requires InsertAll(a[..len], ms).Some?
    modifies a
    ensures newLen == len + |ms|
    ensures InsertAll(old(a[..len]), ms) == Some(a[..newLen])
  {
    newLen := len;
    var k := 0;
    while k < |ms|
      invariant 0 <= k <= |ms| && newLen == len + k
      invariant InsertAll(a[..newLen], ms[k..]) == InsertAll(old(a[..len]), ms)
    {
      var m := ms[k];
      assert ms[k..][1..] == ms[k + 1..];
      ShiftRight(a, newLen, m.insertion.to, m.customer);
      newLen := newLen + 1;
      k := k + 1;
    }
    assert ms[k..] == [];
  }

  /** A fresh array of the given capacity holding the route. */
  method Load(r: seq<int>, capacity: int) returns (a: array<int>)
    requires |r| <= capacity
    ensures fresh(a) && a.Length == capacity && a[..|r|] == r
  {
    a := new int[capacity](i => if 0 <= i < |r| then r[i] else 0);
    assert a[..|r|] == r;
  }

  /** Runs the array algorithm on copies of the two routes (each array has
      room for the customers it receives) and returns their final contents
      and the sorted insertion lists; the result is exactly `ApplyRaw`. */
  method PerformRawInterchangeArrays(r1: seq<int>, r2: seq<int>, l1: seq<Insertion>, l2: seq<Insertion>)
    returns (route1: seq<int>, route2: seq<int>, sorted1: seq<Insertion>, sorted2: seq<Insertion>)
    requires ApplyRaw(r1, r2, l1, l2).Some?
    ensures ApplyRaw(r1, r2, l1, l2) == Some(Raw(route1, route2, sorted1, sorted2))
  {
    var a1 := Load(r1, |r1| + |l2|);
    var a2 := Load(r2, |r2| + |l1|);
    sorted1 := SortBy(l1, DescFrom);
    sorted2 := SortBy(l2, DescFrom);
    var rem1, rem2 := RemoveAll(r1, sorted1).value, RemoveAll(r2, sorted2).value;
    var moved1, len1 := RemoveLoop(a1, |r1|, sorted1);
    assert a1[..len1] == rem1.0 && moved1 == rem1.1;
    var moved2, len2 := RemoveLoop(a2, |r2|, sorted2);
    assert a2[..len2] == rem2.0 && moved2 == rem2.1;
    assert a1[..len1] == rem1.0;
    var ms1 := SortBy(moved1, MovedTo);
    var ms2 := SortBy(moved2, MovedTo);
    ApplyRawSteps(r1, r2, l1, l2);
    var n1, n2 := InsertAll(rem1.0, ms2).value, InsertAll(rem2.0, ms1).value;
    len2 := InsertLoop(a2, len2, ms1);
    assert a2[..len2] == n2;
    assert a1[..len1] == rem1.0;
    len1 := InsertLoop(a1, len1, ms2);
    assert a1[..len1] == n1;
    route1 := a1[..len1];
    route2 := a2[..len2];
  }
}

=== FILE: route.dfy ===
/** `data.Route`: a customer list from depot to depot with its cached
    demand, the length computation, and the parts of `optimize` around the
    TSP solver: rebuilding the tour from the solver's connection values and
    accepting it only when it is strictly shorter. */
module RouteModel {
  import opened Common
  import opened Routes

  datatype Route = Route(customers: seq<int>, demand: int)

  /** `Route.clone`: the customer list is copied; with value semantics a
      later edit of either route can never reach the other. */
  function CloneRoute(r: Route): (c: Route)
    ensures c == r
  {
    Route(r.customers[..], r.demand)
  }

  /** `calculateRouteLength`: adds the distance of every consecutive pair. */
  method CalculateRouteLength(d: Dist, r: Route) returns (x: real)
    ensures x == Len(d, r.customers)
    ensures |r.customers| < 2 ==> x == 0.0
  {
    var c := r.customers;
    x := 0.0;
    var i := 0;
    assert c[0..] == c;
    while i < |c| - 1
      invariant 0 <= i <= |c|
      invariant |c| >= 1 ==> i <= |c| - 1
      invariant x + Len(d, c[i..]) == Len(d, c)
    {
      assert c[i..][1..] == c[i + 1..];
      x := x + d(c[i], c[i + 1]);
      i := i + 1;
    }
  }

  // ---------------------------------------------------------------------
  // The tour read back from the solver
  // ---------------------------------------------------------------------

  /** The first index `i` in `[from, n)` other than `cur` whose rounded
      connection value `conn(i, cur)` is 1: the customer visited after
      `cur`. */
  function Successor(conn: (int, int) -> int, n: int, cur: int, from: int): (s: Option<int>)
    ensures s.Some? ==> from <= s.value < n && s.value != cur && conn(s.value, cur) == 1
    ensures s.Some? ==> forall i :: from <= i < s.value && i != cur ==> conn(i, cur) != 1
    ensures s.None? ==> forall i :: from <= i < n && i != cur ==> conn(i, cur) != 1
    decreases n - from
  {
    if from >= n then None
    else if from != cur && conn(from, cur) == 1 then Some(from)
    else Successor(conn, n, cur, from + 1)
  }

  /** The number of rows and columns of the connection matrix,
      `numCustomers = customers.size() - 1`: the trailing depot has no row,
      so it is never read back as a successor. */
  function MatrixSize(customers: seq<int>): int { |customers| - 1 }

  /** The `do … while (nextCustomer != 0)` loop of `optimize`, started at
      `cur`: the customers appended and the length accumulated, up to the
      step that returns to index 0. `None` when the loop would not end (a
      customer without successor) or needs more than `fuel` steps. */
  function Walk(d: Dist, customers: seq<int>, conn: (int, int) -> int, cur: int, fuel: nat)
    : Option<(seq<int>, real)>
    requires 0 <= cur < MatrixSize(customers)
    decreases fuel
  {
    match Successor(conn, MatrixSize(customers), cur, 0)
    case None => if cur == 0 then Some(([], 0.0)) else None
    case Some(i) =>
      var step := d(customers[cur], customers[i]);
      if i == 0 then Some(([customers[cur]], step))
      else if fuel == 0 then None
      else match Walk(d, customers, conn, i, fuel - 1)
        case None => None
        case Some(w) => Some(([customers[cur]] + w.0, step + w.1))
  }

  /** The accumulated length is the length of the walk closed by the
      customer at index 0, and the walk only visits entries that have a
      row in the connection matrix, never the trailing depot's index. */
  lemma {:induction false} WalkLength(d: Dist, customers: seq<int>, conn: (int, int) -> int, cur: int, fuel: nat)
    requires 0 <= cur < MatrixSize(customers)
    requires Walk(d, customers, conn, cur, fuel).Some?
    ensures var w := Walk(d, customers, conn, cur, fuel).value;
      w.0 != [] ==> w.0[0] == customers[cur] && w.1 == Len(d, w.0 + [customers[0]])
    ensures var w := Walk(d, customers, conn, cur, fuel).value;
      forall k :: 0 <= k < |w.0| ==> w.0[k] in customers[..MatrixSize(customers)]
    decreases fuel
  {
    var w := Walk(d, customers, conn, cur, fuel).value;
    var s := Successor(conn, MatrixSize(customers), cur, 0);
    if s.Some? {
      var i := s.value;
      var step := d(customers[cur], customers[i]);
      if i == 0 {
        assert w == ([customers[cur]], step);
        assert customers[cur] in customers[..MatrixSize(customers)];
        assert ([customers[cur]] + [customers[0]])[1..] == [customers[0]];
      } else {
        var v := Walk(d, customers, conn, i, fuel - 1).value;
        WalkLength(d, customers, conn, i, fuel - 1);
        assert w == ([customers[cur]] + v.0, step + v.1);
        assert v.0 != [] by {
          assert Successor(conn, MatrixSize(customers), i, 0).Some?;
        }
        var t := [customers[cur]] + v.0 + [customers[0]];
        assert t[1..] == v.0 + [customers[0]];
        assert customers[cur] in customers[..MatrixSize(customers)];
        forall k | 0 <= k < |w.0| ensures w.0[k] in customers[..MatrixSize(customers)] {
          if k > 0 { assert w.0[k] == v.0[k - 1]; }
        }
      }
    }
  }

  /** The tour `optimize` builds: the walk from index 0, the depot 0
      appended, and the length including the edge from the depot to the
      last entry, which is the depot itself. The solver's arrays need at
      least two entries. */
  function RebuildTour(d: Dist, customers: seq<int>, conn: (int, int) -> int, fuel: nat)
    : (t: Option<(seq<int>, real)>)
    requires |customers| >= 2
    ensures t.Some? ==> |t.value.0| >= 1 && t.value.0[|t.value.0| - 1] == 0
  {
    match Walk(d, customers, conn, 0, fuel)
    case None => None
    case Some(w) =>
      var tour := w.0 + [0];
      Some((tour, w.1 + d(0, tour[|tour| - 1])))
  }

  /** When index 0 holds the depot and the matrix has a zero diagonal, the
      rebuilt tour starts at the depot and its computed length is its true
      length. */
  lemma RebuildTourIsClosed(d: Dist, customers: seq<int>, conn: (int, int) -> int, fuel: nat)
    requires |customers| >= 2 && customers[0] == 0 && d(0, 0) == 0.0
    requires RebuildTour(d, customers, conn, fuel).Some?
    ensures var t := RebuildTour(d, customers, conn, fuel).value;
      t.0[0] == 0 && t.1 == Len(d, t.0)
  {
    var w := Walk(d, customers, conn, 0, fuel).value;
    WalkLength(d, customers, conn, 0, fuel);
    if w.0 == [] {
      assert w.0 + [0] == [0];
    }
  }

  /** On `[0, 5, 0]` with only the trailing depot connected to index 0, no
      row of the matrix is a successor of the depot, so the tour is the
      depot alone. */
  lemma RebuildTourIgnoresTrailingDepot(d: Dist, fuel: nat)
    ensures var conn := (i: int, j: int) => if (i == 2 && j == 0) || (i == 0 && j == 2) then 1 else 0;
      && RebuildTour(d, [0, 5, 0], conn, fuel).Some?
      && RebuildTour(d, [0, 5, 0], conn, fuel).value.0 == [0]
  {
    var conn := (i: int, j: int) => if (i == 2 && j == 0) || (i == 0 && j == 2) then 1 else 0;
    assert Successor(conn, 2, 0, 0) == None;
  }

  // ---------------------------------------------------------------------
  // Acceptance
  // ---------------------------------------------------------------------

  /** The new route and the value `optimize` returns. */
  datatype Optimized = Optimized(route: Route, gain: real)

  /** The tail of `optimize`: the candidate tour replaces the customers
      only when it is strictly shorter, and the (negative) difference is
      returned; otherwise the route is kept and 0 returned. */
  function AcceptTour(d: Dist, r: Route, tour: seq<int>, tourLength: real): (o: Optimized)
    ensures o.gain <= 0.0
    ensures o.gain < 0.0 <==> tourLength < Len(d, r.customers)
    ensures o.gain < 0.0 ==> o.route.customers == tour
    ensures o.gain == 0.0 ==> o.route == r
    ensures o.route.demand == r.demand
  {
    var oldLength := Len(d, r.customers);
    if tourLength < oldLength then Optimized(Route(tour, r.demand), tourLength - oldLength)
    else Optimized(r, 0.0)
  }

  /** With a correctly measured tour the returned gain is exactly the
      change of the route's length, so `optimize` never lengthens a route. */
  lemma AcceptTourLength(d: Dist, r: Route, tour: seq<int>, tourLength: real)
    requires tourLength == Len(d, tour)
    ensures Len(d, AcceptTour(d, r, tour, tourLength).route.customers)
         == Len(d, r.customers) + AcceptTour(d, r, tour, tourLength).gain
    ensures Len(d, AcceptTour(d, r, tour, tourLength).route.customers) <= Len(d, r.customers)
  {
  }

  /** `optimize` after the solver: rebuild the tour and accept it if shorter. */
  function OptimizeTail(d: Dist, r: Route, conn: (int, int) -> int, fuel: nat): (o: Option<Optimized>)
    requires |r.customers| >= 2
    ensures o.Some? ==> o.value.gain <= 0.0 && o.value.route.demand == r.demand
  {
    match RebuildTour(d, r.customers, conn, fuel)
    case None => None
    case Some(t) => Some(AcceptTour(d, r, t.0, t.1))
  }

  /** For a route starting at the depot and a zero-diagonal matrix, the
      optimised route is never longer and the gain is its length change. */
  lemma OptimizeTailShortens(d: Dist, r: Route, conn: (int, int) -> int, fuel: nat)
    requires |r.customers| >= 2 && r.customers[0] == 0 && d(0, 0) == 0.0
    requires OptimizeTail(d, r, conn, fuel).Some?
    ensures var o := OptimizeTail(d, r, conn, fuel).value;
      Len(d, o.route.customers) == Len(d, r.customers) + o.gain
  {
    var t := RebuildTour(d, r.customers, conn, fuel).value;
    RebuildTourIsClosed(d, r.customers, conn, fuel);
    AcceptTourLength(d, r, t.0, t.1);
  }
}

=== FILE: route_list.dfy ===
/** `data.RouteList`: all routes of a solution with the cached total
    length, the 1-interchange deltas, the excess-capacity estimate of a
    move, and `perform`, which applies a move while keeping the demand and
    length caches up to date. */
module RouteLists {
  import opened Common
  import opened Routes
  import opened Interchanges
  import opened RawInterchange
  import opened EdgeDeltas
  import opened RouteModel

  datatype RouteList = RouteList(routes: seq<Route>, length: real)

  /** The fixed data a route list consults: distances, the demand of each
      customer and the vehicle capacity. */
  datatype Instance = Instance(d: Dist, demandOf: int -> int, capacity: int)

  /** `RouteList.clone`: a fresh list of cloned routes and the same length. */
  function CloneList(rl: RouteList): (c: RouteList)
    ensures c == rl
  {
    var rs := seq(|rl.routes|, k requires 0 <= k < |rl.routes| => CloneRoute(rl.routes[k]));
    assert rs == rl.routes;
    RouteList(rs, rl.length)
  }

  /** Both route indices of the interchange name routes of the list. */
  predicate Names(rl: RouteList, ic: Interchange) {
    0 <= ic.routeIdx1 < |rl.routes| && 0 <= ic.routeIdx2 < |rl.routes|
  }

  function Route1(rl: RouteList, ic: Interchange): seq<int>
    requires Names(rl, ic)
  {
    rl.routes[ic.routeIdx1].customers
  }

  function Route2(rl: RouteList, ic: Interchange): seq<int>
    requires Names(rl, ic)
  {
    rl.routes[ic.routeIdx2].customers
  }

  // ---------------------------------------------------------------------
  // Length deltas
  // ---------------------------------------------------------------------

  /** `calculateInsertionDelta`: edges gained minus edges lost when the
      customer at `from` of `r1` moves before position `to` of `r2`. */
  function InsertionDelta(d: Dist, r1: seq<int>, r2: seq<int>, ins: Insertion): real
    requires Interior(r1, ins.from) && Gap(r2, ins.to)
  {
    var c := r1[ins.from];
    var left, right := r1[ins.from - 1], r1[ins.from + 1];
    var futureLeft, futureRight := r2[ins.to - 1], r2[ins.to];
    (d(c, futureLeft) + d(c, futureRight) + d(left, right))
    - (d(c, left) + d(c, right) + d(futureLeft, futureRight))
  }

  /** `calculateSwapDelta`: like `delta1I`, but the left future neighbour
      is chosen with the test `to <= from`. */
  function SwapDelta(d: Dist, r1: seq<int>, r2: seq<int>, ins1: Insertion, ins2: Insertion): real
    requires Interior(r1, ins1.from) && Interior(r2, ins2.from)
    requires 1 <= ins1.to <= |r2| - 2 && 1 <= ins2.to <= |r1| - 2
  {
    var c1, c1l, c1r := r1[ins1.from], r1[ins1.from - 1], r1[ins1.from + 1];
    var c2, c2l, c2r := r2[ins2.from], r2[ins2.from - 1], r2[ins2.from + 1];
    var extraction := d(c1l, c1r) - d(c1l, c1) - d(c1r, c1) + d(c2l, c2r) - d(c2l, c2) - d(c2r, c2);
    var f1l := r2[if ins1.to <= ins2.from then ins1.to - 1 else ins1.to];
    var f1r := r2[if ins1.to < ins2.from then ins1.to else ins1.to + 1];
    var f2l := r1[if ins2.to <= ins1.from then ins2.to - 1 else ins2.to];
    var f2r := r1[if ins2.to < ins1.from then ins2.to else ins2.to + 1];
    var insertion := -d(f1l, f1r) + d(f1l, c1) + d(f1r, c1) - d(f2l, f2r) + d(f2l, c2) + d(f2r, c2);
    extraction + insertion
  }

  /** The list version of the relocation delta is the array version's. */
  lemma InsertionDeltaIsDelta0I(d: Dist, r1: seq<int>, r2: seq<int>, ic: Interchange)
    requires Domain0I(r1, r2, ic)
    ensures InsertionDelta(d, r1, r2, ic.list1[0]) == Delta0I(d, r1, r2, ic)
  {
  }

  /** `to <= from` and `to - 1 < from` pick the same neighbour, so both
      swap formulas agree. */
  lemma SwapDeltaIsDelta1I(d: Dist, r1: seq<int>, r2: seq<int>, ic: Interchange)
    requires Domain1I(r1, r2, ic)
    ensures SwapDelta(d, r1, r2, ic.list1[0], ic.list2[0]) == Delta1I(d, r1, r2, ic)
  {
  }

  /** The indices a (1,0) or (1,1) delta reads lie inside their routes. */
  predicate DeltaReadable(rl: RouteList, ic: Interchange) {
    && Names(rl, ic)
    && (ic.Shape(1, 0) ==> Domain0I(Route1(rl, ic), Route2(rl, ic), ic))
    && (ic.Shape(1, 1) ==> Domain1I(Route1(rl, ic), Route2(rl, ic), ic))
  }

  predicate OneInterchange(ic: Interchange) {
    ic.Shape(1, 0) || ic.Shape(1, 1)
  }

  /** `calculateEdgeDelta`: only 1-interchanges are accepted; any other
      shape, (2,2) included, throws `IllegalArgumentException`. */
  function CalculateEdgeDelta(inst: Instance, rl: RouteList, ic: Interchange): (r: Result<real>)
    requires DeltaReadable(rl, ic)
    ensures r.Err? <==> !OneInterchange(ic)
    ensures r.Err? ==> r.error == IllegalArgument
  {
    var r1, r2 := Route1(rl, ic), Route2(rl, ic);
    if ic.Shape(1, 0) then Ok(InsertionDelta(inst.d, r1, r2, ic.list1[0]))
    else if ic.Shape(1, 1) then Ok(SwapDelta(inst.d, r1, r2, ic.list1[0], ic.list2[0]))
    else Err(IllegalArgument)
  }

  /** Every delta `calculateEdgeDelta` returns is the exact change of the
      two routes' total length. */
  lemma CalculateEdgeDeltaMatchesNaive(inst: Instance, rl: RouteList, ic: Interchange)
    requires Symmetric(inst.d)
    requires DeltaReadable(rl, ic) && OneInterchange(ic)
    ensures NaiveDelta(inst.d, Route1(rl, ic), Route2(rl, ic), ic)
         == Some(CalculateEdgeDelta(inst, rl, ic).value)
  {
    var r1, r2 := Route1(rl, ic), Route2(rl, ic);
    if ic.Shape(1, 0) {
      InsertionDeltaIsDelta0I(inst.d, r1, r2, ic);
      Delta0IMatchesNaive(inst.d, r1, r2, ic);
    } else {
      SwapDeltaIsDelta1I(inst.d, r1, r2, ic);
      Delta1IMatchesNaive(inst.d, r1, r2, ic);
    }
  }

  // ---------------------------------------------------------------------
  // Demand and excess capacity
  // ---------------------------------------------------------------------

  /** Every `from` index of the list lies inside `r`. */
  predicate FromsIn(r: seq<int>, l: seq<Insertion>) {
    forall k :: 0 <= k < |l| ==> 0 <= l[k].from < |r|
  }

  /** Total demand of the customers at the listed positions of `r`. */
  function MovedDemand(demandOf: int -> int, r: seq<int>, l: seq<Insertion>): int
    requires FromsIn(r, l)
  {
    if l == [] then 0 else demandOf(r[l[0].from]) + MovedDemand(demandOf, r, l[1..])
  }

  /** Demand beyond the capacity, or 0. */
  function Excess(capacity: int, demand: int): (e: int)
    ensures e >= 0
    ensures e == 0 <==> demand <= capacity
  {
    if capacity < demand then demand - capacity else 0
  }

  function ExcessOf(capacity: int): int -> int {
    dm => Excess(capacity, dm)
  }

  /** Sum of the excess of every demand. */
  function TotalExcess(capacity: int, demands: seq<int>): int {
    SumInt(demands, ExcessOf(capacity))
  }

  /** The total excess is never negative, and it is zero exactly when
      every demand is within capacity. */
  lemma {:induction false} TotalExcessZero(capacity: int, demands: seq<int>)
    ensures TotalExcess(capacity, demands) >= 0
    ensures TotalExcess(capacity, demands) == 0 <==> forall k :: 0 <= k < |demands| ==> demands[k] <= capacity
    decreases |demands|
  {
    if demands != [] {
      TotalExcessZero(capacity, demands[1..]);
      assert forall k :: 1 <= k < |demands| ==> demands[k] == demands[1..][k - 1];
      assert ExcessOf(capacity)(demands[0]) == Excess(capacity, demands[0]);
    }
  }

  /** The total excess of a suffix adds the excess of its first demand. */
  lemma TotalExcessStep(capacity: int, ds: seq<int>, k: int)
    requires 0 <= k < |ds|
    ensures TotalExcess(capacity, ds[k..])
         == (if capacity < ds[k] then ds[k] - capacity else 0) + TotalExcess(capacity, ds[k + 1..])
  {
    assert ds[k..][1..] == ds[k + 1..];
  }

  /** The demand each route carries. */
  function Demands(routes: seq<Route>): (ds: seq<int>)
    ensures |ds| == |routes|
    ensures forall k :: 0 <= k < |routes| ==> ds[k] == routes[k].demand
  {
    seq(|routes|, k requires 0 <= k < |routes| => routes[k].demand)
  }

  /** The moved customers' positions exist in their routes. */
  predicate DemandReadable(rl: RouteList, ic: Interchange) {
    Names(rl, ic) && FromsIn(Route1(rl, ic), ic.list1) && FromsIn(Route2(rl, ic), ic.list2)
  }

  /** The demands of the two routes after the move, from the cached demands
      and the customers about to move. */
  function NewDemands(inst: Instance, rl: RouteList, ic: Interchange): (int, int)
    requires DemandReadable(rl, ic)
  {
    var m1 := MovedDemand(inst.demandOf, Route1(rl, ic), ic.list1);
    var m2 := MovedDemand(inst.demandOf, Route2(rl, ic), ic.list2);
    (rl.routes[ic.routeIdx1].demand - m1 + m2, rl.routes[ic.routeIdx2].demand + m1 - m2)
  }

  /** The demand of every route as `calculateExcessCapacity` sees it: the
      new demand for the two routes of the move, the cached one elsewhere. */
  function DemandsAfter(inst: Instance, rl: RouteList, ic: Interchange): (ds: seq<int>)
    requires DemandReadable(rl, ic)
    ensures |ds| == |rl.routes|
    ensures forall k :: 0 <= k < |rl.routes| && k != ic.routeIdx1 && k != ic.routeIdx2
                        ==> ds[k] == rl.routes[k].demand
  {
    var nd := NewDemands(inst, rl, ic);
    seq(|rl.routes|, k requires 0 <= k < |rl.routes| =>
      if k == ic.routeIdx1 then nd.0 else if k == ic.routeIdx2 then nd.1 else rl.routes[k].demand)
  }

  /** `calculateExcessCapacity(interchange)`, as the loop over the routes
      computes it; nothing is changed. */
  method CalculateExcessCapacity(inst: Instance, rl: RouteList, ic: Interchange) returns (x: int)
    requires DemandReadable(rl, ic)
    ensures x == TotalExcess(inst.capacity, DemandsAfter(inst, rl, ic))
    ensures x >= 0
  {
    var nd := NewDemands(inst, rl, ic);
    ghost var ds := DemandsAfter(inst, rl, ic);
    x := 0;
    var k := |rl.routes|;
    while k > 0
      invariant 0 <= k <= |rl.routes|
      invariant x == TotalExcess(inst.capacity, ds[k..])
    {
      k := k - 1;
      var demand;
      if k == ic.routeIdx1 {
        demand := nd.0;
      } else if k == ic.routeIdx2 {
        demand := nd.1;
      } else {
        demand := rl.routes[k].demand;
      }
      assert demand == ds[k];
      TotalExcessStep(inst.capacity, ds, k);
      if inst.capacity < demand {
        x := x + (demand - inst.capacity);
      }
    }
    assert ds[0..] == ds;
    TotalExcessZero(inst.capacity, ds);
  }

  // ---------------------------------------------------------------------
  // perform
  // ---------------------------------------------------------------------

  /** `perform`: the length grows by the delta computed before anything
      changes, the demands of the two routes are adjusted from the
      customers about to move, then the raw interchange is applied. */
  function Perform(inst: Instance, rl: RouteList, ic: Interchange): (r: Result<RouteList>)
    requires DeltaReadable(rl, ic) && ic.routeIdx1 != ic.routeIdx2
    ensures r.Err? <==> !OneInterchange(ic)
    ensures r.Ok? ==> |r.value.routes| == |rl.routes|
    ensures r.Ok? ==> forall k :: 0 <= k < |rl.routes| && k != ic.routeIdx1 && k != ic.routeIdx2
                                  ==> r.value.routes[k] == rl.routes[k]
  {
    match CalculateEdgeDelta(inst, rl, ic)
    case Err(e) => Err(e)
    case Ok(delta) =>
      var r1, r2 := Route1(rl, ic), Route2(rl, ic);
      assert DemandReadable(rl, ic);
      var nd := NewDemands(inst, rl, ic);
      if ic.Shape(1, 0) then ApplyRaw0I(r1, r2, ic); PerformWith(rl, ic, nd, delta)
      else ApplyRaw1I(r1, r2, ic); PerformWith(rl, ic, nd, delta)
  }

  /** The route list after the raw interchange, with the new demands and
      length. */
  function PerformWith(rl: RouteList, ic: Interchange, nd: (int, int), delta: real): (r: Result<RouteList>)
    requires Names(rl, ic) && ic.routeIdx1 != ic.routeIdx2
    ensures r.Err? <==> ApplyRaw(Route1(rl, ic), Route2(rl, ic), ic.list1, ic.list2).None?
  {
    match ApplyRaw(Route1(rl, ic), Route2(rl, ic), ic.list1, ic.list2)
    case None => Err(IndexOutOfBounds)
    case Some(o) =>
      Ok(RouteList(rl.routes[ic.routeIdx1 := Route(o.route1, nd.0)][ic.routeIdx2 := Route(o.route2, nd.1)],
                   rl.length + delta))
  }

  /** The routes `perform` leaves behind. */
  lemma PerformRoutes(inst: Instance, rl: RouteList, ic: Interchange)
    requires DeltaReadable(rl, ic) && ic.routeIdx1 != ic.routeIdx2 && OneInterchange(ic)
    ensures var o := ApplyRaw(Route1(rl, ic), Route2(rl, ic), ic.list1, ic.list2);
      var nd := NewDemands(inst, rl, ic);
      var p := Perform(inst, rl, ic).value;
      && o.Some?
      && p.routes == rl.routes[ic.routeIdx1 := Route(o.value.route1, nd.0)]
                              [ic.routeIdx2 := Route(o.value.route2, nd.1)]
      && p.length == rl.length + CalculateEdgeDelta(inst, rl, ic).value
  {
    if ic.Shape(1, 0) {
      ApplyRaw0I(Route1(rl, ic), Route2(rl, ic), ic);
    } else {
      ApplyRaw1I(Route1(rl, ic), Route2(rl, ic), ic);
    }
  }

  /** Sum of the lengths of all routes. */
  function TotalLength(d: Dist, routes: seq<Route>): real {
    if routes == [] then 0.0 else Len(d, routes[0].customers) + TotalLength(d, routes[1..])
  }

  /** Replacing one route changes the total by that route's length change. */
  lemma {:induction false} TotalLengthUpdate(d: Dist, routes: seq<Route>, k: int, r: Route)
    requires 0 <= k < |routes|
    ensures TotalLength(d, routes[k := r])
         == TotalLength(d, routes) - Len(d, routes[k].customers) + Len(d, r.customers)
    decreases |routes|
  {
    if k > 0 {
      TotalLengthUpdate(d, routes[1..], k - 1, r);
      assert routes[k := r][1..] == routes[1..][k - 1 := r];
    } else {
      assert routes[k := r][1..] == routes[1..];
    }
  }

  /** Sum of the cached demands. */
  function TotalDemand(routes: seq<Route>): int {
    if routes == [] then 0 else routes[0].demand + TotalDemand(routes[1..])
  }

  lemma {:induction false} TotalDemandUpdate(routes: seq<Route>, k: int, r: Route)
    requires 0 <= k < |routes|
    ensures TotalDemand(routes[k := r]) == TotalDemand(routes) - routes[k].demand + r.demand
    decreases |routes|
  {
    if k > 0 {
      TotalDemandUpdate(routes[1..], k - 1, r);
      assert routes[k := r][1..] == routes[1..][k - 1 := r];
    } else {
      assert routes[k := r][1..] == routes[1..];
    }
  }

  /** `perform` keeps the cached length equal to the sum of the route
      lengths: the delta it adds is the exact length change. */
  lemma PerformKeepsLength(inst: Instance, rl: RouteList, ic: Interchange)
    requires Symmetric(inst.d)
    requires DeltaReadable(rl, ic) && ic.routeIdx1 != ic.routeIdx2 && OneInterchange(ic)
    requires rl.length == TotalLength(inst.d, rl.routes)
    ensures Perform(inst, rl, ic).value.length == TotalLength(inst.d, Perform(inst, rl, ic).value.routes)
  {
    var d, i1, i2 := inst.d, ic.routeIdx1, ic.routeIdx2;
    var o := ApplyRaw(Route1(rl, ic), Route2(rl, ic), ic.list1, ic.list2);
    var nd := NewDemands(inst, rl, ic);
    PerformRoutes(inst, rl, ic);
    CalculateEdgeDeltaMatchesNaive(inst, rl, ic);
    var a := rl.routes[i1 := Route(o.value.route1, nd.0)];
    TotalLengthUpdate(d, rl.routes, i1, Route(o.value.route1, nd.0));
    TotalLengthUpdate(d, a, i2, Route(o.value.route2, nd.1));
  }

  /** `perform` never changes the total demand over all routes. */
  lemma PerformKeepsTotalDemand(inst: Instance, rl: RouteList, ic: Interchange)
    requires DeltaReadable(rl, ic) && ic.routeIdx1 != ic.routeIdx2 && OneInterchange(ic)
    ensures TotalDemand(Perform(inst, rl, ic).value.routes) == TotalDemand(rl.routes)
  {
    var i1, i2 := ic.routeIdx1, ic.routeIdx2;
    var o := ApplyRaw(Route1(rl, ic), Route2(rl, ic), ic.list1, ic.list2);
    var nd := NewDemands(inst, rl, ic);
    PerformRoutes(inst, rl, ic);
    var a := rl.routes[i1 := Route(o.value.route1, nd.0)];
    TotalDemandUpdate(rl.routes, i1, Route(o.value.route1, nd.0));
    TotalDemandUpdate(a, i2, Route(o.value.route2, nd.1));
  }

  /** Every customer visit of the routes, depot visits included. */
  function AllCustomers(routes: seq<Route>): multiset<int> {
    if routes == [] then multiset{} else multiset(routes[0].customers) + AllCustomers(routes[1..])
  }

  /** Replacing one route trades its customers for the new route's. */
  lemma {:induction false} AllCustomersUpdate(routes: seq<Route>, k: int, r: Route)
    requires 0 <= k < |routes|
    ensures AllCustomers(routes[k := r]) + multiset(routes[k].customers) == AllCustomers(routes) + multiset(r.customers)
    decreases |routes|
  {
    var u := routes[k := r];
    assert AllCustomers(routes) == multiset(routes[0].customers) + AllCustomers(routes[1..]);
    assert AllCustomers(u) == multiset(u[0].customers) + AllCustomers(u[1..]);
    if k > 0 {
      AllCustomersUpdate(routes[1..], k - 1, r);
      assert u[1..] == routes[1..][k - 1 := r];
      assert routes[1..][k - 1] == routes[k] && u[0] == routes[0];
      var m0, mk, mr := multiset(routes[0].customers), multiset(routes[k].customers), multiset(r.customers);
      var t0, t1 := AllCustomers(routes[1..]), AllCustomers(u[1..]);
      forall c ensures (AllCustomers(u) + mk)[c] == (AllCustomers(routes) + mr)[c] {
        assert (t1 + mk)[c] == (t0 + mr)[c];
      }
    } else {
      assert u[1..] == routes[1..];
    }
  }

  /** Replacing two routes by ones holding, together, the same customers
      keeps every customer visit. */
  lemma AllCustomersTrade(routes: seq<Route>, i1: int, a: Route, i2: int, b: Route)
    requires 0 <= i1 < |routes| && 0 <= i2 < |routes| && i1 != i2
    requires multiset(a.customers) + multiset(b.customers)
          == multiset(routes[i1].customers) + multiset(routes[i2].customers)
    ensures AllCustomers(routes[i1 := a][i2 := b]) == AllCustomers(routes)
  {
    var mid := routes[i1 := a];
    AllCustomersUpdate(routes, i1, a);
    AllCustomersUpdate(mid, i2, b);
    assert mid[i2] == routes[i2];
    var x, y, ma, mb := multiset(routes[i1].customers), multiset(routes[i2].customers),
                       multiset(a.customers), multiset(b.customers);
    var a0, a1, a2 := AllCustomers(routes), AllCustomers(mid), AllCustomers(mid[i2 := b]);
    forall c ensures a2[c] == a0[c] {
      assert (a1 + x)[c] == (a0 + ma)[c];
      assert (a2 + y)[c] == (a1 + mb)[c];
      assert (ma + mb)[c] == (x + y)[c];
    }
  }

  /** Every cached demand equals its customers' demand sum. */
  predicate DemandsConsistent(demandOf: int -> int, routes: seq<Route>) {
    forall k :: 0 <= k < |routes| ==> routes[k].demand == DemandOf(demandOf, routes[k].customers)
  }

  lemma MovedDemandOne(demandOf: int -> int, r: seq<int>, ins: Insertion, l: seq<Insertion>)
    requires l == [ins] && 0 <= ins.from < |r|
    ensures MovedDemand(demandOf, r, l) == demandOf(r[ins.from])
  {
    assert l[1..] == [];
  }

  /** Replacing two routes by consistent ones keeps the caches consistent. */
  lemma ConsistentUpdate(demandOf: int -> int, routes: seq<Route>, i1: int, a: Route, i2: int, b: Route)
    requires 0 <= i1 < |routes| && 0 <= i2 < |routes|
    requires DemandsConsistent(demandOf, routes)
    requires a.demand == DemandOf(demandOf, a.customers) && b.demand == DemandOf(demandOf, b.customers)
    ensures DemandsConsistent(demandOf, routes[i1 := a][i2 := b])
  {
  }

  /** `MovedDemand` is the sum of the demands at the listed positions. */
  lemma {:induction false} MovedDemandIsSum(demandOf: int -> int, r: seq<int>, l: seq<Insertion>)
    requires FromsIn(r, l)
    ensures MovedDemand(demandOf, r, l) == SumInt(l, FromDemand(demandOf, r))
    decreases |l|
  {
    if l != [] {
      MovedDemandIsSum(demandOf, r, l[1..]);
    }
  }

  /** The raw interchange behind `perform`, with the demands `perform`
      computes beforehand: every customer visit is kept, and with distinct
      source positions in each list consistent demand caches stay
      consistent. This covers every shape, the (2,2) one included. */
  lemma PerformWithKeepsContents(inst: Instance, rl: RouteList, ic: Interchange, delta: real)
    requires DemandReadable(rl, ic) && ic.routeIdx1 != ic.routeIdx2
    requires PerformWith(rl, ic, NewDemands(inst, rl, ic), delta).Ok?
    ensures AllCustomers(PerformWith(rl, ic, NewDemands(inst, rl, ic), delta).value.routes) == AllCustomers(rl.routes)
    ensures Injective(ic.list1, FromOf) && Injective(ic.list2, FromOf) && DemandsConsistent(inst.demandOf, rl.routes)
            ==> DemandsConsistent(inst.demandOf, PerformWith(rl, ic, NewDemands(inst, rl, ic), delta).value.routes)
  {
    var dm, i1, i2 := inst.demandOf, ic.routeIdx1, ic.routeIdx2;
    var r1, r2 := Route1(rl, ic), Route2(rl, ic);
    var o := ApplyRaw(r1, r2, ic.list1, ic.list2).value;
    var nd := NewDemands(inst, rl, ic);
    ApplyRawPreservesCustomers(r1, r2, ic.list1, ic.list2);
    AllCustomersTrade(rl.routes, i1, Route(o.route1, nd.0), i2, Route(o.route2, nd.1));
    if Injective(ic.list1, FromOf) && Injective(ic.list2, FromOf) && DemandsConsistent(dm, rl.routes) {
      assert rl.routes[i1].demand == DemandOf(dm, r1) && rl.routes[i2].demand == DemandOf(dm, r2);
      ApplyRawDemands(r1, r2, ic.list1, ic.list2, dm);
      MovedDemandIsSum(dm, r1, ic.list1);
      MovedDemandIsSum(dm, r2, ic.list2);
      ConsistentUpdate(dm, rl.routes, i1, Route(o.route1, nd.0), i2, Route(o.route2, nd.1));
    }
  }

  /** `perform` keeps every customer visit of the route list. */
  lemma PerformKeepsCustomers(inst: Instance, rl: RouteList, ic: Interchange)
    requires DeltaReadable(rl, ic) && ic.routeIdx1 != ic.routeIdx2 && OneInterchange(ic)
    ensures AllCustomers(Perform(inst, rl, ic).value.routes) == AllCustomers(rl.routes)
  {
    PerformRoutes(inst, rl, ic);
    PerformWithKeepsContents(inst, rl, ic, CalculateEdgeDelta(inst, rl, ic).value);
  }

  /** `perform` on a swap, spelled out. */
  lemma PerformSwap(inst: Instance, rl: RouteList, ic: Interchange)
    requires DeltaReadable(rl, ic) && ic.routeIdx1 != ic.routeIdx2 && ic.Shape(1, 1)
    ensures var i, j, r1, r2 := ic.list1[0], ic.list2[0], Route1(rl, ic), Route2(rl, ic);
      var c1, c2 := r1[i.from], r2[j.from];
      var p := Perform(inst, rl, ic).value;
      p.routes == rl.routes[ic.routeIdx1 := Route(InsertAt(RemoveAt(r1, i.from), j.to, c2),
                                                  rl.routes[ic.routeIdx1].demand - inst.demandOf(c1) + inst.demandOf(c2))]
                           [ic.routeIdx2 := Route(InsertAt(RemoveAt(r2, j.from), i.to, c1),
                                                  rl.routes[ic.routeIdx2].demand + inst.demandOf(c1) - inst.demandOf(c2))]
  {
    var r1, r2 := Route1(rl, ic), Route2(rl, ic);
    PerformRoutes(inst, rl, ic);
    ApplyRaw1I(r1, r2, ic);
    MovedDemandOne(inst.demandOf, r1, ic.list1[0], ic.list1);
    MovedDemandOne(inst.demandOf, r2, ic.list2[0], ic.list2);
  }

  /** If the demand caches were consistent before `perform`, they are after. */
  lemma PerformKeepsDemandsConsistent(inst: Instance, rl: RouteList, ic: Interchange)
    requires DeltaReadable(rl, ic) && ic.routeIdx1 != ic.routeIdx2 && OneInterchange(ic)
    requires DemandsConsistent(inst.demandOf, rl.routes)
    ensures DemandsConsistent(inst.demandOf, Perform(inst, rl, ic).value.routes)
  {
    if ic.Shape(1, 0) {
      RelocationKeepsDemandsConsistent(inst, rl, ic);
    } else {
      SwapKeepsDemandsConsistent(inst, rl, ic);
    }
  }

  lemma RelocationKeepsDemandsConsistent(inst: Instance, rl: RouteList, ic: Interchange)
    requires DeltaReadable(rl, ic) && ic.routeIdx1 != ic.routeIdx2 && ic.Shape(1, 0)
    requires DemandsConsistent(inst.demandOf, rl.routes)
    ensures DemandsConsistent(inst.demandOf, Perform(inst, rl, ic).value.routes)
  {
    var dm, i1, i2 := inst.demandOf, ic.routeIdx1, ic.routeIdx2;
    var r1, r2 := Route1(rl, ic), Route2(rl, ic);
    var i := ic.list1[0];
    var c1 := r1[i.from];
    assert rl.routes[i1].demand == DemandOf(dm, r1) && rl.routes[i2].demand == DemandOf(dm, r2);
    PerformRelocation(inst, rl, ic);
    DemandRemove(dm, r1, i.from);
    DemandInsert(dm, r2, i.to, c1);
    ConsistentUpdate(dm, rl.routes,
      i1, Route(RemoveAt(r1, i.from), rl.routes[i1].demand - dm(c1)),
      i2, Route(InsertAt(r2, i.to, c1), rl.routes[i2].demand + dm(c1)));
  }

  /** Losing the customer at `f` and receiving `c` at `t`. */
  lemma DemandExchange(dm: int -> int, r: seq<int>, f: int, t: int, c: int)
    requires 0 <= f < |r| && 0 <= t <= |r| - 1
    ensures DemandOf(dm, InsertAt(RemoveAt(r, f), t, c)) == DemandOf(dm, r) - dm(r[f]) + dm(c)
  {
    DemandRemove(dm, r, f);
    DemandInsert(dm, RemoveAt(r, f), t, c);
  }

  lemma SwapKeepsDemandsConsistent(inst: Instance, rl: RouteList, ic: Interchange)
    requires DeltaReadable(rl, ic) && ic.routeIdx1 != ic.routeIdx2 && ic.Shape(1, 1)
    requires DemandsConsistent(inst.demandOf, rl.routes)
    ensures DemandsConsistent(inst.demandOf, Perform(inst, rl, ic).value.routes)
  {
    PerformIsSwapped(inst, rl, ic);
    SwappedConsistent(inst.demandOf, rl.routes, ic.routeIdx1, ic.routeIdx2, ic.list1[0], ic.list2[0]);
  }

  /** The routes after the customer at `i.from` of route `i1` and the one at
      `j.from` of route `i2` trade routes, landing at `i.to` and `j.to`,
      with the cached demands adjusted. */
  function Swapped(routes: seq<Route>, i1: int, i2: int, i: Insertion, j: Insertion, dm: int -> int): (r: seq<Route>)
    requires 0 <= i1 < |routes| && 0 <= i2 < |routes| && i1 != i2
    requires 0 <= i.from < |routes[i1].customers| && 0 <= j.to < |routes[i1].customers|
    requires 0 <= j.from < |routes[i2].customers| && 0 <= i.to < |routes[i2].customers|
    ensures |r| == |routes|
  {
    var r1, r2 := routes[i1].customers, routes[i2].customers;
    var c1, c2 := r1[i.from], r2[j.from];
    routes[i1 := Route(InsertAt(RemoveAt(r1, i.from), j.to, c2), routes[i1].demand - dm(c1) + dm(c2))]
          [i2 := Route(InsertAt(RemoveAt(r2, j.from), i.to, c1), routes[i2].demand + dm(c1) - dm(c2))]
  }

  /** The routes `perform` leaves after a swap. */
  lemma PerformIsSwapped(inst: Instance, rl: RouteList, ic: Interchange)
    requires DeltaReadable(rl, ic) && ic.routeIdx1 != ic.routeIdx2 && ic.Shape(1, 1)
    ensures 0 <= ic.list2[0].to < |Route1(rl, ic)| && 0 <= ic.list1[0].to < |Route2(rl, ic)|
    ensures Perform(inst, rl, ic).Ok?
    ensures Perform(inst, rl, ic).value.routes
         == Swapped(rl.routes, ic.routeIdx1, ic.routeIdx2, ic.list1[0], ic.list2[0], inst.demandOf)
  {
    PerformSwap(inst, rl, ic);
  }

  /** A swap keeps consistent demand caches consistent. */
  lemma SwappedConsistent(dm: int -> int, routes: seq<Route>, i1: int, i2: int, i: Insertion, j: Insertion)
    requires 0 <= i1 < |routes| && 0 <= i2 < |routes| && i1 != i2
    requires 0 <= i.from < |routes[i1].customers| && 0 <= j.to < |routes[i1].customers|
    requires 0 <= j.from < |routes[i2].customers| && 0 <= i.to < |routes[i2].customers|
    requires DemandsConsistent(dm, routes)
    ensures DemandsConsistent(dm, Swapped(routes, i1, i2, i, j, dm))
  {
    var r1, r2 := routes[i1].customers, routes[i2].customers;
    var c1, c2 := r1[i.from], r2[j.from];
    assert routes[i1].demand == DemandOf(dm, r1) && routes[i2].demand == DemandOf(dm, r2);
    DemandExchange(dm, r1, i.from, j.to, c2);
    DemandExchange(dm, r2, j.from, i.to, c1);
    ConsistentUpdate(dm, routes,
      i1, Route(InsertAt(RemoveAt(r1, i.from), j.to, c2), routes[i1].demand - dm(c1) + dm(c2)),
      i2, Route(InsertAt(RemoveAt(r2, j.from), i.to, c1), routes[i2].demand + dm(c1) - dm(c2)));
  }

  /** What `calculateExcessCapacity` predicts is the excess of the route
      list `perform` produces. */
  lemma ExcessMatchesPerform(inst: Instance, rl: RouteList, ic: Interchange)
    requires DeltaReadable(rl, ic) && ic.routeIdx1 != ic.routeIdx2 && OneInterchange(ic)
    ensures DemandReadable(rl, ic)
    ensures DemandsAfter(inst, rl, ic) == Demands(Perform(inst, rl, ic).value.routes)
  {
    PerformRoutes(inst, rl, ic);
  }

  /** `perform` on a relocation, spelled out. */
  lemma PerformRelocation(inst: Instance, rl: RouteList, ic: Interchange)
    requires DeltaReadable(rl, ic) && ic.routeIdx1 != ic.routeIdx2 && ic.Shape(1, 0)
    ensures var i, r1, r2 := ic.list1[0], Route1(rl, ic), Route2(rl, ic);
      var c := r1[i.from];
      var p := Perform(inst, rl, ic).value;
      && p.routes == rl.routes[ic.routeIdx1 := Route(RemoveAt(r1, i.from), rl.routes[ic.routeIdx1].demand - inst.demandOf(c))]
                              [ic.routeIdx2 := Route(InsertAt(r2, i.to, c), rl.routes[ic.routeIdx2].demand + inst.demandOf(c))]
      && p.length == rl.length + InsertionDelta(inst.d, r1, r2, i)
  {
    var r1, r2 := Route1(rl, ic), Route2(rl, ic);
    PerformRoutes(inst, rl, ic);
    ApplyRaw0I(r1, r2, ic);
    MovedDemandOne(inst.demandOf, r1, ic.list1[0], ic.list1);
    assert MovedDemand(inst.demandOf, r2, ic.list2) == 0;
  }

  /** Under a symmetric matrix, moving a customer back cancels the delta of
      moving it. */
  lemma InsertionDeltaCancels(d: Dist, r1: seq<int>, r2: seq<int>, i: Insertion)
    requires Symmetric(d)
    requires Interior(r1, i.from) && Gap(r2, i.to)
    ensures Interior(InsertAt(r2, i.to, r1[i.from]), i.to) && Gap(RemoveAt(r1, i.from), i.from)
    ensures InsertionDelta(d, InsertAt(r2, i.to, r1[i.from]), RemoveAt(r1, i.from), Insertion(i.to, i.from))
         == -InsertionDelta(d, r1, r2, i)
  {
    var c := r1[i.from];
    SymmetricAt(d, c, r1[i.from - 1]);
    SymmetricAt(d, c, r1[i.from + 1]);
    SymmetricAt(d, c, r2[i.to - 1]);
    SymmetricAt(d, c, r2[i.to]);
    SymmetricAt(d, r2[i.to - 1], r2[i.to]);
    SymmetricAt(d, r1[i.from - 1], r1[i.from + 1]);
  }

  /** After a relocation its inverse names the two changed routes, the
      receiving one first, and can be read on them. */
  lemma InvertAfterRelocation(inst: Instance, rl: RouteList, ic: Interchange)
    requires Symmetric(inst.d)
    requires DeltaReadable(rl, ic) && ic.routeIdx1 != ic.routeIdx2 && ic.Shape(1, 0)
    ensures var i, r1, r2 := ic.list1[0], Route1(rl, ic), Route2(rl, ic);
      var p, iv := Perform(inst, rl, ic).value, Invert(ic);
      && DeltaReadable(p, iv) && iv.Shape(1, 0) && iv.list1[0] == Insertion(i.to, i.from)
      && Route1(p, iv) == InsertAt(r2, i.to, r1[i.from]) && Route2(p, iv) == RemoveAt(r1, i.from)
  {
    var i, r1, r2 := ic.list1[0], Route1(rl, ic), Route2(rl, ic);
    PerformRelocation(inst, rl, ic);
    var iv := Invert(ic);
    assert iv.list1 == [Insertion(i.to, i.from)];
    InsertionDeltaCancels(inst.d, r1, r2, i);
  }

  /** A relocation followed by its inverse restores the route list, the
      demand caches and the cached length included. */
  lemma PerformThenInvert(inst: Instance, rl: RouteList, ic: Interchange)
    requires Symmetric(inst.d)
    requires DeltaReadable(rl, ic) && ic.routeIdx1 != ic.routeIdx2 && ic.Shape(1, 0)
    ensures DeltaReadable(Perform(inst, rl, ic).value, Invert(ic))
    ensures Perform(inst, Perform(inst, rl, ic).value, Invert(ic)) == Ok(rl)
  {
    InvertAfterRelocation(inst, rl, ic);
    var p, iv := Perform(inst, rl, ic).value, Invert(ic);
    assert Perform(inst, p, iv).Ok?;
    InvertRestoresLength(inst, rl, ic);
    InvertRestoresRoutes(inst, rl, ic);
    var q := Perform(inst, p, iv).value;
    assert q == RouteList(rl.routes, rl.length);
  }

  /** The inverse relocation takes back the length delta. */
  lemma InvertRestoresLength(inst: Instance, rl: RouteList, ic: Interchange)
    requires Symmetric(inst.d)
    requires DeltaReadable(rl, ic) && ic.routeIdx1 != ic.routeIdx2 && ic.Shape(1, 0)
    ensures DeltaReadable(Perform(inst, rl, ic).value, Invert(ic))
    ensures Perform(inst, Perform(inst, rl, ic).value, Invert(ic)).Ok?
    ensures Perform(inst, Perform(inst, rl, ic).value, Invert(ic)).value.length == rl.length
  {
    var r1, r2, i := Route1(rl, ic), Route2(rl, ic), ic.list1[0];
    var p, iv := Perform(inst, rl, ic).value, Invert(ic);
    InvertAfterRelocation(inst, rl, ic);
    PerformRelocation(inst, rl, ic);
    PerformRelocation(inst, p, iv);
    InsertionDeltaCancels(inst.d, r1, r2, i);
  }

  /** The inverse relocation puts the customer and both demands back. */
  lemma InvertRestoresRoutes(inst: Instance, rl: RouteList, ic: Interchange)
    requires Symmetric(inst.d)
    requires DeltaReadable(rl, ic) && ic.routeIdx1 != ic.routeIdx2 && ic.Shape(1, 0)
    ensures DeltaReadable(Perform(inst, rl, ic).value, Invert(ic))
    ensures Perform(inst, Perform(inst, rl, ic).value, Invert(ic)).Ok?
    ensures Perform(inst, Perform(inst, rl, ic).value, Invert(ic)).value.routes == rl.routes
  {
    var i1, i2, i, dm := ic.routeIdx1, ic.routeIdx2, ic.list1[0], inst.demandOf;
    var p, iv := Perform(inst, rl, ic).value, Invert(ic);
    InvertAfterRelocation(inst, rl, ic);
    PerformIsRelocated(inst, rl, ic);
    PerformIsRelocated(inst, p, iv);
    RelocatedBack(rl.routes, i1, i2, i, dm);
  }

  /** The routes `perform` leaves after a relocation. */
  lemma PerformIsRelocated(inst: Instance, rl: RouteList, ic: Interchange)
    requires DeltaReadable(rl, ic) && ic.routeIdx1 != ic.routeIdx2 && ic.Shape(1, 0)
    ensures Perform(inst, rl, ic).Ok?
    ensures Perform(inst, rl, ic).value.routes
         == Relocated(rl.routes, ic.routeIdx1, ic.routeIdx2, ic.list1[0], inst.demandOf)
  {
    PerformRelocation(inst, rl, ic);
  }

  /** The routes after moving the customer at `ins.from` of route `i1` to
      `ins.to` of route `i2`, with the cached demands adjusted. */
  function Relocated(routes: seq<Route>, i1: int, i2: int, ins: Insertion, dm: int -> int): (r: seq<Route>)
    requires 0 <= i1 < |routes| && 0 <= i2 < |routes| && i1 != i2
    requires 0 <= ins.from < |routes[i1].customers| && 0 <= ins.to <= |routes[i2].customers|
    ensures |r| == |routes|
  {
    var c := routes[i1].customers[ins.from];
    routes[i1 := Route(RemoveAt(routes[i1].customers, ins.from), routes[i1].demand - dm(c))]
          [i2 := Route(InsertAt(routes[i2].customers, ins.to, c), routes[i2].demand + dm(c))]
  }

  /** Relocating back from where the customer landed restores the routes. */
  lemma RelocatedBack(routes: seq<Route>, i1: int, i2: int, ins: Insertion, dm: int -> int)
    requires 0 <= i1 < |routes| && 0 <= i2 < |routes| && i1 != i2
    requires 0 <= ins.from < |routes[i1].customers| && 0 <= ins.to <= |routes[i2].customers|
    ensures var p := Relocated(routes, i1, i2, ins, dm);
      && ins.to < |p[i2].customers| && ins.from <= |p[i1].customers|
      && Relocated(p, i2, i1, Insertion(ins.to, ins.from), dm) == routes
  {
    var r1, r2 := routes[i1].customers, routes[i2].customers;
    var c := r1[ins.from];
    var p := Relocated(routes, i1, i2, ins, dm);
    assert p[i2].customers[ins.to] == c;
    RemoveInsertInverse(r2, ins.to, c);
    InsertRemoveInverse(r1, ins.from);
    assert Relocated(p, i2, i1, Insertion(ins.to, ins.from), dm)
        == routes[i1 := p[i1]][i2 := p[i2]][i2 := routes[i2]][i1 := routes[i1]];
  }

}

=== FILE: routes.dfy ===
/** Routes as customer sequences, the distance matrix, and the algebra of
    route lengths under single removals and insertions. A route starts and
    ends at the depot 0; `Len` is `Route.calculateRouteLength`. */
module Routes {
  import opened Common

  /** The distance matrix, as a function of two node indices. */
  type Dist = (int, int) -> real

  /** Euclidean distances are symmetric. */
  ghost predicate Symmetric(d: Dist) {
    forall a: int, b: int :: d(a, b) == d(b, a)
  }

  lemma SymmetricAt(d: Dist, a: int, b: int)
    requires Symmetric(d)
    ensures d(a, b) == d(b, a)
  {
  }

  /** Sum of the distances between consecutive customers. */
  function Len(d: Dist, r: seq<int>): real
    decreases |r|
  {
    if |r| < 2 then 0.0 else d(r[0], r[1]) + Len(d, r[1..])
  }

  /** Java's `List.remove(i)`: the customers after `i` shift left. */
  function RemoveAt(r: seq<int>, i: int): (s: seq<int>)
    requires 0 <= i < |r|
    ensures |s| == |r| - 1
    ensures forall k :: 0 <= k < i ==> s[k] == r[k]
    ensures forall k :: i <= k < |s| ==> s[k] == r[k + 1]
  {
    r[..i] + r[i + 1..]
  }

  /** Java's `List.add(j, c)`: the customers from `j` on shift right. */
  function InsertAt(r: seq<int>, j: int, c: int): (s: seq<int>)
    requires 0 <= j <= |r|
    ensures |s| == |r| + 1
    ensures s[j] == c
    ensures forall k :: 0 <= k < j ==> s[k] == r[k]
    ensures forall k :: j < k < |s| ==> s[k] == r[k - 1]
  {
    r[..j] + [c] + r[j..]
  }

  /** Removing a position takes exactly that customer out of the multiset. */
  lemma MultisetRemove(r: seq<int>, i: int)
    requires 0 <= i < |r|
    ensures multiset(RemoveAt(r, i)) + multiset{r[i]} == multiset(r)
  {
    assert r == r[..i] + [r[i]] + r[i + 1..];
  }

  /** Inserting adds exactly the new customer to the multiset. */
  lemma MultisetInsert(r: seq<int>, j: int, c: int)
    requires 0 <= j <= |r|
    ensures multiset(InsertAt(r, j, c)) == multiset(r) + multiset{c}
  {
    assert r == r[..j] + r[j..];
  }

  lemma RemoveInsertInverse(r: seq<int>, j: int, c: int)
    requires 0 <= j <= |r|
    ensures RemoveAt(InsertAt(r, j, c), j) == r
  {
  }

  lemma InsertRemoveInverse(r: seq<int>, i: int)
    requires 0 <= i < |r|
    ensures InsertAt(RemoveAt(r, i), i, r[i]) == r
  {
  }

  /** The length of a concatenation adds the joining edge. */
  lemma {:induction false} LenConcat(d: Dist, a: seq<int>, b: seq<int>)
    requires |a| >= 1 && |b| >= 1
    ensures Len(d, a + b) == Len(d, a) + d(a[|a| - 1], b[0]) + Len(d, b)
    decreases |a|
  {
    if |a| == 1 {
      assert (a + b)[1..] == b;
    } else {
      assert (a + b)[1..] == a[1..] + b;
      LenConcat(d, a[1..], b);
    }
  }

  /** Removing an interior customer replaces its two edges by the edge
      between its neighbours. */
  lemma LenRemove(d: Dist, r: seq<int>, i: int)
    requires 1 <= i <= |r| - 2
    ensures Len(d, RemoveAt(r, i))
         == Len(d, r) - d(r[i - 1], r[i]) - d(r[i], r[i + 1]) + d(r[i - 1], r[i + 1])
  {
    var a, b, c := r[..i], r[i + 1..], r[i];
    var ac := a + [c];
    assert Len(d, RemoveAt(r, i)) == Len(d, a) + d(r[i - 1], r[i + 1]) + Len(d, b) by {
      assert RemoveAt(r, i) == a + b;
      LenConcat(d, a, b);
    }
    assert Len(d, r) == Len(d, ac) + d(c, r[i + 1]) + Len(d, b) by {
      assert r == ac + b;
      LenConcat(d, ac, b);
    }
    assert Len(d, ac) == Len(d, a) + d(r[i - 1], c) by {
      assert Len(d, [c]) == 0.0;
      LenConcat(d, a, [c]);
    }
  }

  /** Inserting between two customers replaces the edge joining them by
      two edges through the new customer. */
  lemma LenInsert(d: Dist, r: seq<int>, j: int, c: int)
    requires 1 <= j <= |r| - 1
    ensures Len(d, InsertAt(r, j, c))
         == Len(d, r) - d(r[j - 1], r[j]) + d(r[j - 1], c) + d(c, r[j])
  {
    var a, b := r[..j], r[j..];
    assert r == a + b;
    assert InsertAt(r, j, c) == (a + [c]) + b;
    LenConcat(d, a + [c], b);
    LenConcat(d, a, [c]);
    LenConcat(d, a, b);
  }

  /** Total demand of the customers of a route. */
  function DemandOf(demand: int -> int, r: seq<int>): int {
    SumInt(r, demand)
  }

  lemma DemandRemove(demand: int -> int, r: seq<int>, i: int)
    requires 0 <= i < |r|
    ensures DemandOf(demand, RemoveAt(r, i)) == DemandOf(demand, r) - demand(r[i])
  {
    assert r == r[..i] + [r[i]] + r[i + 1..];
    SumIntConcat(r[..i] + [r[i]], r[i + 1..], demand);
    SumIntConcat(r[..i], [r[i]], demand);
    SumIntConcat(r[..i], r[i + 1..], demand);
  }

  lemma DemandInsert(demand: int -> int, r: seq<int>, j: int, c: int)
    requires 0 <= j <= |r|
    ensures DemandOf(demand, InsertAt(r, j, c)) == DemandOf(demand, r) + demand(c)
  {
    assert r == r[..j] + r[j..];
    SumIntConcat(r[..j] + [c], r[j..], demand);
    SumIntConcat(r[..j], [c], demand);
    SumIntConcat(r[..j], r[j..], demand);
  }

  /** The demand of a route depends only on which customers it holds, not
      on their order. */
  lemma {:induction false} DemandOfPerm(demand: int -> int, a: seq<int>, b: seq<int>)
    requires multiset(a) == multiset(b)
    ensures DemandOf(demand, a) == DemandOf(demand, b)
    decreases |a|
  {
    if a == [] {
      assert |multiset(b)| == 0;
    } else {
      assert a[0] in multiset(b);
      var j :| 0 <= j < |b| && b[j] == a[0];
      MultisetRemove(a, 0);
      MultisetRemove(b, j);
      DemandRemove(demand, a, 0);
      DemandRemove(demand, b, j);
      assert multiset(RemoveAt(a, 0)) == multiset(a) - multiset{a[0]};
      assert multiset(RemoveAt(b, j)) == multiset(b) - multiset{a[0]};
      DemandOfPerm(demand, RemoveAt(a, 0), RemoveAt(b, j));
    }
  }
}

=== FILE: scan.dfy ===
/** The search loop shared by every best-interchange calculator: candidates
    are visited in loop order, each one's objective is compared with the best
    so far, tabu candidates are either skipped or admitted only by
    aspiration, and with first-best-first the loop returns at the first
    candidate that beats the incumbent. */
module Scans {
  import opened Common

  /** How a calculator treats a candidate that moves a tabu customer. */
  datatype Style =
    | Aspiration  // evaluated; kept only if it beats the incumbent with no excess
    | SkipTabu    // never evaluated (`continue`)

  /** The calculator's fixed inputs: its tabu style, the first-best-first
      flag and the incumbent's length. */
  datatype Policy = Policy(style: Style, firstBestFirst: bool, incumbent: real)

  /** What the calculator computes for one candidate: its objective, its
      excess capacity, and whether it moves a tabu customer. */
  datatype Eval = Eval(objective: real, excess: real, tabu: bool)

  /** `InterchangeResult`: the best candidate (`None` for `null`) and its
      objective (`PosInf` when there is none). */
  datatype Best<T> = Best(found: Option<T>, objective: ExtReal)

  /** The calculator computes the candidate's objective at all. */
  predicate Evaluated(p: Policy, e: Eval) {
    p.style == Aspiration || !e.tabu
  }

  /** Aspiration: beating the incumbent with no excess capacity. */
  predicate Aspires(p: Policy, e: Eval) {
    e.objective < p.incumbent && e.excess == 0.0
  }

  /** The candidate may become the best one. */
  predicate Admits(p: Policy, e: Eval) {
    Evaluated(p, e) && (!e.tabu || Aspires(p, e))
  }

  /** The first-best-first return after this candidate. */
  predicate Stops(p: Policy, e: Eval) {
    && Evaluated(p, e) && p.firstBestFirst && e.objective < p.incumbent
    && (p.style == Aspiration ==> e.excess == 0.0)
  }

  /** `x` is strictly below the objective `b`. */
  predicate Below(x: real, b: ExtReal) {
    b.PosInf? || x < b.v
  }

  /** The update of one loop iteration. */
  function Step<T>(p: Policy, b: Best<T>, c: T, e: Eval): Best<T> {
    if Admits(p, e) && Below(e.objective, b.objective) then Best(Some(c), Finite(e.objective)) else b
  }

  /** The best candidate after visiting the first `n` candidates. */
  function ScanUpTo<T>(p: Policy, cs: seq<T>, ev: T -> Eval, n: nat): Best<T>
    requires n <= |cs|
  {
    if n == 0 then Best(None, PosInf)
    else Step(p, ScanUpTo(p, cs, ev, n - 1), cs[n - 1], ev(cs[n - 1]))
  }

  /** Where the visit of `cs[i..]` ends: just after the first candidate that
      stops the loop, or at the end. */
  function StopFrom<T>(p: Policy, cs: seq<T>, ev: T -> Eval, i: nat): (n: nat)
    requires i <= |cs|
    ensures i <= n <= |cs|
    ensures forall j :: i <= j < n - 1 ==> !Stops(p, ev(cs[j]))
    ensures n < |cs| ==> i < n && Stops(p, ev(cs[n - 1]))
    decreases |cs| - i
  {
    if i == |cs| then |cs|
    else if Stops(p, ev(cs[i])) then i + 1
    else StopFrom(p, cs, ev, i + 1)
  }

  /** The number of candidates the calculator visits. */
  function Visited<T>(p: Policy, cs: seq<T>, ev: T -> Eval): nat
    ensures Visited(p, cs, ev) <= |cs|
  {
    StopFrom(p, cs, ev, 0)
  }

  /** The calculator's result. */
  function Scan<T>(p: Policy, cs: seq<T>, ev: T -> Eval): Best<T> {
    ScanUpTo(p, cs, ev, Visited(p, cs, ev))
  }

  /** The loop as the calculators write it, with the early return. */
  method ScanLoop<T>(p: Policy, cs: seq<T>, ev: T -> Eval) returns (b: Best<T>)
    ensures b == Scan(p, cs, ev)
  {
    b := Best(None, PosInf);
    var i := 0;
    while i < |cs|
      invariant 0 <= i <= |cs|
      invariant b == ScanUpTo(p, cs, ev, i)
      invariant Visited(p, cs, ev) == StopFrom(p, cs, ev, i)
    {
      var e := ev(cs[i]);
      if Admits(p, e) && Below(e.objective, b.objective) {
        b := Best(Some(cs[i]), Finite(e.objective));
      }
      if Stops(p, e) {
        return;
      }
      i := i + 1;
    }
  }

  // ---------------------------------------------------------------------
  // What the scan computes
  // ---------------------------------------------------------------------

  /** `cs[k]` is admitted, no admitted candidate among the first `n` is
      better, and every admitted one before it is strictly worse: the first
      minimum. */
  predicate FirstArgmin<T>(p: Policy, cs: seq<T>, ev: T -> Eval, n: nat, k: nat)
    requires k < n <= |cs|
  {
    && Admits(p, ev(cs[k]))
    && (forall j :: 0 <= j < n && Admits(p, ev(cs[j])) ==> ev(cs[k]).objective <= ev(cs[j]).objective)
    && (forall j :: 0 <= j < k && Admits(p, ev(cs[j])) ==> ev(cs[k]).objective < ev(cs[j]).objective)
  }

  /** `b` holds the first minimum `cs[k]` among the first `n` candidates. */
  ghost predicate IsFirstBest<T>(p: Policy, cs: seq<T>, ev: T -> Eval, n: nat, b: Best<T>, k: int)
    requires n <= |cs|
  {
    && 0 <= k < n && b.found.Some? && b.found.value == cs[k] && b.objective == Finite(ev(cs[k]).objective)
    && FirstArgmin(p, cs, ev, n, k)
  }

  /** No candidate among the first `n` is admitted. */
  predicate NoneAdmitted<T>(p: Policy, cs: seq<T>, ev: T -> Eval, n: nat)
    requires n <= |cs|
  {
    forall j :: 0 <= j < n ==> !Admits(p, ev(cs[j]))
  }

  /** The result after `n` candidates is empty exactly when none of them is
      admitted, and is otherwise the first minimum among the admitted ones
      with its objective. */
  lemma {:induction false} ScanUpToSpec<T>(p: Policy, cs: seq<T>, ev: T -> Eval, n: nat)
    requires n <= |cs|
    ensures var b := ScanUpTo(p, cs, ev, n);
      && (b.found.None? <==> b.objective.PosInf?)
      && (b.found.None? <==> NoneAdmitted(p, cs, ev, n))
      && (b.found.Some? ==> exists k :: IsFirstBest(p, cs, ev, n, b, k))
  {
    if n > 0 {
      ScanUpToSpec(p, cs, ev, n - 1);
      var b := ScanUpTo(p, cs, ev, n - 1);
      var e := ev(cs[n - 1]);
      if Admits(p, e) && Below(e.objective, b.objective) {
        var k := n - 1;
        assert IsFirstBest(p, cs, ev, n, ScanUpTo(p, cs, ev, n), k) by {
          if b.found.Some? {
            var m :| IsFirstBest(p, cs, ev, n - 1, b, m);
          }
        }
      } else if b.found.Some? {
        var m :| IsFirstBest(p, cs, ev, n - 1, b, m);
        assert IsFirstBest(p, cs, ev, n, b, m);
      }
    }
  }

  /** The calculator's result: empty exactly when no visited candidate is
      admitted, otherwise the first minimum among the visited admitted ones.
      Without first-best-first every candidate is visited. */
  lemma ScanSpec<T>(p: Policy, cs: seq<T>, ev: T -> Eval)
    ensures var b, n := Scan(p, cs, ev), Visited(p, cs, ev);
      && (b.found.None? <==> b.objective.PosInf?)
      && (b.found.None? <==> NoneAdmitted(p, cs, ev, n))
      && (b.found.Some? ==> exists k :: IsFirstBest(p, cs, ev, n, b, k))
      && (!p.firstBestFirst ==> n == |cs|)
  {
    ScanUpToSpec(p, cs, ev, Visited(p, cs, ev));
  }

  /** A candidate that stops the loop is admitted. */
  lemma StopsAdmits(p: Policy, e: Eval)
    requires Stops(p, e)
    ensures Admits(p, e)
  {
  }

  /** With first-best-first, once some candidate beats the incumbent (with
      no excess, for aspiration calculators), the returned objective beats
      it too. */
  lemma {:induction false} ScanStopsBelowIncumbent<T>(p: Policy, cs: seq<T>, ev: T -> Eval, j: nat)
    requires j < |cs| && Stops(p, ev(cs[j]))
    ensures Scan(p, cs, ev).objective.Finite?
    ensures Scan(p, cs, ev).objective.v < p.incumbent
  {
    var n := Visited(p, cs, ev);
    if n == |cs| {
      assert j == n - 1;
    }
    StopsAdmits(p, ev(cs[n - 1]));
    ScanUpToSpec(p, cs, ev, n);
    var b := ScanUpTo(p, cs, ev, n);
    var k :| IsFirstBest(p, cs, ev, n, b, k);
    assert ev(cs[k]).objective <= ev(cs[n - 1]).objective;
  }

  /** The result, when every candidate was visited, is the best over the
      candidate set `inSet`: empty exactly when no member is admitted,
      otherwise an admitted member whose objective no admitted member
      beats. */
  ghost predicate BestOf<T(!new)>(p: Policy, ev: T -> Eval, inSet: T -> bool, b: Best<T>) {
    && (b.found.None? <==> b.objective.PosInf?)
    && (b.found.None? <==> forall c :: inSet(c) ==> !Admits(p, ev(c)))
    && (b.found.Some? ==>
          && inSet(b.found.value) && Admits(p, ev(b.found.value))
          && b.objective == Finite(ev(b.found.value).objective)
          && forall c :: inSet(c) && Admits(p, ev(c)) ==> ev(b.found.value).objective <= ev(c).objective)
  }

  /** Whatever the policy, a found candidate is one of the list, admitted,
      and returned with its own objective. */
  lemma ScanFound<T>(p: Policy, cs: seq<T>, ev: T -> Eval)
    ensures var b := Scan(p, cs, ev);
      b.found.Some? ==>
        && b.found.value in cs && Admits(p, ev(b.found.value))
        && b.objective == Finite(ev(b.found.value).objective)
  {
    var n := Visited(p, cs, ev);
    ScanUpToSpec(p, cs, ev, n);
    var b := Scan(p, cs, ev);
    if b.found.Some? {
      var k :| IsFirstBest(p, cs, ev, n, b, k);
    }
  }

  /** Without first-best-first, the scan of a list holding exactly the
      members of `inSet` returns the best over `inSet`. */
  lemma ScanBestOf<T(!new)>(p: Policy, cs: seq<T>, ev: T -> Eval, inSet: T -> bool)
    requires !p.firstBestFirst
    requires forall c :: c in cs <==> inSet(c)
    ensures BestOf(p, ev, inSet, Scan(p, cs, ev))
  {
    var n := Visited(p, cs, ev);
    ScanUpToSpec(p, cs, ev, n);
    var b := Scan(p, cs, ev);
    if b.found.Some? {
      var k :| IsFirstBest(p, cs, ev, n, b, k);
      forall c | inSet(c) && Admits(p, ev(c)) ensures ev(cs[k]).objective <= ev(c).objective {
        var j :| 0 <= j < |cs| && cs[j] == c;
      }
    } else {
      forall c | inSet(c) ensures !Admits(p, ev(c)) {
        var j :| 0 <= j < |cs| && cs[j] == c;
      }
    }
  }

  // ---------------------------------------------------------------------
  // Evaluations that may throw
  // ---------------------------------------------------------------------

  /** The loop from candidate `i` on, with best-so-far `b`, when evaluating
      a candidate may throw: the first exception ends the call. */
  function ScanChecked<T>(p: Policy, cs: seq<T>, evr: T -> Result<Eval>, i: nat, b: Best<T>): Result<Best<T>>
    requires i <= |cs|
    decreases |cs| - i
  {
    if i == |cs| then Ok(b)
    else match evr(cs[i])
      case Err(e) => Err(e)
      case Ok(e) =>
        var b' := Step(p, b, cs[i], e);
        if Stops(p, e) then Ok(b') else ScanChecked(p, cs, evr, i + 1, b')
  }

  /** When no visited candidate throws, the checked loop returns what the
      plain scan returns. */
  lemma {:induction false} ScanCheckedAgrees<T>(p: Policy, cs: seq<T>, evr: T -> Result<Eval>, ev: T -> Eval, i: nat)
    requires i <= |cs|
    requires forall k :: i <= k < |cs| ==> evr(cs[k]) == Ok(ev(cs[k]))
    ensures ScanChecked(p, cs, evr, i, ScanUpTo(p, cs, ev, i)) == Ok(ScanUpTo(p, cs, ev, StopFrom(p, cs, ev, i)))
    decreases |cs| - i
  {
    if i < |cs| && !Stops(p, ev(cs[i])) {
      ScanCheckedAgrees(p, cs, evr, ev, i + 1);
    }
  }

  /** A call whose first evaluation throws ends with that exception. */
  lemma ScanCheckedFirstThrows<T>(p: Policy, cs: seq<T>, evr: T -> Result<Eval>)
    requires cs != [] && evr(cs[0]).Err?
    ensures ScanChecked(p, cs, evr, 0, Best(None, PosInf)) == Err(evr(cs[0]).error)
  {
  }
}

=== FILE: serialize.dfy ===
/** `VRPInstanceIncomplete.serializeRoutes`: pad the route list with empty
    depot-to-depot routes up to the fleet size, then write "0" followed by
    every customer of every route, separated by single spaces. The text is
    proved to read back as exactly those numbers. */
module Serialization {
  import opened Common
  import opened RouteModel
  import opened RouteLists

  /** The route of a vehicle that does not go out. */
  const Idle := Route([0, 0], 0)

  /** The list after the unused vehicles were appended to it. */
  function Padded(rl: RouteList, numVehicles: int): (r: RouteList)
    ensures |r.routes| == Max(|rl.routes|, numVehicles)
    ensures r.routes[..|rl.routes|] == rl.routes && r.length == rl.length
    ensures forall k :: |rl.routes| <= k < |r.routes| ==> r.routes[k] == Idle
  {
    var extra := if numVehicles > |rl.routes| then numVehicles - |rl.routes| else 0;
    RouteList(rl.routes + seq(extra, _ => Idle), rl.length)
  }

  /** The numbers written: the optimality flag 0, then every customer of
      every route in order. */
  function Tokens(routes: seq<Route>): (ts: seq<int>)
    ensures |ts| >= 1 && ts[0] == 0
  {
    [0] + Flatten(seq(|routes|, k requires 0 <= k < |routes| => routes[k].customers))
  }

  // ---------------------------------------------------------------------
  // Decimal numbers
  // ---------------------------------------------------------------------

  predicate IsDigit(c: char) { '0' <= c <= '9' }

  function DigitChar(x: int): (c: char)
    requires 0 <= x < 10
    ensures IsDigit(c)
  {
    (48 + x) as char
  }

  /** `Integer.toString` on a non-negative number. */
  function NatString(n: nat): (s: string)
    ensures |s| >= 1 && forall i :: 0 <= i < |s| ==> IsDigit(s[i])
  {
    if n < 10 then [DigitChar(n)] else NatString(n / 10) + [DigitChar(n % 10)]
  }

  /** `Integer.toString`: a minus sign before a negative number. */
  function IntString(n: int): (s: string)
    ensures |s| >= 1 && ' ' !in s && s[|s| - 1] != ' ' && s[0] != ' '
  {
    if n < 0 then "-" + NatString(-n) else NatString(n)
  }

  /** Reading a run of digits back, most significant first. */
  function ParseNat(s: string): int {
    if s == [] then 0 else ParseNat(s[..|s| - 1]) * 10 + ((s[|s| - 1] as int) - 48)
  }

  function ParseInt(s: string): int {
    if |s| > 0 && s[0] == '-' then -ParseNat(s[1..]) else ParseNat(s)
  }

  lemma {:induction false} ParseNatString(n: nat)
    ensures ParseNat(NatString(n)) == n
  {
    if n >= 10 {
      var s := NatString(n);
      assert s[..|s| - 1] == NatString(n / 10);
      ParseNatString(n / 10);
    }
  }

  /** Every number written reads back as itself. */
  lemma ParseIntString(n: int)
    ensures ParseInt(IntString(n)) == n
  {
    if n < 0 {
      ParseNatString(-n);
      assert ("-" + NatString(-n))[1..] == NatString(-n);
    } else {
      ParseNatString(n);
    }
  }

  // ---------------------------------------------------------------------
  // Joining, trimming and splitting
  // ---------------------------------------------------------------------

  /** What the `StringBuilder` holds: every word followed by a space. */
  function Spaced(ws: seq<string>): string {
    if ws == [] then "" else ws[0] + " " + Spaced(ws[1..])
  }

  /** Words separated by single spaces. */
  function Join(ws: seq<string>): string {
    if ws == [] then "" else if |ws| == 1 then ws[0] else ws[0] + " " + Join(ws[1..])
  }

  /** `String.trim`: drops every character up to a space from both ends. */
  function TrimLeft(s: string): (r: string)
    ensures |r| <= |s| && (r != [] ==> r[0] > ' ')
  {
    if |s| > 0 && s[0] <= ' ' then TrimLeft(s[1..]) else s
  }

  function TrimRight(s: string): (r: string)
    ensures |r| <= |s| && (r != [] ==> r[|r| - 1] > ' ')
  {
    if |s| > 0 && s[|s| - 1] <= ' ' then TrimRight(s[..|s| - 1]) else s
  }

  function Trim(s: string): string {
    TrimLeft(TrimRight(s))
  }

  /** The text split at every space. */
  function Split(s: string): (ws: seq<string>)
    ensures |ws| >= 1
  {
    if s == [] then [""]
    else if s[0] == ' ' then [""] + Split(s[1..])
    else var rest := Split(s[1..]); [[s[0]] + rest[0]] + rest[1..]
  }

  /** A word: non-empty, with nothing `trim` or `split` would cut. */
  predicate Word(w: string) {
    |w| >= 1 && forall i :: 0 <= i < |w| ==> w[i] > ' '
  }

  lemma {:induction false} SplitWord(w: string, rest: string)
    requires forall i :: 0 <= i < |w| ==> w[i] > ' '
    ensures Split(w) == [w]
    ensures Split(w + " " + rest) == [w] + Split(rest)
    decreases |w|
  {
    if w == [] {
      assert w + " " + rest == [' '] + rest;
      assert (w + " " + rest)[1..] == rest;
    } else {
      assert (w + " " + rest)[1..] == w[1..] + " " + rest;
      assert (w + " " + rest)[0] == w[0];
      SplitWord(w[1..], rest);
      assert [w[0]] + w[1..] == w;
    }
  }

  /** Splitting the joined words gives the words back. */
  lemma {:induction false} SplitJoin(ws: seq<string>)
    requires |ws| >= 1 && forall k :: 0 <= k < |ws| ==> Word(ws[k])
    ensures Split(Join(ws)) == ws
    decreases |ws|
  {
    SplitWord(ws[0], if |ws| == 1 then "" else Join(ws[1..]));
    if |ws| > 1 {
      SplitJoin(ws[1..]);
      assert [ws[0]] + ws[1..] == ws;
    }
  }

  lemma {:induction false} SpacedIsJoin(ws: seq<string>)
    requires |ws| >= 1
    ensures Spaced(ws) == Join(ws) + " "
    decreases |ws|
  {
    if |ws| > 1 {
      SpacedIsJoin(ws[1..]);
    } else {
      assert Spaced(ws[1..]) == "";
    }
  }

  lemma {:induction false} JoinEnds(ws: seq<string>)
    requires |ws| >= 1 && forall k :: 0 <= k < |ws| ==> Word(ws[k])
    ensures |Join(ws)| >= 1 && Join(ws)[0] > ' ' && Join(ws)[|Join(ws)| - 1] > ' '
    decreases |ws|
  {
    if |ws| > 1 {
      JoinEnds(ws[1..]);
      var j := Join(ws);
      assert j == ws[0] + " " + Join(ws[1..]);
      assert j[|j| - 1] == Join(ws[1..])[|Join(ws[1..])| - 1];
    }
  }

  /** Trimming the builder's text leaves the words joined by single spaces:
      the only whitespace removed is the final space. */
  lemma TrimSpaced(ws: seq<string>)
    requires |ws| >= 1 && forall k :: 0 <= k < |ws| ==> Word(ws[k])
    ensures Trim(Spaced(ws)) == Join(ws)
  {
    SpacedIsJoin(ws);
    JoinEnds(ws);
    var j := Join(ws);
    var sp := j + " ";
    assert sp[|sp| - 1] == ' ' && sp[..|sp| - 1] == j;
    assert TrimRight(sp) == TrimRight(j);
    assert TrimRight(j) == j;
    assert TrimLeft(j) == j;
  }

  // ---------------------------------------------------------------------
  // The serialiser
  // ---------------------------------------------------------------------

  function Words(ts: seq<int>): (ws: seq<string>)
    ensures |ws| == |ts| && forall k :: 0 <= k < |ts| ==> ws[k] == IntString(ts[k])
  {
    seq(|ts|, k requires 0 <= k < |ts| => IntString(ts[k]))
  }

  /** `serializeRoutes`. */
  function SerializeRoutes(rl: RouteList, numVehicles: int): string {
    Trim(Spaced(Words(Tokens(Padded(rl, numVehicles).routes))))
  }

  /** The text is the written numbers joined by single spaces, with no
      space at either end. */
  lemma SerializeIsJoin(rl: RouteList, numVehicles: int)
    ensures var ws := Words(Tokens(Padded(rl, numVehicles).routes));
      && SerializeRoutes(rl, numVehicles) == Join(ws)
      && SerializeRoutes(rl, numVehicles)[0] != ' '
      && SerializeRoutes(rl, numVehicles)[|SerializeRoutes(rl, numVehicles)| - 1] != ' '
  {
    var ws := Words(Tokens(Padded(rl, numVehicles).routes));
    forall k | 0 <= k < |ws| ensures Word(ws[k]) {
      var w := IntString(Tokens(Padded(rl, numVehicles).routes)[k]);
      assert ' ' !in w;
      WordOfInt(Tokens(Padded(rl, numVehicles).routes)[k]);
    }
    TrimSpaced(ws);
    JoinEnds(ws);
  }

  lemma WordOfInt(n: int)
    ensures Word(IntString(n))
  {
    var s := IntString(n);
    forall i | 0 <= i < |s| ensures s[i] > ' ' {
      if n < 0 && i > 0 {
        assert s[i] == NatString(-n)[i - 1];
      }
    }
  }

  /** Reading the serialised text: split at spaces, parse every word. */
  function ParseRoutes(text: string): (ts: seq<int>) {
    var ws := Split(text);
    seq(|ws|, k requires 0 <= k < |ws| => ParseInt(ws[k]))
  }

  /** The text reads back as the flag 0 followed by every customer of
      every route of the padded list, in order; the padding appends one
      depot-to-depot route per unused vehicle. */
  lemma SerializeRoundTrip(rl: RouteList, numVehicles: int)
    ensures ParseRoutes(SerializeRoutes(rl, numVehicles)) == Tokens(Padded(rl, numVehicles).routes)
  {
    var ts := Tokens(Padded(rl, numVehicles).routes);
    var ws := Words(ts);
    SerializeIsJoin(rl, numVehicles);
    forall k | 0 <= k < |ws| ensures Word(ws[k]) {
      WordOfInt(ts[k]);
    }
    SplitJoin(ws);
    forall k | 0 <= k < |ts| ensures ParseInt(ws[k]) == ts[k] {
      ParseIntString(ts[k]);
    }
  }
}

=== FILE: sls_driver.dfy ===
/** `instances.VRPInstanceSLS.search`: one iteration of the stochastic local
    search. The three neighbourhood searches, the route list's objective,
    the random draws, the route optimisation and the initial solution are
    inputs; selection, the short- and long-term memory, `perform`, the
    incumbent update, the penalty and neighbourhood-size schedules and the
    random restart are modelled. */
module SlsDriver {
  import opened Common
  import opened Routes
  import opened Interchanges
  import opened RawInterchange
  import opened EdgeDeltas
  import opened RouteModel
  import opened RouteLists
  import opened Scans
  import opened Calculators
  import opened Controls

  // ---------------------------------------------------------------------
  // SLSParams
  // ---------------------------------------------------------------------

  const OptimizationChance: real := 0.05
  const RandomOptimizationChance: real := 0.01
  const EcThreshold := 10
  const EcMin: real := 0.000001
  const EcMax: real := 1000000.0
  const EcBase: real := 1.0
  const CuThreshold := 20
  const CuMin: real := 1.0
  const CuMax: real := 100.0
  const CuBase: real := 1.0
  const LnsThreshold := 5
  const LnsMin := 1000
  const LnsMax := 10000
  const LnsBase := 1000
  const BaseRestartThreshold := 50
  /** `Integer.MAX_VALUE`, where `restartThreshold *= 2.0` saturates. */
  const MaxInt := 2147483647

  // ---------------------------------------------------------------------
  // perform on the interchange the search chose
  // ---------------------------------------------------------------------

  /** What the calculators guarantee of every interchange they return: two
      distinct routes of the list, and every position the delta and the
      demand update read lies inside its route. */
  predicate Movable(rl: RouteList, ic: Interchange) {
    && Names(rl, ic) && ic.routeIdx1 != ic.routeIdx2
    && DeltaDomain(Route1(rl, ic), Route2(rl, ic), ic)
    && DemandReadable(rl, ic)
  }

  lemma ApplyRawSupported(rl: RouteList, ic: Interchange)
    requires Movable(rl, ic) && Supported(ic)
    ensures ApplyRaw(Route1(rl, ic), Route2(rl, ic), ic.list1, ic.list2).Some?
  {
    var r1, r2 := Route1(rl, ic), Route2(rl, ic);
    if ic.Shape(1, 0) {
      ApplyRaw0I(r1, r2, ic);
    } else if ic.Shape(1, 1) {
      ApplyRaw1I(r1, r2, ic);
    } else {
      ApplyRaw2I(r1, r2, ic);
    }
  }

  /** `perform` with the delta of `edgeDelta`, which handles the (2,2)
      interchanges the SLS neighbourhood also produces. */
  function PerformAny(inst: Instance, rl: RouteList, ic: Interchange): (r: Result<RouteList>)
    requires Movable(rl, ic)
    ensures r.Err? <==> !Supported(ic)
    ensures r.Err? ==> r.error == IllegalArgument
    ensures r.Ok? ==> |r.value.routes| == |rl.routes|
    ensures r.Ok? ==> forall k :: 0 <= k < |rl.routes| && k != ic.routeIdx1 && k != ic.routeIdx2
                                  ==> r.value.routes[k] == rl.routes[k]
  {
    if !Supported(ic) then Err(IllegalArgument)
    else
      ApplyRawSupported(rl, ic);
      PerformWith(rl, ic, NewDemands(inst, rl, ic), EdgeDelta(inst.d, Customers(rl), ic).value)
  }

  /** On 1-interchanges the corrected `perform` is the original one. */
  lemma PerformAnyAgrees(inst: Instance, rl: RouteList, ic: Interchange)
    requires Movable(rl, ic) && OneInterchange(ic)
    ensures DeltaReadable(rl, ic)
    ensures PerformAny(inst, rl, ic) == Perform(inst, rl, ic)
  {
    var r1, r2 := Route1(rl, ic), Route2(rl, ic);
    if ic.Shape(1, 0) {
      InsertionDeltaIsDelta0I(inst.d, r1, r2, ic);
    } else {
      SwapDeltaIsDelta1I(inst.d, r1, r2, ic);
    }
  }

  /** The corrected `perform` keeps the cached length equal to the sum of
      the route lengths, for every shape it accepts. */
  lemma PerformAnyKeepsLength(inst: Instance, rl: RouteList, ic: Interchange)
    requires Symmetric(inst.d)
    requires Movable(rl, ic) && Supported(ic)
    requires rl.length == TotalLength(inst.d, rl.routes)
    ensures PerformAny(inst, rl, ic).value.length == TotalLength(inst.d, PerformAny(inst, rl, ic).value.routes)
  {
    var d, i1, i2 := inst.d, ic.routeIdx1, ic.routeIdx2;
    ApplyRawSupported(rl, ic);
    var o := ApplyRaw(Route1(rl, ic), Route2(rl, ic), ic.list1, ic.list2).value;
    var nd := NewDemands(inst, rl, ic);
    EdgeDeltaMatchesNaive(d, Customers(rl), ic);
    var a := rl.routes[i1 := Route(o.route1, nd.0)];
    TotalLengthUpdate(d, rl.routes, i1, Route(o.route1, nd.0));
    TotalLengthUpdate(d, a, i2, Route(o.route2, nd.1));
  }

  /** `perform` as written: the (2,2) interchange the search may choose
      reaches `calculateEdgeDelta`, which throws. */
  lemma PerformDoubleSwapThrows(inst: Instance, rl: RouteList, ic: Interchange)
    requires Movable(rl, ic) && ic.Shape(2, 2)
    ensures DeltaReadable(rl, ic)
    ensures Perform(inst, rl, ic) == Err(IllegalArgument)
    ensures PerformAny(inst, rl, ic).Ok?
  {
  }

  // ---------------------------------------------------------------------
  // Choosing the interchange
  // ---------------------------------------------------------------------

  /** The results of the three neighbourhood searches. */
  datatype Searches = Searches(insertion: Option<Interchange>, swap: Option<Interchange>,
                               twoInterchange: Option<Interchange>)

  /** `x == null ? +∞ : routeList.calculateObjective(x, …)`. */
  function ObjectiveOf(found: Option<Interchange>, objectiveOf: Interchange -> real): (o: ExtReal)
    ensures o.PosInf? <==> found.None?
  {
    match found
    case None => PosInf
    case Some(ic) => Finite(objectiveOf(ic))
  }

  /** The interchange the iteration performs, with its objective and the
      insertion objective. */
  datatype Choice = NoMove | Move(ic: Interchange, objective: ExtReal, insertionObjective: ExtReal)

  /** The choice among the three searches: the smallest objective, ties
      going to the insertion, then to the swap. */
  function Select(found: Searches, objectiveOf: Interchange -> real): (c: Choice)
    ensures var oi, os, ot := ObjectiveOf(found.insertion, objectiveOf), ObjectiveOf(found.swap, objectiveOf),
                              ObjectiveOf(found.twoInterchange, objectiveOf);
      && (c.NoMove? <==> found.insertion.None? && found.swap.None? && found.twoInterchange.None?)
      && (c.Move? ==> c.insertionObjective == oi && c.objective.Finite?
                      && c.objective.Le(oi) && c.objective.Le(os) && c.objective.Le(ot))
      && (c.Move? && c.objective == oi ==> found.insertion == Some(c.ic))
      && (c.Move? && c.objective != oi && c.objective == os ==> found.swap == Some(c.ic))
      && (c.Move? && c.objective != oi && c.objective != os ==>
            found.twoInterchange == Some(c.ic) && c.objective == ot)
  {
    var oi, os, ot := ObjectiveOf(found.insertion, objectiveOf), ObjectiveOf(found.swap, objectiveOf),
                      ObjectiveOf(found.twoInterchange, objectiveOf);
    if found.insertion.None? && found.swap.None? && found.twoInterchange.None? then NoMove
    else if oi.Le(os) && oi.Le(ot) then Move(found.insertion.value, oi, oi)
    else if os.Le(oi) && os.Le(ot) then Move(found.swap.value, os, oi)
    else Move(found.twoInterchange.value, ot, oi)
  }

  /** Which of the two readings of `updateInterchange` is meant: the one
      the source has, or the one it evidently intends. */
  datatype Variant = AsWritten | Corrected

  /** The objective `updateInterchange` records: the insertion objective in
      every branch as written, the chosen interchange's objective as
      intended. */
  function RecordedObjective(variant: Variant, c: Choice): ExtReal
    requires c.Move?
  {
    match variant
    case AsWritten => c.insertionObjective
    case Corrected => c.objective
  }

  /** As written, choosing a swap when there is no insertion records +∞ as
      the current objective although a move was made. */
  lemma RecordedObjectiveAsWrittenCounterexample(ic: Interchange)
    ensures var c := Select(Searches(None, Some(ic), None), _ => 5.0);
      && c.Move? && c.ic == ic
      && RecordedObjective(AsWritten, c) == PosInf
      && RecordedObjective(Corrected, c) == Finite(5.0)
  {
  }

  /** The corrected record is the least of the three objectives. */
  lemma RecordedObjectiveIsLeast(found: Searches, objectiveOf: Interchange -> real)
    requires Select(found, objectiveOf).Move?
    ensures var r := RecordedObjective(Corrected, Select(found, objectiveOf));
      && r.Finite?
      && r.Le(ObjectiveOf(found.insertion, objectiveOf))
      && r.Le(ObjectiveOf(found.swap, objectiveOf))
      && r.Le(ObjectiveOf(found.twoInterchange, objectiveOf))
  {
  }

  // ---------------------------------------------------------------------
  // updateInterchange
  // ---------------------------------------------------------------------

  /** The fixed inputs of the search: the instance, the tabu tenure range
      and the two computations it delegates, the route optimisation and
      the generation of a fresh initial solution. */
  datatype Env = Env(inst: Instance, minTenure: int, maxTenure: int,
                     optimize: Route -> Optimized, restartList: RouteList)

  /** The state `search` carries from one iteration to the next. */
  datatype SlsState = SlsState(
    routeList: RouteList, incumbent: RouteList, bestIncumbent: RouteList,
    objective: ExtReal, shortTerm: seq<TabuItem>, longTerm: map<int, int>,
    iteration: int, ecCoef: real, cuCoef: real, lastFeasible: int,
    sinceIncumbent: int, lnsSize: int, restartThreshold: int)

  /** The customers the interchange moves, read before it is performed:
      those of the first list from route 1, then those of the second list
      from route 2. */
  function MovedCustomers(rl: RouteList, ic: Interchange): (ms: seq<int>)
    requires DemandReadable(rl, ic)
    ensures |ms| == |ic.list1| + |ic.list2|
  {
    var r1, r2 := Route1(rl, ic), Route2(rl, ic);
    seq(|ic.list1|, k requires 0 <= k < |ic.list1| => r1[ic.list1[k].from])
    + seq(|ic.list2|, k requires 0 <= k < |ic.list2| => r2[ic.list2[k].from])
  }

  /** Every tenure draw is a value `nextInt(max - min + 1)` may return. */
  ghost predicate TenureDraws(minTenure: int, maxTenure: int, draw: int -> int) {
    maxTenure - minTenure + 1 > 0 ==> forall k :: 0 <= draw(k) < maxTenure - minTenure + 1
  }

  /** One tabu item per moved customer, each with its own random tenure;
      the first draw throws when the tenure range is empty. */
  function TabuItems(moved: seq<int>, iteration: int, minTenure: int, maxTenure: int,
                     draw: int -> int): (r: Result<seq<TabuItem>>)
    requires TenureDraws(minTenure, maxTenure, draw)
    ensures r.Err? <==> moved != [] && maxTenure < minTenure
    ensures r.Err? ==> r.error == IllegalArgument
    ensures r.Ok? ==> |r.value| == |moved|
    ensures r.Ok? ==> forall k :: 0 <= k < |moved| ==>
      r.value[k].customer == moved[k] && iteration + minTenure <= r.value[k].expiration <= iteration + maxTenure
  {
    if moved == [] then Ok([])
    else if maxTenure < minTenure then Err(IllegalArgument)
    else Ok(seq(|moved|, k requires 0 <= k < |moved| =>
                TabuItem(moved[k], iteration + TabuTenure(minTenure, maxTenure, draw(k)).value)))
  }

  /** How many moves of `customer` the long-term memory has counted. */
  function Uses(m: map<int, int>, customer: int): int {
    if customer in m then m[customer] else 0
  }

  /** `longTermMemory.merge(c, 1, Integer::sum)` for each moved customer. */
  function AddUses(m: map<int, int>, moved: seq<int>): map<int, int>
    decreases |moved|
  {
    if moved == [] then m
    else AddUses(m[moved[0] := Uses(m, moved[0]) + 1], moved[1..])
  }

  /** The long-term memory counts every move of every customer: afterwards
      each customer's count has grown by how often it was moved. */
  lemma {:induction false} AddUsesCounts(m: map<int, int>, moved: seq<int>, x: int)
    ensures Uses(AddUses(m, moved), x) == Uses(m, x) + multiset(moved)[x]
    decreases |moved|
  {
    if moved != [] {
      AddUsesCounts(m[moved[0] := Uses(m, moved[0]) + 1], moved[1..], x);
      assert moved == [moved[0]] + moved[1..];
      assert multiset(moved) == multiset{moved[0]} + multiset(moved[1..]);
    }
  }

  /** A customer gets an entry exactly when it had one or was moved. */
  lemma {:induction false} AddUsesKeys(m: map<int, int>, moved: seq<int>)
    ensures AddUses(m, moved).Keys == m.Keys + set k | 0 <= k < |moved| :: moved[k]
    decreases |moved|
  {
    if moved != [] {
      AddUsesKeys(m[moved[0] := Uses(m, moved[0]) + 1], moved[1..]);
      var rest := set k | 0 <= k < |moved[1..]| :: moved[1..][k];
      var all := set k | 0 <= k < |moved| :: moved[k];
      assert all == {moved[0]} + rest by {
        forall x | x in all ensures x in {moved[0]} + rest {
          var k :| 0 <= k < |moved| && moved[k] == x;
          if k > 0 {
            assert moved[1..][k - 1] == x;
          }
        }
        forall x | x in rest ensures x in all {
          var k :| 0 <= k < |moved[1..]| && moved[1..][k] == x;
          assert moved[k + 1] == x;
        }
        assert moved[0] in all;
      }
    }
  }

  /** A performable interchange never moves the same position twice. */
  lemma MovableInjective(rl: RouteList, ic: Interchange)
    requires Movable(rl, ic) && Supported(ic)
    ensures Injective(ic.list1, FromOf) && Injective(ic.list2, FromOf)
  {
  }

  /** `perform` as the source calls it, or with the corrected delta. */
  function PerformVariant(variant: Variant, inst: Instance, rl: RouteList, ic: Interchange): (r: Result<RouteList>)
    requires Movable(rl, ic)
    ensures r.Ok? ==> |r.value.routes| == |rl.routes|
  {
    match variant
    case AsWritten => Perform(inst, rl, ic)
    case Corrected => PerformAny(inst, rl, ic)
  }

  /** Whichever `perform` runs, a performed interchange keeps the list's
      customer visits and its consistent demand caches. */
  lemma PerformVariantKeepsIntact(variant: Variant, inst: Instance, cs: multiset<int>, rl: RouteList, ic: Interchange)
    requires Movable(rl, ic) && Intact(inst.demandOf, cs, rl)
    requires PerformVariant(variant, inst, rl, ic).Ok?
    ensures Intact(inst.demandOf, cs, PerformVariant(variant, inst, rl, ic).value)
  {
    if variant == AsWritten {
      PerformAnyAgrees(inst, rl, ic);
    }
    assert PerformVariant(variant, inst, rl, ic) == PerformAny(inst, rl, ic);
    MovableInjective(rl, ic);
    ApplyRawSupported(rl, ic);
    PerformWithKeepsContents(inst, rl, ic, EdgeDelta(inst.d, Customers(rl), ic).value);
  }

  /** `updateInterchange`: record the objective, put every moved customer
      on the short-term memory and count it in the long-term memory, then
      perform the interchange. */
  function UpdateInterchange(variant: Variant, env: Env, s: SlsState, c: Choice, draw: int -> int): (r: Result<SlsState>)
    requires c.Move? && Movable(s.routeList, c.ic)
    requires TenureDraws(env.minTenure, env.maxTenure, draw)
    ensures r.Ok? ==> |r.value.routeList.routes| == |s.routeList.routes|
    ensures r.Ok? ==> r.value == s.(routeList := r.value.routeList, objective := r.value.objective,
                                     shortTerm := r.value.shortTerm, longTerm := r.value.longTerm)
    ensures r.Ok? ==> r.value.longTerm == AddUses(s.longTerm, MovedCustomers(s.routeList, c.ic))
  {
    var moved := MovedCustomers(s.routeList, c.ic);
    match TabuItems(moved, s.iteration, env.minTenure, env.maxTenure, draw)
    case Err(e) => Err(e)
    case Ok(items) =>
      match PerformVariant(variant, env.inst, s.routeList, c.ic)
      case Err(e) => Err(e)
      case Ok(rl) =>
        Ok(s.(routeList := rl, objective := RecordedObjective(variant, c),
              shortTerm := s.shortTerm + items, longTerm := AddUses(s.longTerm, moved)))
  }

  /** With a non-empty tenure range the corrected update performs every
      interchange the searches return: it records the least objective,
      appends one item per moved customer to the short-term memory and
      changes nothing else but the route list and the long-term memory. */
  lemma UpdateInterchangeSpec(env: Env, s: SlsState, c: Choice, draw: int -> int)
    requires c.Move? && Movable(s.routeList, c.ic) && Supported(c.ic)
    requires TenureDraws(env.minTenure, env.maxTenure, draw)
    requires env.minTenure <= env.maxTenure
    ensures var r := UpdateInterchange(Corrected, env, s, c, draw);
      && r.Ok?
      && r.value.routeList == PerformAny(env.inst, s.routeList, c.ic).value
      && r.value.objective == c.objective
      && |r.value.shortTerm| == |s.shortTerm| + |c.ic.list1| + |c.ic.list2|
      && r.value.shortTerm[..|s.shortTerm|] == s.shortTerm
      && (forall k :: |s.shortTerm| <= k < |r.value.shortTerm| ==>
            s.iteration + env.minTenure <= r.value.shortTerm[k].expiration <= s.iteration + env.maxTenure)
      && r.value.incumbent == s.incumbent && r.value.bestIncumbent == s.bestIncumbent
      && r.value.iteration == s.iteration
  {
    var r := UpdateInterchange(Corrected, env, s, c, draw);
    var items := TabuItems(MovedCustomers(s.routeList, c.ic), s.iteration, env.minTenure, env.maxTenure, draw).value;
    assert r.value.shortTerm == s.shortTerm + items;
  }

  /** As written, choosing a (2,2) interchange makes the update throw. */
  lemma UpdateInterchangeAsWrittenThrows(env: Env, s: SlsState, c: Choice, draw: int -> int)
    requires c.Move? && Movable(s.routeList, c.ic) && c.ic.Shape(2, 2)
    requires TenureDraws(env.minTenure, env.maxTenure, draw)
    requires env.minTenure <= env.maxTenure
    ensures UpdateInterchange(AsWritten, env, s, c, draw) == Err(IllegalArgument)
    ensures UpdateInterchange(Corrected, env, s, c, draw).Ok?
  {
    PerformDoubleSwapThrows(env.inst, s.routeList, c.ic);
  }

  // ---------------------------------------------------------------------
  // Incumbent update
  // ---------------------------------------------------------------------

  /** The incumbent rule: a route list strictly shorter than the incumbent
      and without excess becomes the incumbent, possibly after optimising
      the two routes of the move, and the best incumbent when it is shorter
      than that too; otherwise the count of iterations without a new
      incumbent grows. */
  function UpdateIncumbent(env: Env, s: SlsState, idx1: int, idx2: int, draw: real): (r: Result<SlsState>)
    ensures r.Ok? ==> |r.value.routeList.routes| == |s.routeList.routes|
  {
    var rl := s.routeList;
    if rl.length < s.incumbent.length && ListExcess(env.inst.capacity, rl) == 0 then
      match PolishPair(env.optimize, rl, idx1, idx2, draw, OptimizationChance)
      case Err(e) => Err(e)
      case Ok(p) =>
        Ok(s.(routeList := p, incumbent := CloneList(p), sinceIncumbent := 0,
              bestIncumbent := if p.length < s.bestIncumbent.length then CloneList(p) else s.bestIncumbent))
    else Ok(s.(sinceIncumbent := s.sinceIncumbent + 1))
  }

  /** A new incumbent is exactly a shorter route list without excess; it is
      feasible and strictly shorter than the one it replaces, and the best
      incumbent only ever gets shorter. Without one, only the counter
      changes. */
  lemma UpdateIncumbentSpec(env: Env, s: SlsState, idx1: int, idx2: int, draw: real)
    requires Polisher(env.optimize) && s.sinceIncumbent >= 0
    requires UpdateIncumbent(env, s, idx1, idx2, draw).Ok?
    ensures var r := UpdateIncumbent(env, s, idx1, idx2, draw).value;
      && (r.sinceIncumbent == 0 <==> s.routeList.length < s.incumbent.length && Feasible(env.inst.capacity, s.routeList))
      && (r.sinceIncumbent == 0 ==>
            && r.incumbent == r.routeList && Feasible(env.inst.capacity, r.incumbent)
            && r.incumbent.length < s.incumbent.length
            && r.bestIncumbent.length <= s.bestIncumbent.length
            && r.bestIncumbent.length <= r.incumbent.length
            && (r.bestIncumbent == s.bestIncumbent || r.bestIncumbent == r.incumbent))
      && (r.sinceIncumbent != 0 ==>
            r == s.(sinceIncumbent := s.sinceIncumbent + 1))
  {
    ListExcessZero(env.inst.capacity, s.routeList);
    if s.routeList.length < s.incumbent.length && ListExcess(env.inst.capacity, s.routeList) == 0 {
      PolishPairKeepsDemands(env.optimize, s.routeList, idx1, idx2, draw, OptimizationChance);
      var p := PolishPair(env.optimize, s.routeList, idx1, idx2, draw, OptimizationChance).value;
      assert forall k :: 0 <= k < |p.routes| ==> p.routes[k].demand == Demands(p.routes)[k];
    }
  }

  // ---------------------------------------------------------------------
  // Penalty and neighbourhood-size schedules
  // ---------------------------------------------------------------------

  /** `largeNeighborhoodSize`: after more than 5 iterations without a new
      incumbent `(int)(size * 1.05)` capped at 10000, otherwise
      `(int)(size / 1.05)` raised to 1000. */
  function NextLnsSize(size: int, since: int): (r: int)
    ensures since > LnsThreshold ==> r <= LnsMax && (LnsMin <= size <= LnsMax ==> size <= r)
    ensures since <= LnsThreshold ==> r >= LnsMin && (LnsMin <= size <= LnsMax ==> r <= size)
    ensures LnsMin <= size <= LnsMax ==> LnsMin <= r <= LnsMax
  {
    if since > LnsThreshold then Min(size * 21 / 20, LnsMax) else Max(size * 20 / 21, LnsMin)
  }

  /** The customer-use penalty: after more than 20 iterations without a new
      incumbent multiplied by 1.05 up to 100, otherwise divided by 1.05
      down to 1. */
  function NextCu(cu: real, since: int): (r: real)
    ensures since > CuThreshold ==> r <= CuMax && (CuMin <= cu <= CuMax ==> cu <= r)
    ensures since <= CuThreshold ==> r >= CuMin && (CuMin <= cu <= CuMax ==> r <= cu)
    ensures CuMin <= cu <= CuMax ==> CuMin <= r <= CuMax
  {
    if since > CuThreshold then (if cu * 21.0 / 20.0 < CuMax then cu * 21.0 / 20.0 else CuMax)
    else (if cu * 20.0 / 21.0 > CuMin then cu * 20.0 / 21.0 else CuMin)
  }

  /** The excess-capacity penalty: divided by 1.5 down to 0.000001 after
      more than 10 feasible iterations in a row, multiplied by 1.5 up to
      1000000 after more than 10 infeasible ones, and kept otherwise. */
  function NextEc(ec: real, streak: int): (r: real)
    ensures streak > EcThreshold ==> r >= EcMin && (EcMin <= ec ==> r <= ec)
    ensures streak < -EcThreshold ==> r <= EcMax && (0.0 <= ec <= EcMax ==> ec <= r)
    ensures r == ec <== -EcThreshold <= streak <= EcThreshold
    ensures EcMin <= ec <= EcMax ==> EcMin <= r <= EcMax
  {
    if streak > EcThreshold then (if ec * 2.0 / 3.0 > EcMin then ec * 2.0 / 3.0 else EcMin)
    else if streak < -EcThreshold then (if ec * 3.0 / 2.0 < EcMax then ec * 3.0 / 2.0 else EcMax)
    else ec
  }

  /** `restartThreshold *= 2.0`: the product is converted back to `int`,
      which saturates at `Integer.MAX_VALUE`. */
  function DoubleThreshold(t: int): (r: int)
    ensures 0 <= t <= MaxInt ==> t <= r
    ensures r <= MaxInt
    ensures 2 * t <= MaxInt ==> r == 2 * t
  {
    Min(2 * t, MaxInt)
  }

  // ---------------------------------------------------------------------
  // Random optimisation and restart
  // ---------------------------------------------------------------------

  /** With probability `randomOptimizationChance` one route, drawn by
      `nextInt(size)`, is optimised; `nextInt(0)` throws. */
  function RandomOptimize(env: Env, rl: RouteList, draw: real, k: int): (r: Result<RouteList>)
    requires |rl.routes| > 0 ==> 0 <= k < |rl.routes|
    ensures r.Err? <==> draw < RandomOptimizationChance && |rl.routes| == 0
    ensures r.Ok? ==> |r.value.routes| == |rl.routes|
  {
    if draw < RandomOptimizationChance then
      if |rl.routes| == 0 then Err(IllegalArgument) else Polish(env.optimize, rl, k)
    else Ok(rl)
  }

  /** The random restart after more iterations without a new incumbent
      than the threshold: the short-term memory is cleared (the long-term
      memory and the best incumbent are kept), the coefficients return to
      their base values, the threshold doubles and search resumes from a
      fresh solution. */
  function Restart(env: Env, s: SlsState): (r: SlsState)
    ensures s.sinceIncumbent > s.restartThreshold ==>
      && r.shortTerm == [] && r.longTerm == s.longTerm && r.bestIncumbent == s.bestIncumbent
      && r.routeList == env.restartList && r.incumbent == env.restartList
      && r.sinceIncumbent == 0 && r.lastFeasible == 1
      && r.lnsSize == LnsBase && r.ecCoef == EcBase && r.cuCoef == CuBase
      && r.restartThreshold == DoubleThreshold(s.restartThreshold)
      && r.iteration == s.iteration
    ensures s.sinceIncumbent <= s.restartThreshold ==> r == s
  {
    if s.sinceIncumbent > s.restartThreshold then
      s.(shortTerm := [], lnsSize := LnsBase, ecCoef := EcBase, cuCoef := CuBase,
         restartThreshold := DoubleThreshold(s.restartThreshold),
         routeList := env.restartList, incumbent := CloneList(env.restartList),
         objective := Finite(env.restartList.length), sinceIncumbent := 0, lastFeasible := 1)
    else s
  }

  // ---------------------------------------------------------------------
  // One iteration
  // ---------------------------------------------------------------------

  /** The random inputs of one iteration: the three search results, the
      route list's objective for them, the tenure draws, the two chances
      and the route the random optimisation picks. */
  datatype Draws = Draws(found: Searches, objectiveOf: Interchange -> real, tenure: int -> int,
                         polish: real, random: real, randomRoute: int)

  /** Every interchange a search returned can be performed on `rl`. */
  predicate SearchesMovable(rl: RouteList, found: Searches) {
    && (found.insertion.Some? ==> Movable(rl, found.insertion.value))
    && (found.swap.Some? ==> Movable(rl, found.swap.value))
    && (found.twoInterchange.Some? ==> Movable(rl, found.twoInterchange.value))
  }

  /** What an iteration may assume of its inputs. */
  ghost predicate DrawsFit(env: Env, s: SlsState, dr: Draws) {
    && SearchesMovable(s.routeList, dr.found)
    && TenureDraws(env.minTenure, env.maxTenure, dr.tenure)
    && (|s.routeList.routes| > 0 ==> 0 <= dr.randomRoute < |s.routeList.routes|)
  }

  lemma SelectMovable(rl: RouteList, found: Searches, objectiveOf: Interchange -> real)
    requires SearchesMovable(rl, found)
    ensures Select(found, objectiveOf).Move? ==> Movable(rl, Select(found, objectiveOf).ic)
  {
  }

  /** The route list after the chosen interchange, with the memories and
      the recorded objective updated. */
  function MoveStep(variant: Variant, env: Env, s: SlsState, c: Choice, draw: int -> int): (r: Result<SlsState>)
    requires c.Move? ==> Movable(s.routeList, c.ic)
    requires TenureDraws(env.minTenure, env.maxTenure, draw)
    ensures r.Ok? ==> |r.value.routeList.routes| == |s.routeList.routes|
    ensures r.Ok? ==> r.value == s.(routeList := r.value.routeList, objective := r.value.objective,
                                     shortTerm := r.value.shortTerm, longTerm := r.value.longTerm)
    ensures r.Ok? && c.Move? ==> r.value.longTerm == AddUses(s.longTerm, MovedCustomers(s.routeList, c.ic))
    ensures c.NoMove? ==> r == Ok(s)
  {
    if c.NoMove? then Ok(s) else UpdateInterchange(variant, env, s, c, draw)
  }

  /** The counters, coefficients and feasibility streak after the incumbent
      update. */
  function Schedules(capacity: int, s: SlsState): (r: SlsState)
    ensures r.routeList == s.routeList && r.incumbent == s.incumbent && r.bestIncumbent == s.bestIncumbent
    ensures r.shortTerm == s.shortTerm && r.longTerm == s.longTerm && r.iteration == s.iteration
    ensures r.sinceIncumbent == s.sinceIncumbent && r.restartThreshold == s.restartThreshold
    ensures r.lastFeasible > 0 <==> Feasible(capacity, s.routeList)
  {
    ListExcessZero(capacity, s.routeList);
    var streak := NextStreak(s.lastFeasible, ListExcess(capacity, s.routeList) == 0);
    s.(lnsSize := NextLnsSize(s.lnsSize, s.sinceIncumbent), cuCoef := NextCu(s.cuCoef, s.sinceIncumbent),
       lastFeasible := streak, ecCoef := NextEc(s.ecCoef, streak))
  }

  /** Everything after the move and the purge: the incumbent update, the
      schedules, the random optimisation and the restart. */
  function Tail(env: Env, s: SlsState, idx1: int, idx2: int, dr: Draws): (r: Result<SlsState>)
    requires |s.routeList.routes| > 0 ==> 0 <= dr.randomRoute < |s.routeList.routes|
  {
    match UpdateIncumbent(env, s, idx1, idx2, dr.polish)
    case Err(e) => Err(e)
    case Ok(s4) =>
      var s5 := Schedules(env.inst.capacity, s4);
      match RandomOptimize(env, s5.routeList, dr.random, dr.randomRoute)
      case Err(e) => Err(e)
      case Ok(rl) => Ok(Restart(env, s5.(routeList := rl)))
  }

  /** The routes optimised with a new incumbent: those of the move, or
      route 0 twice when there was none. */
  function FirstRoute(c: Choice): int { if c.Move? then c.ic.routeIdx1 else 0 }
  function SecondRoute(c: Choice): int { if c.Move? then c.ic.routeIdx2 else 0 }

  /** The start of an iteration: advance the counter, perform the chosen
      interchange and purge the expired tabu items. */
  function Advance(variant: Variant, env: Env, s: SlsState, dr: Draws): (r: Result<SlsState>)
    requires DrawsFit(env, s, dr)
    ensures r.Ok? ==> |r.value.routeList.routes| == |s.routeList.routes|
  {
    var c := Select(dr.found, dr.objectiveOf);
    SelectMovable(s.routeList, dr.found, dr.objectiveOf);
    match MoveStep(variant, env, s.(iteration := s.iteration + 1), c, dr.tenure)
    case Err(e) => Err(e)
    case Ok(s2) => Ok(s2.(shortTerm := Purge(s2.shortTerm, s2.iteration)))
  }

  /** One iteration of `search`. */
  function Iterate(variant: Variant, env: Env, s: SlsState, dr: Draws): (r: Result<SlsState>)
    requires DrawsFit(env, s, dr)
  {
    match Advance(variant, env, s, dr)
    case Err(e) => Err(e)
    case Ok(s3) =>
      var c := Select(dr.found, dr.objectiveOf);
      Tail(env, s3, FirstRoute(c), SecondRoute(c), dr)
  }

  // ---------------------------------------------------------------------
  // What the search keeps
  // ---------------------------------------------------------------------

  /** What holds of the search state between iterations: the current
      list and both incumbents hold exactly the customer visits `cs` with
      consistent demand caches, both incumbents respect the capacity, the coefficients and the neighbourhood size lie
      in their ranges, nothing in the short-term memory has expired and
      every long-term count is non-negative. */
  predicate Inv(inst: Instance, cs: multiset<int>, s: SlsState) {
    && Intact(inst.demandOf, cs, s.routeList) && Intact(inst.demandOf, cs, s.incumbent)
    && Intact(inst.demandOf, cs, s.bestIncumbent)
    && Feasible(inst.capacity, s.incumbent) && Feasible(inst.capacity, s.bestIncumbent)
    && EcMin <= s.ecCoef <= EcMax && CuMin <= s.cuCoef <= CuMax && LnsMin <= s.lnsSize <= LnsMax
    && s.lastFeasible != 0 && s.sinceIncumbent >= 0
    && BaseRestartThreshold <= s.restartThreshold <= MaxInt
    && (forall k :: 0 <= k < |s.shortTerm| ==> s.shortTerm[k].expiration >= s.iteration)
    && (forall x | x in s.longTerm :: s.longTerm[x] >= 0)
  }

  /** The state the constructor builds from the optimised initial
      solution: every customer counted zero times, the base coefficients. */
  function Initial(numCustomers: int, rl: RouteList): (s: SlsState) {
    SlsState(rl, CloneList(rl), CloneList(rl), Finite(rl.length), [],
             ZeroCounts(numCustomers), 0, EcBase, CuBase, 1, 0, LnsBase, BaseRestartThreshold)
  }

  /** `longTermMemory.put(i, 0)` for every customer `i`. */
  function ZeroCounts(n: int): (m: map<int, int>)
    ensures forall c :: 0 <= c < n ==> c in m && m[c] == 0
    ensures forall c | c in m :: 0 <= c < n && m[c] == 0
    decreases n
  {
    if n <= 0 then map[] else ZeroCounts(n - 1)[n - 1 := 0]
  }

  /** The constructor's state satisfies the invariant for the customers of
      a feasible initial solution with consistent demand caches. */
  lemma InitialInv(inst: Instance, numCustomers: int, rl: RouteList)
    requires Feasible(inst.capacity, rl) && DemandsConsistent(inst.demandOf, rl.routes)
    ensures Inv(inst, AllCustomers(rl.routes), Initial(numCustomers, rl))
    ensures forall c :: 0 <= c < numCustomers ==> Uses(Initial(numCustomers, rl).longTerm, c) == 0
  {
  }

  lemma AddUsesNonNegative(m: map<int, int>, moved: seq<int>)
    requires forall x | x in m :: m[x] >= 0
    ensures forall x | x in AddUses(m, moved) :: AddUses(m, moved)[x] >= 0
  {
    forall x | x in AddUses(m, moved) ensures AddUses(m, moved)[x] >= 0 {
      AddUsesCounts(m, moved, x);
    }
  }

  /** The steps after the purge keep the invariant and never lengthen the
      best incumbent. */
  lemma TailKeepsInv(env: Env, cs: multiset<int>, s: SlsState, idx1: int, idx2: int, dr: Draws)
    requires Inv(env.inst, cs, s)
    requires |s.routeList.routes| > 0 ==> 0 <= dr.randomRoute < |s.routeList.routes|
    requires Polisher(env.optimize) && KeepsCustomers(env.optimize)
    requires Feasible(env.inst.capacity, env.restartList) && Intact(env.inst.demandOf, cs, env.restartList)
    requires Tail(env, s, idx1, idx2, dr).Ok?
    ensures var r := Tail(env, s, idx1, idx2, dr).value;
      && Inv(env.inst, cs, r)
      && r.iteration == s.iteration
      && r.bestIncumbent.length <= s.bestIncumbent.length
  {
    var inst, dm := env.inst, env.inst.demandOf;
    UpdateIncumbentSpec(env, s, idx1, idx2, dr.polish);
    if s.routeList.length < s.incumbent.length && ListExcess(inst.capacity, s.routeList) == 0 {
      PolishPairKeepsIntact(dm, cs, env.optimize, s.routeList, idx1, idx2, dr.polish, OptimizationChance);
    }
    var s4 := UpdateIncumbent(env, s, idx1, idx2, dr.polish).value;
    assert Inv(inst, cs, s4);
    var s5 := Schedules(inst.capacity, s4);
    assert Inv(inst, cs, s5);
    if dr.random < RandomOptimizationChance && |s5.routeList.routes| > 0 {
      PolishKeepsIntact(dm, cs, env.optimize, s5.routeList, dr.randomRoute);
    }
    var rl := RandomOptimize(env, s5.routeList, dr.random, dr.randomRoute).value;
    assert Inv(inst, cs, s5.(routeList := rl));
  }

  /** The move and the purge keep the invariant of the state whose
      iteration counter has just been advanced. */
  lemma AdvanceKeepsInv(variant: Variant, env: Env, cs: multiset<int>, s: SlsState, dr: Draws)
    requires Inv(env.inst, cs, s) && DrawsFit(env, s, dr)
    requires Advance(variant, env, s, dr).Ok?
    ensures var s3 := Advance(variant, env, s, dr).value;
      && Inv(env.inst, cs, s3)
      && s3.iteration == s.iteration + 1 && s3.bestIncumbent == s.bestIncumbent
      && |s3.routeList.routes| == |s.routeList.routes|
  {
    var c := Select(dr.found, dr.objectiveOf);
    SelectMovable(s.routeList, dr.found, dr.objectiveOf);
    var s1 := s.(iteration := s.iteration + 1);
    if c.Move? {
      AddUsesNonNegative(s1.longTerm, MovedCustomers(s1.routeList, c.ic));
      PerformVariantKeepsIntact(variant, env.inst, cs, s1.routeList, c.ic);
    }
  }

  /** Every iteration that does not throw keeps the invariant, advances
      the iteration counter by one and never lengthens the best incumbent,
      which keeps respecting the capacity. */
  lemma IterateKeepsInv(variant: Variant, env: Env, cs: multiset<int>, s: SlsState, dr: Draws)
    requires Inv(env.inst, cs, s) && DrawsFit(env, s, dr)
    requires Polisher(env.optimize) && KeepsCustomers(env.optimize)
    requires Feasible(env.inst.capacity, env.restartList) && Intact(env.inst.demandOf, cs, env.restartList)
    requires Iterate(variant, env, s, dr).Ok?
    ensures var r := Iterate(variant, env, s, dr).value;
      && Inv(env.inst, cs, r)
      && r.iteration == s.iteration + 1
      && r.bestIncumbent.length <= s.bestIncumbent.length
  {
    AdvanceKeepsInv(variant, env, cs, s, dr);
    var s3 := Advance(variant, env, s, dr).value;
    var c := Select(dr.found, dr.objectiveOf);
    TailKeepsInv(env, cs, s3, FirstRoute(c), SecondRoute(c), dr);
  }

  /** As written, an iteration whose least objective belongs to the
      2-interchange throws in `perform`; the corrected one carries on. */
  lemma IterateAsWrittenThrows(env: Env, s: SlsState, dr: Draws)
    requires DrawsFit(env, s, dr) && env.minTenure <= env.maxTenure
    requires Select(dr.found, dr.objectiveOf).Move? && Select(dr.found, dr.objectiveOf).ic.Shape(2, 2)
    ensures Iterate(AsWritten, env, s, dr) == Err(IllegalArgument)
    ensures Advance(Corrected, env, s, dr).Ok?
  {
    var c := Select(dr.found, dr.objectiveOf);
    SelectMovable(s.routeList, dr.found, dr.objectiveOf);
    UpdateInterchangeAsWrittenThrows(env, s.(iteration := s.iteration + 1), c, dr.tenure);
  }
}

=== FILE: subsets.dfy ===
/** The k-subset enumeration behind the rounded-capacity cuts of
    `VRPInstance` and `VRPInstanceComplete` (both carry the same
    `getSubsets`/`getSubsetsHelper`), the loop over subset sizes, and the
    bin-packing approximation of the number of vehicles a subset needs. */
module Subsets {
  import opened Common

  // ---------------------------------------------------------------------
  // The reference enumeration
  // ---------------------------------------------------------------------

  /** `p` put in front of every list of `cs`. */
  function PrependAll(p: seq<int>, cs: seq<seq<int>>): (r: seq<seq<int>>)
    ensures |r| == |cs| && forall t :: 0 <= t < |cs| ==> r[t] == p + cs[t]
  {
    seq(|cs|, t requires 0 <= t < |cs| => p + cs[t])
  }

  /** Every choice of `k` positions of `s`, as the elements at those
      positions in their order in `s`: first those using `s[0]`, then the
      others. */
  function Combos(s: seq<int>, k: nat): seq<seq<int>>
    decreases |s|
  {
    if k == 0 then [[]]
    else if s == [] then []
    else PrependAll([s[0]], Combos(s[1..], k - 1)) + Combos(s[1..], k)
  }

  function Binom(n: nat, k: nat): nat {
    if k == 0 then 1 else if n == 0 then 0 else Binom(n - 1, k - 1) + Binom(n - 1, k)
  }

  /** `c` is `s` with some elements left out. */
  predicate Sub(c: seq<int>, s: seq<int>)
    decreases |s|
  {
    if c == [] then true
    else if s == [] then false
    else (c[0] == s[0] && Sub(c[1..], s[1..])) || Sub(c, s[1..])
  }

  predicate NoDup<T(==)>(xs: seq<T>) {
    forall a, b :: 0 <= a < b < |xs| ==> xs[a] != xs[b]
  }

  /** There are n-choose-k of them. */
  lemma {:induction false} CombosCount(s: seq<int>, k: nat)
    ensures |Combos(s, k)| == Binom(|s|, k)
    decreases |s|
  {
    if k != 0 && s != [] {
      CombosCount(s[1..], k - 1);
      CombosCount(s[1..], k);
    }
  }

  /** A list in front of a subset of the rest is in the first block. */
  lemma InPrependAll(x: int, cs: seq<seq<int>>, c: seq<int>)
    ensures c in PrependAll([x], cs) <==> c != [] && c[0] == x && c[1..] in cs
  {
    var front := PrependAll([x], cs);
    if c != [] && c[0] == x && c[1..] in cs {
      var t :| 0 <= t < |cs| && cs[t] == c[1..];
      assert front[t] == c;
    }
    if c in front {
      var t :| 0 <= t < |front| && front[t] == c;
      assert c[1..] == cs[t];
    }
  }

  /** They are exactly the subsequences of length `k`. */
  lemma {:induction false} CombosMembers(s: seq<int>, k: nat, c: seq<int>)
    ensures c in Combos(s, k) <==> |c| == k && Sub(c, s)
    decreases |s|
  {
    if k != 0 && s != [] {
      var rest := s[1..];
      var front := PrependAll([s[0]], Combos(rest, k - 1));
      var back := Combos(rest, k);
      assert c in Combos(s, k) <==> c in front || c in back by {
        assert Combos(s, k) == front + back;
      }
      assert c in back <==> |c| == k && Sub(c, rest) by {
        CombosMembers(rest, k, c);
      }
      assert c in front <==> c != [] && c[0] == s[0] && |c| == k && Sub(c[1..], rest) by {
        InPrependAll(s[0], Combos(rest, k - 1), c);
        if c != [] {
          CombosMembers(rest, k - 1, c[1..]);
        }
      }
      if c != [] {
        assert Sub(c, s) <==> (c[0] == s[0] && Sub(c[1..], rest)) || Sub(c, rest);
      }
    }
  }

  /** The first element of a non-empty subsequence occurs in `s`. */
  lemma {:induction false} SubHead(c: seq<int>, s: seq<int>)
    requires c != [] && Sub(c, s)
    ensures c[0] in s
    decreases |s|
  {
    if c[0] != s[0] {
      SubHead(c, s[1..]);
    }
  }

  /** Over distinct elements no subset is listed twice. */
  lemma {:induction false} CombosDistinct(s: seq<int>, k: nat)
    requires NoDup(s)
    ensures NoDup(Combos(s, k))
    decreases |s|
  {
    if k != 0 && s != [] {
      var rest := s[1..];
      assert NoDup(rest);
      CombosDistinct(rest, k - 1);
      CombosDistinct(rest, k);
      var front := PrependAll([s[0]], Combos(rest, k - 1));
      var back := Combos(rest, k);
      forall a, b | 0 <= a < b < |front + back| ensures (front + back)[a] != (front + back)[b] {
        if b < |front| {
          assert front[a][1..] == Combos(rest, k - 1)[a];
          assert front[b][1..] == Combos(rest, k - 1)[b];
        } else if a >= |front| {
          assert (front + back)[a] == back[a - |front|];
        } else {
          var c := (front + back)[b];
          assert c == back[b - |front|];
          CombosMembers(rest, k, c);
          SubHead(c, rest);
          assert s[0] !in rest;
        }
      }
    }
  }

  /** Asking for more elements than there are gives nothing. */
  lemma {:induction false} CombosTooMany(s: seq<int>, k: nat)
    requires k > |s|
    ensures Combos(s, k) == []
    decreases |s|
  {
    if s != [] {
      CombosTooMany(s[1..], k - 1);
      CombosTooMany(s[1..], k);
    }
  }

  // ---------------------------------------------------------------------
  // getSubsetsHelper
  // ---------------------------------------------------------------------

  /** `getSubsetsHelper` with `prefix` the first `index` slots of `subset`
      and `r = k - index` still to choose: when none is left the prefix is
      recorded, otherwise the loop from `start` runs. */
  function Helper(cs: seq<int>, prefix: seq<int>, start: int, r: nat): seq<seq<int>>
    requires 0 <= start <= |cs|
    decreases |cs| - start, 1
  {
    if r == 0 then [prefix] else HelperLoop(cs, prefix, start, r)
  }

  /** The loop: `i` runs while `i <= end` and enough customers remain to
      fill the subset (`end - i + 1 >= k - index`), with `end = |cs| - 1`. */
  function HelperLoop(cs: seq<int>, prefix: seq<int>, i: int, r: nat): seq<seq<int>>
    requires 0 <= i <= |cs| && r >= 1
    decreases |cs| - i, 0
  {
    var end := |cs| - 1;
    if !(i <= end && end - i + 1 >= r) then []
    else Helper(cs, prefix + [cs[i]], i + 1, r - 1) + HelperLoop(cs, prefix, i + 1, r)
  }

  lemma PrependConcat(p: seq<int>, a: seq<seq<int>>, b: seq<seq<int>>)
    ensures PrependAll(p, a + b) == PrependAll(p, a) + PrependAll(p, b)
  {
  }

  lemma PrependTwice(p: seq<int>, x: int, cs: seq<seq<int>>)
    ensures PrependAll(p, PrependAll([x], cs)) == PrependAll(p + [x], cs)
  {
    forall t | 0 <= t < |cs| ensures p + ([x] + cs[t]) == (p + [x]) + cs[t] {
      assert p + ([x] + cs[t]) == (p + [x]) + cs[t];
    }
  }

  /** The loop from `i` lists the reference subsets of the customers from
      `i` on, each behind the prefix. */
  lemma {:induction false} HelperLoopIsCombos(cs: seq<int>, prefix: seq<int>, i: int, r: nat)
    requires 0 <= i <= |cs| && r >= 1
    ensures HelperLoop(cs, prefix, i, r) == PrependAll(prefix, Combos(cs[i..], r))
    decreases |cs| - i
  {
    if |cs| - i < r {
      CombosTooMany(cs[i..], r);
    } else {
      var p := prefix + [cs[i]];
      var fewer, same := Combos(cs[i + 1..], r - 1), Combos(cs[i + 1..], r);
      assert Combos(cs[i..], r) == PrependAll([cs[i]], fewer) + same by {
        assert cs[i..][1..] == cs[i + 1..] && cs[i..][0] == cs[i];
      }
      assert Helper(cs, p, i + 1, r - 1) == PrependAll(p, fewer) by {
        if r == 1 {
          assert p + [] == p;
        } else {
          HelperLoopIsCombos(cs, p, i + 1, r - 1);
        }
      }
      assert HelperLoop(cs, prefix, i + 1, r) == PrependAll(prefix, same) by {
        HelperLoopIsCombos(cs, prefix, i + 1, r);
      }
      assert PrependAll(prefix, PrependAll([cs[i]], fewer) + same) == PrependAll(p, fewer) + PrependAll(prefix, same) by {
        PrependConcat(prefix, PrependAll([cs[i]], fewer), same);
        PrependTwice(prefix, cs[i], fewer);
      }
    }
  }

  /** `getSubsets`: `new int[size]` rejects a negative size. */
  function GetSubsets(cs: seq<int>, size: int): Option<seq<seq<int>>> {
    if size < 0 then None else Some(Helper(cs, [], 0, size))
  }

  /** `getSubsets` lists the reference subsets, in the reference order. */
  lemma GetSubsetsIsCombos(cs: seq<int>, size: nat)
    ensures GetSubsets(cs, size) == Some(Combos(cs, size))
  {
    if size > 0 {
      HelperLoopIsCombos(cs, [], 0, size);
    }
    assert cs[0..] == cs;
    assert forall t :: 0 <= t < |Combos(cs, size)| ==> [] + Combos(cs, size)[t] == Combos(cs, size)[t];
    assert PrependAll([], Combos(cs, size)) == Combos(cs, size);
  }

  /** `getSubsets` lists every `size`-element subsequence of the customers,
      in the reference order, n-choose-size of them, none twice when the
      customers are distinct. */
  lemma GetSubsetsSpec(cs: seq<int>, size: int)
    ensures GetSubsets(cs, size).None? <==> size < 0
    ensures size >= 0 ==>
      && GetSubsets(cs, size) == Some(Combos(cs, size))
      && |GetSubsets(cs, size).value| == Binom(|cs|, size)
      && (forall c :: c in GetSubsets(cs, size).value <==> |c| == size && Sub(c, cs))
      && (NoDup(cs) ==> NoDup(GetSubsets(cs, size).value))
  {
    if size >= 0 {
      GetSubsetsIsCombos(cs, size);
      CombosCount(cs, size);
      forall c ensures c in Combos(cs, size) <==> |c| == size && Sub(c, cs) {
        CombosMembers(cs, size, c);
      }
      if NoDup(cs) {
        CombosDistinct(cs, size);
      }
    }
  }

  /** Size 0 gives the one empty subset; a size above the number of
      customers gives none. */
  lemma GetSubsetsEdges(cs: seq<int>, size: int)
    ensures GetSubsets(cs, 0) == Some([[]])
    ensures size > |cs| ==> GetSubsets(cs, size) == Some([])
  {
    GetSubsetsSpec(cs, 0);
    if size > |cs| {
      GetSubsetsSpec(cs, size);
      CombosTooMany(cs, size);
    }
  }

  // ---------------------------------------------------------------------
  // The sizes the rounded-capacity cuts range over
  // ---------------------------------------------------------------------

  /** The subsets the loop `for k = minK .. maxK` visits, size by size;
      a negative first size fails at `new int[size]`. */
  function CutSubsets(cs: seq<int>, minK: int, maxK: int): Option<seq<seq<int>>> {
    if minK <= maxK && minK < 0 then None
    else if maxK < minK then Some([])
    else Some(Flatten(CutBlocks(cs, minK, maxK - minK + 1)))
  }

  /** The subsets of the sizes from `minK` on, one block per size. */
  function CutBlocks(cs: seq<int>, minK: int, n: nat): (bs: seq<seq<seq<int>>>)
    requires minK >= 0
    ensures |bs| == n && forall t :: 0 <= t < n ==> bs[t] == GetSubsets(cs, minK + t).value
  {
    seq(n, t requires 0 <= t && minK + t >= 0 => GetSubsets(cs, minK + t).value)
  }

  lemma InCutBlocks(cs: seq<int>, minK: int, n: nat, c: seq<int>)
    requires minK >= 0
    ensures c in Flatten(CutBlocks(cs, minK, n)) <==> minK <= |c| < minK + n && Sub(c, cs)
  {
    var blocks := CutBlocks(cs, minK, n);
    InFlatten(blocks, c);
    if c in Flatten(blocks) {
      var t :| 0 <= t < |blocks| && c in blocks[t];
      InBlock(cs, minK + t, c);
    }
    if minK <= |c| < minK + n && Sub(c, cs) {
      InBlock(cs, |c|, c);
      assert c in blocks[|c| - minK];
    }
  }

  /** The block of one size holds exactly the subsequences of that size. */
  lemma InBlock(cs: seq<int>, k: nat, c: seq<int>)
    ensures c in GetSubsets(cs, k).value <==> |c| == k && Sub(c, cs)
  {
    GetSubsetsIsCombos(cs, k);
    CombosMembers(cs, k, c);
  }

  /** The cuts cover exactly the subsequences with a size from `minK` to
      `maxK`. */
  lemma CutSubsetsSpec(cs: seq<int>, minK: int, maxK: int)
    ensures CutSubsets(cs, minK, maxK).None? <==> minK <= maxK && minK < 0
    ensures CutSubsets(cs, minK, maxK).Some? ==>
      forall c :: c in CutSubsets(cs, minK, maxK).value <==> minK <= |c| <= maxK && Sub(c, cs)
  {
    if !(minK <= maxK && minK < 0) {
      var n := if maxK < minK then 0 else maxK - minK + 1;
      if n == 0 {
        assert CutSubsets(cs, minK, maxK).value == [];
      } else {
        assert CutSubsets(cs, minK, maxK).value == Flatten(CutBlocks(cs, minK, n));
        forall c ensures c in Flatten(CutBlocks(cs, minK, n)) <==> minK <= |c| <= maxK && Sub(c, cs) {
          InCutBlocks(cs, minK, n, c);
        }
      }
    }
  }

  // ---------------------------------------------------------------------
  // The bin-packing approximation
  // ---------------------------------------------------------------------

  const IntMax := 2147483647
  const IntMin := -2147483648

  /** `(int) Math.ceil(q / capacity)` for whole `q`: dividing by zero gives
      an infinity or NaN, which the cast turns into the extreme `int` or 0. */
  function CeilDiv(q: int, capacity: int): (r: int)
    ensures capacity > 0 ==> (r - 1) * capacity < q <= r * capacity
    ensures capacity < 0 ==> r * capacity <= q < (r - 1) * capacity
    ensures capacity == 0 ==> r == (if q > 0 then IntMax else if q < 0 then IntMin else 0)
  {
    if capacity > 0 then
      var m := (-q) / capacity;
      assert -q == m * capacity + (-q) % capacity;
      -m
    else if capacity < 0 then
      var m := q / (-capacity);
      assert q == m * (-capacity) + q % (-capacity);
      -m
    else if q > 0 then IntMax
    else if q < 0 then IntMin
    else 0
  }

  /** The vehicles a subset needs at least: its total demand over the
      capacity, rounded up. `demand` maps a customer to its demand; in
      `VRPInstance` it reads `demandOfCustomer[customer - 1]`, in
      `VRPInstanceComplete` `demandOfCustomer[customer]`. */
  function MinVehiclesApprox(demand: int -> int, subset: seq<int>, capacity: int): (r: int)
    ensures capacity > 0 ==>
      r * capacity >= SumInt(subset, demand) && (r - 1) * capacity < SumInt(subset, demand)
  {
    CeilDiv(SumInt(subset, demand), capacity)
  }
}

=== FILE: walks.dfy ===
/** `getWalks`/`dfs` of `VRPInstance` and `VRPInstanceComplete` (the two are
    the same): a depth-first search over the edge matrix of a solution,
    from the depot, that records every circuit back to the depot. */
module Walks {
  import opened Common

  /** The edge matrix, `n` rows of `n` entries. */
  predicate Square(adj: seq<seq<int>>) {
    forall v :: 0 <= v < |adj| ==> |adj[v]| == |adj|
  }

  /** Every element is a node of the matrix. */
  predicate NodesIn(ns: set<int>, n: int) {
    forall v :: v in ns ==> 0 <= v < n
  }

  lemma {:induction false} NodesBound(ns: set<int>, n: nat)
    requires NodesIn(ns, n)
    ensures |ns| <= n
    decreases n
  {
    if n > 0 {
      NodesBound(ns - {n - 1}, n - 1);
    } else {
      assert forall v :: v !in ns;
      assert ns == {};
    }
  }

  lemma SubsetCard(a: set<int>, b: set<int>)
    requires a <= b
    ensures |a| <= |b|
  {
    assert b == a + (b - a);
  }

  /** Nodes of the matrix joined in order by entries equal to 1. */
  predicate Path(adj: seq<seq<int>>, w: seq<int>) {
    && Square(adj)
    && (forall t :: 0 <= t < |w| ==> 0 <= w[t] < |adj|)
    && (forall t :: 0 <= t < |w| - 1 ==> adj[w[t]][w[t + 1]] == 1)
  }

  /** A recorded circuit: the start, at least two more nodes, and an edge
      from the last one back to the start. */
  predicate Circuit(adj: seq<seq<int>>, start: int, w: seq<int>) {
    |w| >= 3 && w[0] == start && Path(adj, w) && adj[w[|w| - 1]][start] == 1
  }

  predicate Circuits(adj: seq<seq<int>>, start: int, ws: seq<seq<int>>) {
    forall k :: 0 <= k < |ws| ==> Circuit(adj, start, ws[k])
  }

  predicate NoDup(xs: seq<int>) {
    forall a, b :: 0 <= a < b < |xs| ==> xs[a] != xs[b]
  }

  /** The search state: `visited`, `currentCircuit`, `allCircuits`, `seen`,
      and the nodes `dfs` was called on, in order. */
  datatype State = State(visited: set<int>, circuit: seq<int>, all: seq<seq<int>>, seen: set<int>, entered: seq<int>)

  /** Every node entered is still on the stack or was marked seen. */
  predicate EnteredMarked(s: State) {
    NoDup(s.entered) && forall t :: 0 <= t < |s.entered| ==> s.entered[t] in s.seen || s.entered[t] in s.visited
  }

  /** What holds when `dfs` is called on `cur`. */
  predicate CallOk(adj: seq<seq<int>>, start: int, cur: int, s: State) {
    && Square(adj) && 0 <= cur < |adj| && NodesIn(s.seen, |adj|)
    && cur !in s.visited && cur !in s.entered && EnteredMarked(s)
    && (cur in s.seen || cur == start)
    && (s.circuit == [] ==> cur == start)
    && (s.circuit != [] ==> s.circuit[0] == start && Path(adj, s.circuit) && adj[s.circuit[|s.circuit| - 1]][cur] == 1)
    && Circuits(adj, start, s.all)
  }

  /** What holds in the neighbour loop of `dfs` on `cur`. */
  predicate LoopOk(adj: seq<seq<int>>, start: int, cur: int, s: State) {
    && Square(adj) && 0 <= cur < |adj| && NodesIn(s.seen, |adj|)
    && cur in s.visited && EnteredMarked(s)
    && s.circuit != [] && s.circuit[0] == start && s.circuit[|s.circuit| - 1] == cur && Path(adj, s.circuit)
    && Circuits(adj, start, s.all)
  }

  /** `dfs`: mark, push, scan the neighbours, unmark, pop. */
  function Dfs(adj: seq<seq<int>>, start: int, cur: int, s: State): (r: State)
    requires CallOk(adj, start, cur, s)
    ensures r.visited == s.visited && r.circuit == s.circuit
    ensures s.seen <= r.seen && NodesIn(r.seen, |adj|)
    ensures Circuits(adj, start, r.all) && NoDup(r.entered)
    ensures cur in s.seen ==> EnteredMarked(r)
    ensures |r.entered| > |s.entered| && r.entered[..|s.entered|] == s.entered && r.entered[|s.entered|] == cur
    decreases |adj| - |s.seen|, 1, 0
  {
    NodesBound(s.seen, |adj|);
    var s1 := Enter(s, cur);
    EnterLoopOk(adj, start, cur, s);
    var s2 := Neighbours(adj, start, cur, 0, s1);
    LeaveState(adj, start, cur, s, s2);
    Leave(s2, cur)
  }

  /** Marking `cur` visited and pushing it. */
  function Enter(s: State, cur: int): State {
    State(s.visited + {cur}, s.circuit + [cur], s.all, s.seen, s.entered + [cur])
  }

  /** Unmarking `cur` and popping it. */
  function Leave(s: State, cur: int): State
    requires s.circuit != []
  {
    State(s.visited - {cur}, s.circuit[..|s.circuit| - 1], s.all, s.seen, s.entered)
  }

  /** Entering a node sets up the neighbour loop's invariant. */
  lemma EnterLoopOk(adj: seq<seq<int>>, start: int, cur: int, s: State)
    requires CallOk(adj, start, cur, s)
    ensures LoopOk(adj, start, cur, Enter(s, cur))
  {
    var s1 := Enter(s, cur);
    assert NoDup(s1.entered);
  }

  /** Leaving a node after its neighbour loop restores the stack. */
  lemma LeaveState(adj: seq<seq<int>>, start: int, cur: int, s: State, s2: State)
    requires CallOk(adj, start, cur, s) && LoopOk(adj, start, cur, s2)
    requires s2.visited == s.visited + {cur} && s2.circuit == s.circuit + [cur] && s.seen <= s2.seen
    requires |s2.entered| >= |s.entered| + 1 && s2.entered[..|s.entered| + 1] == s.entered + [cur]
    ensures var r := Leave(s2, cur);
      && r.visited == s.visited && r.circuit == s.circuit && NoDup(r.entered)
      && (cur in s.seen ==> EnteredMarked(r))
      && |r.entered| > |s.entered| && r.entered[..|s.entered|] == s.entered && r.entered[|s.entered|] == cur
  {
    var r := Leave(s2, cur);
    assert r.circuit == s.circuit;
    assert r.entered[..|s.entered|] == s2.entered[..|s.entered| + 1][..|s.entered|];
    assert r.entered[|s.entered|] == s2.entered[..|s.entered| + 1][|s.entered|];
  }

  /** The loop over `neighbor` from `nb` on. */
  function Neighbours(adj: seq<seq<int>>, start: int, cur: int, nb: int, s: State): (r: State)
    requires LoopOk(adj, start, cur, s) && 0 <= nb
    ensures r.visited == s.visited && r.circuit == s.circuit
    ensures s.seen <= r.seen && LoopOk(adj, start, cur, r)
    ensures |r.entered| >= |s.entered| && r.entered[..|s.entered|] == s.entered
    decreases |adj| - |s.seen|, 0, |adj| - nb
  {
    NodesBound(s.seen, |adj|);
    if nb >= |adj[cur]| then s
    else if adj[cur][nb] == 1 && nb !in s.seen then
      if nb == start && |s.circuit| > 2 then
        RecordKeepsLoopOk(adj, start, cur, s);
        Neighbours(adj, start, cur, nb + 1, s.(all := s.all + [s.circuit]))
      else if nb !in s.visited then
        var s1 := s.(seen := s.seen + {nb});
        DescendCallOk(adj, start, cur, nb, s);
        var s2 := Dfs(adj, start, nb, s1);
        SubsetCard(s1.seen, s2.seen);
        var r := Neighbours(adj, start, cur, nb + 1, s2);
        assert r.entered[..|s.entered|] == s2.entered[..|s.entered|];
        r
      else Neighbours(adj, start, cur, nb + 1, s)
    else Neighbours(adj, start, cur, nb + 1, s)
  }

  /** Recording the current circuit, when the scan reaches the start,
      keeps the loop's invariant. */
  lemma RecordKeepsLoopOk(adj: seq<seq<int>>, start: int, cur: int, s: State)
    requires LoopOk(adj, start, cur, s) && |s.circuit| > 2 && 0 <= start < |adj[cur]| && adj[cur][start] == 1
    ensures LoopOk(adj, start, cur, s.(all := s.all + [s.circuit]))
  {
    assert Circuit(adj, start, s.circuit);
  }

  /** A neighbour not yet seen nor on the stack may be entered. */
  lemma DescendCallOk(adj: seq<seq<int>>, start: int, cur: int, nb: int, s: State)
    requires LoopOk(adj, start, cur, s) && 0 <= nb < |adj[cur]| && adj[cur][nb] == 1
    requires nb !in s.seen && nb !in s.visited
    ensures nb !in s.entered
    ensures CallOk(adj, start, nb, s.(seen := s.seen + {nb}))
  {
  }

  /** The whole search from node 0 over fresh state; an empty matrix fails
      at `visited[0]`. */
  function Search(adj: seq<seq<int>>): (r: Result<State>)
    requires Square(adj)
    ensures r.Err? <==> |adj| == 0
    ensures r.Ok? ==> r.value.visited == {} && r.value.circuit == []
    ensures r.Ok? ==> NoDup(r.value.entered) && |r.value.entered| >= 1 && r.value.entered[0] == 0
    ensures r.Ok? ==> Circuits(adj, 0, r.value.all)
  {
    if |adj| == 0 then Err(IndexOutOfBounds)
    else
      var s := Dfs(adj, 0, 0, State({}, [], [], {}, []));
      Ok(s)
  }

  /** `getWalks`: every recorded circuit with the depot appended. */
  function GetWalks(adj: seq<seq<int>>): (r: Result<seq<seq<int>>>)
    requires Square(adj)
  {
    match Search(adj)
    case Err(e) => Err(e)
    case Ok(s) => Ok(seq(|s.all|, k requires 0 <= k < |s.all| => s.all[k] + [0]))
  }

  /** Every walk starts and ends at the depot, has at least three nodes
      before the closing one, and follows only matrix entries equal to 1. */
  lemma GetWalksSpec(adj: seq<seq<int>>)
    requires Square(adj)
    ensures GetWalks(adj).Err? <==> |adj| == 0
    ensures GetWalks(adj).Ok? ==> forall k :: 0 <= k < |GetWalks(adj).value| ==>
      var w := GetWalks(adj).value[k];
      |w| >= 4 && w[0] == 0 && w[|w| - 1] == 0 && Path(adj, w)
  {
    if |adj| > 0 {
      var s := Search(adj).value;
      var ws := GetWalks(adj).value;
      forall k | 0 <= k < |ws| ensures |ws[k]| >= 4 && ws[k][0] == 0 && ws[k][|ws[k]| - 1] == 0 && Path(adj, ws[k]) {
        var c := s.all[k];
        assert Circuit(adj, 0, c);
        assert ws[k] == c + [0];
        forall t | 0 <= t < |ws[k]| - 1 ensures adj[ws[k][t]][ws[k][t + 1]] == 1 {
          if t < |c| - 1 {
            assert ws[k][t] == c[t] && ws[k][t + 1] == c[t + 1];
          }
        }
      }
    }
  }
}
